=== FILE: README.md ===
# OmniStream core, modelled in Dafny

OmniStream downloads media from video platforms, file hosts and arbitrary web pages into a
Google Drive folder, and can post videos queued in a Google Sheet to YouTube and Facebook. This project
models the logic that decides *what* happens, as pure Dafny functions and small methods:

- the dynamic filter pipeline: date-phrase resolution (`parse_date_input`), filter validation,
  the yt-dlp option builder and its match filter;
- the classifiers: the site detector's registry and URL classification, the engine router,
  and the yt-dlp engine's Shorts filter, format selection and bulk detection;
- the batch orchestration of the desktop worker (engine choice, the JDownloader fallback,
  organised folders, success counting, stopping) and of the smart batch downloader;
- the helpers: filename sanitising, Netscape cookie files written by the login script and read
  back by the smart batch downloader, the Playwright engine's filename and media-type rules;
- the scripted downloaders (simple downloader, Instagram profile and reel scripts, the batch
  file script) and the simple Drive uploader's folder lookup;
- the history store (the SQLite database as an in-memory table), the Sheets queue rows,
  the post manager's posting flow, the setup validator's scoring, metadata and the AI
  assistant's fallbacks.

Engines (yt-dlp, Playwright, JDownloader, Instaloader), Google Drive, Google Sheets, the
Gemini model, the file system and the clock are parameters of the model: each is an oracle
function or value, and `now` is passed in. Python exceptions that escape a function are an
`Outcome` (`Done(value)` or `Raised(reason)`); a dictionary key that may be absent is an
`Option`.

## Model

| member | source | states |
|---|---|---|
| FilterBuilder.ValidateFilters | dynamic_filter_builder.py:246-272 | fails only when resolving a date raises; otherwise `_warnings` is always set, a count above 500 becomes exactly 500 and the cap warning appears iff it was above 500, the raw date strings are swapped iff both resolve and the start resolves later, the durations are swapped iff both are non-zero and reversed, and every other field is left as it was |
| FilterBuilder.DateSwapIsChronological | dynamic_filter_builder.py:255-258 | comparing the resolved `YYYYMMDD` strings is comparing days: the swap happens exactly when the start day comes after the end day |
| FilterBuilder.ValidateIdempotent | dynamic_filter_builder.py:246-272 | a second pass with the same clock returns the same filters with an empty warning list |
| FilterBuilder.BuildMatchFilter | dynamic_filter_builder.py:136-141 | a predicate is returned iff one of the seven keys is truthy (any non-empty content type counts) |
| FilterBuilder.MatchFilter | dynamic_filter_builder.py:78-134 | the filter raises exactly when a check meets a null value it compares or lowers, and accepts exactly when duration, titles, views and shape all pass; a duration failure is reported first, then an excluded title, then the fixed inclusion message, then a view-count failure, and the shape rejection only when vertical clips are wanted and the item is not vertical |
| FilterBuilder.DurationCheckMessage | dynamic_filter_builder.py:82-89 | the duration step passes iff the duration is within the truthy bounds, and otherwise reports a "Duration …" message |
| FilterBuilder.TitleCheckMessage | dynamic_filter_builder.py:91-102 | the title step passes iff no excluded pattern occurs and, when required patterns are given, one of them does; an excluded hit is reported as such |
| FilterBuilder.ViewsCheckMessage | dynamic_filter_builder.py:104-112 | the views step raises exactly when a truthy bound is compared with a null view count, passes exactly when it does not raise and the count is within the truthy bounds, and otherwise reports a "View count " message |
| FilterBuilder.NullTitleRaises | dynamic_filter_builder.py:93 | a title present as null raises from `.lower()` once the duration checks pass |
| FilterBuilder.UnusedNullsHarmless | dynamic_filter_builder.py:82-130 | with no duration or view bounds and no Shorts or Reels wanted, the duration, view count and addresses, null or not, do not change the verdict |
| FilterBuilder.AnyLowered | dynamic_filter_builder.py:101 | some lower-cased pattern occurs in the lower-cased title iff some listed pattern does once lowered |
| FilterBuilder.ExclusionBeatsInclusion | dynamic_filter_builder.py:91-102 | a title hitting an excluded pattern is rejected as excluded even when it also hits a required one |
| FilterBuilder.TitleMatchIgnoresCase | dynamic_filter_builder.py:93-96 | a pattern occurring in the title as written is also a hit after both are lower-cased |
| FilterBuilder.AudioOnlyNeverShapeRejected | dynamic_filter_builder.py:114-131 | the "Audio Only" content type is never rejected for its dimensions |
| FilterBuilder.SelectFormat | dynamic_filter_builder.py:166-190 | audio (in content type or quality) wins over Shorts/Reels, which win over the quality table; an unknown quality gives `bestvideo+bestaudio/best` |
| FilterBuilder.FileSizeUnits | dynamic_filter_builder.py:201-211 | for a number below 2^53 of at most 4300 digits, `"<n>G"` converts to n·1073741824 bytes and `"<n>M"` to n·1048576; a number of more than 4300 digits raises with either unit |
| FilterBuilder.SizeLimit | dynamic_filter_builder.py:201-211 | `max_filesize` is set iff the filter is truthy, to the converted byte count, and the call raises iff that conversion does |
| FilterBuilder.PlaylistEnd | dynamic_filter_builder.py:213-216 | `playlistend` is set iff the count is truthy, and is then the smaller of the count and 500 |
| FilterBuilder.Archive | dynamic_filter_builder.py:224-226 | the download archive under the base path is set unless `skip_existing` is explicitly false |
| FilterBuilder.BuildYtdlpOptions | dynamic_filter_builder.py:144-233 | raises iff a date or the size conversion raises; otherwise the template lies under the base path and format, audio extraction, date bounds, size limit, playlist end, subtitles, archive and match filter each agree with their own rule |
| DateInput.ParseDateInput | dynamic_filter_builder.py:14-65 | a missing or empty input gives None; every resolved value is the compact rendering of a real date; a relative phrase resolves to the date exactly that many days before `now` and raises only when that would fall before 0001-01-01 |
| DateInput.DigitRun | dynamic_filter_builder.py:45 | the digit run `\d+` matches greedily: all digits, and the next character is not one |
| DateInput.FindLastDays | dynamic_filter_builder.py:45 | `re.search` finds the leftmost position where `last <digits> day` occurs, and none when it occurs nowhere |
| DateInput.LastDaysGroup | dynamic_filter_builder.py:44-47 | a non-empty digit group is captured iff the pattern occurs somewhere in the phrase |
| DateInput.LastDaysRule | dynamic_filter_builder.py:44-47 | a phrase naming no keyword whose `last <digits> day` group has at most 4300 digits resolves to that many days back; a longer group raises from `int()` |
| DateInput.LastFiveDaysExample | dynamic_filter_builder.py:44-47 | "Show last 5 days" resolves to five days back |
| Text.ParseInt | dynamic_filter_builder.py:47 | `int()` of a text reads exactly the stripped numerals, optionally signed, with single underscores between digits and at most 4300 digits; a negative result needs a '-' sign |
| Text.ParseDigits | dynamic_filter_builder.py:47 | a digit string of at most 4300 digits reads as its value, and a longer one is refused |
| Text.IntRoundTrip | main.py:933-935 | an integer of at most 4300 digits, written out, reads back as itself |
| Text.UnderscoreIgnored | main.py:933-935 | a single underscore between two numerals does not change the value read |
| Text.UnderscoreExample | main.py:933-935 | "1_000" reads as 1000 |
| Text.DoubledUnderscoreRefused | main.py:933-935 | "1__0" is refused |
| Text.TrailingUnderscoreRefused | main.py:933-935 | "1_" is refused |
| DateInput.DaysBack | dynamic_filter_builder.py:32-48 | subtracting k days succeeds iff the result is not before 0001-01-01, and then renders the day whose ordinal is k less |
| DateInput.FirstLayout | dynamic_filter_builder.py:50-63 | the date comes from the first layout `strptime` accepts, and there is none iff no layout accepts the text |
| DateInput.NumericTextIsNoPhrase | dynamic_filter_builder.py:28-48 | text of digits and separators is neither a relative phrase nor a "last N days" phrase |
| DateInput.ParseFallsToLayouts | dynamic_filter_builder.py:50-65 | text that is no phrase resolves by the first accepting layout, or to None when none accepts |
| DateInput.ParseKeyword | dynamic_filter_builder.py:28-42 | the relative phrases (today 0, yesterday 1, this week / last 7 days 7, this month / last 30 days 30, last week 14, last month 60) resolve to `now` minus their day count |
| DateInput.CompactLayoutReads | dynamic_filter_builder.py:50-63 | a compact `YYYYMMDD` rendering is rejected by the three separator layouts and read back by the compact one |
| DateInput.ParseDateIdempotent | dynamic_filter_builder.py:32-63 | a resolved value re-parses to itself |
| DateInput.UsLayoutWins | dynamic_filter_builder.py:57-61 | `mm/dd/yyyy` text of a real date resolves month first |
| DateInput.DayFirstFallback | dynamic_filter_builder.py:57-63 | `dd/mm/yyyy` text with a day of 13 or more fails the US layout and resolves day first |
| DateInput.UsExample | dynamic_filter_builder.py:57-61 | "01/02/2024" resolves to "20240102" |
| DateInput.DayFirstExample | dynamic_filter_builder.py:57-63 | "13/02/2024" resolves to "20240213" |
| DateInput.LastWeekSameMonth | dynamic_filter_builder.py:39-40 | "last week" after the 14th of a month is fourteen days earlier in the same month |
| DateInput.LastWeekExample | dynamic_filter_builder.py:39-40 | "last week" on 2025-01-15 resolves to "20250101" |
| Dates.SubtractDays | dynamic_filter_builder.py:34-48 | `d - timedelta(days=k)` is the valid date whose ordinal is exactly k less, whenever that is not before 0001-01-01 |
| Dates.OrdinalOrder | dynamic_filter_builder.py:32-48 | the day ordinal orders dates chronologically, so subtracting more days gives an earlier date |
| Dates.FixedValue | dynamic_filter_builder.py:53 | a zero-padded numeral reads back as the number it renders |
| Dates.FixedOrder | dynamic_filter_builder.py:258 | on zero-padded numerals of one width, string order is numeric order |
| Dates.FormatYmd | dynamic_filter_builder.py:53 | `strftime('%Y%m%d')` of a date is eight digits |
| Dates.FormatYmdOrder | dynamic_filter_builder.py:258 | comparing two `%Y%m%d` renderings as strings compares the dates |
| Dates.FormatYmdInjective | dynamic_filter_builder.py:53 | distinct dates render differently |
| Dates.Strptime | dynamic_filter_builder.py:52 | whatever `strptime` accepts is a real calendar date |
| Dates.StrptimeCompact | dynamic_filter_builder.py:58-61 | the `%Y%m%d` layout reads back every rendering `strftime('%Y%m%d')` writes |
| Dates.StrptimeUs | dynamic_filter_builder.py:58-61 | `%m/%d/%Y` reads zero-padded month/day/year text as that date |
| Dates.StrptimeDayFirst | dynamic_filter_builder.py:58-61 | `%d/%m/%Y` reads zero-padded day/month/year text as that date |
| Dates.UsRejectsNonMonth | dynamic_filter_builder.py:58-63 | `%m/%d/%Y` rejects text whose first field is 13 or more, so the day-first layout is tried next |
| Dates.YearFirstNeedsFourDigits | dynamic_filter_builder.py:52-58 | a layout starting with `%Y` rejects text that does not start with four digits |
| Sites.RegistryShape | site_detector.py:15-181 | the registry has fifteen entries, generic last; every entry offers some content type and some quality; generic has no aliases and all four support flags false |
| Sites.Lookup | site_detector.py:216 | `SITE_PATTERNS.get(key)` finds the entry stored under the key, and nothing iff no entry has that key |
| Sites.GetSiteInfo | site_detector.py:213-227 | the result carries the key asked for and the eight fields of its entry, of the generic entry when the key is unknown |
| Sites.FirstMatch | site_detector.py:202-208 | the scan returns the first non-generic entry with an alias in the host or the lowered address, and none iff no entry matches |
| Sites.AnyAliasHit | site_detector.py:206-208 | the alias loop succeeds iff some alias occurs in the host or the lowered address |
| Sites.DetectSite | site_detector.py:184-211 | an empty address is generic; otherwise the result is the info of the first matching entry, generic iff none matches, and the only failure is the ValueError `urlparse` raises for a lone IPv6 bracket or a bracketed host that is no IPv6 or IPvFuture address |
| Urls.Netloc | site_detector.py:198 | `urlparse(...).netloc` is the text after a leading "//" up to the first '/', '?' or '#', free of tabs and line breaks; it raises exactly when the bracket checks refuse it, and otherwise keeps '[' and ']' paired |
| Urls.NetlocError | site_detector.py:198 | only one of '[' and ']' is an invalid IPv6 address, neither passes, and both defer to the bracketed-host check |
| Urls.BracketedHostError | site_detector.py:198 | a bracketed host passes exactly when it is an IPvFuture literal (when it starts with 'v') or an IPv6 address that is no IPv4 address |
| Urls.NetlocOfComposed | site_detector.py:198 | the network location of `scheme://host` and a path, query or fragment is the host, for every host without brackets, delimiters, controls or spaces |
| Urls.BracketedNetlocOfComposed | site_detector.py:198 | the network location of `scheme://[host]` and a tail is "[host]" when the host passes the bracket check, and the parse raises when it does not |
| Urls.FullFormAccepted | site_detector.py:198 | eight hextets between colons pass the bracket check |
| Urls.CompressedFormAccepted | site_detector.py:198 | "::" and hextets between colons pass exactly when there are at most seven hextets |
| Urls.NoColonRefused | site_detector.py:198 | a bracketed host without ':' that does not start with 'v' is refused, names and IPv4 addresses alike |
| Urls.FutureExample | site_detector.py:198 | "v1.x" is an accepted IPvFuture literal |
| Urls.LoopbackExample | site_detector.py:198 | `http://[::1]/` has the network location "[::1]" |
| Urls.NotAnAddressExample | site_detector.py:198 | `http://[abc]/` raises |
| Urls.Path | playwright_engine.py:180-181 | `urlparse(url).path` raises exactly when the network location does, and never holds '?' or '#' |
| Urls.PathOfComposed | playwright_engine.py:180-181 | the path of `scheme://host` followed by a path without query, fragment or parameters is that path |
| Urls.Scheme | playwright_engine.py:180 | the scheme `urlsplit` finds is empty or a lower-case scheme name |
| Urls.DropParams | playwright_engine.py:180 | dropping the last segment's parameters keeps a prefix of the path |
| Urls.DropParamsKeeps | playwright_engine.py:180 | a path without ';' keeps all of itself |
| Urls.Basename | playwright_engine.py:181 | `os.path.basename` gives a final piece of the path with no '/' in it |
| Sites.RedditResolvesToTwitter | site_detector.py:202-208 | an address naming reddit.com that the three entries before Twitter/X miss resolves to Twitter/X, since "t.co" occurs inside "reddit.com" |
| Sites.FirstMatchIsLeast | site_detector.py:202-208 | the scan stops at the least matching entry |
| Sites.IsBulkUrl | site_detector.py:230-236 | an address is bulk iff one of the eight markers occurs in it, ignoring case |
| Sites.GetUrlType | site_detector.py:239-250 | playlist (including `list=`) before channel before album, single otherwise |
| Sites.ChannelIsBulk | site_detector.py:232-245 | every channel address is also a bulk address |
| Sites.ClassifiersIgnoreCase | site_detector.py:230-250 | an address and its lower-cased form classify the same |
| Router.ChooseEngine | engine_router.py:23-46 | yt-dlp iff a video platform occurs in the lowered address; JDownloader iff none does and a file host does; Playwright otherwise |
| Router.RoutingIgnoresCase | engine_router.py:33 | an address and its lower-cased form go to the same engine |
| Router.VideoPlatformBeatsFileHost | engine_router.py:35-43 | a video platform wins even when a file host also occurs |
| Router.YouTubeExample | test_setup.py:117-119 | a YouTube watch address goes to yt-dlp |
| YtDlpEngine.IsShort | ytdlp_engine.py:30-51 | the check raises exactly when a null address is searched for `/shorts/` or a null dimension compared; the item is kept iff an address says `/shorts/` or both dimensions are non-zero and it is taller than wide; otherwise the fixed skip message |
| YtDlpEngine.SameNullAddresses | ytdlp_engine.py:30-51 | when vertical clips are wanted, the match filter's shape step raises on exactly the items the Shorts check raises on |
| YtDlpEngine.ShortImpliesVertical | ytdlp_engine.py:40-48 | whatever the engine's Shorts filter keeps, the filter builder's shape check also accepts |
| YtDlpEngine.GetFormatString | ytdlp_engine.py:144-156 | the audio mode always gives `bestaudio/best`; an unknown quality gives the `best` selector |
| YtDlpEngine.IsBulkOperation | ytdlp_engine.py:158-161 | bulk iff one of the five markers occurs, ignoring case |
| YtDlpEngine.BulkOperationIsBulkUrl | ytdlp_engine.py:158-161 | the engine's five markers are among the detector's eight, so a bulk operation is a bulk address |
| YtDlpEngine.Options | ytdlp_engine.py:99-125 | Shorts mode attaches the filter and the vertical selector, video and auto use the format table, audio adds the mp3 extraction, any other mode sets no format; a delay is inserted iff the address is a bulk operation |
| YtDlpEngine.AudioEitherWay | ytdlp_engine.py:109-154 | audio, asked for by mode or by quality, selects `bestaudio/best` |
| YtDlpEngine.DownloadResult | ytdlp_engine.py:127-142 | success iff an info dictionary came back, reporting its title (or "Unknown"); an exception gives "Download failed: …" |
| Worker.ChooseFor | main.py:900-908 | "Auto-Detect" defers to the router, the two Force options pin their engine, anything else is Playwright |
| Worker.NamedPlatformCases | main.py:992-1003 | the folder is YouTube iff a YouTube name occurs, FileHosts iff none of the earlier names does and a file host does, and none of the named platforms iff no listed name occurs |
| Worker.PlatformFolder | main.py:992-1006 | a named platform is its own folder and never raises; otherwise the folder is `Generic_Sites/` plus the network location without "www.", and it raises exactly when parsing the address does |
| Worker.CreateOrganizedFolder | main.py:989-1012 | the folder is the platform folder joined to the base path, so it lies under the base path and ends with the platform folder; it is returned exactly when the platform folder is found and `os.makedirs` creates it, a parse failure of the address is passed on as it is, and a `makedirs` error escapes too |
| Worker.NamedPlatformsNeverRaise | main.py:989-1009 | a YouTube or file-host address never reaches the address parser, so its folder name never fails and creating the folder fails exactly when `os.makedirs` does |
| Worker.FileHostFolderMatchesRouter | main.py:1002-1003 | an address the router sends to JDownloader is filed under FileHosts unless it also names Instagram, matching the router's file-host list (engine_router.py:41-43) |
| Worker.GetQualityMapping | main.py:1014-1023 | the result is always one of the five engine qualities; 1080p, 720p and 480p map to themselves, "Best Available" and every unknown label to "best", and "audio" comes exactly from "Audio Only" |
| Worker.ModeFor | main.py:939-946 | "Shorts Only" in the label wins, then "Audio Only", otherwise plain video |
| Worker.MaxField | main.py:930-937 | a blank field gives no limit, and a limit is the integer `int()` reads from the stripped text, underscores between digits and the 4300-digit limit included |
| Worker.MaxFieldReadsNumbers | main.py:933-935 | a number of at most 4300 digits typed with blanks around it reads back as that number |
| Worker.Judge | main.py:964-973 | an engine counts as successful only when it returned true; an exception is a failure whose message carries the error |
| Worker.Dispatch | main.py:920-962 | yt-dlp gets the mapped quality, mode and limit; JDownloader is created once and reused, and when it is not connected the address falls back to Playwright once; Playwright otherwise |
| Worker.ProcessUrl | main.py:900-973 | the folder is made outside the exception handler, so only a folder failure escapes; the result names the address and the chosen engine and succeeds exactly when the engine returned true |
| Worker.CountOkExtremes | main.py:964-969 | the success count is full iff every result succeeded, and zero iff none did |
| Worker.RunFrom | main.py:888-978 | the loop reads the stop flag before each address; successes plus failures equal the results; a stop or an escaping error ends it early, and otherwise every address is handled |
| Worker.DownloadWorker | main.py:879-987 | successes plus failures equal the addresses handled, the success counter counts exactly the successful results, and an unstopped run without errors handles every address |
| Worker.ProcessUrlHonest | main.py:900-973 | one address reports on itself and fails only with its folder error |
| Worker.ResultsFollowAddresses | main.py:888-978 | each result is its step's result on the address at its position, and an abort is the next address's error |
| Worker.SuccessCountsOk | main.py:964-969 | the success counter counts exactly the successful results |
| Worker.StopKeepsPrefix | main.py:889-891 | stopping does not undo work: the results are a prefix of those of a run nobody stops |
| Worker.NoAbortWithoutErrors | main.py:888-978 | a run nobody stops, over steps that never raise, handles every address |
| Worker.UnstoppedHandlesAll | main.py:888-1010 | without a stop, and with every folder created, every address is handled |
| Worker.JDownloaderFolderFixed | main.py:951-955 | the JDownloader engine is created once, so all JDownloader downloads of a run go to one folder |
| Worker.WorkerJDownloaderFolderFixed | main.py:951-955 | the worker's JDownloader downloads all go to one folder |
| Worker.WorkerResultsReport | main.py:888-973 | every result of a run reports on the address at its position: that address, its engine, and success exactly when the engine returned true |
| Worker.YtDlpNeverSucceedsAsWritten | main.py:922-948 | as written, the yt-dlp call raises TypeError, so no address handed to yt-dlp succeeds |
| Worker.YtDlpSucceedsWhenExtracted | main.py:922-948 | called with the engine's own signature, an address handed to yt-dlp succeeds exactly when its information was extracted |
| Utils.SanitizeFilename | utils.py:80-85 | the result is the name cut to 255 characters: its length is the smaller of the two |
| Utils.ReplaceEachIsPointwise | utils.py:82-84 | replacing the refused characters one after another is one pointwise pass that turns each refused character into '_' |
| Utils.SanitizeIsClean | utils.py:80-85 | each character of the result is the name's character, cleaned |
| Utils.SanitizeRemovesInvalid | utils.py:80-85 | no refused character survives |
| Utils.SanitizeKeepsShortNames | utils.py:80-85 | a name of at most 255 characters keeps its length and every allowed character |
| Utils.SanitizeIdempotent | utils.py:80-85 | sanitising twice is sanitising once |
| PlaywrightEngine.SanitizeFilename | playwright_engine.py:274-279 | the engine's own replacement loop computes exactly the shared sanitiser, so no refused character survives and the name has at most 255 characters |
| PlaywrightEngine.StripQuotes | playwright_engine.py:177 | `strip('"\'')` leaves no quote at either end |
| PlaywrightEngine.StripQuotesOfQuoted | playwright_engine.py:177 | stripping the quotes around an unquoted name gives the name back |
| PlaywrightEngine.GuessExtension | playwright_engine.py:208-222 | ".bin" iff no key of the table occurs in the lowered address; otherwise the first key in table order, with a dot |
| PlaywrightEngine.UrlBasename | playwright_engine.py:180-185 | the base name of the address's path (with the last segment's `;` parameters dropped for every scheme `urlparse` splits them from, rtsps included), cut at '?', holds neither '/' nor '?', and raises exactly when `urlparse` does: a lone IPv6 bracket or a bracketed host that is no IPv6 or IPvFuture address |
| PlaywrightEngine.PathBasename | playwright_engine.py:181-185 | the base name of a path, cut at '?', holds neither '/' nor '?' |
| PlaywrightEngine.ExtractFilename | playwright_engine.py:171-193 | a header with `filename=` names the file (unquoted, without the key); otherwise the address's base name when it has three or more characters, else the stamped fallback name with the guessed extension |
| PlaywrightEngine.ExtractFromHeader | playwright_engine.py:174-177 | a header `…filename="<n>"` names the file n |
| PlaywrightEngine.HeaderNames | playwright_engine.py:174-177 | a header holding `filename=` names the file by the quote-stripped text after its first occurrence |
| PlaywrightEngine.ExtractFromAddress | playwright_engine.py:179-193 | an address whose path ends in a plain name of three or more characters is named by it |
| PlaywrightEngine.BasenameOfPath | playwright_engine.py:179-193 | without a header, the file is named by the last path segment when that is long enough and has no '?' |
| PlaywrightEngine.DetectMediaType | playwright_engine.py:195-206 | video, audio, document, image, file, each iff its evidence is present and no earlier kind's is |
| PlaywrightEngine.Mp4AddressAgrees | playwright_engine.py:195-222 | a lower-case ".mp4" address is a video and its guessed extension is ".mp4", whatever the content type |
| PlaywrightEngine.HandleResponse | playwright_engine.py:94-122 | a media response with status 200 appends one entry carrying its address, detected type and size, and nothing else changes; any other response leaves the list as it was |
| PlaywrightEngine.OnlyOkRecorded | playwright_engine.py:111 | a response whose status is not 200 never adds a file |
| PlaywrightEngine.ScanDom | playwright_engine.py:124-169 | the scan only appends, at most one entry per candidate, keeping what was there |
| PlaywrightEngine.JoinErrorEndsScan | playwright_engine.py:131-169 | a `urljoin` that raises ends the scan with the list found so far |
| PlaywrightEngine.ScanKeepsDistinct | playwright_engine.py:133-161 | an address already listed is never added again, so a duplicate-free list stays duplicate-free |
| PlaywrightEngine.ScanAppendsCandidates | playwright_engine.py:128-167 | every appended entry comes from a candidate, with its joined address and its element's type |
| PlaywrightEngine.SaveName | playwright_engine.py:226-231 | the name saved under is the sanitised given name, or the sanitised extracted one, free of refused characters and at most 255 long |
| PlaywrightEngine.DownloadFile | playwright_engine.py:224-272 | a saved file was fetched and carries the sanitised name; with a name given, success is exactly the transfer's; once the Drive client is built, `upload_file` is called with the path, then the file name in the folder-id slot, and the local copy is removed; without the client the copy stays |
| PlaywrightEngine.IntendedDownloadFile | playwright_engine.py:248-260 | as intended: the same saving, with `upload_file` called as its signature orders (path, folder id, name) |
| PlaywrightEngine.LocalCopyRemovedAsWritten | playwright_engine.py:256-260 | as written, a fetched file is removed locally even when every upload returns None, and the upload is asked for a folder named after the file |
| PlaywrightEngine.IntendedKeepsUnuploaded | playwright_engine.py:256-260 | as intended, the local copy stays exactly when the file was saved and no upload returned a file, and the upload targets the fixed folder |
| PlaywrightEngine.VersionsAgreeOnSaving | playwright_engine.py:224-272 | both versions save the same files under the same names; the intended one keeps a copy the written one removes exactly when the client is built and the upload returned None |
| PlaywrightEngine.UploadDoesNotDecide | playwright_engine.py:248-268 | the Drive block changes neither success nor the name |
| PlaywrightEngine.CountSaved | playwright_engine.py:74-78 | the count is full iff every file was saved, and zero iff none was |
| PlaywrightEngine.Download | playwright_engine.py:27-92 | success iff the page loaded and produced at least one media file, with the "Downloaded k/n" message; timeout, other errors and an empty page each give their own message |
| PlaywrightEngine.SuccessDespiteFailedSaves | playwright_engine.py:72-80 | when every transfer fails the call still reports success, with zero saved |
| Cookies.FieldsMeaning | login_twitter.py:10-21 | the seven columns are domain, subdomain flag (TRUE iff the domain starts with '.'), path, secure flag (TRUE iff secure), expiry (0 when absent, read back by `int()` when it has at most 4300 digits), name and value |
| Cookies.Lines | login_twitter.py:8-21 | the header line followed by one line per cookie, in order |
| Cookies.Serialize | login_twitter.py:5-23 | the written text starts with the Netscape header; for storable cookies it holds no carriage return and splits at line feeds into exactly the header and one line per cookie |
| Cookies.JoinedLines | login_twitter.py:8-23 | joining the header and the cookie lines with line feeds gives text that starts with the header and, for storable cookies, splits back into those lines |
| Cookies.ParseLine | smart_batch.py:113-124 | a comment, blank or short line loads nothing; a line that raises has a non-empty expiry column `int()` rejects (a non-numeral, or more than 4300 digits); a loaded cookie reads its fields from the tab-separated columns |
| Cookies.ParseLines | smart_batch.py:111-124 | the loaded cookies come in file order, at most one per line, and an exception comes from some line |
| Cookies.ParseLinesMeaning | smart_batch.py:111-124 | the reader raises exactly when some line does; otherwise every cookie it holds is the one some line loads, and every line that loads a cookie contributes it |
| Cookies.ParseFile | smart_batch.py:108-124 | reading a cookies.txt text, with lines ended by "\n", "\r\n" or "\r", raises exactly when some line has seven columns and an expiry `int()` refuses; otherwise every cookie comes from a line and every loading line gives its cookie |
| Cookies.UniversalNewlines | smart_batch.py:112 | reading in text mode leaves no carriage return |
| Cookies.NoCarriageReturnKept | smart_batch.py:112 | text without a carriage return is read as it is |
| Cookies.LineSplits | smart_batch.py:115 | a line the login script writes (login_twitter.py:19-21) splits back into its seven fields |
| Cookies.LineIsBare | smart_batch.py:114 | a cookie line the login script writes (login_twitter.py:19-21) is not a comment, not blank, and has nothing to strip |
| Cookies.LineRoundTrip | smart_batch.py:114-124 | reading one line the login script writes (login_twitter.py:10-21) gives the cookie back, with an absent expiry as 0 |
| Cookies.SecureFlagReads | smart_batch.py:120 | the secure flag the login script writes (login_twitter.py:14) reads back as the cookie's |
| Cookies.LinesRoundTrip | smart_batch.py:113-124 | the reader loads every cookie line the login script writes (login_twitter.py:10-21), in order |
| Cookies.WrittenLineColumns | login_twitter.py:19-21 | each written cookie line has exactly seven columns |
| Cookies.SerializedIsPlain | login_twitter.py:23 | the written text has no carriage return, so reading it in text mode changes nothing |
| Cookies.RoundTrip | smart_batch.py:108-124 | reading back the file the login script writes (login_twitter.py:5-23) loads exactly the cookies it was given |
| Cookies.HeaderSkipped | smart_batch.py:114 | the header line is a comment the reader skips |
| SmartBatch.TargetHandle | smart_batch.py:78-95 | a handle is found exactly for addresses naming x.com/, twitter.com/, tiktok.com/@ or instagram.com/; it never holds '/', and a TikTok handle never holds '@' |
| SmartBatch.XProfileHandle | smart_batch.py:80-83 | the handle of `https://x.com/<user>` is `<user>` |
| SmartBatch.AroundMarker | smart_batch.py:194-199 | the user and id segments are found only when the marker is a segment followed by another, and the id never holds '?' |
| SmartBatch.NormalizeStatus | smart_batch.py:192-205 | a kept X link is rebuilt on https://x.com/ from a link with a status segment, and under an active handle its user is the handle, ignoring case |
| SmartBatch.NormalizeVideo | smart_batch.py:206-220 | a kept TikTok link is rebuilt on https://www.tiktok.com/ from a link with a video segment, and under an active handle its user holds the handle without '@', ignoring case |
| SmartBatch.Normalize | smart_batch.py:185-221 | Shorts links lose their query, watch links everything from the first '&', status and TikTok video links are rebuilt or filtered, and every other link is dropped, in that order of precedence |
| SmartBatch.ShortsNormalizeIdempotent | smart_batch.py:188-189 | cleaning an already cleaned Shorts link changes nothing |
| SmartBatch.WatchNormalizeIdempotent | smart_batch.py:190-191 | cleaning an already cleaned watch link changes nothing |
| SmartBatch.Collect | smart_batch.py:185-224 | one round only appends to the list, adding at most one address per link |
| SmartBatch.CollectKeepsDistinct | smart_batch.py:222-224 | a duplicate-free list stays duplicate-free, and every added address is a non-empty normalisation of one of the round's links |
| SmartBatch.OtherUserDropped | smart_batch.py:201-203 | while a handle is set, a status link of another user never enters the list |
| SmartBatch.ScrollLoop | smart_batch.py:144-233 | the loop ends with at least `max_videos` addresses or after 15 rounds in a row without growth, and only ever appends |
| SmartBatch.ScrollKeepsDistinct | smart_batch.py:150-233 | the scroll loop keeps the list duplicate-free |
| SmartBatch.ScrollAddsLinks | smart_batch.py:150-233 | every address the loop adds is a non-empty normalisation of a link of one of the rounds it read |
| SmartBatch.ExtractBrowser | smart_batch.py:70-242 | without Playwright or after an exception the result is empty; otherwise it is duplicate-free and at most `max_videos` long |
| SmartBatch.CountSucceeded | smart_batch.py:282-315 | the reference count of addresses that end successful is at most the number of addresses |
| SmartBatch.DownloadLoop | smart_batch.py:279-315 | each address adds one to exactly one counter, and the successful counter equals the reference count of downloads that succeeded directly or through the browser fallback |
| SmartBatch.RunScript | smart_batch.py:244-318 | without a channel argument the exit code is 1; a count argument `int()` refuses raises before any extraction; otherwise the code is 1 exactly when neither extractor found anything for the count, and 0 otherwise whatever failed, with the fast extraction's list when it is non-empty, else the browser's, each of its addresses counted once |
| SmartBatch.MaxVideos | smart_batch.py:250 | the count is 40 without a second argument, and otherwise what `int()` reads from it |
| SmartBatch.CountArgumentRead | smart_batch.py:250-256 | a count typed as digits is read as that number, and the fast extraction's list for it is downloaded |
| SmartBatch.NoFallbackWithoutPlaywright | smart_batch.py:288-315 | without Playwright the successes are exactly the downloader's own, as if no fallback existed |
| InstagramEngine.CleanReelUrl | instagram_engine.py:78-79 | the cleaned address never holds '?' and is a prefix of the link, with the site put in front of a relative one |
| InstagramEngine.CleanRelative | instagram_engine.py:78-79 | a relative link without a query becomes the site followed by the link |
| InstagramEngine.CleanIdempotent | instagram_engine.py:78-79 | cleaning a cleaned address changes nothing |
| InstagramEngine.Admit | instagram_engine.py:75-82 | a link either leaves the list alone or, when present and holding "/reel/", appends its cleaned address; a duplicate-free list stays so |
| InstagramEngine.DedupExtends | instagram_engine.py:75-82 | the reference reading of the links only extends the list gathered so far |
| InstagramEngine.GatherIsCappedDedup | instagram_engine.py:75-87 | below the cap, the loop with its early `break` lists the first `max_reels` addresses of the reference reading |
| InstagramEngine.ExtractReelUrls | instagram_engine.py:73-95 | the extracted list is the first `max_reels` cleaned reel addresses in page order, first occurrences only, and empty for a cap of zero or less |
| InstagramEngine.DedupDistinct | instagram_engine.py:81-82 | the reference reading never repeats an address |
| InstagramEngine.DedupMembers | instagram_engine.py:75-82 | an address is in the reference reading exactly when it was already listed or is the cleaned address of some reel link |
| InstagramEngine.ExtractedReels | instagram_engine.py:73-95 | the extracted list has no repeats, respects the cap, and holds only cleaned addresses of reel links of the page |
| InstagramEngine.ExtractsEveryReelBelowCap | instagram_engine.py:73-95 | when the page offers no more reels than the cap, every offered reel address is extracted |
| InstagramEngine.ReelId | instagram_engine.py:198 | the id exists exactly when the address holds "/reel/" (otherwise IndexError); it never holds "/reel/" and never ends in '/' |
| InstagramEngine.NoMarkerInCode | instagram_engine.py:198 | a code without '/' cannot contain "/reel/" even with a '/' appended |
| InstagramEngine.MarkerAfter | instagram_engine.py:198 | the split happens at the written "/reel/" when nothing before it forms one |
| InstagramEngine.ReelIdOf | instagram_engine.py:198 | the id of `<prefix>/reel/<code>/` is `<code>` |
| InstagramEngine.BareReelMatchesAnyName | instagram_engine.py:198-204 | an address ending in a bare "/reel/" has the empty id, so it is skipped exactly when the Drive folder has any file |
| InstagramEngine.Newest | instagram_engine.py:125 | the chosen file has the greatest modification time, and is the first such file |
| InstagramEngine.DownloadReel | instagram_engine.py:97-131 | success exactly when yt-dlp exits 0 and the directory is non-empty, reporting one of its files; an exception's text or "Download failed" otherwise |
| InstagramEngine.Count | instagram_engine.py:193-219 | every item adds to exactly one of successful, failed and skipped |
| InstagramEngine.VisitMeaning | instagram_engine.py:197-225 | a reel is skipped when its id occurs in a Drive name, otherwise its action is the step's, and the pause follows exactly when it was not skipped and is not the last |
| InstagramEngine.VisitFinishes | instagram_engine.py:197-225 | a reel address with "/reel/" whose step returns never ends the loop |
| InstagramEngine.RunAll | instagram_engine.py:197-225 | the loop finishes exactly when no pass raises, and then holds one item per pass in order |
| InstagramEngine.ProcessFinishes | instagram_engine.py:197-225 | the loop finishes exactly when every reel's visit finishes, in particular when all addresses hold "/reel/" and no step raises |
| InstagramEngine.ProcessItem | instagram_engine.py:197-225 | the `k`-th item of a finished loop is the visit of the `k`-th reel |
| InstagramEngine.UploadResultIgnored | instagram_engine.py:208-219 | a downloaded reel counts as successful whatever the upload returns; only an exception of the upload-and-unlink (`os.path.getsize` before `upload_file`'s own `try`, or the `unlink` after it) stops the loop, and a failed download is a failure with its message |
| InstagramEngine.DownloadReelsToDrive | instagram_engine.py:159-244 | a page without extracted reels gives all zeros before the directory or Drive is touched; otherwise the run raises exactly when the unguarded `temp_dir.mkdir`, the unguarded `GoogleDriveAPI()` or the loop raises, the first of these giving the exception, and a finished run counts every extracted reel exactly once, as a success, a failure or a skip |
| InstagramEngine.NoReelsNoWork | instagram_engine.py:159-163 | a page without reel links gives all zeros |
| InstagramEngine.PauseOnlyBetweenReels | instagram_engine.py:201-225 | the pause follows a reel exactly when Drive did not have it and another reel comes after it |
| InstagramEngine.InDrive | instagram_engine.py:198-201 | the reference count of reels Drive already has is at most the number of reels |
| InstagramEngine.SkipsCounted | instagram_engine.py:201-203 | when items are skips exactly where Drive has the reel, the skip count equals that reference count |
| InstagramEngine.EngineStepIsNoSkip | instagram_engine.py:208-219 | a download step never reports a skip of its own |
| InstagramEngine.SkippedAreDriveHits | instagram_engine.py:181-204 | the skip count is the number of extracted reels whose id some Drive file name holds, with an unreadable listing read as no names |
| EntrepreneurReels.ScriptStep | download_entrepreneur_reels.py:140-169 | a reel Drive lacks is never a skip, and succeeds exactly when yt-dlp exits 0, the directory is non-empty and the upload returns; every exception is a failure |
| EntrepreneurReels.ScriptMatchesEngine | download_entrepreneur_reels.py:150-169 | the script's loop body agrees with the engine's on success whenever the engine's finishes, and counts as a failure the upload exception that ends the engine's loop |
| EntrepreneurReels.RunScript | download_entrepreneur_reels.py:80-189 | a failing `temp_dir.mkdir` raises before extraction, and with reels found a failing `GoogleDriveAPI()` raises before the loop; a finished run exits with 1 exactly when no reel was found, whatever failed, and counts every reel once |
| EntrepreneurReels.RaisesOnlyWithoutMarker | download_entrepreneur_reels.py:80-136 | the script ends with an exception exactly when the temporary directory cannot be made, or reels were found and either the Drive client cannot be built or some extracted address holds no "/reel/" |
| EntrepreneurReels.SkippedAreDriveHits | download_entrepreneur_reels.py:108-136 | the skip count is the number of extracted reels whose id some Drive file name holds |
| SimpleDownloader.Or | simple_downloader.py:60-61 | Python's `a or b`: truthy exactly when either is, the first when it is truthy and the second otherwise |
| SimpleDownloader.Handle | simple_downloader.py:159-164 | the handle is the uploader id when that is a truthy text starting with '@'; there is none exactly when it is not and the channel address is not a truthy text containing "/@"; a found handle is non-empty and starts with '@' |
| SimpleDownloader.PrecheckHandle | simple_downloader.py:63-66 | the pre-check's handle lookup raises exactly when the uploader id is null, or does not start with '@' while the channel address is null; otherwise it finds the handle `Handle` finds |
| SimpleDownloader.Title | simple_downloader.py:48 | the title is the information's title, "Unknown" when the key is absent and "None" when it is null |
| SimpleDownloader.ChannelWith | simple_downloader.py:152-157 | the channel record carries the given handle, a truthy name exactly when the uploader or channel is truthy, and a truthy id exactly when the channel id or uploader id is |
| SimpleDownloader.HandlePrefersUploaderId | simple_downloader.py:159-160 | an uploader id in handle form is the handle, whatever the channel address |
| SimpleDownloader.HandleFromChannelPage | simple_downloader.py:161-164 | a channel address `<prefix>/@<name>` or `<prefix>/@<name>/<more>` gives the handle '@' + name |
| SimpleDownloader.ChannelPageName | simple_downloader.py:161-164 | `url.split("/@")[-1].split("/")[0]` of a channel page address `<prefix>/@<name>[/<more>]` is the name |
| SimpleDownloader.Channel | simple_downloader.py:152-164 | the channel record carries the handle, has a name exactly when the uploader or channel is known, and an id exactly when the channel id or uploader id is |
| SimpleDownloader.UploaderGivesFolderName | simple_downloader.py:152-156 | a video with a known uploader, channel or uploader id always has a candidate channel folder name |
| SimpleDownloader.TemplateAgreesWithPlatform | simple_downloader.py:114-119 | the file-name template and the platform folder (lines 175-181) agree: Twitter uploads are named by description, the title-cut name goes only to Instagram, YouTube uploads carry the full title |
| SimpleDownloader.YdlOptions | simple_downloader.py:114-139 | the playlist limit is set exactly for a positive limit, the cookie file exactly when cookies.txt exists, and the template lies in the temporary directory |
| SimpleDownloader.FirstMp4 | simple_downloader.py:188-192 | no file is found exactly when no entry ends in ".mp4", and a found one is an entry of the listing |
| SimpleDownloader.PrecheckOf | simple_downloader.py:43-106 | the pre-check stops only after the metadata extraction returned; a history hit stops with "Already in history: <title>", and a stop that records to the history needs Drive |
| SimpleDownloader.DriveCheck | simple_downloader.py:56-103 | a Drive hit stops the download: when the handle pre-check returns, the YouTube and channel folders resolve to non-empty ids and the lookup of the video id under the channel folder returns names, the result is "Already in Drive: " with the first name, recorded; every stop says "Already in Drive: " and records the video in the history; a raising handle pre-check, a null uploader id, or a YouTube folder that is unresolved or has an empty id (`if yt_folder_id`) lets the download go on |
| SimpleDownloader.Fetch | simple_downloader.py:108-249 | once the pre-check lets the download go on, the temporary directory is created |
| SimpleDownloader.Download | simple_downloader.py:33-249 | the temporary directory is created exactly when the pre-check does not stop the call |
| SimpleDownloader.HistoryHitShortCircuits | simple_downloader.py:50-53 | a video the history knows is a success with "Already in history: <title>", no directory, no record, and nothing the main extraction could do changes it |
| SimpleDownloader.PrecheckFailureProceeds | simple_downloader.py:104-106 | a pre-check that raises is as if there were none |
| SimpleDownloader.TempDirLeftOnlyWithoutInfo | simple_downloader.py:142-249 | the created directory is left behind exactly when the main extraction returns no information, and nothing is removed that was not created |
| SimpleDownloader.SuccessMeaning | simple_downloader.py:33-249 | the call succeeds exactly when the pre-check stops it, or the extraction returns information and either there is no Drive or an MP4 was found and uploaded; a history record is written only on success |
| SimpleDownloader.UploadFailureFails | simple_downloader.py:235-238 | with Drive, a failed upload is "Upload to Drive failed", with the directory removed |
| SimpleDownloader.NoDriveIsSuccess | simple_downloader.py:239-243 | without Drive, a fetched video is "Downloaded: <title>", with the directory removed and no history record |
| SimpleDrive.TrailingBackslashMisread | simple_drive.py:59 | with only quotes escaped, the folder name `a\` leaves the closing quote escaped, so the query never reads the name back |
| SimpleDrive.EscapeRoundTrip | simple_drive.py:59-63 | with quotes and backslashes escaped, the query reads back exactly the name and goes on after its closing quote, for every name |
| SimpleDrive.EscapeQuotesAgree | simple_drive.py:59 | for a name without backslashes, escaping only quotes is the full escaping |
| SimpleDrive.QuotedNameReadBack | simple_drive.py:59-60 | a name without backslashes, quote-escaped as written, is read back as itself, followed by the rest of the query |
| SimpleDrive.Clause | simple_drive.py:59-60 | the written clause starts with `name = '` and, for a name without backslashes, reads back exactly that name |
| SimpleDrive.CorrectedClause | simple_drive.py:59-60 | the corrected clause starts with `name = '` and reads back exactly the name, for every name |
| SimpleDrive.ClausesAgree | simple_drive.py:59-60 | for a name without backslashes the written clause is the corrected one |
| SimpleDrive.QueriesAgree | simple_drive.py:59-63 | for names without backslashes the written search is the corrected one |
| SimpleDrive.Query | simple_drive.py:59-63 | the search opens with '(', ends with the parent, folder and not-trashed filter, and holds the written clause of every non-empty name |
| SimpleDrive.Truthy | simple_drive.py:59 | the names searched are the non-empty ones only, never more than given |
| SimpleDrive.FindOrCreateFolder | simple_drive.py:46-61 | with no non-empty name, no folder is resolved and Drive is never asked |
| SimpleDrive.OneIsListOfOne | simple_drive.py:54-55 | a single name behaves as the list holding it, and a folder created for it bears that name |
| SimpleDrive.CreatesOnlyOnMiss | simple_drive.py:65-101 | a folder is found exactly when there is a name and the search returns some folder; one is created only after a search that found nothing, under the first name or "Unknown_Channel" when that is empty |
| SimpleDrive.PotentialNames | simple_drive.py:123-129 | at most three candidate names, none of them empty |
| SimpleDrive.FirstCandidate | simple_drive.py:123-129 | there is no candidate exactly when handle, name and id are all missing or empty, and the first candidate is the handle, else the name, else the id |
| SimpleDrive.NoNameNoUpload | simple_drive.py:103-132 | a channel with no handle, name or id is never uploaded |
| SimpleDrive.ChannelFolderName | simple_drive.py:131 | a newly created channel folder is named after the best candidate: handle, else name, else id |
| SimpleDrive.UploadFile | simple_drive.py:103-157 | an upload succeeds only through a platform folder and a channel folder under it, both with non-empty ids, with the file's base name put there, and only when some candidate name exists; an unresolved platform folder or one with an empty id (`if not folder_id`), or a put that raises into the resolved folders, gives None |
| SheetsManager.StatusVocabulary | sheets_manager.py:34-38 | the calendar has five status values, all different |
| SheetsManager.Body | sheets_manager.py:125 | the data rows are the grid without its header row, in order; an empty grid has none |
| SheetsManager.RowToDict | sheets_manager.py:251-268 | the record carries the sheet row number it was given |
| SheetsManager.RowLayout | sheets_manager.py:253-268 | each of the 13 fields is its own column's cell when the row reaches it, and otherwise empty, except monetized, which defaults to "Yes" |
| SheetsManager.Scan | sheets_manager.py:127-135 | a filtered scan never yields more records than rows |
| SheetsManager.ScanSources | sheets_manager.py:127-135 | every record of a scan is the record of a kept row under that row's number |
| SheetsManager.ScanMembers | sheets_manager.py:127-135 | a record is in the scan exactly when it is the record of some kept row under that row's number |
| SheetsManager.ScanOrdered | sheets_manager.py:127-135 | a scan keeps sheet order: row numbers strictly increase and lie within the scanned rows |
| SheetsManager.ScanAppend | sheets_manager.py:127-135 | scanning a grid with one more row gives the old scan followed by the new row's record when it is kept |
| SheetsManager.PendingVideos | sheets_manager.py:114-137 | every pending record has status Idle or Scheduled |
| SheetsManager.PendingMembers | sheets_manager.py:121-137 | a record is pending exactly when it is the record of a data row that reaches the status column with status Idle or Scheduled, numbered as the sheet numbers that row |
| SheetsManager.ScheduledVideos | sheets_manager.py:139-175 | the due list raises exactly when there is no worksheet, and holds only Scheduled records |
| SheetsManager.ScheduledArePending | sheets_manager.py:155-171 | every due record is also pending, and its time reads as '%Y-%m-%d %H:%M' and is not after now |
| SheetsManager.UpdateStatus | sheets_manager.py:177-210 | no worksheet writes nothing; otherwise the status cell (1-based column 8) is written first, and every write targets the given row |
| SheetsManager.Apply | sheets_manager.py:199-210 | applying cell writes never changes the length of a row |
| SheetsManager.ApplyAppend | sheets_manager.py:199-210 | applying two batches of writes is applying one after the other |
| SheetsManager.UpdateThenRead | sheets_manager.py:195-210 | a full row read back after an update has the new status, each URL or note replaced exactly when a truthy value was given, and every other field unchanged |
| SheetsManager.NewRow | sheets_manager.py:231-245 | a new row has all 13 columns |
| SheetsManager.AddVideo | sheets_manager.py:214-249 | no worksheet returns 0 and appends nothing; otherwise the reported row number is the number of data rows plus two |
| SheetsManager.AddThenRead | sheets_manager.py:227-249 | on a sheet with its header the appended row sits at the reported row number and reads back as the given video with the documented defaults, and the pending list grows by it exactly when its status is Idle or Scheduled |
| SheetsManager.AddToBlankSheet | sheets_manager.py:228-249 | on a sheet without a header row the reported number is 2 although the row lands at row 1 |
| PostManager.ExtractDriveId | post_manager.py:204-213 | a "/file/d/" link gives an id without '/', otherwise an "id=" link gives one without '&', and any other text is returned as it is |
| PostManager.DriveIdFromFileLink | post_manager.py:207-208 | a file link `<prefix>/file/d/<id>` or `<prefix>/file/d/<id>/<more>` yields exactly `<id>` |
| PostManager.DriveIdFromQuery | post_manager.py:209-210 | a query link `<prefix>id=<id>` or `<prefix>id=<id>&<more>` without "/file/d/" yields exactly `<id>` |
| PostManager.TagList | post_manager.py:102 | the tag list has one entry per comma-separated piece of the tags cell |
| PostManager.TagListOfJoin | post_manager.py:102 | tags without commas or surrounding blanks, joined with ',', come back as written |
| PostManager.Metadata | post_manager.py:74-84 | a row with both title and description keeps its own metadata; otherwise each non-empty field of the row is kept and only the empty ones are generated |
| PostManager.PostYoutube | post_manager.py:97-117 | called with the keywords `upload_video` takes, YouTube is skipped unless the platforms cell names it, in any case, and an address is produced only when it does |
| PostManager.PostFacebook | post_manager.py:119-136 | Facebook is skipped unless the platforms cell names it, in any case, and an address is produced only when it does |
| PostManager.Publish | post_manager.py:55-136 | when the whole try body finishes, there is a YouTube address exactly when the platforms name YouTube and a Facebook address exactly when they name Facebook |
| PostManager.ProcessVideo | post_manager.py:35-169 | the video succeeds exactly when download, metadata and every named upload finish without an exception |
| PostManager.YoutubeNeverPostedAsWritten | post_manager.py:101-111 | as written, the `monetization=` keyword makes the YouTube call raise TypeError, so no video whose platforms name YouTube is ever posted |
| PostManager.YoutubePostedWhenUploaded | post_manager.py:97-153 | called as intended, a YouTube-only video whose download succeeds and whose upload returns an id is posted with that video's address |
| PostManager.StatusValuesAppend | post_manager.py:53-163 | the status values of two batches of writes are those of each, in order |
| PostManager.OneStatusWrite | sheets_manager.py:198-210 | one `update_status` writes the status column exactly once, with the given status |
| PostManager.StatusFlow | post_manager.py:52-169 | a video's status goes to Processing first and then to exactly one of Posted or Failed; a posted row gets the address of every platform named and no other, and a failed one none |
| PostManager.Count | post_manager.py:183-190 | every video adds to exactly one of successful and failed |
| PostManager.ProcessAllScheduled | post_manager.py:171-202 | the run raises exactly when there is no worksheet, and otherwise handles every due video once, counting each once |
| PostManager.ScheduledPosting | post_manager.py:145-190 | the k-th due video is posted exactly when its own publishing finishes, and is processed with the clock as read for it |
| PostManager.PauseOnlyBetweenVideos | post_manager.py:192-195 | since due videos carry distinct row numbers, the whole-record comparison pauses after every video but the last |
| Database.Lookup | database.py:77-82 | a found record is in the table and holds the id; none is found exactly when no record holds it |
| Database.IsDownloaded | database.py:63-89 | the answer is True exactly when the query does not raise and some record holds the id |
| Database.RecordOf | database.py:107-123 | the written row carries the given id and the time of writing, a file size of 0 and the platform 'Unknown' when those keys are absent |
| Database.Without | database.py:108 | the records the replacement keeps are exactly those of the table that do not hold the id |
| Database.UniqueTail | database.py:33 | the primary key stays unique in the rest of a table |
| Database.UniqueCons | database.py:33 | a record put in front of records none of which shares its id keeps the key unique |
| Database.WithoutCount | database.py:108 | with a unique key, the replacement drops exactly one record when the id is present and none otherwise, and the key stays unique |
| Database.AddToHistory | database.py:91-133 | the add reports True exactly when it does not raise, in which case the new row is in the table; on False the table is unchanged |
| Database.AddThenLookup | database.py:107-129 | after an add the id is known and its record is the new one, every other id keeps its record, the key stays unique, and the table grows by one unless the id was there |
| Database.LookupAppend | database.py:77-82 | looking up in a table with one more record finds the old record first, else the new one when it holds the id |
| Database.LookupWithout | database.py:108 | dropping the records of one id leaves the lookup of every other id unchanged |
| Database.LatestAddWins | database.py:107-123 | adding the same id twice leaves one record, the second, and the second add does not grow the table |
| Database.ClearHistory | database.py:217-237 | clearing reports True exactly when it does not raise, after which no id is downloaded; on False the table is unchanged |
| Database.NotOlderTransitive | database.py:204 | "not older than" on date texts is transitive |
| Database.Insert | database.py:204 | inserting a record adds exactly that record |
| Database.InsertKeepsOrder | database.py:204 | inserting into a newest-first list keeps it newest first |
| Database.ByDateDesc | database.py:204 | ordering by date is a permutation of the table |
| Database.ByDateDescOrdered | database.py:204 | ordering by date puts the newest first |
| Database.Limit | database.py:205 | `LIMIT n` keeps the first n rows, or all of them for a negative or too large n |
| Database.RecentRecords | database.py:201-206 | the recent list has `limit` records, or all of them when the limit is negative or exceeds the table |
| Database.GetRecent | database.py:187-215 | a query that raises gives the empty list; otherwise as many rows as the limit allows |
| Database.RecentIsNewest | database.py:201-206 | the recent records are records of the table, newest first, and no record left out is newer than the last one returned |
| Database.PrefixIsNewest | database.py:201-206 | `LIMIT n` on the date-descending list keeps it ordered, and every record it cuts off is no newer than the last one kept |
| Database.BumpCounts | database.py:155-160 | counting one more record raises the total and that record's platform by one, leaves other platforms alone and keeps each platform once |
| Database.PlatformsCount | database.py:155-160 | the per-platform counts name each platform once, count its records, and sum to the number of records |
| Database.GetStats | database.py:135-185 | the total equals the sum of the per-platform counts and is the number of records; a query that raises gives zeros and no platforms |
| Database.GetHistory | database.py:240-248 | an existing instance is returned as it is; a new one is remembered; creation raises only when there was none and the tables cannot be created |
| Database.SameInstance | database.py:243-248 | a second call returns the instance of the first, whatever the database does then |
| SetupValidator.FirstExisting | setup_validator.py:195-199 | the first path that exists: none exactly when no path exists, and a found one exists with no existing path before it |
| SetupValidator.CheckGoogleDrive | setup_validator.py:112-154 | the check passes on the detection flag and the download path, and is 'ready' exactly when Drive was detected |
| SetupValidator.DriveNeverMissing | setup_validator.py:120-153 | the Drive check is always 'ready' or 'fallback' |
| SetupValidator.CheckCookies | setup_validator.py:191-264 | the check passes exactly when its status is 'ready' or 'warning', is 'missing' exactly when none of the three cookie paths exists, and is 'error' exactly when the found file cannot be read or its yt-dlp self-test raises |
| SetupValidator.CookieHeaderDecides | setup_validator.py:216-256 | a readable cookie file whose self-test returns, passed or not, passes: 'ready' with a Netscape header and 'warning' without one |
| SetupValidator.SelfTestRaiseIsError | setup_validator.py:245-280 | a self-test exception other than a timeout or a missing program turns even a readable cookie file into 'error' |
| SetupValidator.CheckJdownloader | setup_validator.py:281-334 | without an installation path of the operating system the check is 'missing' and the process is not looked for; with one, the unguarded process check's exception escapes, and otherwise the check passes as 'needs_config' |
| SetupValidator.UnknownSystemMissing | setup_validator.py:289 | on an operating system outside the table nothing is found, and the check returns 'missing' whatever the process check would do |
| SetupValidator.Halves | setup_validator.py:362-370 | the score counted in halves is at most five |
| SetupValidator.HalvesExact | setup_validator.py:362-370 | the half count is exactly twice the fractional `ready_count` |
| SetupValidator.VerdictOf | setup_validator.py:373-384 | READY exactly when the score reaches 2.5, PARTIALLY READY exactly when it is at least 1.5 but below 2.5 |
| SetupValidator.ShownCount | setup_validator.py:386 | the count shown is the whole part of the score |
| SetupValidator.NextSteps | setup_validator.py:398-415 | the start step appears exactly when the score reaches 2, the Drive step exactly on 'fallback', the cookie step exactly when the cookies are not ready |
| SetupValidator.PrintSummary | setup_validator.py:355-415 | READY exactly when the score reaches 2.5, NOT READY exactly when it is below 1.5, the whole part of the score shown, the start step exactly when the score reaches 2, the Drive step on 'fallback', the cookie step when the cookies are not ready |
| SetupValidator.RunValidation | setup_validator.py:485-491 | the run raises exactly when the Drive detection raises (its unguarded fallback `os.makedirs`, utils.py:58), with that exception, or a JDownloader installation is found and the process check raises; otherwise the Drive status is 'ready' or 'fallback' by the detection flag, the summary is the one of the three checks' results, and the cookie status is the cookie check's |
| SetupValidator.VerdictAfterChecks | setup_validator.py:355-415 | after the three checks, READY exactly when the cookies are ready and JDownloader is installed, NOT READY exactly when neither, the start step exactly when the cookies are ready, and the shown count is 2 or 1 accordingly |
| MetadataGenerator.TitleCase | metadata_generator.py:110 | `str.title()` on ASCII letters: same length, letters stay letters, non-letters are unchanged, and a letter is upper case exactly when no letter precedes it directly |
| MetadataGenerator.TitleCaseIdempotent | metadata_generator.py:110 | title-casing a title-cased text changes nothing |
| MetadataGenerator.CleanTitle | metadata_generator.py:110 | the cleaned title has the file name's length and holds neither '_' nor '-' |
| MetadataGenerator.Fallback | metadata_generator.py:107-116 | the fallback title is the cleaned title cut to 100 characters, without '_' or '-', and the tags are the fixed three |
| MetadataGenerator.FallbackDescriptionUncut | metadata_generator.py:114 | the fallback description starts with "Video: " followed by the whole cleaned title, even where the title field is cut |
| MetadataGenerator.GenerateFromFilename | metadata_generator.py:35-90 | without a model, or when the model raises or gives no JSON object, the result is the fallback; a decoded answer gives its title and description (empty when absent) and its hashtags joined with ',' |
| MetadataGenerator.LastIndex | metadata_generator.py:104 | the position found holds the character and no later position does; none is found exactly when the character does not occur |
| MetadataGenerator.Stem | metadata_generator.py:104 | the stem is a prefix of the path's last component |
| MetadataGenerator.NameStem | metadata_generator.py:104 | the stem is a prefix of the name |
| MetadataGenerator.LastIndexSkips | metadata_generator.py:104 | appending text without the character does not move its last position |
| MetadataGenerator.BaseNameOf | metadata_generator.py:104 | the last component of `<dir>/<name>` is `<name>` |
| MetadataGenerator.NameStemOf | metadata_generator.py:104 | the stem of `<base>.<ext>` is `<base>` for a non-empty base and an extension without '.' |
| MetadataGenerator.StemOfFile | metadata_generator.py:104 | the stem of `<dir>/<base>.<ext>` is `<base>` |
| MetadataGenerator.GenerateFromVideo | metadata_generator.py:92-105 | without a model, the metadata of a video file is the fallback for its stem |
| MetadataGenerator.EnhanceMetadata | metadata_generator.py:118-180 | without a model, or when its answer cannot be had, the inputs come back unchanged; an answer replaces exactly the fields it holds, and absent hashtags give the input tags back |
| AiAssistant.Warn | ai_assistant.py:143-145 | adding a warning raises exactly when the key holds null, and otherwise appends it to the list, creating the list when the key is absent, leaving every other key alone |
| AiAssistant.FillUrl | ai_assistant.py:135-136 | a non-empty detected address fills a missing, null or empty url, and nothing else changes |
| AiAssistant.FixContentType | ai_assistant.py:139-145 | after the check a set content type is one the site offers, and a configuration the site already accepts is unchanged |
| AiAssistant.CapCount | ai_assistant.py:148-150 | a null count raises, an absent count leaves everything alone, a count within 500 is unchanged, and no count above 500 survives |
| AiAssistant.OrderDates | ai_assistant.py:153-165 | dates that are missing, unreadable or already in order leave the configuration unchanged; reversed ones are exchanged and the warning appended, the list created when absent, and with null warnings the exchange kept while the failing append is swallowed by the bare `except`; no other key changes |
| AiAssistant.SwapOrders | ai_assistant.py:156-163 | reversed dates are exchanged, after which the range reads in order and is no longer reversed |
| AiAssistant.OrderDatesIdempotent | ai_assistant.py:153-165 | ordering the dates a second time changes nothing |
| AiAssistant.OrderedAfterDefaults | ai_assistant.py:153-170 | after the date check and the defaults the range is never reversed |
| AiAssistant.NullWarningsStillSwapped | ai_assistant.py:143-170 | with null warnings and nothing else to adjust, a reversed range is still exchanged and the defaults added; no error results |
| AiAssistant.Defaults | ai_assistant.py:168-170 | subtitles off, existing files skipped and the best quality are set only where the key is absent, and nothing else changes |
| AiAssistant.DefaultsIdempotent | ai_assistant.py:168-170 | applying the defaults twice is applying them once |
| AiAssistant.ValidateAndEnhance | ai_assistant.py:131-172 | a validated configuration has all three defaulted keys, never a count above 500 and never a reversed range; validation raises exactly when the content-type step or the count cap does |
| AiAssistant.CleanConfigUntouched | ai_assistant.py:131-172 | a configuration that needs no correction only gets its defaults |
| AiAssistant.CapWarns | ai_assistant.py:148-150 | a count above 500 comes out as 500 with the cap warning recorded |
| AiAssistant.FallbackParse | ai_assistant.py:174-187 | the fallback carries the address as given (null when none), confidence 50, and asks for clarification exactly when no address was given |
| AiAssistant.ErrorConfig | ai_assistant.py:122-129 | the error dictionary has confidence 0, asks for clarification, is marked as a fallback and carries the message |
| AiAssistant.LastThree | ai_assistant.py:194 | the recent turns are the last three, or all when there are fewer |
| AiAssistant.TurnLines | ai_assistant.py:195-198 | two lines per turn, "User: " with the input and then "Parsed: " with the interpretation |
| AiAssistant.TurnLinesSingle | ai_assistant.py:195-198 | turns without newlines give lines without newlines |
| AiAssistant.RecentContext | ai_assistant.py:189-192 | without turns the context is "No previous context" |
| AiAssistant.ContextReadsBack | ai_assistant.py:189-200 | with turns free of newlines, splitting the context at newlines gives back exactly the two lines of each of the last three turns |
| AiAssistant.ParseCommand | ai_assistant.py:55-56 | without the model the result is the fallback and the parser is unchanged; the model's availability never changes |
| AiAssistant.HistoryOnlyOnSuccess | ai_assistant.py:106-129 | with the model, the history grows by the validated answer exactly when the model answered and validation finished (a null warnings list included); otherwise the result is the error dictionary with confidence 0 and clarification needed, and the parser is unchanged |
| DownloadInstagram.FirstUsernameSegment | download_instagram.py:105-110 | the first segment that can be a username: none exactly when no segment can, and a found one is a segment of the address |
| DownloadInstagram.UsernameFromUrl | download_instagram.py:103-110 | a username taken from an address never holds '?' |
| DownloadInstagram.Username | download_instagram.py:103-117 | `--username` wins when given, the default account is used when neither option is, and the result never starts with '@' |
| DownloadInstagram.UsernameFromProfileUrl | download_instagram.py:105-110 | the profile address `https://www.instagram.com/<name>`, with or without a final '/', names `<name>` |
| DownloadInstagram.UsernamePrecedence | download_instagram.py:103-117 | `--username` wins over `--url`, and a lone `--url` of a profile gives its name |
| DownloadInstagram.ExtractPosts | download_instagram.py:25-89 | an exception while listing gives no address; otherwise the first `max_posts` posts in profile order, each as its post address |
| DownloadInstagram.PostUrlShortcode | download_instagram.py:25-89 | every post address starts with the post prefix, ends with '/', and reads back its shortcode |
| DownloadInstagram.SuccessCount | download_instagram.py:153-168 | the reference count of successful posts is at most the number of posts |
| DownloadInstagram.DownloadAll | download_instagram.py:153-175 | the success counter equals the reference count, each post is counted once, and a pause follows every post but the last |
| DownloadInstagram.RunScript | download_instagram.py:91-190 | the username and the test-mode cap of one post are applied, no posts gives exit code 1, and otherwise the exit code is 0 exactly when nothing failed |
| DownloadInstagram.DownloadPosts | download_instagram.py:131-190 | no posts exits with 1 and downloads nothing; otherwise every post is counted once, the success counter equals the reference count, and the exit code is 0 exactly when nothing failed |
| BatchDownload.UrlLines | batch_download.py:25 | at most one address per line, each non-empty and without surrounding blanks |
| BatchDownload.UrlLinesAppend | batch_download.py:25 | reading two parts of a file one after the other gives the addresses of each, in order |
| BatchDownload.LineByLine | batch_download.py:25 | a line starting with '#' and a blank line give no address, while an indented '#' line is kept, stripped |
| BatchDownload.IndentedCommentKept | batch_download.py:25 | a line whose '#' follows a blank is kept, and its address is the stripped line, which starts with '#' |
| BatchDownload.BlankLinesDropped | batch_download.py:25 | an empty line and a line of blanks give no address |
| BatchDownload.SuccessCount | batch_download.py:53-67 | the reference count of successful downloads is at most the number of addresses |
| BatchDownload.DownloadAll | batch_download.py:53-67 | the success counter equals the reference count and each address is counted once |
| BatchDownload.RunScript | batch_download.py:12-78 | no file argument, a missing file or a file without addresses exits with 1 before any download; another read error escapes; otherwise every address is downloaded once and the exit code is 0 exactly when none failed |

## Left out

- The Tkinter user interface, the worker thread, progress callbacks, `print` and logging: they only display state.
- Randomised sleeps and fixed pauses: only whether a pause is inserted is kept, since timing has no effect on results.
- `datetime.now()`: the current time is a parameter of every member that reads the clock.
- Floating point: `total_size_gb` and file sizes in bytes as floats are not modelled.
- MatchFilter: yt-dlp often reports `duration` as a float (59.5, say), and dynamic_filter_builder.py:86-89 compares it as it is; the model holds whole seconds (`Field<int>`), so a fractional duration just below or above a bound is not an input it has.
- DurationCheckMessage: for the same reason the "Duration …s" message is stated for whole seconds only; a float duration would print with its decimals.
- Cookie.expires: Playwright reports `expires` as a float, which login_twitter.py:15 truncates with `int()`; the model's cookie holds the already truncated integer, so the truncation itself (toward zero, and the -1 of a session cookie kept as -1) is not modelled.
- DownloadFile: an `os.remove` that raises (playwright_engine.py:260) is caught by the Drive block's handler and the file stays; the model takes the removal to succeed.
- SizeLimit: on the `"G"` and `"M"` path the source converts the number with `float()`, which also takes decimals (`"1.5G"`), `"inf"` and `"nan"`, rounds whole numbers of 2^53 or more, and overflows (an OverflowError from `int()`) past about 309 digits; the model reads that number as `int()` does, so it refuses decimals, stays exact for large numbers and converts numbers of 309 to 4300 digits.
- `recent_7days` in the history statistics: it needs the clock and SQLite's `date()` arithmetic.
- Running the engines: yt-dlp's extraction, Playwright's browser and `subprocess` calls are oracles. The yt-dlp cookie self-test and JDownloader's process detection are oracles that may raise: the self-test's own handler catches only a timeout and a missing program (setup_validator.py:278), and `is_jdownloader_running` is called without a handler (setup_validator.py:312). The setup validator's Drive detection is an oracle that may raise too, since `detect_google_drive`'s fallback `os.makedirs` has no handler (utils.py:58). In the reel pipeline the temporary directory's `mkdir` and the `GoogleDriveAPI()` construction are oracles that may raise (instagram_engine.py:170, 175; download_entrepreneur_reels.py:86, 105), and each reel's upload-and-unlink is one oracle that may raise.
- The Google clients (`drive_api`, the YouTube and Facebook posters, the gspread calls) are oracles; only the decisions around their results are modelled.
- post_manager.py:69 calls a `download_file` that `GoogleDriveAPI` does not define, so as written the download raises AttributeError and the video is marked Failed; the model takes the download as an oracle, which may answer with that error. The `monetization=` keyword of the YouTube call is listed under Findings.
- The Gemini prompts' wording: only the parsing of the reply and the fallbacks are modelled.
- omnistream_cli.py, the one-off scripts and the test files are not part of this model, apart from the router's YouTube example.
- `interactive_setup`, `create_folder_structure` and the JSON reports of the setup validator: they are console and file-system side effects.
- `str.lower`, `str.title`, `str.strip`, `isdigit` and `int()` are modelled on ASCII only; Unicode case mapping, Unicode whitespace and non-ASCII decimal digits (which `int()` accepts) are not.
- `strftime('%Y')` is modelled zero-padded to four digits; glibc prints years below 1000 unpadded.
- Path components `.` and `..` are not normalised.
- DetectSite: `urlsplit`'s `_checknetloc`, which raises when NFKC normalisation of a non-ASCII network location brings in '/', '?', '#', '@' or ':', is not modelled, since the model has no Unicode normalisation; it never raises on ASCII addresses, where the model is exact.
- CreateOrganizedFolder: the same `_checknetloc` check is left out of the network location it reads, for the same reason.
- UrlBasename: the same `_checknetloc` check is left out of the parse it makes, for the same reason.
- The ValueError texts of the bracket checks are kept without the address `ipaddress` quotes in them; callers only catch or count these errors.
- A key present with a `null` value (`Field.Null`) is modelled for the yt-dlp information the match filter and the Shorts check read, the simple downloader's information and the assistant's configuration; other records (engine results, database rows, cookies) hold plain values.
- Cookie domain counting in the login script's summary is display only.
- The row order SQLite returns for `GROUP BY`: the model lists platforms in order of first appearance and states only the counts, since a Python `dict` built from the rows has no meaningful order here.
- The router tests for mega.nz and example.com are covered by the general contract but not proved as separate instances; only the YouTube example is.
- The Instagram engine's scrolling (instagram_engine.py:53-73, stopping once `max_reels + 10` links are on the page): the links the page ends up holding are an oracle; the link loop over them is modelled.
- The Sheets manager's `connect()` and the constructor's configuration are client set-up and are not modelled.
- The smart batch downloader's `extract_standard` runs yt-dlp; it is an oracle returning the extracted address list.

## Findings

| source | as written | input that shows it | evidently intended | confidence | as-written member | corrected member |
|---|---|---|---|---|---|---|
| simple_drive.py:59 | the Drive query escapes only `'` in the folder name | a name ending in a backslash, such as `a\`, whose final backslash escapes the closing quote of the query | escape backslashes as well as quotes, so every name is read back as itself | medium, not executed | SimpleDrive.TrailingBackslashMisread | SimpleDrive.EscapeRoundTrip |
| post_manager.py:104-111 | `upload_video` is called with a `monetization=` keyword that `YouTubePoster.upload_video` (youtube_poster.py:115-124) does not take; the TypeError is caught at line 155 and the row marked Failed | any row whose platforms cell names YouTube, such as "YouTube", whose download succeeds (the download call as written fails first, see Left out) | call `upload_video` with the keywords it takes, so a video is posted with the address of the id YouTube returns | high, not executed | PostManager.YoutubeNeverPostedAsWritten | PostManager.YoutubePostedWhenUploaded |
| main.py:922-948 | `YtDlpEngine` (ytdlp_engine.py:18 and 53) is built with a `use_drive_api` keyword its constructor does not take and `download` is called with a fourth argument; the resulting TypeError is caught and counted as a failure | any address routed to yt-dlp, such as a youtube.com watch address with "Auto-Detect" | construct and call the engine with its own signature, so an address succeeds exactly when its information was extracted | medium, not executed | Worker.YtDlpNeverSucceedsAsWritten | Worker.YtDlpSucceedsWhenExtracted |
| playwright_engine.py:252-260 | `upload_file(filepath, filename, folder_id)` passes the file name where drive_api.py's `upload_file(file_path, folder_id, filename)` expects the folder id; `upload_file` catches its own errors and returns None (drive_api.py:186-240), and `os.remove` runs whenever that call returns | any address whose transfer succeeds while `GoogleDriveAPI()` can be built and the upload returns None, such as one into a folder id that does not exist | call `upload_file(filepath, folder_id, filename)` and remove the local copy only when it returned a file | high, not executed | PlaywrightEngine.LocalCopyRemovedAsWritten | PlaywrightEngine.IntendedKeepsUnuploaded |

=== FILE: ai_assistant.dfy ===
/**
 * ai_assistant.py, `AICommandParser`: what the parser does around the
 * hosted model. The model's answer is an oracle that sees the recent
 * context and yields the decoded JSON object (or the exception of the call
 * or of the decoding); the model is the source of the configuration, and
 * the code checks, corrects and completes it.
 */
module AiAssistant {
  import opened Wrappers
  import opened Text
  import Dates
  import Sites

  /** The keys of a parsed configuration that the code reads or writes. */
  datatype Config = Config(
    url: Field<string>, contentType: Field<string>, scope: Field<string>, maxDownloads: Field<int>,
    dateFrom: Field<string>, dateTo: Field<string>, quality: Field<string>,
    downloadSubtitles: Field<bool>, skipExisting: Field<bool>, interpretation: Field<string>,
    confidence: Field<int>, needsClarification: Field<bool>, fallback: Field<bool>,
    error: Field<string>, warnings: Field<seq<string>>)

  predicate NonEmpty(s: string) { |s| > 0 }

  /** `config.setdefault('warnings', []).append(w)`: a null list raises. */
  function Warn(c: Config, w: string): (r: Outcome<Config>)
    ensures c.warnings.Null? <==> r.Raised?
    ensures r.Done? ==> r.value == c.(warnings := Val(if c.warnings.Val? then c.warnings.v + [w] else [w]))
  {
    match c.warnings
    case Absent => Done(c.(warnings := Val([w])))
    case Null => Raised("'NoneType' object has no attribute 'append'")
    case Val(ws) => Done(c.(warnings := Val(ws + [w])))
  }

  const ContentWarning := "Content type adjusted to match site capabilities"
  const CapWarning := "Count capped at 500 for safety"
  const SwapWarning := "Date range was reversed, corrected automatically"
  const MaxCount := 500

  // ---------------------------------------------------------------------
  // _validate_and_enhance, step by step

  /** The address passed in fills a missing or empty one. */
  function FillUrl(c: Config, detected: Option<string>): (r: Config)
    ensures r.url == (if detected.Some? && NonEmpty(detected.value) && !c.url.Holds(NonEmpty) then Val(detected.value) else c.url)
    ensures r.(url := c.url) == c
  {
    if detected.Some? && NonEmpty(detected.value) && !c.url.Holds(NonEmpty) then c.(url := Val(detected.value)) else c
  }

  /** A content type the site does not offer becomes the site's first one, with a warning; an empty list raises. */
  function FixContentType(c: Config, site: Option<Sites.SiteInfo>): (r: Outcome<Config>)
    ensures r.Done? && r.value.contentType.Val? && site.Some? && c.contentType.Holds(NonEmpty) ==> r.value.contentType.v in site.value.contentTypes
    ensures r.Done? && (site.None? || !c.contentType.Holds(NonEmpty) || c.contentType.v in site.value.contentTypes) ==> r.value == c
  {
    if site.Some? && c.contentType.Holds(NonEmpty) && c.contentType.v !in site.value.contentTypes then
      if |site.value.contentTypes| == 0 then Raised("list index out of range")
      else Warn(c.(contentType := Val(site.value.contentTypes[0])), ContentWarning)
    else Done(c)
  }

  /** `config.get('max_downloads', 0) > 500`: a count above 500 becomes 500 with a warning; null raises. */
  function CapCount(c: Config): (r: Outcome<Config>)
    ensures c.maxDownloads.Null? ==> r.Raised?
    ensures r.Done? && r.value.maxDownloads.Val? ==> r.value.maxDownloads.v <= MaxCount
    ensures r.Done? && c.maxDownloads.Val? && c.maxDownloads.v <= MaxCount ==> r.value == c
    ensures c.maxDownloads.Absent? ==> r == Done(c)
  {
    match c.maxDownloads
    case Absent => Done(c)
    case Null => Raised("'>' not supported between instances of 'NoneType' and 'int'")
    case Val(n) => if n > MaxCount then Warn(c.(maxDownloads := Val(MaxCount)), CapWarning) else Done(c)
  }

  /** `datetime.strptime(s, '%Y-%m-%d')`. */
  function ParseIso(s: string): Option<Dates.Stamp> {
    Dates.Strptime(Dates.IsoDate, s)
  }

  /** Both dates readable and in the wrong order. */
  predicate Reversed(c: Config) {
    c.dateFrom.Holds(NonEmpty) && c.dateTo.Holds(NonEmpty)
    && ParseIso(c.dateFrom.v).Some? && ParseIso(c.dateTo.v).Some?
    && Dates.Before(ParseIso(c.dateTo.v).value.date, ParseIso(c.dateFrom.v).value.date)
  }

  /**
   * Reversed dates are swapped with a warning; anything else, unreadable
   * dates included, is left alone. The `try` around the swap swallows the
   * exception a null warnings list raises on `append`, after the swap has
   * already happened, so the swap stands without a warning.
   */
  function OrderDates(c: Config): (r: Config)
    ensures !Reversed(c) ==> r == c
    ensures Reversed(c) ==> r.dateFrom == c.dateTo && r.dateTo == c.dateFrom
    ensures Reversed(c) ==> r.warnings == (match c.warnings
                                             case Absent => Val([SwapWarning])
                                             case Null => Null
                                             case Val(ws) => Val(ws + [SwapWarning]))
    ensures r.(dateFrom := c.dateFrom, dateTo := c.dateTo, warnings := c.warnings) == c
  {
    if Reversed(c) then
      var swapped := c.(dateFrom := c.dateTo, dateTo := c.dateFrom);
      match Warn(swapped, SwapWarning)
      case Done(w) => w
      case Raised(_) => swapped
    else c
  }

  /** The swap leaves the dates in order, whatever the warnings list holds. */
  lemma SwapOrders(c: Config)
    requires Reversed(c)
    ensures var r := OrderDates(c);
            r.dateFrom == c.dateTo && r.dateTo == c.dateFrom
            && !Dates.Before(ParseIso(r.dateTo.v).value.date, ParseIso(r.dateFrom.v).value.date)
            && !Reversed(r)
  {
    var a := ParseIso(c.dateTo.v).value.date;
    var b := ParseIso(c.dateFrom.v).value.date;
    Dates.OrdinalOrder(a, b);
    Dates.OrdinalOrder(b, a);
  }

  /** Ordering dates a second time changes nothing. */
  lemma OrderDatesIdempotent(c: Config)
    ensures OrderDates(OrderDates(c)) == OrderDates(c)
  {
    if Reversed(c) {
      SwapOrders(c);
    }
  }

  /** Subtitles off, existing files skipped, the best quality: each only when its key is absent. */
  function Defaults(c: Config): (r: Config)
    ensures r.downloadSubtitles == (if c.downloadSubtitles.Absent? then Val(false) else c.downloadSubtitles)
    ensures r.skipExisting == (if c.skipExisting.Absent? then Val(true) else c.skipExisting)
    ensures r.quality == (if c.quality.Absent? then Val("Best Available") else c.quality)
    ensures r.(downloadSubtitles := c.downloadSubtitles, skipExisting := c.skipExisting, quality := c.quality) == c
  {
    c.(downloadSubtitles := c.downloadSubtitles.SetDefault(false),
       skipExisting := c.skipExisting.SetDefault(true),
       quality := c.quality.SetDefault("Best Available"))
  }

  /** Applying the defaults twice is applying them once. */
  lemma DefaultsIdempotent(c: Config)
    ensures Defaults(Defaults(c)) == Defaults(c)
  {
  }

  /** `_validate_and_enhance(config, detected_url, site_info)`: the four checks in order, then the defaults. */
  function ValidateAndEnhance(c: Config, detected: Option<string>, site: Option<Sites.SiteInfo>): (r: Outcome<Config>)
    ensures r.Done? ==> r.value.downloadSubtitles != Absent && r.value.skipExisting != Absent && r.value.quality != Absent
    ensures r.Done? && r.value.maxDownloads.Val? ==> r.value.maxDownloads.v <= MaxCount
    ensures r.Done? ==> !Reversed(r.value)
    ensures r.Raised? <==> FixContentType(FillUrl(c, detected), site).Raised?
                           || CapCount(FixContentType(FillUrl(c, detected), site).value).Raised?
  {
    var c1 := FillUrl(c, detected);
    match FixContentType(c1, site)
    case Raised(e) => Raised(e)
    case Done(c2) =>
      match CapCount(c2)
      case Raised(e) => Raised(e)
      case Done(c3) =>
        OrderedAfterDefaults(c3);
        Done(Defaults(OrderDates(c3)))
  }

  /** Neither ordering nor the defaults leave the dates reversed. */
  lemma OrderedAfterDefaults(c: Config)
    ensures !Reversed(Defaults(OrderDates(c)))
  {
    if Reversed(c) {
      SwapOrders(c);
    }
    assert Defaults(OrderDates(c)).dateFrom == OrderDates(c).dateFrom;
    assert Defaults(OrderDates(c)).dateTo == OrderDates(c).dateTo;
  }

  /**
   * A configuration with nothing to correct comes back with only its
   * missing defaults added: no warning and no other key changed.
   */
  lemma CleanConfigUntouched(c: Config, detected: Option<string>, site: Option<Sites.SiteInfo>)
    requires detected.None? || c.url.Holds(NonEmpty)
    requires site.None? || !c.contentType.Holds(NonEmpty) || c.contentType.v in site.value.contentTypes
    requires c.maxDownloads.Absent? || (c.maxDownloads.Val? && c.maxDownloads.v <= MaxCount)
    requires !Reversed(c)
    ensures ValidateAndEnhance(c, detected, site) == Done(Defaults(c))
  {
  }

  /**
   * Reversed dates are swapped even when the warnings key holds null: the
   * failing `append` is swallowed, and the swapped configuration is the one
   * returned.
   */
  lemma NullWarningsStillSwapped(c: Config, detected: Option<string>, site: Option<Sites.SiteInfo>)
    requires detected.None? || c.url.Holds(NonEmpty)
    requires site.None? || !c.contentType.Holds(NonEmpty) || c.contentType.v in site.value.contentTypes
    requires c.maxDownloads.Absent? || (c.maxDownloads.Val? && c.maxDownloads.v <= MaxCount)
    requires Reversed(c) && c.warnings.Null?
    ensures ValidateAndEnhance(c, detected, site) == Done(Defaults(c.(dateFrom := c.dateTo, dateTo := c.dateFrom)))
  {
  }

  /** A count over the cap is capped and the warning is the last one added before any date warning. */
  lemma CapWarns(c: Config, detected: Option<string>, site: Option<Sites.SiteInfo>)
    requires c.maxDownloads.Val? && c.maxDownloads.v > MaxCount
    requires ValidateAndEnhance(c, detected, site).Done?
    ensures var r := ValidateAndEnhance(c, detected, site).value;
            r.maxDownloads == Val(MaxCount) && r.warnings.Val? && CapWarning in r.warnings.v
  {
    var c1 := FillUrl(c, detected);
    var c2 := FixContentType(c1, site).value;
    var c3 := CapCount(c2).value;
    assert CapWarning in c3.warnings.v;
  }

  // ---------------------------------------------------------------------
  // _fallback_parse, _get_recent_context, parse_command

  /** `_fallback_parse(user_input, detected_url)`: fixed defaults, the address as given, confidence 50. */
  function FallbackParse(detected: Option<string>): (r: Config)
    ensures r.url == (if detected.Some? then Val(detected.value) else Null)
    ensures r.confidence == Val(50) && r.fallback == Val(true)
    ensures r.needsClarification == Val(detected.None? || detected.value == "")
  {
    Config(if detected.Some? then Val(detected.value) else Null, Val("All Videos"), Val("single"), Absent,
           Absent, Absent, Val("Best Available"), Val(false), Val(true),
           Val("AI unavailable - using default settings"), Val(50), Val(detected.None? || detected.value == ""),
           Val(true), Absent, Absent)
  }

  /** The dictionary returned when anything in the `try` raised. */
  function ErrorConfig(e: string): (r: Config)
    ensures r.confidence == Val(0) && r.needsClarification == Val(true) && r.fallback == Val(true) && r.error == Val(e)
  {
    Config(Absent, Absent, Absent, Absent, Absent, Absent, Absent, Absent, Absent,
           Val("AI parsing failed: " + e + ". Using manual configuration."), Val(0), Val(true), Val(true), Val(e), Absent)
  }

  /** One entry of `conversation_history`; the timestamp is left out. */
  datatype Turn = Turn(input: string, output: Config)

  /** `item['output'].get('interpretation', 'N/A')` as formatted text. */
  function InterpretationText(c: Config): string {
    match c.interpretation
    case Absent => "N/A"
    case Null => "None"
    case Val(s) => s
  }

  /** The last three turns, or all of them when there are fewer. */
  function LastThree(h: seq<Turn>): (r: seq<Turn>)
    ensures |r| == if |h| < 3 then |h| else 3
    ensures r == h[|h| - |r|..]
  {
    if |h| <= 3 then h else h[|h| - 3..]
  }

  /** Two lines per turn: what the user said, then how it was read. */
  function TurnLines(ts: seq<Turn>): (lines: seq<string>)
    ensures |lines| == 2 * |ts|
    ensures forall k :: 0 <= k < |ts| ==>
              lines[2 * k] == "User: " + ts[k].input
              && lines[2 * k + 1] == "Parsed: " + InterpretationText(ts[k].output)
  {
    if |ts| == 0 then []
    else
      var rest := TurnLines(ts[1..]);
      var lines := ["User: " + ts[0].input, "Parsed: " + InterpretationText(ts[0].output)] + rest;
      TurnLinesCons(ts, rest, lines);
      lines
  }

  /** Two lines for the first turn in front of the lines of the others are the lines of all turns. */
  lemma TurnLinesCons(ts: seq<Turn>, rest: seq<string>, lines: seq<string>)
    requires |ts| > 0 && |rest| == 2 * (|ts| - 1)
    requires forall k :: 0 <= k < |ts| - 1 ==>
               rest[2 * k] == "User: " + ts[1..][k].input
               && rest[2 * k + 1] == "Parsed: " + InterpretationText(ts[1..][k].output)
    requires lines == ["User: " + ts[0].input, "Parsed: " + InterpretationText(ts[0].output)] + rest
    ensures forall k :: 0 <= k < |ts| ==>
              lines[2 * k] == "User: " + ts[k].input
              && lines[2 * k + 1] == "Parsed: " + InterpretationText(ts[k].output)
  {
    forall k | 1 <= k < |ts|
      ensures lines[2 * k] == "User: " + ts[k].input
      ensures lines[2 * k + 1] == "Parsed: " + InterpretationText(ts[k].output)
    {
      var j := k - 1;
      assert ts[1..][j] == ts[k];
      assert lines[2 * k] == rest[2 * j] && lines[2 * k + 1] == rest[2 * j + 1];
    }
  }

  /** Turns free of newlines give lines free of newlines. */
  lemma {:induction false} TurnLinesSingle(ts: seq<Turn>)
    requires forall k :: 0 <= k < |ts| ==> '\n' !in ts[k].input && '\n' !in InterpretationText(ts[k].output)
    ensures forall i :: 0 <= i < |TurnLines(ts)| ==> '\n' !in TurnLines(ts)[i]
  {
    if |ts| > 0 {
      TurnLinesSingle(ts[1..]);
      var rest := TurnLines(ts[1..]);
      assert TurnLines(ts) == ["User: " + ts[0].input, "Parsed: " + InterpretationText(ts[0].output)] + rest;
    }
  }

  /** `_get_recent_context()`: two lines for each of the last three turns, or a fixed text without turns. */
  function RecentContext(h: seq<Turn>): (r: string)
    ensures |h| == 0 ==> r == "No previous context"
  {
    if |h| == 0 then "No previous context" else Join(TurnLines(LastThree(h)), "\n")
  }

  /** Without newlines in the turns, the context reads back as exactly two lines per recent turn. */
  lemma ContextReadsBack(h: seq<Turn>)
    requires |h| > 0
    requires forall k :: 0 <= k < |h| ==> '\n' !in h[k].input && '\n' !in InterpretationText(h[k].output)
    ensures Split(RecentContext(h), "\n") == TurnLines(LastThree(h))
    ensures |Split(RecentContext(h), "\n")| == 2 * (if |h| < 3 then |h| else 3)
  {
    var recent := LastThree(h);
    forall k | 0 <= k < |recent| ensures '\n' !in recent[k].input && '\n' !in InterpretationText(recent[k].output) {
      assert recent[k] == h[|h| - |recent| + k];
    }
    TurnLinesSingle(recent);
    SplitJoin(TurnLines(recent), '\n');
  }

  /** The parser's state: whether the model is usable, and the turns it has answered. */
  datatype Parser = Parser(available: bool, history: seq<Turn>)

  /**
   * `parse_command(user_input, detected_url, site_info)`: without the model
   * the fallback; otherwise the model's answer (which sees the recent
   * context) checked and completed, and remembered; any exception on the
   * way gives the error dictionary and is not remembered.
   */
  function ParseCommand(p: Parser, input: string, detected: Option<string>, site: Option<Sites.SiteInfo>,
                        ask: string -> Outcome<Config>): (r: (Config, Parser))
    ensures !p.available ==> r == (FallbackParse(detected), p)
    ensures r.1.available == p.available
  {
    if !p.available then (FallbackParse(detected), p)
    else
      match ask(RecentContext(p.history))
      case Raised(e) => (ErrorConfig(e), p)
      case Done(config) =>
        match ValidateAndEnhance(config, detected, site)
        case Raised(e) => (ErrorConfig(e), p)
        case Done(validated) => (validated, p.(history := p.history + [Turn(input, validated)]))
  }

  /**
   * The history grows by one turn exactly when the model answered and the
   * answer passed the checks; otherwise the result is the error dictionary
   * of the exception, with confidence 0, and the history is unchanged.
   */
  lemma HistoryOnlyOnSuccess(p: Parser, input: string, detected: Option<string>, site: Option<Sites.SiteInfo>,
                             ask: string -> Outcome<Config>)
    requires p.available
    ensures var (c, q) := ParseCommand(p, input, detected, site, ask);
            var reply := ask(RecentContext(p.history));
            var used := reply.Done? && ValidateAndEnhance(reply.value, detected, site).Done?;
            (used ==> q.history == p.history + [Turn(input, c)] && c == ValidateAndEnhance(reply.value, detected, site).value)
            && (!used ==> q == p && exists e :: c == ErrorConfig(e))
            && (!used ==> c.confidence == Val(0) && c.needsClarification == Val(true))
  {
    var reply := ask(RecentContext(p.history));
    if reply.Raised? {
      assert ParseCommand(p, input, detected, site, ask).0 == ErrorConfig(reply.reason);
    } else if ValidateAndEnhance(reply.value, detected, site).Raised? {
      assert ParseCommand(p, input, detected, site, ask).0 == ErrorConfig(ValidateAndEnhance(reply.value, detected, site).reason);
    }
  }
}

=== FILE: batch_download.dfy ===
/**
 * batch_download.py: download every address listed in a text file. The
 * file is given as the lines Python iterates over (each with its line
 * break); the downloader is an oracle answering `(success, message)`, as
 * `SimpleDownloader.Download` does without raising.
 */
module BatchDownload {
  import opened Wrappers
  import opened Text

  /** A line that yields an address: not blank, and not starting with '#' before stripping. */
  predicate Kept(line: string) {
    Strip(line) != "" && !StartsWith(line, "#")
  }

  /** The addresses of the file: its kept lines stripped, in file order. */
  function UrlLines(lines: seq<string>): (urls: seq<string>)
    ensures |urls| <= |lines|
    ensures forall k :: 0 <= k < |urls| ==> |urls[k]| > 0 && !IsSpace(urls[k][0]) && !IsSpace(urls[k][|urls[k]| - 1])
  {
    if |lines| == 0 then []
    else (if Kept(lines[0]) then [Strip(lines[0])] else []) + UrlLines(lines[1..])
  }

  /** Reading two parts of a file one after the other gives the addresses of each, in order. */
  lemma {:induction false} UrlLinesAppend(a: seq<string>, b: seq<string>)
    ensures UrlLines(a + b) == UrlLines(a) + UrlLines(b)
    decreases |a|
  {
    if |a| == 0 {
      assert a + b == b;
    } else {
      assert (a + b)[0] == a[0];
      assert (a + b)[1..] == a[1..] + b;
      UrlLinesAppend(a[1..], b);
    }
  }

  /** Each line on its own: a comment line at column 0 and a blank line give nothing; an indented '#' line is kept. */
  lemma LineByLine(line: string, rest: string)
    ensures UrlLines(["#" + rest]) == []
    ensures UrlLines([" #" + rest + "\n"]) == [Strip(" #" + rest + "\n")]
    ensures Strip(" #" + rest + "\n")[0] == '#'
    ensures UrlLines(["\n"]) == [] && UrlLines([" \n"]) == []
  {
    assert StartsWith("#" + rest, "#");
    IndentedCommentKept(rest);
    BlankLinesDropped();
  }

  /** A '#' after a blank is not a comment to the script: the line is kept, and stripping brings the '#' to the front. */
  lemma IndentedCommentKept(rest: string)
    ensures UrlLines([" #" + rest + "\n"]) == [Strip(" #" + rest + "\n")]
    ensures Strip(" #" + rest + "\n")[0] == '#'
  {
    var s := " #" + rest + "\n";
    assert s[0] == ' ' && s[..1] != "#";
    assert !StartsWith(s, "#");
    assert s[1] == '#' && !IsSpace(s[1]) && IsSpace(s[0]);
    StripKeepsFirstNonSpace(s, 1);
    assert Kept(s);
    assert [s][1..] == [];
  }

  lemma BlankLinesDropped()
    ensures UrlLines(["\n"]) == [] && UrlLines([" \n"]) == []
  {
    assert Strip("\n") == "" by { assert IsSpace("\n"[0]); }
    assert Strip(" \n") == "" by { assert IsSpace(" \n"[0]) && IsSpace(" \n"[1]); }
  }

  /** Stripping a text whose first non-blank character is at `i` starts with that character. */
  lemma StripKeepsFirstNonSpace(s: string, i: nat)
    requires i < |s| && !IsSpace(s[i]) && forall j :: 0 <= j < i ==> IsSpace(s[j])
    ensures |Strip(s)| > 0 && Strip(s)[0] == s[i]
  {
    assert LStrip(s) == s[i..] by { LStripSkips(s, i); }
    StripEmptyIffSpace(s);
  }

  lemma {:induction false} LStripSkips(s: string, i: nat)
    requires i < |s| && !IsSpace(s[i]) && forall j :: 0 <= j < i ==> IsSpace(s[j])
    ensures LStrip(s) == s[i..]
    decreases i
  {
    if i > 0 {
      assert s[1..][i - 1..] == s[i..];
      LStripSkips(s[1..], i - 1);
    }
  }

  /** What reading the file gives: its lines, the FileNotFoundError the script catches, or another error that escapes. */
  datatype Read = Lines(lines: seq<string>) | NotFound | Unreadable(reason: string)

  /** How many of the addresses succeed, the reference the loop's counter is checked against. */
  function SuccessCount(urls: seq<string>, download: string -> (bool, string)): (n: nat)
    ensures n <= |urls|
  {
    if |urls| == 0 then 0
    else SuccessCount(urls[..|urls| - 1], download) + (if download(urls[|urls| - 1]).0 then 1 else 0)
  }

  /** The `for i, url in enumerate(urls, 1)` loop. */
  method DownloadAll(urls: seq<string>, download: string -> (bool, string)) returns (successful: nat, failed: nat)
    ensures successful == SuccessCount(urls, download)
    ensures successful + failed == |urls|
  {
    successful, failed := 0, 0;
    var i := 0;
    while i < |urls|
      invariant 0 <= i <= |urls|
      invariant successful == SuccessCount(urls[..i], download)
      invariant successful + failed == i
    {
      assert urls[..i + 1][..i] == urls[..i];
      var (ok, _) := download(urls[i]);
      if ok {
        successful := successful + 1;
      } else {
        failed := failed + 1;
      }
      i := i + 1;
    }
    assert urls[..i] == urls;
  }

  datatype Summary = Summary(urls: seq<string>, successful: nat, failed: nat, exitCode: int)

  /**
   * `main()`: no file argument, a missing file or a file without addresses
   * is exit code 1 before any download; otherwise every address is
   * downloaded and the exit code is 0 exactly when none failed. Any other
   * reading error escapes.
   */
  method RunScript(argv: seq<string>, read: string -> Read, download: string -> (bool, string)) returns (r: Outcome<Summary>)
    ensures |argv| < 2 ==> r == Done(Summary([], 0, 0, 1))
    ensures |argv| >= 2 ==> (r.Raised? <==> read(argv[1]).Unreadable?)
    ensures |argv| >= 2 && read(argv[1]).NotFound? ==> r == Done(Summary([], 0, 0, 1))
    ensures |argv| >= 2 && read(argv[1]).Lines? ==>
              r.Done? && r.value.urls == UrlLines(read(argv[1]).lines)
              && (|r.value.urls| == 0 ==> r.value.exitCode == 1 && r.value.successful + r.value.failed == 0)
              && (|r.value.urls| > 0 ==> r.value.successful + r.value.failed == |r.value.urls|
                                         && r.value.successful == SuccessCount(r.value.urls, download)
                                         && (r.value.exitCode == 0 <==> r.value.failed == 0))
  {
    if |argv| < 2 {
      return Done(Summary([], 0, 0, 1));
    }
    match read(argv[1])
    case NotFound => return Done(Summary([], 0, 0, 1));
    case Unreadable(e) => return Raised(e);
    case Lines(lines) =>
      var urls := UrlLines(lines);
      if |urls| == 0 {
        return Done(Summary(urls, 0, 0, 1));
      }
      var successful, failed := DownloadAll(urls, download);
      return Done(Summary(urls, successful, failed, if failed == 0 then 0 else 1));
  }
}

=== FILE: cookies.dfy ===
/**
 * The Netscape cookie file: the writer of the Twitter/X login helper
 * (`get_netscape_cookies` in login_twitter.py) and the reader of the smart
 * batch's browser path (smart_batch.py), which loads such a file back into
 * the browser. Written with clean fields, what the reader recovers is what
 * the writer was given.
 */
module Cookies {
  import opened Wrappers
  import opened Text

  /** A browser cookie as `context.cookies()` lists it; `expires` is None when the key is absent. */
  datatype Cookie = Cookie(domain: string, path: string, secure: bool, expires: Option<int>, name: string, value: string)

  const Header := "# Netscape HTTP Cookie File"

  function Flag(b: bool): string {
    if b then "TRUE" else "FALSE"
  }

  /** The seven columns: domain, subdomain flag, path, secure flag, expiry, name, value. */
  function Fields(c: Cookie): (r: seq<string>)
    ensures |r| == 7
  {
    [c.domain, Flag(StartsWith(c.domain, ".")), c.path, Flag(c.secure), IntToString(c.expires.GetOr(0)), c.name, c.value]
  }

  /**
   * The columns carry the cookie: domain, path, name and value verbatim,
   * the subdomain flag TRUE exactly for a domain starting with '.', the
   * secure flag TRUE exactly for a secure cookie, and an expiry that reads
   * back as the cookie's, or 0 when it has none.
   */
  lemma FieldsMeaning(c: Cookie)
    ensures Fields(c)[0] == c.domain && Fields(c)[2] == c.path && Fields(c)[5] == c.name && Fields(c)[6] == c.value
    ensures Fields(c)[1] == "TRUE" <==> StartsWith(c.domain, ".")
    ensures Fields(c)[3] == "TRUE" <==> c.secure
    ensures WithinDigitLimit(c.expires.GetOr(0)) ==> ParseInt(Fields(c)[4]) == Some(c.expires.GetOr(0))
  {
    if WithinDigitLimit(c.expires.GetOr(0)) {
      IntRoundTrip(c.expires.GetOr(0));
    }
    assert "FALSE" != "TRUE" by {
      assert "FALSE"[0] != "TRUE"[0];
    }
  }

  function Line(c: Cookie): string {
    Join(Fields(c), "\t")
  }

  /** One line per cookie, in order. */
  function CookieLines(cookies: seq<Cookie>): (r: seq<string>)
    ensures |r| == |cookies|
  {
    if |cookies| == 0 then [] else [Line(cookies[0])] + CookieLines(cookies[1..])
  }

  /** The header line followed by one line per cookie. */
  function Lines(cookies: seq<Cookie>): (r: seq<string>)
    ensures |r| == |cookies| + 1
  {
    [Header] + CookieLines(cookies)
  }

  /** Every cookie of the list is one the file format carries. */
  predicate AllStorable(cookies: seq<Cookie>) {
    forall k :: 0 <= k < |cookies| ==> Storable(cookies[k])
  }

  /**
   * `get_netscape_cookies(context)`: the lines joined by line feeds, with no
   * final line feed. The text starts with the Netscape header; for storable
   * cookies it holds no carriage return and splits at line feeds into
   * exactly the header and one line per cookie.
   */
  function Serialize(cookies: seq<Cookie>): (r: string)
    ensures StartsWith(r, Header)
    ensures AllStorable(cookies) ==> Split(r, "\n") == Lines(cookies) && '\r' !in r
  {
    JoinedLines(cookies);
    Join(Lines(cookies), "\n")
  }

  /** What joining the lines gives, as `Serialize` states it. */
  lemma JoinedLines(cookies: seq<Cookie>)
    ensures StartsWith(Join(Lines(cookies), "\n"), Header)
    ensures AllStorable(cookies) ==>
              Split(Join(Lines(cookies), "\n"), "\n") == Lines(cookies) && '\r' !in Join(Lines(cookies), "\n")
  {
    var lines := Lines(cookies);
    if |cookies| > 0 {
      JoinCons(Header, CookieLines(cookies), "\n");
      assert lines == [Header] + CookieLines(cookies);
      var rest := "\n" + Join(CookieLines(cookies), "\n");
      assert Join(lines, "\n") == Header + rest;
      StartsWithAppend(Header, rest);
    }
    if AllStorable(cookies) {
      LinesArePlain(cookies, '\n');
      LinesArePlain(cookies, '\r');
      HeaderIsPlain('\n');
      HeaderIsPlain('\r');
      forall k | 0 <= k < |lines| ensures '\n' !in lines[k] && '\r' !in lines[k] {
        if k > 0 {
          assert lines[k] == CookieLines(cookies)[k - 1];
        }
      }
      SplitJoin(lines, '\n');
      JoinAvoids(lines, "\n", '\r');
    }
  }

  // ---------------------------------------------------------------------
  // The reader

  /** The dictionary the reader hands to `context.add_cookies`. */
  datatype Loaded = Loaded(domain: string, path: string, secure: bool, expires: int, name: string, value: string)

  const IntError := "ValueError: invalid literal for int()"

  /**
   * One line of the reader: None for a comment, a blank line or one with
   * fewer than seven tab-separated fields after stripping; Raised when a
   * non-empty expiry is not an integer.
   */
  function ParseLine(line: string): (r: Outcome<Option<Loaded>>)
    ensures r == Done(None) <==> StartsWith(line, "#") || Strip(line) == "" || |Columns(line)| < 7
    ensures r.Raised? ==> |Columns(line)| >= 7 && Columns(line)[4] != "" && ParseInt(Columns(line)[4]).None?
    ensures r.Done? && r.value.Some? ==> |Columns(line)| >= 7 && ReadsAs(Columns(line), r.value.value)
  {
    if StartsWith(line, "#") || Strip(line) == "" then Done(None)
    else
      var fields := Columns(line);
      if |fields| < 7 then Done(None)
      else
        var expires := if fields[4] == "" then Some(0) else ParseInt(fields[4]);
        match expires
        case None => Raised(IntError)
        case Some(e) => Done(Some(Loaded(fields[0], fields[2], Lower(fields[3]) == "true", e, fields[5], fields[6])))
  }

  /** The tab-separated fields of a stripped line. */
  function Columns(line: string): seq<string> {
    Split(Strip(line), "\t")
  }

  /**
   * A loaded cookie read from at least seven fields: domain, path, name and
   * value from columns 0, 2, 5 and 6, secure when column 3 is "true" in any
   * case, and the expiry 0 when column 4 is empty.
   */
  predicate ReadsAs(fields: seq<string>, x: Loaded)
    requires |fields| >= 7
  {
    x.domain == fields[0] && x.path == fields[2] && x.name == fields[5] && x.value == fields[6]
    && (x.secure <==> Lower(fields[3]) == "true")
    && (fields[4] == "" ==> x.expires == 0)
    && (fields[4] != "" ==> ParseInt(fields[4]) == Some(x.expires))
  }

  /** Some line makes the reader raise. */
  predicate SomeLineRaises(lines: seq<string>) {
    exists k :: 0 <= k < |lines| && ParseLine(lines[k]).Raised?
  }

  /** `x` is the cookie some line loads. */
  predicate LoadedFrom(lines: seq<string>, x: Loaded) {
    exists k :: 0 <= k < |lines| && ParseLine(lines[k]) == Done(Some(x))
  }

  /** Every line that loads a cookie has it in `xs`. */
  predicate LoadsEvery(lines: seq<string>, xs: seq<Loaded>) {
    forall k :: 0 <= k < |lines| && ParseLine(lines[k]).Done? && ParseLine(lines[k]).value.Some? ==>
      ParseLine(lines[k]).value.value in xs
  }

  /** The reader's loop: the loaded cookies in file order, or the first exception. */
  function ParseLines(lines: seq<string>): (r: Outcome<seq<Loaded>>)
    ensures r.Done? ==> |r.value| <= |lines|
    ensures r.Raised? ==> SomeLineRaises(lines)
  {
    if |lines| == 0 then Done([])
    else
      match ParseLine(lines[0])
      case Raised(e) => Raised(e)
      case Done(first) =>
        match ParseLines(lines[1..])
        case Raised(e) =>
          var k :| 0 <= k < |lines[1..]| && ParseLine(lines[1..][k]).Raised?;
          assert lines[1..][k] == lines[k + 1];
          Raised(e)
        case Done(rest) =>
          if first.Some? then Done([first.value] + rest) else Done(rest)
  }

  /**
   * The loop raises exactly when some line does; otherwise each cookie it
   * holds comes from a line, and every line that loads a cookie gives it.
   */
  lemma ParseLinesMeaning(lines: seq<string>)
    ensures ParseLines(lines).Raised? <==> SomeLineRaises(lines)
    ensures ParseLines(lines).Done? ==>
              (forall x :: x in ParseLines(lines).value ==> LoadedFrom(lines, x)) && LoadsEvery(lines, ParseLines(lines).value)
  {
    ParseLinesRaise(lines);
    ParseLinesSources(lines);
    ParseLinesKeeps(lines);
  }

  /** A line that raises makes the loop raise. */
  lemma {:induction false} ParseLinesRaise(lines: seq<string>)
    ensures SomeLineRaises(lines) ==> ParseLines(lines).Raised?
    decreases |lines|
  {
    if |lines| > 0 && SomeLineRaises(lines) && !ParseLine(lines[0]).Raised? {
      var tail := lines[1..];
      var k :| 0 <= k < |lines| && ParseLine(lines[k]).Raised?;
      assert k > 0 && tail[k - 1] == lines[k];
      assert SomeLineRaises(tail);
      ParseLinesRaise(tail);
    }
  }

  /** Every cookie the loop holds is the one some line loads. */
  lemma {:induction false} ParseLinesSources(lines: seq<string>)
    ensures ParseLines(lines).Done? ==> forall x :: x in ParseLines(lines).value ==> LoadedFrom(lines, x)
    decreases |lines|
  {
    if |lines| > 0 && ParseLines(lines).Done? {
      var tail := lines[1..];
      ParseLinesSources(tail);
      var first := ParseLine(lines[0]).value;
      var rest := ParseLines(tail).value;
      var res := ParseLines(lines).value;
      assert res == if first.Some? then [first.value] + rest else rest;
      forall x | x in res ensures LoadedFrom(lines, x) {
        if first.Some? && x == first.value {
          assert ParseLine(lines[0]) == Done(Some(x));
        } else {
          assert x in rest;
          var k :| 0 <= k < |tail| && ParseLine(tail[k]) == Done(Some(x));
          SourceShift(lines, k, x);
        }
      }
    }
  }

  /** The witness line of the tail is a line of the whole list. */
  lemma SourceShift(lines: seq<string>, k: nat, x: Loaded)
    requires k + 1 < |lines| && ParseLine(lines[1..][k]) == Done(Some(x))
    ensures LoadedFrom(lines, x)
  {
    assert lines[k + 1] == lines[1..][k];
  }

  /** Every line that loads a cookie has it in the loop's list. */
  lemma {:induction false} ParseLinesKeeps(lines: seq<string>)
    ensures ParseLines(lines).Done? ==> LoadsEvery(lines, ParseLines(lines).value)
    decreases |lines|
  {
    if |lines| > 0 && ParseLines(lines).Done? {
      var tail := lines[1..];
      ParseLinesKeeps(tail);
      var first := ParseLine(lines[0]).value;
      var rest := ParseLines(tail).value;
      var res := ParseLines(lines).value;
      assert res == if first.Some? then [first.value] + rest else rest;
      forall k | 0 <= k < |lines| && ParseLine(lines[k]).Done? && ParseLine(lines[k]).value.Some?
        ensures ParseLine(lines[k]).value.value in res
      {
        if k == 0 {
          assert first.Some? && res[0] == first.value;
        } else {
          KeepShift(lines, k, rest);
        }
      }
    }
  }

  /** A loading line of the tail has its cookie in the tail's list. */
  lemma KeepShift(lines: seq<string>, k: nat, rest: seq<Loaded>)
    requires 0 < k < |lines| && LoadsEvery(lines[1..], rest)
    requires ParseLine(lines[k]).Done? && ParseLine(lines[k]).value.Some?
    ensures ParseLine(lines[k]).value.value in rest
  {
    assert lines[1..][k - 1] == lines[k];
  }

  /**
   * Text-mode reading: "\r\n" and a lone "\r" end a line as "\n" does.
   * Each line's own terminator is left out, which changes nothing the
   * reader tests since it strips the line.
   */
  function UniversalNewlines(s: string): (r: string)
    ensures '\r' !in r
  {
    if |s| == 0 then ""
    else if s[0] == '\r' then
      if |s| > 1 && s[1] == '\n' then "\n" + UniversalNewlines(s[2..]) else "\n" + UniversalNewlines(s[1..])
    else [s[0]] + UniversalNewlines(s[1..])
  }

  lemma {:induction false} NoCarriageReturnKept(s: string)
    requires '\r' !in s
    ensures UniversalNewlines(s) == s
  {
    if |s| > 0 {
      assert s[0] in s;
      assert s == [s[0]] + s[1..];
      NoCarriageReturnKept(s[1..]);
    }
  }

  /**
   * The cookie list the smart batch reads from a cookies.txt text, or the
   * exception that makes it load none. Lines end at "\n", "\r\n" or "\r".
   * It raises exactly when some line has seven columns and an expiry `int()`
   * refuses; otherwise every cookie comes from a line and every loading line
   * gives its cookie.
   */
  function ParseFile(text: string): (r: Outcome<seq<Loaded>>)
    ensures var lines := Split(UniversalNewlines(text), "\n");
            (r.Raised? <==> SomeLineRaises(lines))
            && (r.Done? ==> (forall x :: x in r.value ==> LoadedFrom(lines, x)) && LoadsEvery(lines, r.value))
  {
    ParseLinesMeaning(Split(UniversalNewlines(text), "\n"));
    ParseLines(Split(UniversalNewlines(text), "\n"))
  }

  // ---------------------------------------------------------------------
  // The round trip

  predicate NoControl(s: string) {
    '\t' !in s && '\n' !in s && '\r' !in s
  }

  /**
   * A cookie the file format carries: no field holds a tab or a line break,
   * the domain is non-empty and starts with neither '#' nor white space,
   * and the value is non-empty and does not end in white space.
   */
  predicate Storable(c: Cookie) {
    NoControl(c.domain) && NoControl(c.path) && NoControl(c.name) && NoControl(c.value)
    && |c.domain| > 0 && c.domain[0] != '#' && !IsSpace(c.domain[0])
    && |c.value| > 0 && !IsSpace(c.value[|c.value| - 1])
    && WithinDigitLimit(c.expires.GetOr(0))
  }

  /** What the reader makes of a written cookie: the absent expiry becomes 0. */
  function Load(c: Cookie): Loaded {
    Loaded(c.domain, c.path, c.secure, c.expires.GetOr(0), c.name, c.value)
  }

  function LoadAll(cookies: seq<Cookie>): (r: seq<Loaded>)
    ensures |r| == |cookies|
  {
    if |cookies| == 0 then [] else [Load(cookies[0])] + LoadAll(cookies[1..])
  }

  lemma NumeralIsPlain(i: int)
    ensures NoControl(IntToString(i)) && |IntToString(i)| > 0
  {
    var d := NatToString(if i < 0 then -i else i);
    assert forall k :: 0 <= k < |d| ==> IsDigit(d[k]);
    assert IntToString(i) == if i < 0 then "-" + d else d;
  }

  /** No field of a storable cookie holds a tab, a line feed or a carriage return. */
  lemma FieldsArePlain(c: Cookie, ch: char)
    requires Storable(c) && (ch == '\t' || ch == '\n' || ch == '\r')
    ensures forall k :: 0 <= k < 7 ==> ch !in Fields(c)[k]
  {
    NumeralIsPlain(c.expires.GetOr(0));
    var f := Fields(c);
    assert ch !in f[1] by {
      assert f[1] == "TRUE" || f[1] == "FALSE";
    }
    assert ch !in f[3] by {
      assert f[3] == "TRUE" || f[3] == "FALSE";
    }
  }

  /** A written line splits back into its seven fields. */
  lemma LineSplits(c: Cookie)
    requires Storable(c)
    ensures Columns(Line(c)) == Fields(c)
  {
    FieldsArePlain(c, '\t');
    SplitJoin(Fields(c), '\t');
    LineIsBare(c);
  }

  /** A written line is not a comment and has nothing to strip. */
  lemma LineIsBare(c: Cookie)
    requires Storable(c)
    ensures !StartsWith(Line(c), "#") && Strip(Line(c)) == Line(c) && Line(c) != ""
  {
    var f := Fields(c);
    var line := Line(c);
    JoinFirst(f, "\t");
    JoinLast(f, "\t");
    StripOfStripped(line);
    assert line[..1][0] == c.domain[0];
  }

  /** Reading one written line gives the cookie back. */
  lemma LineRoundTrip(c: Cookie)
    requires Storable(c)
    ensures ParseLine(Line(c)) == Done(Some(Load(c)))
  {
    var line := Line(c);
    LineIsBare(c);
    LineSplits(c);
    FieldsMeaning(c);
    var f := Fields(c);
    NumeralIsPlain(c.expires.GetOr(0));
    assert f[4] != "";
    var x := ParseLine(line);
    assert x.Done? && x.value.Some? && ReadsAs(f, x.value.value);
    SecureFlagReads(c.secure);
  }

  /** The written secure flag reads back as the cookie's. */
  lemma SecureFlagReads(b: bool)
    ensures Lower(Flag(b)) == "true" <==> b
  {
    if !b {
      assert Lower("FALSE")[0] == 'f';
    } else {
      assert Lower("TRUE") == "true";
    }
  }

  /** The reader loads every written cookie line, in order. */
  lemma {:induction false} LinesRoundTrip(cookies: seq<Cookie>)
    requires forall k :: 0 <= k < |cookies| ==> Storable(cookies[k])
    ensures ParseLines(CookieLines(cookies)) == Done(LoadAll(cookies))
    decreases |cookies|
  {
    if |cookies| > 0 {
      var lines := CookieLines(cookies);
      LineRoundTrip(cookies[0]);
      LinesRoundTrip(cookies[1..]);
      assert lines[0] == Line(cookies[0]);
      assert lines[1..] == CookieLines(cookies[1..]);
    }
  }

  /** Every line the writer produces is free of the separators the reader splits at. */
  lemma {:induction false} LinesArePlain(cookies: seq<Cookie>, ch: char)
    requires forall k :: 0 <= k < |cookies| ==> Storable(cookies[k])
    requires ch == '\n' || ch == '\r'
    ensures forall k :: 0 <= k < |CookieLines(cookies)| ==> ch !in CookieLines(cookies)[k]
    decreases |cookies|
  {
    if |cookies| > 0 {
      FieldsArePlain(cookies[0], ch);
      JoinAvoids(Fields(cookies[0]), "\t", ch);
      LinesArePlain(cookies[1..], ch);
      var lines := CookieLines(cookies);
      forall k | 0 <= k < |lines| ensures ch !in lines[k] {
        if k > 0 {
          assert lines[k] == CookieLines(cookies[1..])[k - 1];
        }
      }
    }
  }

  lemma HeaderIsPlain(ch: char)
    requires ch == '\n' || ch == '\r'
    ensures ch !in Header
  {
  }

  /** Each written cookie line has exactly the seven tab-separated columns. */
  lemma WrittenLineColumns(cookies: seq<Cookie>, k: nat)
    requires k < |cookies| && Storable(cookies[k])
    ensures |Split(Lines(cookies)[k + 1], "\t")| == 7
  {
    CookieLineAt(cookies, k);
    FieldsArePlain(cookies[k], '\t');
    SplitJoin(Fields(cookies[k]), '\t');
  }

  lemma {:induction false} CookieLineAt(cookies: seq<Cookie>, k: nat)
    requires k < |cookies|
    ensures CookieLines(cookies)[k] == Line(cookies[k])
    ensures Lines(cookies)[k + 1] == Line(cookies[k])
    decreases k
  {
    if k > 0 {
      CookieLineAt(cookies[1..], k - 1);
    }
  }

  /** The written text has no carriage return, so text-mode reading leaves it as it is. */
  lemma SerializedIsPlain(cookies: seq<Cookie>)
    requires AllStorable(cookies)
    ensures UniversalNewlines(Serialize(cookies)) == Serialize(cookies)
  {
    NoCarriageReturnKept(Serialize(cookies));
  }

  /**
   * Writing storable cookies and reading the file back recovers the domain,
   * path, secure flag, expiry (0 when absent), name and value of each, in order.
   */
  lemma RoundTrip(cookies: seq<Cookie>)
    requires forall k :: 0 <= k < |cookies| ==> Storable(cookies[k])
    ensures ParseFile(Serialize(cookies)) == Done(LoadAll(cookies))
  {
    SerializedIsPlain(cookies);
    HeaderSkipped(CookieLines(cookies));
    LinesRoundTrip(cookies);
  }

  /** The header line is a comment: the reader skips it. */
  lemma HeaderSkipped(rest: seq<string>)
    ensures ParseLines([Header] + rest) == ParseLines(rest)
  {
    assert StartsWith(Header, "#");
    assert ([Header] + rest)[1..] == rest;
  }
}

=== FILE: database.dfy ===
/**
 * database.py: the download history, a SQLite table whose primary key is
 * the video id. The table is modelled as the sequence of its records with
 * at most one record per id; a record added without an id carries SQL NULL,
 * which a TEXT primary key admits any number of times and no lookup finds.
 * `failing` stands for sqlite raising (the file cannot be opened, the
 * statement fails); every method catches that and answers its fallback.
 */
module Database {
  import opened Wrappers
  import opened Text

  const DefaultPath := "omnistream_history.db"

  /** One row of `download_history`; None is SQL NULL. */
  datatype Record = Record(
    videoId: Option<string>, title: Option<string>, channelName: Option<string>, url: Option<string>,
    downloadDate: string, filePath: Option<string>, fileSize: int, platform: string,
    format: Option<string>, duration: Option<int>)

  /** The dictionary handed to `add_to_history`; None is an absent key. */
  datatype VideoInfo = VideoInfo(
    videoId: Option<string>, title: Option<string>, channelName: Option<string>, url: Option<string>,
    filePath: Option<string>, fileSize: Option<int>, platform: Option<string>,
    format: Option<string>, duration: Option<int>)

  type Table = seq<Record>

  /** The primary key: no id is held by two records. */
  predicate KeysUnique(t: Table) {
    forall i, j :: 0 <= i < j < |t| && t[i].videoId.Some? ==> t[i].videoId != t[j].videoId
  }

  /** The record `WHERE video_id = ?` selects. */
  function Lookup(t: Table, id: string): (r: Option<Record>)
    ensures r.Some? ==> r.value in t && r.value.videoId == Some(id)
    ensures r.None? ==> forall k :: 0 <= k < |t| ==> t[k].videoId != Some(id)
  {
    if |t| == 0 then None
    else if t[0].videoId == Some(id) then Some(t[0])
    else Lookup(t[1..], id)
  }

  /** `is_downloaded(video_id)`: False as well when the query raises. */
  function IsDownloaded(t: Table, id: string, failing: bool): (r: bool)
    ensures r <==> !failing && exists k :: 0 <= k < |t| && t[k].videoId == Some(id)
  {
    !failing && Lookup(t, id).Some?
  }

  // ---------------------------------------------------------------------
  // add_to_history

  /** The row written for `info` at `now` (`datetime.now().isoformat()`): size 0 and platform 'Unknown' when absent. */
  function RecordOf(info: VideoInfo, now: string): (r: Record)
    ensures r.videoId == info.videoId && r.downloadDate == now
    ensures r.fileSize == (if info.fileSize.Some? then info.fileSize.value else 0)
    ensures r.platform == (if info.platform.Some? then info.platform.value else "Unknown")
  {
    Record(info.videoId, info.title, info.channelName, info.url, now, info.filePath,
           info.fileSize.GetOr(0), info.platform.GetOr("Unknown"), info.format, info.duration)
  }

  /** The records whose id is not `id`, in order. */
  function Without(t: Table, id: string): (r: Table)
    ensures |r| <= |t|
    ensures forall k :: 0 <= k < |r| ==> r[k] in t && r[k].videoId != Some(id)
    ensures forall x :: x in t && x.videoId != Some(id) ==> x in r
  {
    if |t| == 0 then []
    else (if t[0].videoId == Some(id) then [] else [t[0]]) + Without(t[1..], id)
  }

  lemma UniqueTail(t: Table)
    requires KeysUnique(t) && |t| > 0
    ensures KeysUnique(t[1..])
  {
    forall i, j | 0 <= i < j < |t[1..]| && t[1..][i].videoId.Some? ensures t[1..][i].videoId != t[1..][j].videoId {
      assert t[1..][i] == t[i + 1] && t[1..][j] == t[j + 1];
    }
  }

  /** A record in front of records none of which shares its id keeps the key unique. */
  lemma UniqueCons(x: Record, rest: Table)
    requires KeysUnique(rest)
    requires forall k :: 0 <= k < |rest| && x.videoId.Some? ==> rest[k].videoId != x.videoId
    ensures KeysUnique([x] + rest)
  {
    var r := [x] + rest;
    forall i, j | 0 <= i < j < |r| && r[i].videoId.Some? ensures r[i].videoId != r[j].videoId {
      assert r[j] == rest[j - 1];
      if i > 0 {
        assert r[i] == rest[i - 1];
      }
    }
  }

  /** Dropping every record of `id` from a table with at most one keeps all the others. */
  lemma {:induction false} WithoutCount(t: Table, id: string)
    requires KeysUnique(t)
    ensures |Without(t, id)| == |t| - (if Lookup(t, id).Some? then 1 else 0)
    ensures KeysUnique(Without(t, id))
    decreases |t|
  {
    if |t| > 0 {
      UniqueTail(t);
      WithoutCount(t[1..], id);
      var rest := Without(t[1..], id);
      if t[0].videoId == Some(id) {
        assert Lookup(t[1..], id).None? by {
          forall k | 0 <= k < |t[1..]| ensures t[1..][k].videoId != Some(id) {
            assert t[1..][k] == t[k + 1];
          }
        }
      } else {
        forall k | 0 <= k < |rest| && t[0].videoId.Some? ensures rest[k].videoId != t[0].videoId {
          var m :| 0 <= m < |t[1..]| && t[1..][m] == rest[k];
          assert t[m + 1] == rest[k];
        }
        UniqueCons(t[0], rest);
      }
    }
  }

  /** `INSERT OR REPLACE`: a record with an id replaces the one holding that id; a NULL id never conflicts. */
  function InsertOrReplace(t: Table, rec: Record): Table {
    match rec.videoId
    case Some(id) => Without(t, id) + [rec]
    case None => t + [rec]
  }

  /** `add_to_history(video_info)`: True and the table with the new row, or False and the table as it was. */
  function AddToHistory(t: Table, info: VideoInfo, now: string, failing: bool): (r: (bool, Table))
    ensures r.0 <==> !failing
    ensures !r.0 ==> r.1 == t
    ensures r.0 ==> RecordOf(info, now) in r.1
  {
    if failing then (false, t) else (true, InsertOrReplace(t, RecordOf(info, now)))
  }

  /**
   * After a successful add the id is known and its record is the latest
   * one; every other id keeps its record; the key stays unique, and the
   * table grows by one unless the id was already there.
   */
  lemma AddThenLookup(t: Table, info: VideoInfo, now: string, other: string)
    requires KeysUnique(t) && info.videoId.Some?
    ensures var r := AddToHistory(t, info, now, false).1;
            IsDownloaded(r, info.videoId.value, false)
            && Lookup(r, info.videoId.value) == Some(RecordOf(info, now))
            && (other != info.videoId.value ==> Lookup(r, other) == Lookup(t, other))
            && KeysUnique(r)
            && |r| == |t| + (if Lookup(t, info.videoId.value).Some? then 0 else 1)
  {
    var id := info.videoId.value;
    var rec := RecordOf(info, now);
    var w := Without(t, id);
    var r := w + [rec];
    WithoutCount(t, id);
    LookupAppend(w, rec, id);
    if other != id {
      LookupAppend(w, rec, other);
      LookupWithout(t, id, other);
    }
  }

  /** Looking up in a table with one record appended. */
  lemma {:induction false} LookupAppend(t: Table, rec: Record, id: string)
    ensures Lookup(t + [rec], id) == if Lookup(t, id).Some? then Lookup(t, id) else if rec.videoId == Some(id) then Some(rec) else None
    decreases |t|
  {
    if |t| == 0 {
      assert t + [rec] == [rec];
    } else {
      assert (t + [rec])[0] == t[0];
      assert (t + [rec])[1..] == t[1..] + [rec];
      LookupAppend(t[1..], rec, id);
    }
  }

  /** Dropping the records of `id` does not change the lookup of another id. */
  lemma {:induction false} LookupWithout(t: Table, id: string, other: string)
    requires other != id
    ensures Lookup(Without(t, id), other) == Lookup(t, other)
    decreases |t|
  {
    if |t| > 0 {
      LookupWithout(t[1..], id, other);
      if t[0].videoId != Some(id) {
        assert ([t[0]] + Without(t[1..], id))[1..] == Without(t[1..], id);
      } else {
        assert [] + Without(t[1..], id) == Without(t[1..], id);
      }
    }
  }

  /** Adding the same id twice leaves one record, the second. */
  lemma LatestAddWins(t: Table, a: VideoInfo, b: VideoInfo, now1: string, now2: string)
    requires KeysUnique(t) && a.videoId.Some? && b.videoId == a.videoId
    ensures var t2 := AddToHistory(AddToHistory(t, a, now1, false).1, b, now2, false).1;
            Lookup(t2, a.videoId.value) == Some(RecordOf(b, now2))
            && |t2| == |AddToHistory(t, a, now1, false).1|
  {
    var t1 := AddToHistory(t, a, now1, false).1;
    AddThenLookup(t, a, now1, a.videoId.value);
    AddThenLookup(t1, b, now2, a.videoId.value);
  }

  // ---------------------------------------------------------------------
  // clear_history

  /** `clear_history()`: True and an empty table, or False and the table as it was. */
  function ClearHistory(t: Table, failing: bool): (r: (bool, Table))
    ensures r.0 <==> !failing
    ensures r.0 ==> forall id :: !IsDownloaded(r.1, id, false)
    ensures !r.0 ==> r.1 == t
  {
    if failing then (false, t) else (true, [])
  }

  // ---------------------------------------------------------------------
  // get_recent

  /** Newest first: no record is older than one after it. */
  predicate NewestFirst(s: seq<Record>) {
    forall i, j :: 0 <= i < j < |s| ==> !LexLess(s[i].downloadDate, s[j].downloadDate)
  }

  /** "Not older than" is transitive on date text. */
  lemma NotOlderTransitive(a: string, b: string, c: string)
    requires !LexLess(a, b) && !LexLess(b, c)
    ensures !LexLess(a, c)
  {
    if LexLess(a, c) {
      if b == c {
      } else {
        LexLessTotal(b, c);
        LexLessTransitive(a, c, b);
      }
    }
  }

  /** Places `x` before the first record strictly older than it. */
  function Insert(x: Record, s: seq<Record>): (r: seq<Record>)
    ensures multiset(r) == multiset(s) + multiset{x}
  {
    if |s| == 0 then [x]
    else if !LexLess(x.downloadDate, s[0].downloadDate) then [x] + s
    else
      assert s == [s[0]] + s[1..];
      [s[0]] + Insert(x, s[1..])
  }

  lemma {:induction false} InsertKeepsOrder(x: Record, s: seq<Record>)
    requires NewestFirst(s)
    ensures NewestFirst(Insert(x, s))
    decreases |s|
  {
    if |s| > 0 {
      var r := Insert(x, s);
      if !LexLess(x.downloadDate, s[0].downloadDate) {
        forall j | 0 < j < |r| ensures !LexLess(r[0].downloadDate, r[j].downloadDate) {
          if j > 1 {
            NotOlderTransitive(x.downloadDate, s[0].downloadDate, s[j - 1].downloadDate);
          }
        }
      } else {
        InsertKeepsOrder(x, s[1..]);
        var rest := Insert(x, s[1..]);
        assert NewestFirst(s[1..]) by {
          forall i, j | 0 <= i < j < |s[1..]| ensures !LexLess(s[1..][i].downloadDate, s[1..][j].downloadDate) {
            assert s[1..][i] == s[i + 1] && s[1..][j] == s[j + 1];
          }
        }
        forall j | 0 <= j < |rest| ensures !LexLess(s[0].downloadDate, rest[j].downloadDate) {
          assert rest[j] in multiset(rest);
          if rest[j] == x {
            LexLessAsymmetric(x.downloadDate, s[0].downloadDate);
          } else {
            assert rest[j] in multiset(s[1..]);
            var m :| 0 <= m < |s[1..]| && s[1..][m] == rest[j];
            assert s[m + 1] == rest[j];
          }
        }
        assert r == [s[0]] + rest;
      }
    }
  }

  /** The table ordered by `download_date DESC`. */
  function ByDateDesc(t: Table): (r: seq<Record>)
    ensures multiset(r) == multiset(t)
  {
    if |t| == 0 then []
    else
      assert t == [t[0]] + t[1..];
      Insert(t[0], ByDateDesc(t[1..]))
  }

  lemma {:induction false} ByDateDescOrdered(t: Table)
    ensures NewestFirst(ByDateDesc(t))
    decreases |t|
  {
    if |t| > 0 {
      ByDateDescOrdered(t[1..]);
      InsertKeepsOrder(t[0], ByDateDesc(t[1..]));
    }
  }

  /** SQLite's `LIMIT n`: a negative limit is no limit. */
  function Limit<T>(s: seq<T>, n: int): (r: seq<T>)
    ensures |r| == if n < 0 || n > |s| then |s| else n
    ensures r == s[..|r|]
  {
    if n < 0 || n > |s| then s else s[..n]
  }

  /** The columns `get_recent` selects. */
  datatype Recent = Recent(videoId: Option<string>, title: Option<string>, channelName: Option<string>, platform: string, downloadDate: string)

  function Columns(r: Record): Recent {
    Recent(r.videoId, r.title, r.channelName, r.platform, r.downloadDate)
  }

  /** The records `get_recent(limit)` returns, before projection: the newest `limit`, newest first. */
  function RecentRecords(t: Table, limit: int): (r: seq<Record>)
    ensures |r| == if limit < 0 || limit > |t| then |t| else limit
  {
    Limit(ByDateDesc(t), limit)
  }

  /** `get_recent(limit)`: the selected columns of the newest records; an empty list when the query raises. */
  function GetRecent(t: Table, limit: int, failing: bool): (r: seq<Recent>)
    ensures failing ==> r == []
    ensures !failing ==> |r| == if limit < 0 || limit > |t| then |t| else limit
  {
    if failing then []
    else
      var recs := RecentRecords(t, limit);
      seq(|recs|, k requires 0 <= k < |recs| => Columns(recs[k]))
  }

  /**
   * What `get_recent` selects: records of the table, newest first, and no
   * record left out is newer than the last one returned.
   */
  lemma RecentIsNewest(t: Table, limit: int, r: seq<Record>)
    requires r == RecentRecords(t, limit)
    ensures NewestFirst(r)
    ensures multiset(r) <= multiset(t)
    ensures |r| > 0 ==> forall x :: x in multiset(t) - multiset(r) ==> !LexLess(r[|r| - 1].downloadDate, x.downloadDate)
  {
    ByDateDescOrdered(t);
    PrefixIsNewest(ByDateDesc(t), r);
  }

  /** A prefix of a list ordered newest first is ordered, and nothing it leaves out is newer than its last record. */
  lemma PrefixIsNewest(s: seq<Record>, r: seq<Record>)
    requires NewestFirst(s) && |r| <= |s| && r == s[..|r|]
    ensures NewestFirst(r)
    ensures multiset(r) <= multiset(s)
    ensures |r| > 0 ==> forall x :: x in multiset(s) - multiset(r) ==> !LexLess(r[|r| - 1].downloadDate, x.downloadDate)
  {
    var n := |r|;
    assert s == r + s[n..];
    assert multiset(s) == multiset(r) + multiset(s[n..]);
    if n > 0 {
      forall x | x in multiset(s) - multiset(r) ensures !LexLess(r[n - 1].downloadDate, x.downloadDate) {
        assert x in multiset(s[n..]);
        LeftOutNotNewer(s, n, x);
      }
    }
  }

  /** In a list ordered newest first, nothing after position `n - 1` is newer than the record there. */
  lemma LeftOutNotNewer(s: seq<Record>, n: nat, x: Record)
    requires NewestFirst(s) && 0 < n <= |s| && x in multiset(s[n..])
    ensures !LexLess(s[n - 1].downloadDate, x.downloadDate)
  {
    var m :| 0 <= m < |s[n..]| && s[n..][m] == x;
    assert s[n + m] == x;
  }

  // ---------------------------------------------------------------------
  // get_stats

  /** `dict(SELECT platform, COUNT(*) ... GROUP BY platform)`, one entry per platform. */
  function Bump(counts: seq<(string, nat)>, p: string): (r: seq<(string, nat)>)
  {
    if |counts| == 0 then [(p, 1)]
    else if counts[0].0 == p then [(p, counts[0].1 + 1)] + counts[1..]
    else [counts[0]] + Bump(counts[1..], p)
  }

  function Total(counts: seq<(string, nat)>): nat {
    if |counts| == 0 then 0 else counts[0].1 + Total(counts[1..])
  }

  function CountOf(counts: seq<(string, nat)>, p: string): nat {
    if |counts| == 0 then 0 else (if counts[0].0 == p then counts[0].1 else 0) + CountOf(counts[1..], p)
  }

  predicate KeysDistinct(counts: seq<(string, nat)>) {
    forall i, j :: 0 <= i < j < |counts| ==> counts[i].0 != counts[j].0
  }

  /** Counting one more record: the total and the record's platform go up by one, and the keys stay distinct. */
  lemma {:induction false} BumpCounts(counts: seq<(string, nat)>, p: string, q: string)
    requires KeysDistinct(counts)
    ensures Total(Bump(counts, p)) == Total(counts) + 1
    ensures CountOf(Bump(counts, p), q) == CountOf(counts, q) + (if p == q then 1 else 0)
    ensures KeysDistinct(Bump(counts, p))
    ensures forall k :: 0 <= k < |Bump(counts, p)| ==> Bump(counts, p)[k].0 == p || (exists m :: 0 <= m < |counts| && counts[m].0 == Bump(counts, p)[k].0)
    decreases |counts|
  {
    if |counts| > 0 {
      var rest := counts[1..];
      assert KeysDistinct(rest) by {
        forall i, j | 0 <= i < j < |rest| ensures rest[i].0 != rest[j].0 {
          assert rest[i] == counts[i + 1] && rest[j] == counts[j + 1];
        }
      }
      if counts[0].0 == p {
        var r := Bump(counts, p);
        assert r[1..] == rest;
        forall k | 0 <= k < |r| ensures r[k].0 == p || (exists m :: 0 <= m < |counts| && counts[m].0 == r[k].0) {
          if k > 0 { assert counts[k].0 == r[k].0; }
        }
      } else {
        BumpCounts(rest, p, q);
        var b := Bump(rest, p);
        var r := [counts[0]] + b;
        assert r[1..] == b;
        forall k | 0 <= k < |r| ensures r[k].0 == p || (exists m :: 0 <= m < |counts| && counts[m].0 == r[k].0) {
          if k > 0 {
            assert r[k] == b[k - 1];
            if b[k - 1].0 != p {
              var m :| 0 <= m < |rest| && rest[m].0 == b[k - 1].0;
              assert counts[m + 1].0 == r[k].0;
            }
          }
        }
        forall i, j | 0 <= i < j < |r| ensures r[i].0 != r[j].0 {
          if i == 0 {
            assert r[j] == b[j - 1];
            if b[j - 1].0 != p {
              var m :| 0 <= m < |rest| && rest[m].0 == b[j - 1].0;
              assert counts[m + 1].0 == r[j].0;
            }
          } else {
            assert r[i] == b[i - 1] && r[j] == b[j - 1];
          }
        }
      }
    }
  }

  /** The per-platform counts of the table. */
  function Platforms(t: Table): seq<(string, nat)>
    decreases |t|
  {
    if |t| == 0 then [] else Bump(Platforms(t[..|t| - 1]), t[|t| - 1].platform)
  }

  /** How many records carry platform `p`. */
  function WithPlatform(t: Table, p: string): nat
    decreases |t|
  {
    if |t| == 0 then 0 else WithPlatform(t[..|t| - 1], p) + (if t[|t| - 1].platform == p then 1 else 0)
  }

  /** The counts name each platform once, count its records, and sum to the table's size. */
  lemma {:induction false} PlatformsCount(t: Table, p: string)
    ensures KeysDistinct(Platforms(t))
    ensures Total(Platforms(t)) == |t|
    ensures CountOf(Platforms(t), p) == WithPlatform(t, p)
    decreases |t|
  {
    if |t| > 0 {
      PlatformsCount(t[..|t| - 1], p);
      BumpCounts(Platforms(t[..|t| - 1]), t[|t| - 1].platform, p);
    }
  }

  /** The integer part of `get_stats()`; the size in GB and the seven-day count are left out. */
  datatype Stats = Stats(totalDownloads: nat, platforms: seq<(string, nat)>)

  /** `get_stats()`: zeros and no platforms when a query raises. */
  function GetStats(t: Table, failing: bool): (r: Stats)
    ensures failing ==> r == Stats(0, [])
    ensures r.totalDownloads == Total(r.platforms)
    ensures !failing ==> r.totalDownloads == |t|
  {
    if failing then Stats(0, [])
    else
      PlatformsCount(t, "");
      Stats(|t|, Platforms(t))
  }

  // ---------------------------------------------------------------------
  // get_history

  /** `DownloadHistory(db_path)`; the database file is its state. */
  datatype Handle = Handle(dbPath: string)

  /** The module-level `_history_instance`. */
  datatype Registry = Registry(instance: Option<Handle>)

  /**
   * `get_history()`: the existing instance, or a new one on the default
   * path; creating it raises when the tables cannot be created.
   */
  function GetHistory(reg: Registry, initFails: bool): (r: Outcome<(Handle, Registry)>)
    ensures reg.instance.Some? ==> r == Done((reg.instance.value, reg))
    ensures r.Done? ==> r.value.1.instance == Some(r.value.0)
    ensures r.Raised? ==> reg.instance.None? && initFails
  {
    match reg.instance
    case Some(h) => Done((h, reg))
    case None => if initFails then Raised("Database initialization failed") else Done((Handle(DefaultPath), Registry(Some(Handle(DefaultPath)))))
  }

  /** A second call returns the instance of the first, whatever the database does then. */
  lemma SameInstance(reg: Registry, initFails: bool, laterFails: bool)
    requires GetHistory(reg, initFails).Done?
    ensures var (h, reg2) := GetHistory(reg, initFails).value;
            GetHistory(reg2, laterFails) == Done((h, reg2))
  {
  }
}

=== FILE: date_input.dfy ===
/**
 * The free-text date resolver of the filter builder (`parse_date_input`,
 * dynamic_filter_builder.py): a relative phrase, a "last N days" phrase or
 * one of four absolute layouts becomes the compact `YYYYMMDD` string
 * yt-dlp takes for `dateafter` / `datebefore`.
 *
 * The clock is the parameter `now`. Exceptions Python lets escape (an
 * `OverflowError` when the day offset is too large, a `ValueError` for a
 * digit string longer than Python's conversion limit) are `Raised`.
 */
module DateInput {
  import opened Wrappers
  import opened Text
  import opened Dates

  /** The day offsets of the relative phrases, compared after lower-casing and stripping. */
  function KeywordDays(t: string): Option<nat> {
    if t == "today" then Some(0)
    else if t == "yesterday" then Some(1)
    else if t == "this week" || t == "last 7 days" then Some(7)
    else if t == "this month" || t == "last 30 days" then Some(30)
    else if t == "last week" then Some(14)
    else if t == "last month" then Some(60)
    else None
  }

  /** The number of ASCII digits in the run starting at `pos`. */
  function DigitRun(s: string, pos: nat): (n: nat)
    requires pos <= |s|
    ensures pos + n <= |s| && AllDigits(s[pos..pos + n])
    ensures pos + n < |s| ==> !IsDigit(s[pos + n])
    decreases |s| - pos
  {
    if pos < |s| && IsDigit(s[pos]) then
      var n := 1 + DigitRun(s, pos + 1);
      assert s[pos..pos + n] == [s[pos]] + s[pos + 1..pos + n];
      n
    else 0
  }

  /**
   * The pattern `last (\d+) days?` matches at `p`: "last ", then the
   * greedy run of digits (a shorter run would leave a digit where the
   * blank must be), then " day".
   */
  predicate LastDaysAt(s: string, p: nat) {
    OccursAt(s, "last ", p) && DigitRun(s, p + 5) > 0 && OccursAt(s, " day", p + 5 + DigitRun(s, p + 5))
  }

  /** `re.search`: the leftmost position at or after `from` where the pattern matches. */
  function FindLastDays(s: string, from: nat): (r: Option<nat>)
    requires from <= |s|
    ensures r.Some? ==> from <= r.value && LastDaysAt(s, r.value)
    ensures r.Some? ==> forall p :: from <= p < r.value ==> !LastDaysAt(s, p)
    ensures r.None? ==> forall p :: from <= p ==> !LastDaysAt(s, p)
    decreases |s| - from
  {
    if from + 5 > |s| then None
    else if LastDaysAt(s, from) then Some(from)
    else FindLastDays(s, from + 1)
  }

  /** The captured group of `last (\d+) days?`, if the pattern occurs. */
  function LastDaysGroup(s: string): (r: Option<string>)
    ensures r.Some? ==> |r.value| > 0 && AllDigits(r.value)
    ensures r.Some? <==> exists p :: LastDaysAt(s, p)
  {
    match FindLastDays(s, 0)
    case None => None
    case Some(p) => Some(s[p + 5..p + 5 + DigitRun(s, p + 5)])
  }

  /** The largest magnitude `timedelta(days=...)` accepts. */
  const MaxDeltaDays := 999999999

  /** `(now - timedelta(days=k)).strftime('%Y%m%d')`. */
  function DaysBack(now: Date, k: nat): (r: Outcome<Option<string>>)
    requires Valid(now)
    ensures r.Done? <==> k < Ordinal(now)
    ensures r.Done? ==> r.value.Some? && exists d :: Valid(d) && Ordinal(d) == Ordinal(now) - k && r.value.value == FormatYmd(d)
  {
    OrdinalUpper(now);
    if k > MaxDeltaDays then Raised("OverflowError: days out of range")
    else if k >= Ordinal(now) then Raised("OverflowError: date value out of range")
    else
      var d := SubtractDays(now, k);
      Done(Some(FormatYmd(d)))
  }

  /** The absolute layouts, in the order they are tried. */
  const Layouts: seq<seq<Piece>> := [IsoDate, UsDate, DayFirstDate, CompactDate]

  /** The date read by the first layout `strptime` accepts. */
  function FirstLayout(s: string, layouts: seq<seq<Piece>>): (r: Option<Date>)
    ensures r.Some? ==> Valid(r.value)
    ensures r.Some? ==> exists k :: 0 <= k < |layouts| && Strptime(layouts[k], s).Some? && Strptime(layouts[k], s).value.date == r.value
    ensures r.Some? <==> exists k :: 0 <= k < |layouts| && Strptime(layouts[k], s).Some?
  {
    if |layouts| == 0 then None
    else match Strptime(layouts[0], s)
      case Some(st) => Some(st.date)
      case None =>
        var r := FirstLayout(s, layouts[1..]);
        assert forall k :: 1 <= k < |layouts| ==> layouts[k] == layouts[1..][k - 1];
        r
  }

  /** The lower-cased, stripped text the phrases and the pattern are compared with. */
  function Phrase(s: string): string {
    Strip(Lower(s))
  }

  /**
   * `parse_date_input(date_str)`: `Done(None)` for a missing or empty input
   * and for text nothing recognises, `Done(Some(yyyymmdd))` on success.
   */
  function ParseDateInput(input: Option<string>, now: Date): (r: Outcome<Option<string>>)
    requires Valid(now)
    ensures input.None? || input == Some("") ==> r == Done(None)
    ensures r.Done? && r.value.Some? ==> exists d :: Valid(d) && r.value.value == FormatYmd(d)
    ensures input.Some? && input.value != "" && KeywordDays(Phrase(input.value)).Some? ==>
      var k := KeywordDays(Phrase(input.value)).value;
      (r.Done? <==> k < Ordinal(now)) &&
      (r.Done? ==> r.value.Some? && exists d :: Valid(d) && Ordinal(d) == Ordinal(now) - k && r.value.value == FormatYmd(d))
  {
    if input.None? || input.value == "" then Done(None)
    else
      var s := input.value;
      var t := Phrase(s);
      match KeywordDays(t)
      case Some(k) => DaysBack(now, k)
      case None =>
        match LastDaysGroup(t)
        case Some(digits) =>
          if |digits| > MaxIntDigits then Raised("ValueError: exceeds the limit for integer string conversion")
          else DaysBack(now, DigitsValue(digits))
        case None =>
          match FirstLayout(s, Layouts)
          case Some(d) => Done(Some(FormatYmd(d)))
          case None => Done(None)
  }

  // ---------------------------------------------------------------------
  // Properties

  /** Text made of digits and the layout separators alone. */
  predicate NumericText(s: string) {
    forall i :: 0 <= i < |s| ==> IsDigit(s[i]) || s[i] == '/' || s[i] == '-'
  }

  /** Such text is its own phrase, names no relative day and holds no "last N days". */
  lemma NumericTextIsNoPhrase(s: string)
    requires NumericText(s)
    ensures Phrase(s) == s
    ensures KeywordDays(s).None?
    ensures LastDaysGroup(s).None?
  {
    LowerOfLower(s);
    StripOfStripped(s);
    forall p: nat ensures !LastDaysAt(s, p) {
      if p + 5 <= |s| {
        assert s[p..p + 5][0] == s[p] != 'l';
      }
    }
  }

  /** Text that is no relative phrase and no "last N days" goes to the absolute layouts. */
  lemma ParseFallsToLayouts(s: string, now: Date)
    requires Valid(now) && s != ""
    requires KeywordDays(Phrase(s)).None? && LastDaysGroup(Phrase(s)).None?
    ensures FirstLayout(s, Layouts).Some? ==> ParseDateInput(Some(s), now) == Done(Some(FormatYmd(FirstLayout(s, Layouts).value)))
    ensures FirstLayout(s, Layouts).None? ==> ParseDateInput(Some(s), now) == Done(None)
  {
  }

  /** A relative phrase resolves to the date that many days back. */
  lemma ParseKeyword(s: string, now: Date)
    requires Valid(now) && s != "" && KeywordDays(Phrase(s)).Some?
    ensures ParseDateInput(Some(s), now) == DaysBack(now, KeywordDays(Phrase(s)).value)
  {
  }

  /**
   * A "last N days" phrase that is not one of the fixed phrases resolves to
   * the date N days back, N being the digits after the first "last "; a
   * digit string longer than Python's conversion limit raises.
   */
  lemma LastDaysRule(s: string, now: Date)
    requires Valid(now) && s != ""
    requires KeywordDays(Phrase(s)).None? && LastDaysGroup(Phrase(s)).Some?
    ensures var g := LastDaysGroup(Phrase(s)).value;
            |g| <= MaxIntDigits ==> ParseDateInput(Some(s), now) == DaysBack(now, DigitsValue(g))
    ensures |LastDaysGroup(Phrase(s)).value| > MaxIntDigits ==> ParseDateInput(Some(s), now).Raised?
  {
  }

  /** "show last 5 days" holds the pattern at 5, with the group "5". */
  lemma LastFiveDaysGroup()
    ensures LastDaysGroup("show last 5 days") == Some("5")
  {
    var t := "show last 5 days";
    assert !IsDigit(t[11]);
    assert DigitRun(t, 11) == 0;
    assert IsDigit(t[10]);
    assert DigitRun(t, 10) == 1;
    assert t[5..10] == "last " by {
      assert t[5..10][0] == 'l' && t[5..10][1] == 'a' && t[5..10][2] == 's' && t[5..10][3] == 't' && t[5..10][4] == ' ';
    }
    assert t[11..15] == " day" by {
      assert t[11..15][0] == ' ' && t[11..15][1] == 'd' && t[11..15][2] == 'a' && t[11..15][3] == 'y';
    }
    assert LastDaysAt(t, 5);
    assert FindLastDays(t, 5) == Some(5);
    NotLastAt(t, 4);
    assert FindLastDays(t, 4) == Some(5);
    NotLastAt(t, 3);
    assert FindLastDays(t, 3) == Some(5);
    NotLastAt(t, 2);
    assert FindLastDays(t, 2) == Some(5);
    NotLastAt(t, 1);
    assert FindLastDays(t, 1) == Some(5);
    NotLastAt(t, 0);
    assert FindLastDays(t, 0) == Some(5);
    assert t[10..11] == "5";
  }

  /** The pattern cannot start where the text has no 'l'. */
  lemma NotLastAt(t: string, p: nat)
    requires p < |t| && t[p] != 'l'
    ensures !LastDaysAt(t, p)
  {
    if p + 5 <= |t| {
      assert t[p..p + 5][0] == t[p];
    }
  }

  /** "Show last 5 days" resolves to the date five days back. */
  lemma LastFiveDaysExample(now: Date)
    requires Valid(now)
    ensures ParseDateInput(Some("Show last 5 days"), now) == DaysBack(now, 5)
  {
    ShowLastFivePhrase();
    LastFiveDaysGroup();
    LastDaysRule("Show last 5 days", now);
    assert DigitsValue("5") == 5 by {
      assert "5"[..0] == "";
    }
  }

  /** "Show last 5 days" reads as the phrase "show last 5 days", which is none of the fixed ones. */
  lemma ShowLastFivePhrase()
    ensures Phrase("Show last 5 days") == "show last 5 days"
    ensures KeywordDays("show last 5 days").None?
  {
    var t := "show last 5 days";
    assert Lower("Show last 5 days") == t by {
      forall i | 0 <= i < |t| ensures Lower("Show last 5 days")[i] == t[i] {
      }
    }
    StripOfStripped(t);
    assert t[0] != "today"[0] && t[0] != "yesterday"[0] && t[0] != "this week"[0] && t[0] != "last 7 days"[0];
    assert t[0] != "last week"[0] && t[0] != "last month"[0];
  }

  /** A compact rendering fails the three separator layouts and is read by the compact one. */
  lemma CompactLayoutReads(t: string, d: Date)
    requires Valid(d) && t == FormatYmd(d)
    ensures FirstLayout(t, Layouts) == Some(d)
  {
    LiteralFailsOnDigits(IsoDate, t, 0, 1);
    LiteralFailsOnDigits(UsDate, t, 0, 1);
    LiteralFailsOnDigits(DayFirstDate, t, 0, 1);
    StrptimeCompact(d);
    assert Layouts[1..][1..][1..][0] == CompactDate;
    assert FirstLayout(t, Layouts[3..]) == Some(d);
    assert FirstLayout(t, Layouts[2..]) == Some(d);
    assert FirstLayout(t, Layouts[1..]) == Some(d);
  }

  /** A resolved date re-parses to itself: the resolver is idempotent on its own output. */
  lemma ParseDateIdempotent(input: Option<string>, now: Date, t: string)
    requires Valid(now) && ParseDateInput(input, now) == Done(Some(t))
    ensures ParseDateInput(Some(t), now) == Done(Some(t))
  {
    var d :| Valid(d) && t == FormatYmd(d);
    NumericTextIsNoPhrase(t);
    CompactLayoutReads(t, d);
    ParseFallsToLayouts(t, now);
  }

  /** `mm/dd/yyyy` text naming a real date resolves through the US layout. */
  lemma UsLayoutWins(d: Date, now: Date)
    requires Valid(d) && Valid(now)
    ensures ParseDateInput(Some(Fixed(d.month, 2) + "/" + Fixed(d.day, 2) + "/" + Fixed(d.year, 4)), now) == Done(Some(FormatYmd(d)))
  {
    var s := Fixed(d.month, 2) + "/" + Fixed(d.day, 2) + "/" + Fixed(d.year, 4);
    assert NumericText(s);
    NumericTextIsNoPhrase(s);
    YearFirstNeedsFourDigits(IsoDate, s, 2);
    StrptimeUs(d);
    assert FirstLayout(s, Layouts[1..]) == Some(d);
    assert FirstLayout(s, Layouts) == Some(d);
  }

  /**
   * `dd/mm/yyyy` text whose day is 13 or more is no US date, so it falls
   * through to the day-first layout.
   */
  lemma DayFirstFallback(d: Date, now: Date)
    requires Valid(d) && Valid(now) && d.day >= 13
    ensures ParseDateInput(Some(Fixed(d.day, 2) + "/" + Fixed(d.month, 2) + "/" + Fixed(d.year, 4)), now) == Done(Some(FormatYmd(d)))
  {
    var s := Fixed(d.day, 2) + "/" + Fixed(d.month, 2) + "/" + Fixed(d.year, 4);
    assert NumericText(s);
    NumericTextIsNoPhrase(s);
    DayFirstLayout(d, s);
  }

  lemma DayFirstLayout(d: Date, s: string)
    requires Valid(d) && d.day >= 13
    requires s == Fixed(d.day, 2) + "/" + Fixed(d.month, 2) + "/" + Fixed(d.year, 4)
    ensures FirstLayout(s, Layouts) == Some(d)
  {
    YearFirstNeedsFourDigits(IsoDate, s, 2);
    assert s[..2] == Fixed(d.day, 2);
    UsRejectsNonMonth(s, d.day);
    StrptimeDayFirst(d);
    assert FirstLayout(s, Layouts[2..]) == Some(d);
    assert FirstLayout(s, Layouts[1..]) == Some(d);
  }

  lemma FixedExamples()
    ensures Fixed(1, 2) == "01" && Fixed(2, 2) == "02" && Fixed(13, 2) == "13"
  {
    assert Fixed(0, 1) == "0" && Fixed(1, 1) == "1";
  }

  lemma FixedYearExamples()
    ensures Fixed(2024, 4) == "2024" && Fixed(2025, 4) == "2025"
  {
    assert Fixed(2, 1) == "2";
    assert Fixed(20, 2) == "20";
    assert Fixed(202, 3) == "202";
  }

  lemma UsExampleText()
    ensures Fixed(1, 2) + "/" + Fixed(2, 2) + "/" + Fixed(2024, 4) == "01/02/2024"
    ensures FormatYmd(Date(2024, 1, 2)) == "20240102"
  {
    FixedExamples();
    FixedYearExamples();
  }

  /** "01/02/2024" is read month first. */
  lemma UsExample(now: Date)
    requires Valid(now)
    ensures ParseDateInput(Some("01/02/2024"), now) == Done(Some("20240102"))
  {
    UsExampleText();
    UsLayoutWins(Date(2024, 1, 2), now);
  }

  lemma DayFirstExampleText()
    ensures Fixed(13, 2) + "/" + Fixed(2, 2) + "/" + Fixed(2024, 4) == "13/02/2024"
    ensures FormatYmd(Date(2024, 2, 13)) == "20240213"
  {
    FixedExamples();
    FixedYearExamples();
  }

  /** "13/02/2024" has no thirteenth month and is read day first. */
  lemma DayFirstExample(now: Date)
    requires Valid(now)
    ensures ParseDateInput(Some("13/02/2024"), now) == Done(Some("20240213"))
  {
    DayFirstExampleText();
    DayFirstFallback(Date(2024, 2, 13), now);
  }

  lemma LastWeekPhrase()
    ensures Phrase("last week") == "last week"
  {
    LowerOfLower("last week");
    StripOfStripped("last week");
  }

  /** "last week" within a month is fourteen days earlier in that month. */
  lemma LastWeekSameMonth(now: Date)
    requires Valid(now) && now.day > 14
    ensures ParseDateInput(Some("last week"), now) == Done(Some(FormatYmd(Date(now.year, now.month, now.day - 14))))
  {
    LastWeekPhrase();
    assert KeywordDays("last week") == Some(14);
    ParseKeyword("last week", now);
    assert SubtractDays(now, 14) == Date(now.year, now.month, now.day - 14);
  }

  lemma LastWeekExampleText()
    ensures FormatYmd(Date(2025, 1, 1)) == "20250101"
  {
    FixedExamples();
    FixedYearExamples();
  }

  /** "last week" on 2025-01-15 resolves to 2025-01-01. */
  lemma LastWeekExample()
    ensures ParseDateInput(Some("last week"), Date(2025, 1, 15)) == Done(Some("20250101"))
  {
    LastWeekSameMonth(Date(2025, 1, 15));
    LastWeekExampleText();
  }
}

=== FILE: dates.dfy ===
/**
 * Proleptic Gregorian dates as Python's `datetime.date` has them, the day
 * arithmetic behind `now - timedelta(days=k)`, the compact `%Y%m%d`
 * rendering of `strftime`, and the regular-expression matcher that
 * CPython's `datetime.strptime` builds for a format.
 *
 * `strptime` compiles each directive into an alternation, matches it
 * against the data with `re.match` (leftmost alternative first, with
 * backtracking into later alternatives only when the rest of the pattern
 * fails), insists that the match consume the whole text, and then builds
 * the date, which fails when the day does not exist in that month.
 */
module Dates {
  import opened Wrappers
  import opened Text

  // ---------------------------------------------------------------------
  // The civil calendar

  datatype Date = Date(year: int, month: int, day: int)

  const MinYear := 1
  const MaxYear := 9999

  predicate IsLeap(y: int) {
    y % 4 == 0 && (y % 100 != 0 || y % 400 == 0)
  }

  function DaysIn(y: int, m: int): int {
    if m == 2 then (if IsLeap(y) then 29 else 28)
    else if m == 4 || m == 6 || m == 9 || m == 11 then 30
    else 31
  }

  function DaysInYear(y: int): int {
    if IsLeap(y) then 366 else 365
  }

  /** A date `datetime.date` accepts: year 1 to 9999 and a day that exists in its month. */
  predicate Valid(d: Date) {
    MinYear <= d.year <= MaxYear && 1 <= d.month <= 12 && 1 <= d.day <= DaysIn(d.year, d.month)
  }

  function DaysBeforeYear(y: int): nat
    requires y >= 1
  {
    if y == 1 then 0 else DaysBeforeYear(y - 1) + DaysInYear(y - 1)
  }

  function DaysBeforeMonth(y: int, m: int): nat
    requires 1 <= m <= 12
  {
    if m == 1 then 0 else DaysBeforeMonth(y, m - 1) + DaysIn(y, m - 1)
  }

  /** Python's `date.toordinal()`: 0001-01-01 is day 1. */
  function Ordinal(d: Date): (r: int)
    requires Valid(d)
    ensures r >= d.day >= 1
  {
    DaysBeforeYear(d.year) + DaysBeforeMonth(d.year, d.month) + d.day
  }

  /** The twelve months fill the year. */
  lemma MonthsFillYear(y: int)
    ensures DaysBeforeMonth(y, 12) + DaysIn(y, 12) == DaysInYear(y)
  {
    assert DaysBeforeMonth(y, 2) == 31;
    assert DaysBeforeMonth(y, 3) == 31 + DaysIn(y, 2);
    assert DaysBeforeMonth(y, 4) == 62 + DaysIn(y, 2);
    assert DaysBeforeMonth(y, 5) == 92 + DaysIn(y, 2);
    assert DaysBeforeMonth(y, 6) == 123 + DaysIn(y, 2);
    assert DaysBeforeMonth(y, 7) == 153 + DaysIn(y, 2);
    assert DaysBeforeMonth(y, 8) == 184 + DaysIn(y, 2);
    assert DaysBeforeMonth(y, 9) == 215 + DaysIn(y, 2);
    assert DaysBeforeMonth(y, 10) == 245 + DaysIn(y, 2);
    assert DaysBeforeMonth(y, 11) == 276 + DaysIn(y, 2);
    assert DaysBeforeMonth(y, 12) == 306 + DaysIn(y, 2);
  }

  /** The last day of the month before `d`'s month. */
  function EndOfPreviousMonth(d: Date): (r: Date)
    requires Valid(d) && Ordinal(d) > d.day
    ensures Valid(r) && Ordinal(r) == Ordinal(d) - d.day
  {
    if d.month > 1 then
      Date(d.year, d.month - 1, DaysIn(d.year, d.month - 1))
    else
      MonthsFillYear(d.year - 1);
      Date(d.year - 1, 12, 31)
  }

  /**
   * `d - timedelta(days=k)`, defined whenever the result is not before
   * 0001-01-01 (Python raises OverflowError otherwise).
   */
  function SubtractDays(d: Date, k: nat): (r: Date)
    requires Valid(d) && k < Ordinal(d)
    ensures Valid(r) && Ordinal(r) == Ordinal(d) - k
    decreases k
  {
    if k < d.day then Date(d.year, d.month, d.day - k)
    else SubtractDays(EndOfPreviousMonth(d), k - d.day)
  }

  /** Chronological order on dates, field by field. */
  predicate Before(a: Date, b: Date) {
    a.year < b.year || (a.year == b.year && (a.month < b.month || (a.month == b.month && a.day < b.day)))
  }

  lemma {:induction false} DaysBeforeYearMonotone(a: int, b: int)
    requires 1 <= a <= b
    ensures DaysBeforeYear(a) + (b - a) * 365 <= DaysBeforeYear(b)
    decreases b - a
  {
    if a < b { DaysBeforeYearMonotone(a, b - 1); }
  }

  lemma {:induction false} DaysBeforeMonthMonotone(y: int, a: int, b: int)
    requires 1 <= a <= b <= 12
    ensures DaysBeforeMonth(y, a) + (b - a) * 28 <= DaysBeforeMonth(y, b)
    decreases b - a
  {
    if a < b { DaysBeforeMonthMonotone(y, a, b - 1); }
  }

  lemma DaysBeforeMonthBound(y: int, m: int)
    requires 1 <= m <= 12
    ensures DaysBeforeMonth(y, m) + DaysIn(y, m) <= DaysInYear(y)
  {
    MonthsFillYear(y);
    DaysBeforeMonthMonotone(y, m, 12);
    if m < 12 {
      assert DaysBeforeMonth(y, m + 1) == DaysBeforeMonth(y, m) + DaysIn(y, m);
      DaysBeforeMonthMonotone(y, m + 1, 12);
    }
  }

  lemma {:induction false} DaysBeforeYearUpper(y: int)
    requires y >= 1
    ensures DaysBeforeYear(y) <= (y - 1) * 366
  {
    if y > 1 { DaysBeforeYearUpper(y - 1); }
  }

  /** Every valid date lies within the first 9999 * 366 days. */
  lemma OrdinalUpper(d: Date)
    requires Valid(d)
    ensures Ordinal(d) <= MaxYear * 366
  {
    DaysBeforeYearUpper(d.year);
    DaysBeforeMonthBound(d.year, d.month);
  }

  /** The ordinal is a faithful clock: it orders dates chronologically. */
  lemma OrdinalOrder(a: Date, b: Date)
    requires Valid(a) && Valid(b)
    ensures Before(a, b) <==> Ordinal(a) < Ordinal(b)
  {
    if a.year < b.year {
      DaysBeforeMonthBound(a.year, a.month);
      DaysBeforeYearMonotone(a.year + 1, b.year);
      assert DaysBeforeYear(a.year + 1) == DaysBeforeYear(a.year) + DaysInYear(a.year);
    } else if b.year < a.year {
      DaysBeforeMonthBound(b.year, b.month);
      DaysBeforeYearMonotone(b.year + 1, a.year);
      assert DaysBeforeYear(b.year + 1) == DaysBeforeYear(b.year) + DaysInYear(b.year);
    } else if a.month < b.month {
      DaysBeforeMonthMonotone(a.year, a.month + 1, b.month);
    } else if b.month < a.month {
      DaysBeforeMonthMonotone(a.year, b.month + 1, a.month);
    }
  }

  // ---------------------------------------------------------------------
  // Fixed-width decimal rendering, as `strftime('%Y%m%d')` writes it

  function Pow10(w: nat): (r: nat)
    ensures r >= 1
  {
    if w == 0 then 1 else 10 * Pow10(w - 1)
  }

  /** The last `w` decimal digits of `n`, zero-padded. */
  function Fixed(n: nat, w: nat): (r: string)
    ensures |r| == w && AllDigits(r)
  {
    if w == 0 then "" else Fixed(n / 10, w - 1) + [DigitChar(n % 10)]
  }

  lemma {:induction false} FixedValue(n: nat, w: nat)
    requires n < Pow10(w)
    ensures DigitsValue(Fixed(n, w)) == n
  {
    if w > 0 {
      FixedValue(n / 10, w - 1);
      var s := Fixed(n, w);
      assert s[..|s| - 1] == Fixed(n / 10, w - 1);
    }
  }

  /** `strftime('%Y%m%d')` of a valid date: eight digits. */
  function FormatYmd(d: Date): (r: string)
    requires Valid(d)
    ensures |r| == 8 && AllDigits(r)
  {
    Fixed(d.year, 4) + Fixed(d.month, 2) + Fixed(d.day, 2)
  }

  lemma LexLessAppend(a1: string, a2: string, b1: string, b2: string)
    requires |a1| == |b1|
    ensures LexLess(a1 + a2, b1 + b2) <==> LexLess(a1, b1) || (a1 == b1 && LexLess(a2, b2))
    decreases |a1|
  {
    if |a1| == 0 {
      assert a1 + a2 == a2 && b1 + b2 == b2;
    } else {
      var a, b := a1 + a2, b1 + b2;
      assert a[0] == a1[0] && b[0] == b1[0];
      assert a[1..] == a1[1..] + a2;
      assert b[1..] == b1[1..] + b2;
      LexLessAppend(a1[1..], a2, b1[1..], b2);
      assert LexLess(a, b) <==> a1[0] < b1[0] || (a1[0] == b1[0] && LexLess(a[1..], b[1..]));
      assert LexLess(a1, b1) <==> a1[0] < b1[0] || (a1[0] == b1[0] && LexLess(a1[1..], b1[1..]));
      assert a1 == b1 <==> a1[0] == b1[0] && a1[1..] == b1[1..] by {
        if a1[0] == b1[0] && a1[1..] == b1[1..] {
          assert a1 == [a1[0]] + a1[1..];
          assert b1 == [b1[0]] + b1[1..];
        }
      }
    }
  }

  lemma {:induction false} FixedInjective(x: nat, y: nat, w: nat)
    requires x < Pow10(w) && y < Pow10(w)
    ensures Fixed(x, w) == Fixed(y, w) <==> x == y
  {
    if Fixed(x, w) == Fixed(y, w) {
      FixedValue(x, w);
      FixedValue(y, w);
    }
  }

  /** On zero-padded numerals of one width, string order is numeric order. */
  lemma {:induction false} FixedOrder(x: nat, y: nat, w: nat)
    requires x < Pow10(w) && y < Pow10(w)
    ensures LexLess(Fixed(x, w), Fixed(y, w)) <==> x < y
  {
    if w == 0 {
    } else {
      FixedOrder(x / 10, y / 10, w - 1);
      FixedInjective(x / 10, y / 10, w - 1);
      LexLessAppend(Fixed(x / 10, w - 1), [DigitChar(x % 10)], Fixed(y / 10, w - 1), [DigitChar(y % 10)]);
    }
  }

  /** Comparing two `%Y%m%d` renderings as strings compares the dates. */
  lemma FormatYmdOrder(a: Date, b: Date)
    requires Valid(a) && Valid(b)
    ensures LexLess(FormatYmd(a), FormatYmd(b)) <==> Before(a, b)
  {
    FixedOrder(a.year, b.year, 4);
    FixedOrder(a.month, b.month, 2);
    FixedOrder(a.day, b.day, 2);
    FixedInjective(a.year, b.year, 4);
    FixedInjective(a.month, b.month, 2);
    var ya, ma, da := Fixed(a.year, 4), Fixed(a.month, 2), Fixed(a.day, 2);
    var yb, mb, db := Fixed(b.year, 4), Fixed(b.month, 2), Fixed(b.day, 2);
    LexLessAppend(ya, ma + da, yb, mb + db);
    LexLessAppend(ma, da, mb, db);
    assert FormatYmd(a) == ya + (ma + da);
    assert FormatYmd(b) == yb + (mb + db);
  }

  /** Distinct dates render differently. */
  lemma FormatYmdInjective(a: Date, b: Date)
    requires Valid(a) && Valid(b) && FormatYmd(a) == FormatYmd(b)
    ensures a == b
  {
    FormatYmdOrder(a, b);
    FormatYmdOrder(b, a);
    LexLessIrreflexive(FormatYmd(a));
  }

  // ---------------------------------------------------------------------
  // The strptime matcher

  /** One directive or literal of a `strptime` format. */
  datatype Piece =
    | Lit(c: char)   // a literal character
    | Year4          // %Y: \d\d\d\d
    | Month2         // %m: 1[0-2]|0[1-9]|[1-9]
    | Day2           // %d: 3[01]|[12]\d|0[1-9]|[1-9]| [1-9]
    | Hour2          // %H: 2[0-3]|[0-1]\d|\d
    | Minute2        // %M: [0-5]\d|\d
    | Space          // white space in the format: \s+

  predicate Numeric(p: Piece) {
    !p.Lit? && !p.Space?
  }

  const IsoDate: seq<Piece> := [Year4, Lit('-'), Month2, Lit('-'), Day2]
  const UsDate: seq<Piece> := [Month2, Lit('/'), Day2, Lit('/'), Year4]
  const DayFirstDate: seq<Piece> := [Day2, Lit('/'), Month2, Lit('/'), Year4]
  const CompactDate: seq<Piece> := [Year4, Month2, Day2]
  const SheetTime: seq<Piece> := [Year4, Lit('-'), Month2, Lit('-'), Day2, Space, Hour2, Lit(':'), Minute2]

  /** The character at `i` exists and lies in `lo..hi`. */
  predicate CharIn(s: string, i: nat, lo: char, hi: char) {
    i < |s| && lo <= s[i] <= hi
  }

  function Opt(b: bool, n: nat): seq<nat> {
    if b then [n] else []
  }

  /** The length of the run of white space starting at `pos`. */
  function SpaceRun(s: string, pos: nat): (n: nat)
    requires pos <= |s|
    ensures pos + n <= |s|
    ensures forall i :: pos <= i < pos + n ==> IsSpace(s[i])
    ensures pos + n < |s| ==> !IsSpace(s[pos + n])
    decreases |s| - pos
  {
    if pos < |s| && IsSpace(s[pos]) then 1 + SpaceRun(s, pos + 1) else 0
  }

  /** `[n, n-1, ..., 1]`: a greedy quantifier gives back one character at a time. */
  function Countdown(n: nat): (r: seq<nat>)
    ensures |r| == n
    ensures forall k :: 0 <= k < n ==> r[k] == n - k
  {
    if n == 0 then [] else [n] + Countdown(n - 1)
  }

  /** Every length in `r` is positive and fits in `s` from `pos`. */
  predicate Fits(r: seq<nat>, s: string, pos: nat) {
    forall k :: 0 <= k < |r| ==> 1 <= r[k] && pos + r[k] <= |s|
  }

  /**
   * The lengths the alternatives of piece `p` can match at `pos`, in the
   * order the regular-expression engine tries them.
   */
  function Alts(p: Piece, s: string, pos: nat): (r: seq<nat>)
    requires pos <= |s|
    ensures Fits(r, s, pos)
  {
    match p
    case Lit(c) => Opt(pos < |s| && s[pos] == c, 1)
    case Year4 =>
      Opt(CharIn(s, pos, '0', '9') && CharIn(s, pos + 1, '0', '9') && CharIn(s, pos + 2, '0', '9') && CharIn(s, pos + 3, '0', '9'), 4)
    case Month2 => MonthAlts(s, pos)
    case Day2 => DayAlts(s, pos)
    case Hour2 => HourAlts(s, pos)
    case Minute2 => MinuteAlts(s, pos)
    case Space => Countdown(SpaceRun(s, pos))
  }

  /** %m: 1[0-2]|0[1-9]|[1-9]. */
  function MonthAlts(s: string, pos: nat): (r: seq<nat>)
    ensures Fits(r, s, pos)
  {
    Opt(CharIn(s, pos, '1', '1') && CharIn(s, pos + 1, '0', '2'), 2)
    + Opt(CharIn(s, pos, '0', '0') && CharIn(s, pos + 1, '1', '9'), 2)
    + Opt(CharIn(s, pos, '1', '9'), 1)
  }

  /** %d: 3[01]|[12]\d|0[1-9]|[1-9]| [1-9]. */
  function DayAlts(s: string, pos: nat): (r: seq<nat>)
    ensures Fits(r, s, pos)
  {
    var tens := Opt(CharIn(s, pos, '3', '3') && CharIn(s, pos + 1, '0', '1'), 2)
      + Opt(CharIn(s, pos, '1', '2') && CharIn(s, pos + 1, '0', '9'), 2);
    var rest := Opt(CharIn(s, pos, '0', '0') && CharIn(s, pos + 1, '1', '9'), 2)
      + Opt(CharIn(s, pos, '1', '9'), 1)
      + Opt(CharIn(s, pos, ' ', ' ') && CharIn(s, pos + 1, '1', '9'), 2);
    FitsAppend(tens, rest, s, pos);
    tens + rest
  }

  /** %H: 2[0-3]|[0-1]\d|\d. */
  function HourAlts(s: string, pos: nat): (r: seq<nat>)
    ensures Fits(r, s, pos)
  {
    Opt(CharIn(s, pos, '2', '2') && CharIn(s, pos + 1, '0', '3'), 2)
    + Opt(CharIn(s, pos, '0', '1') && CharIn(s, pos + 1, '0', '9'), 2)
    + Opt(CharIn(s, pos, '0', '9'), 1)
  }

  /** %M: [0-5]\d|\d. */
  function MinuteAlts(s: string, pos: nat): (r: seq<nat>)
    ensures Fits(r, s, pos)
  {
    Opt(CharIn(s, pos, '0', '5') && CharIn(s, pos + 1, '0', '9'), 2)
    + Opt(CharIn(s, pos, '0', '9'), 1)
  }

  lemma FitsAppend(a: seq<nat>, b: seq<nat>, s: string, pos: nat)
    requires Fits(a, s, pos) && Fits(b, s, pos)
    ensures Fits(a + b, s, pos)
  {
  }

  /** `int(token)` for a matched numeric token (the day alternative ` [1-9]` has a leading blank). */
  function TokenValue(tok: string): nat {
    if |tok| > 0 && tok[0] == ' ' then TokenValue(tok[1..])
    else if AllDigits(tok) then DigitsValue(tok)
    else 0
  }

  /** The matched groups, by directive. */
  type Fields = map<Piece, int>

  function Record(p: Piece, tok: string, f: Fields): Fields {
    if Numeric(p) then f[p := TokenValue(tok)] else f
  }

  /**
   * `re.match` of the pieces `ps` at `pos`: the groups and the end of the
   * first match the backtracking engine finds.
   */
  function MatchFrom(ps: seq<Piece>, s: string, pos: nat): (r: Option<(Fields, nat)>)
    requires pos <= |s|
    ensures r.Some? ==> pos <= r.value.1 <= |s|
    decreases |ps|, 1, 0
  {
    if |ps| == 0 then Some((map[], pos))
    else TryAlts(ps, s, pos, Alts(ps[0], s, pos))
  }

  function TryAlts(ps: seq<Piece>, s: string, pos: nat, alts: seq<nat>): (r: Option<(Fields, nat)>)
    requires |ps| > 0 && pos <= |s|
    requires forall k :: 0 <= k < |alts| ==> pos + alts[k] <= |s|
    ensures r.Some? ==> pos <= r.value.1 <= |s|
    decreases |ps|, 0, |alts|
  {
    if |alts| == 0 then None
    else match MatchFrom(ps[1..], s, pos + alts[0])
      case Some((f, e)) => Some((Record(ps[0], s[pos..pos + alts[0]], f), e))
      case None => TryAlts(ps, s, pos, alts[1..])
  }

  /** A date with a time of day to the minute. */
  datatype Stamp = Stamp(date: Date, hour: int, minute: int)

  function Get(f: Fields, p: Piece, default: int): int {
    if p in f then f[p] else default
  }

  /**
   * `datetime.strptime(s, fmt)`: None where Python raises ValueError. A
   * directive absent from the format takes Python's default (year 1900,
   * January, the 1st, midnight).
   */
  function Strptime(fmt: seq<Piece>, s: string): (r: Option<Stamp>)
    ensures r.Some? ==> Valid(r.value.date)
  {
    match MatchFrom(fmt, s, 0)
    case None => None
    case Some((f, e)) =>
      var d := Date(Get(f, Year4, 1900), Get(f, Month2, 1), Get(f, Day2, 1));
      if e != |s| || !Valid(d) then None
      else Some(Stamp(d, Get(f, Hour2, 0), Get(f, Minute2, 0)))
  }

  // ---------------------------------------------------------------------
  // Properties of the matcher

  /** A literal that is not a digit can never be matched inside a run of digits. */
  lemma {:induction false} LiteralFailsOnDigits(ps: seq<Piece>, s: string, pos: nat, j: nat)
    requires pos <= |s| && AllDigits(s)
    requires j < |ps| && ps[j].Lit? && !IsDigit(ps[j].c)
    ensures MatchFrom(ps, s, pos).None?
    decreases |ps|, 1, 0
  {
    if |ps| > 0 {
      TryAltsFailsOnDigits(ps, s, pos, Alts(ps[0], s, pos), j);
    }
  }

  lemma {:induction false} TryAltsFailsOnDigits(ps: seq<Piece>, s: string, pos: nat, alts: seq<nat>, j: nat)
    requires |ps| > 0 && pos <= |s| && AllDigits(s)
    requires forall k :: 0 <= k < |alts| ==> pos + alts[k] <= |s|
    requires j < |ps| && ps[j].Lit? && !IsDigit(ps[j].c)
    requires j == 0 ==> alts == Alts(ps[0], s, pos)
    ensures TryAlts(ps, s, pos, alts).None?
    decreases |ps|, 0, |alts|
  {
    if |alts| > 0 {
      if j == 0 {
        assert false;
      }
      LiteralFailsOnDigits(ps[1..], s, pos + alts[0], j - 1);
      TryAltsFailsOnDigits(ps, s, pos, alts[1..], j);
    }
  }

  /** When the first alternative of the first piece leads to a match, that is the match. */
  lemma {:induction false} MatchFirstAlt(ps: seq<Piece>, s: string, pos: nat, f: Fields, e: nat)
    requires |ps| > 0 && pos <= |s|
    requires |Alts(ps[0], s, pos)| > 0
    requires MatchFrom(ps[1..], s, pos + Alts(ps[0], s, pos)[0]) == Some((f, e))
    ensures MatchFrom(ps, s, pos) == Some((Record(ps[0], s[pos..pos + Alts(ps[0], s, pos)[0]], f), e))
  {
    var alts := Alts(ps[0], s, pos);
    MatchFromUnfold(ps, s, pos);
    MatchViaFirst(ps, s, pos, alts, f, e);
  }

  /** The same, for any list of alternatives the match is known to try. */
  lemma MatchViaFirst(ps: seq<Piece>, s: string, pos: nat, alts: seq<nat>, f: Fields, e: nat)
    requires |ps| > 0 && pos <= |s| && |alts| > 0 && Fits(alts, s, pos)
    requires MatchFrom(ps, s, pos) == TryAlts(ps, s, pos, alts)
    requires MatchFrom(ps[1..], s, pos + alts[0]) == Some((f, e))
    ensures MatchFrom(ps, s, pos) == Some((Record(ps[0], s[pos..pos + alts[0]], f), e))
  {
    TryFirstAlt(ps, s, pos, alts, f, e);
  }

  lemma MatchFromUnfold(ps: seq<Piece>, s: string, pos: nat)
    requires |ps| > 0 && pos <= |s|
    ensures MatchFrom(ps, s, pos) == TryAlts(ps, s, pos, Alts(ps[0], s, pos))
  {
  }

  lemma TryFirstAlt(ps: seq<Piece>, s: string, pos: nat, alts: seq<nat>, f: Fields, e: nat)
    requires |ps| > 0 && pos <= |s| && |alts| > 0 && Fits(alts, s, pos)
    requires MatchFrom(ps[1..], s, pos + alts[0]) == Some((f, e))
    ensures TryAlts(ps, s, pos, alts) == Some((Record(ps[0], s[pos..pos + alts[0]], f), e))
  {
  }

  /** Two digits `t` as month: the engine takes both of them first. */
  lemma MonthTakesTwo(s: string, pos: nat, m: int)
    requires 1 <= m <= 12 && pos + 2 <= |s| && s[pos..pos + 2] == Fixed(m, 2)
    ensures |Alts(Month2, s, pos)| > 0 && Alts(Month2, s, pos)[0] == 2
  {
    assert s[pos] == DigitChar(m / 10) && s[pos + 1] == DigitChar(m % 10);
  }

  lemma DayTakesTwo(s: string, pos: nat, d: int)
    requires 1 <= d <= 31 && pos + 2 <= |s| && s[pos..pos + 2] == Fixed(d, 2)
    ensures |Alts(Day2, s, pos)| > 0 && Alts(Day2, s, pos)[0] == 2
  {
    assert s[pos] == DigitChar(d / 10) && s[pos + 1] == DigitChar(d % 10);
  }

  lemma YearTakesFour(s: string, pos: nat, y: int)
    requires 0 <= y && pos + 4 <= |s| && s[pos..pos + 4] == Fixed(y, 4)
    ensures Alts(Year4, s, pos) == [4]
  {
    assert AllDigits(s[pos..pos + 4]);
    assert forall i :: pos <= i < pos + 4 ==> s[i] == s[pos..pos + 4][i - pos];
  }

  lemma TokenOfFixed(n: nat, w: nat)
    requires 0 < w && n < Pow10(w)
    ensures TokenValue(Fixed(n, w)) == n
  {
    FixedValue(n, w);
    var t := Fixed(n, w);
    assert IsDigit(t[0]);
  }

  lemma CompactDay(s: string, d: nat)
    requires 1 <= d <= 31 && |s| == 8 && s[6..8] == Fixed(d, 2)
    ensures MatchFrom([Day2], s, 6) == Some((map[Day2 := d], 8))
  {
    DayTakesTwo(s, 6, d);
    TokenOfFixed(d, 2);
    assert [Day2][1..] == [];
    MatchFirstAlt([Day2], s, 6, map[], 8);
  }

  lemma CompactMonthDay(s: string, m: nat, d: nat)
    requires 1 <= m <= 12 && 1 <= d <= 31 && |s| == 8 && s[4..6] == Fixed(m, 2) && s[6..8] == Fixed(d, 2)
    ensures MatchFrom([Month2, Day2], s, 4) == Some((map[Day2 := d, Month2 := m], 8))
  {
    CompactDay(s, d);
    MonthTakesTwo(s, 4, m);
    TokenOfFixed(m, 2);
    assert [Month2, Day2][1..] == [Day2];
    MatchFirstAlt([Month2, Day2], s, 4, map[Day2 := d], 8);
  }

  lemma {:induction false} CompactMatch(s: string, y: nat, m: nat, d: nat)
    requires y < 10000 && 1 <= m <= 12 && 1 <= d <= 31
    requires |s| == 8 && s[0..4] == Fixed(y, 4) && s[4..6] == Fixed(m, 2) && s[6..8] == Fixed(d, 2)
    ensures MatchFrom(CompactDate, s, 0) == Some((map[Day2 := d, Month2 := m, Year4 := y], 8))
  {
    CompactMonthDay(s, m, d);
    YearTakesFour(s, 0, y);
    TokenOfFixed(y, 4);
    assert CompactDate[1..] == [Month2, Day2];
    MatchFirstAlt(CompactDate, s, 0, map[Day2 := d, Month2 := m], 8);
  }

  lemma CompactParts(a: string, b: string, c: string)
    requires |a| == 4 && |b| == 2 && |c| == 2
    ensures |a + b + c| == 8
    ensures (a + b + c)[0..4] == a && (a + b + c)[4..6] == b && (a + b + c)[6..8] == c
  {
    var s := a + b + c;
    assert s[0..4] == a;
    assert s[4..6] == b;
    assert s[6..8] == c;
  }

  /** The compact layout reads back every rendering `FormatYmd` writes. */
  lemma StrptimeCompact(d: Date)
    requires Valid(d)
    ensures Strptime(CompactDate, FormatYmd(d)) == Some(Stamp(d, 0, 0))
  {
    CompactParts(Fixed(d.year, 4), Fixed(d.month, 2), Fixed(d.day, 2));
    CompactMatch(FormatYmd(d), d.year, d.month, d.day);
  }

  // ---------------------------------------------------------------------
  // The slash layouts

  lemma LitTakesOne(s: string, pos: nat, c: char)
    requires pos < |s| && s[pos] == c
    ensures Alts(Lit(c), s, pos) == [1]
  {
  }

  /** A literal facing another character (or the end) fails the whole match. */
  lemma LitMismatch(ps: seq<Piece>, s: string, pos: nat)
    requires |ps| > 0 && ps[0].Lit? && pos <= |s| && (pos == |s| || s[pos] != ps[0].c)
    ensures MatchFrom(ps, s, pos) == None
  {
    assert Alts(ps[0], s, pos) == [];
  }

  /** A two-digit month or day is taken whole, by the first alternative that fits. */
  lemma TwoDigitsTaken(p: Piece, s: string, pos: nat, n: nat)
    requires (p == Month2 && 1 <= n <= 12) || (p == Day2 && 1 <= n <= 31)
    requires pos + 2 <= |s| && s[pos..pos + 2] == Fixed(n, 2)
    ensures |Alts(p, s, pos)| > 0 && Alts(p, s, pos)[0] == 2
    ensures TokenValue(s[pos..pos + 2]) == n
  {
    if p == Month2 { MonthTakesTwo(s, pos, n); } else { DayTakesTwo(s, pos, n); }
    TokenOfFixed(n, 2);
  }

  lemma SlashYearTail(s: string, y: nat)
    requires y < 10000 && |s| == 10 && s[5] == '/' && s[6..10] == Fixed(y, 4)
    ensures MatchFrom([Lit('/'), Year4], s, 5) == Some((map[Year4 := y], 10))
  {
    YearTakesFour(s, 6, y);
    TokenOfFixed(y, 4);
    assert [Year4][1..] == [];
    MatchFirstAlt([Year4], s, 6, map[], 10);
    LitTakesOne(s, 5, '/');
    assert [Lit('/'), Year4][1..] == [Year4];
    MatchFirstAlt([Lit('/'), Year4], s, 5, map[Year4 := y], 10);
  }

  lemma SlashSecondField(q: Piece, s: string, b: nat, y: nat)
    requires (q == Month2 && 1 <= b <= 12) || (q == Day2 && 1 <= b <= 31)
    requires y < 10000 && |s| == 10 && s[2] == '/' && s[3..5] == Fixed(b, 2) && s[5] == '/' && s[6..10] == Fixed(y, 4)
    ensures MatchFrom([Lit('/'), q, Lit('/'), Year4], s, 2) == Some((map[Year4 := y, q := b], 10))
  {
    SlashYearTail(s, y);
    TwoDigitsTaken(q, s, 3, b);
    assert [q, Lit('/'), Year4][1..] == [Lit('/'), Year4];
    MatchFirstAlt([q, Lit('/'), Year4], s, 3, map[Year4 := y], 10);
    LitTakesOne(s, 2, '/');
    assert [Lit('/'), q, Lit('/'), Year4][1..] == [q, Lit('/'), Year4];
    MatchFirstAlt([Lit('/'), q, Lit('/'), Year4], s, 2, map[Year4 := y, q := b], 10);
  }

  /** `a/b/yyyy` read with a layout `p/q/%Y`, each field zero-padded. */
  lemma SlashMatch(p: Piece, q: Piece, s: string, a: nat, b: nat, y: nat)
    requires (p == Month2 && q == Day2 && 1 <= a <= 12 && 1 <= b <= 31)
          || (p == Day2 && q == Month2 && 1 <= a <= 31 && 1 <= b <= 12)
    requires y < 10000 && s == Fixed(a, 2) + "/" + Fixed(b, 2) + "/" + Fixed(y, 4)
    ensures MatchFrom([p, Lit('/'), q, Lit('/'), Year4], s, 0) == Some((map[Year4 := y, q := b, p := a], 10))
  {
    assert s[0..2] == Fixed(a, 2) && s[2] == '/' && s[3..5] == Fixed(b, 2) && s[5] == '/' && s[6..10] == Fixed(y, 4);
    SlashSecondField(q, s, b, y);
    TwoDigitsTaken(p, s, 0, a);
    var ps := [p, Lit('/'), q, Lit('/'), Year4];
    assert ps[1..] == [Lit('/'), q, Lit('/'), Year4];
    MatchFirstAlt(ps, s, 0, map[Year4 := y, q := b], 10);
  }

  /** `mm/dd/yyyy` with a real month reads as that date. */
  lemma StrptimeUs(d: Date)
    requires Valid(d)
    ensures Strptime(UsDate, Fixed(d.month, 2) + "/" + Fixed(d.day, 2) + "/" + Fixed(d.year, 4)) == Some(Stamp(d, 0, 0))
  {
    SlashMatch(Month2, Day2, Fixed(d.month, 2) + "/" + Fixed(d.day, 2) + "/" + Fixed(d.year, 4), d.month, d.day, d.year);
  }

  /** `dd/mm/yyyy` with a real month reads as that date. */
  lemma StrptimeDayFirst(d: Date)
    requires Valid(d)
    ensures Strptime(DayFirstDate, Fixed(d.day, 2) + "/" + Fixed(d.month, 2) + "/" + Fixed(d.year, 4)) == Some(Stamp(d, 0, 0))
  {
    SlashMatch(Day2, Month2, Fixed(d.day, 2) + "/" + Fixed(d.month, 2) + "/" + Fixed(d.year, 4), d.day, d.month, d.year);
  }

  /**
   * A first field from 13 to 99 is no month: `%m` can then only take its
   * first digit, and the `/` that must follow meets the second.
   */
  lemma UsRejectsNonMonth(s: string, a: nat)
    requires 13 <= a <= 99 && |s| >= 2 && s[..2] == Fixed(a, 2)
    ensures Strptime(UsDate, s) == None
  {
    assert s[0] == DigitChar(a / 10) && s[1] == DigitChar(a % 10);
    assert Alts(Month2, s, 0) == [1];
    LitMismatch(UsDate[1..], s, 1);
    assert MatchFrom(UsDate, s, 0) == TryAlts(UsDate, s, 0, [1]);
  }

  /** Any layout that starts with `%Y` fails when the text does not start with four digits. */
  lemma YearFirstNeedsFourDigits(ps: seq<Piece>, s: string, i: nat)
    requires |ps| > 0 && ps[0] == Year4
    requires i < 4 && (i >= |s| || !IsDigit(s[i]))
    ensures Strptime(ps, s) == None
  {
    assert !CharIn(s, i, '0', '9');
    assert !(CharIn(s, 0, '0', '9') && CharIn(s, 1, '0', '9') && CharIn(s, 2, '0', '9') && CharIn(s, 3, '0', '9'));
    assert Alts(ps[0], s, 0) == [];
    assert MatchFrom(ps, s, 0) == TryAlts(ps, s, 0, []);
  }
}

=== FILE: download_instagram.dfy ===
/**
 * download_instagram.py: a batch download of one profile's posts. The
 * profile's post shortcodes come from an oracle (Instaloader); each post
 * address is handed to the downloader oracle, whose exceptions are caught
 * and counted as failures.
 */
module DownloadInstagram {
  import opened Wrappers
  import opened Text

  const DefaultUsername := "beyondstartup.s"
  const PostPrefix := "https://www.instagram.com/p/"
  const DefaultMax := 50

  // ---------------------------------------------------------------------
  // The username

  /** The segments of a profile address that are not the username. */
  const NotUsername: seq<string> := ["http:", "https:", "www.instagram.com", "instagram.com"]

  predicate UsernameSegment(part: string) {
    part != "" && !StartsWith(part, "?") && part !in NotUsername
  }

  /** The first segment that can be the username, in order. */
  function FirstUsernameSegment(parts: seq<string>): (r: Option<string>)
    ensures r.Some? ==> UsernameSegment(r.value) && r.value in parts
    ensures r.None? <==> forall k :: 0 <= k < |parts| ==> !UsernameSegment(parts[k])
  {
    if |parts| == 0 then None
    else if UsernameSegment(parts[0]) then Some(parts[0])
    else FirstUsernameSegment(parts[1..])
  }

  /** The username a profile address names: its first such segment, up to any '?'. */
  function UsernameFromUrl(url: string): (r: Option<string>)
    ensures r.Some? ==> !Contains(r.value, "?")
  {
    match FirstUsernameSegment(Split(RStripChar(url, '/'), "/"))
    case None => None
    case Some(part) => Some(SplitHead(part, "?"))
  }

  predicate Truthy(o: Option<string>) {
    o.Some? && |o.value| > 0
  }

  /**
   * The username `main` settles on: `--username` when given, else the one
   * in `--url`, else the default; then without leading '@'.
   */
  function Username(argUsername: Option<string>, argUrl: Option<string>): (r: string)
    ensures |r| > 0 ==> r[0] != '@'
    ensures Truthy(argUsername) ==> r == LStripChar(argUsername.value, '@')
    ensures !Truthy(argUsername) && !Truthy(argUrl) ==> r == DefaultUsername
  {
    var fromUrl := if Truthy(argUrl) && !Truthy(argUsername) then
                     (match UsernameFromUrl(argUrl.value) case Some(u) => Some(u) case None => argUsername)
                   else argUsername;
    var chosen := if Truthy(fromUrl) then fromUrl.value else DefaultUsername;
    assert DefaultUsername[0] != '@';
    LStripChar(chosen, '@')
  }

  /** Dropping the trailing slashes of `s + "/"` gives `s` back when `s` does not end in one. */
  lemma RStripOneSlash(s: string)
    requires |s| > 0 && s[|s| - 1] != '/'
    ensures RStripChar(s + "/", '/') == s
  {
    assert (s + "/")[..|s|] == s;
  }

  /** Joining four pieces with '/'. */
  lemma JoinFour(a: string, b: string, c: string, d: string)
    ensures Join([a, b, c, d], "/") == a + "/" + b + "/" + c + "/" + d
  {
    var parts := [a, b, c, d];
    assert parts[1..] == [b, c, d] && parts[1..][1..] == [c, d] && parts[1..][1..][1..] == [d];
    assert Join([c, d], "/") == c + "/" + d;
    assert Join([b, c, d], "/") == b + "/" + (c + "/" + d);
  }

  /** "https://www.instagram.com/", written as the segments it splits into. */
  const ProfilePrefix := "https:" + "/" + "" + "/" + "www.instagram.com" + "/"

  /** None of the profile address's segments holds '/'. */
  lemma SegmentsSlashFree(name: string)
    requires '/' !in name
    ensures forall k :: 0 <= k < 4 ==> '/' !in ["https:", "", "www.instagram.com", name][k]
  {
    var parts := ["https:", "", "www.instagram.com", name];
    assert '/' !in "https:" && '/' !in "www.instagram.com";
    forall k | 0 <= k < 4 ensures '/' !in parts[k] {
      if k == 0 { assert parts[k] == "https:"; }
      else if k == 1 { assert parts[k] == ""; }
      else if k == 2 { assert parts[k] == "www.instagram.com"; }
      else { assert parts[k] == name; }
    }
  }

  /** The segments of `https://www.instagram.com/<name>`. */
  lemma ProfileParts(name: string)
    requires |name| > 0 && '/' !in name
    ensures Split(ProfilePrefix + name, "/") == ["https:", "", "www.instagram.com", name]
  {
    JoinFour("https:", "", "www.instagram.com", name);
    SegmentsSlashFree(name);
    SplitJoin(["https:", "", "www.instagram.com", name], '/');
  }

  /** The scheme, the empty segment and the host are skipped. */
  lemma FirstSegmentIsName(name: string)
    requires UsernameSegment(name)
    ensures FirstUsernameSegment(["https:", "", "www.instagram.com", name]) == Some(name)
  {
    var parts := ["https:", "", "www.instagram.com", name];
    assert "https:" in NotUsername && "www.instagram.com" in NotUsername;
    assert !UsernameSegment(parts[0]) && !UsernameSegment(parts[1]) && !UsernameSegment(parts[2]);
    assert parts[1..][1..][1..] == [name];
    calc {
      FirstUsernameSegment(parts);
      FirstUsernameSegment(parts[1..]);
      FirstUsernameSegment(parts[1..][1..]);
      FirstUsernameSegment(parts[1..][1..][1..]);
      Some(name);
    }
  }

  /** The profile address `https://www.instagram.com/<name>`, with or without a final '/', names `<name>`. */
  lemma UsernameFromProfileUrl(name: string, trailing: bool)
    requires UsernameSegment(name) && '/' !in name && '?' !in name
    ensures UsernameFromUrl(ProfilePrefix + name + (if trailing then "/" else "")) == Some(name)
  {
    var base := ProfilePrefix + name;
    assert base[|base| - 1] == name[|name| - 1];
    if trailing {
      RStripOneSlash(base);
    } else {
      assert base + "" == base;
    }
    ProfileParts(name);
    FirstSegmentIsName(name);
    SplitHeadBefore(name, "", '?');
    assert name + "" == name;
  }

  /** `--username` wins over `--url`; a lone `--url` of a profile gives its name. */
  lemma UsernamePrecedence(user: string, name: string)
    requires |user| > 0 && user[0] != '@'
    requires UsernameSegment(name) && '/' !in name && '?' !in name && name[0] != '@'
    ensures Username(Some(user), Some(ProfilePrefix + name + "/")) == user
    ensures Username(None, Some(ProfilePrefix + name + "/")) == name
  {
    UsernameFromProfileUrl(name, true);
  }

  // ---------------------------------------------------------------------
  // extract_instagram_posts

  function PostUrl(shortcode: string): string {
    PostPrefix + shortcode + "/"
  }

  /**
   * `extract_instagram_posts(username, max_posts)`: the addresses of the
   * first `max_posts` posts, in the profile's order; any exception while
   * listing gives no address at all.
   */
  function ExtractPosts(posts: Outcome<seq<string>>, maxPosts: int): (r: seq<string>)
    ensures posts.Raised? ==> r == []
    ensures |r| <= if maxPosts <= 0 then 0 else maxPosts
    ensures posts.Done? ==> |r| == if maxPosts <= 0 then 0 else if maxPosts < |posts.value| then maxPosts else |posts.value|
    ensures posts.Done? ==> forall k :: 0 <= k < |r| ==> r[k] == PostUrl(posts.value[k])
  {
    match posts
    case Raised(_) => []
    case Done(codes) =>
      var n := if maxPosts <= 0 then 0 else if maxPosts < |codes| then maxPosts else |codes|;
      seq(n, k requires 0 <= k < n => PostUrl(codes[k]))
  }

  /** Every post address reads back its shortcode, for shortcodes free of '/'. */
  lemma PostUrlShortcode(code: string)
    requires '/' !in code
    ensures StartsWith(PostUrl(code), PostPrefix) && EndsWith(PostUrl(code), "/")
    ensures SplitHead(PostUrl(code)[|PostPrefix|..], "/") == code
  {
    assert PostUrl(code)[|PostPrefix|..] == code + "/";
    SplitHeadBefore(code, "/", '/');
  }

  // ---------------------------------------------------------------------
  // The download loop and the exit code

  /** A post counts as successful when the downloader returns True; False and exceptions are failures. */
  predicate Succeeds(result: Outcome<(bool, string)>) {
    result.Done? && result.value.0
  }

  /** How many of the addresses succeed, the reference the loop's counter is checked against. */
  function SuccessCount(urls: seq<string>, download: string -> Outcome<(bool, string)>): (n: nat)
    ensures n <= |urls|
  {
    if |urls| == 0 then 0
    else SuccessCount(urls[..|urls| - 1], download) + (if Succeeds(download(urls[|urls| - 1])) then 1 else 0)
  }

  /** The `for i, url in enumerate(post_urls, 1)` loop: counters and the number of pauses between posts. */
  method DownloadAll(urls: seq<string>, download: string -> Outcome<(bool, string)>)
      returns (successful: nat, failed: nat, pauses: nat)
    ensures successful == SuccessCount(urls, download)
    ensures successful + failed == |urls|
    ensures pauses == if |urls| == 0 then 0 else |urls| - 1
  {
    successful, failed, pauses := 0, 0, 0;
    var i := 0;
    while i < |urls|
      invariant 0 <= i <= |urls|
      invariant successful == SuccessCount(urls[..i], download)
      invariant successful + failed == i
      invariant pauses == if i == |urls| && i > 0 then i - 1 else i
    {
      assert urls[..i + 1][..i] == urls[..i];
      if Succeeds(download(urls[i])) {
        successful := successful + 1;
      } else {
        failed := failed + 1;
      }
      if i + 1 < |urls| {
        pauses := pauses + 1;
      }
      i := i + 1;
    }
    assert urls[..i] == urls;
  }

  /** The command line of the script. */
  datatype Args = Args(username: Option<string>, url: Option<string>, max: int, test: bool)

  datatype Outcomes = Outcomes(username: string, maxPosts: int, posts: seq<string>, successful: nat, failed: nat, exitCode: int)

  /**
   * `main()`: the username, the test-mode cap of one post, the extraction
   * of post addresses, the downloads; exit code 1 without posts, else 0
   * exactly when nothing failed.
   */
  method RunScript(args: Args, profile: string -> Outcome<seq<string>>, download: string -> Outcome<(bool, string)>)
      returns (o: Outcomes)
    ensures o.username == Username(args.username, args.url)
    ensures o.maxPosts == if args.test then 1 else args.max
    ensures o.posts == ExtractPosts(profile(o.username), o.maxPosts)
    ensures |o.posts| == 0 ==> o.exitCode == 1 && o.successful == 0 && o.failed == 0
    ensures |o.posts| > 0 ==> o.successful + o.failed == |o.posts| && (o.exitCode == 0 <==> o.failed == 0)
    ensures o.exitCode in {0, 1}
    ensures args.test ==> |o.posts| <= 1
  {
    var username := Username(args.username, args.url);
    var maxPosts := if args.test then 1 else args.max;
    var listed := profile(username);
    var posts := ExtractPosts(listed, maxPosts);
    assert maxPosts == 1 ==> |posts| <= 1;
    o := DownloadPosts(username, maxPosts, posts, download);
  }

  /** The second half of `main()`: exit code 1 without posts, else the downloads and 0 exactly when none failed. */
  method DownloadPosts(username: string, maxPosts: int, posts: seq<string>, download: string -> Outcome<(bool, string)>)
      returns (o: Outcomes)
    ensures o.username == username && o.maxPosts == maxPosts && o.posts == posts
    ensures |posts| == 0 ==> o.exitCode == 1 && o.successful == 0 && o.failed == 0
    ensures |posts| > 0 ==> o.successful == SuccessCount(posts, download) && o.successful + o.failed == |posts|
                            && (o.exitCode == 0 <==> o.failed == 0)
    ensures o.exitCode in {0, 1}
  {
    if |posts| == 0 {
      return Outcomes(username, maxPosts, posts, 0, 0, 1);
    }
    var successful, failed, _ := DownloadAll(posts, download);
    var exitCode := if failed == 0 then 0 else 1;
    o := Outcomes(username, maxPosts, posts, successful, failed, exitCode);
  }
}

=== FILE: entrepreneur_reels.dfy ===
/**
 * download_entrepreneur_reels.py: the script form of the reel pipeline. The
 * extraction is the engine's, line for line, and is modelled once in
 * `InstagramEngine`; the account, the Drive folder and the cap of 100 are
 * fixed. Its loop differs from the engine's in one point: the `try` around
 * the yt-dlp run also covers the upload and the unlink, so an exception of
 * either counts the reel as failed instead of ending the run. Its set-up
 * differs in order: the temporary directory is made before extraction.
 */
module EntrepreneurReels {
  import opened Wrappers
  import opened Text
  import opened InstagramEngine

  const MaxReels := 100

  /** The loop body for a reel Drive lacks; every exception inside the `try` counts as a failure. */
  function ScriptStep(w: World, url: string): (a: Action)
    ensures !a.Skipped?
    ensures a.Succeeded? <==> w.run(url) == Exited(0) && |w.files(url)| > 0 && w.upload(DownloadReel(w.run(url), w.files(url)).1).Done?
  {
    match w.run(url)
    case Threw(m) => DownloadFailed(m)
    case Exited(code) =>
      if code != 0 || |w.files(url)| == 0 then DownloadFailed("")
      else
        var latest := w.files(url)[Newest(w.files(url))].path;
        match w.upload(latest)
        case Raised(e) => DownloadFailed(e)
        case Done(_) => Succeeded(latest)
  }

  /**
   * The script and the engine agree on every reel whose upload returns; where
   * the upload raises, the engine stops and the script counts a failure.
   */
  lemma ScriptMatchesEngine(w: World, url: string)
    ensures EngineStep(w, url).Done? ==> (ScriptStep(w, url).Succeeded? <==> EngineStep(w, url).value.Succeeded?)
    ensures EngineStep(w, url).Done? && ScriptStep(w, url).Succeeded? ==> EngineStep(w, url).value == ScriptStep(w, url)
    ensures EngineStep(w, url).Raised? ==> ScriptStep(w, url).DownloadFailed?
  {
  }

  /** The loop of `main` over the extracted reels. */
  function Loop(urls: seq<string>, names: seq<string>, w: World): Outcome<seq<Item>> {
    Process(urls, names, url => Done(ScriptStep(w, url)))
  }

  /**
   * `main`: the exit code with the tally it prints. The temporary
   * directory is made first, before extraction, and its failure escapes.
   * No reels then gives 1 at once; otherwise the Drive client is built,
   * unguarded, and the code is 0 whatever failed, with every reel counted
   * once. An address without "/reel/" ends the script with the IndexError.
   */
  function RunScript(hrefs: seq<Option<string>>, listing: Option<seq<string>>, w: World): (r: Outcome<(int, Stats)>)
    ensures w.mkdir.Raised? ==> r == Raised(w.mkdir.reason)
    ensures w.mkdir.Done? && |ExtractReelUrls(hrefs, MaxReels)| > 0 && w.connect.Raised? ==> r == Raised(w.connect.reason)
    ensures r.Done? ==> r.value.0 == (if |ExtractReelUrls(hrefs, MaxReels)| == 0 then 1 else 0)
    ensures r.Done? ==> r.value.1.successful + r.value.1.failed + r.value.1.skipped == |ExtractReelUrls(hrefs, MaxReels)|
  {
    if w.mkdir.Raised? then Raised(w.mkdir.reason)
    else
      var urls := ExtractReelUrls(hrefs, MaxReels);
      if |urls| == 0 then Done((1, Stats(0, 0, 0)))
      else if w.connect.Raised? then Raised(w.connect.reason)
      else
        match Loop(urls, listing.GetOr([]), w)
        case Done(items) =>
          ProcessItem(urls, listing.GetOr([]), url => Done(ScriptStep(w, url)), 0);
          Done((0, Count(items)))
        case Raised(e) => Raised(e)
  }

  /**
   * Past its set-up, the script ends with an exception iff some extracted
   * address holds no "/reel/": the directory or the Drive client failing
   * are the only other ways out.
   */
  lemma RaisesOnlyWithoutMarker(hrefs: seq<Option<string>>, listing: Option<seq<string>>, w: World)
    ensures var urls := ExtractReelUrls(hrefs, MaxReels);
            RunScript(hrefs, listing, w).Raised? <==>
              w.mkdir.Raised?
              || (|urls| > 0 && (w.connect.Raised? || exists k :: 0 <= k < |urls| && !Contains(urls[k], ReelMarker)))
  {
    var urls := ExtractReelUrls(hrefs, MaxReels);
    var names := listing.GetOr([]);
    var step: string -> Outcome<Action> := url => Done(ScriptStep(w, url));
    ProcessFinishes(urls, names, step);
    if k :| 0 <= k < |urls| && !Contains(urls[k], ReelMarker) {
      assert Visit(urls[k], k + 1 == |urls|, names, step).Raised?;
    }
  }

  /** The skip count is the number of extracted reels whose id some Drive name holds. */
  lemma SkippedAreDriveHits(hrefs: seq<Option<string>>, listing: Option<seq<string>>, w: World)
    requires RunScript(hrefs, listing, w).Done?
    ensures RunScript(hrefs, listing, w).value.1.skipped == InDrive(ExtractReelUrls(hrefs, MaxReels), listing.GetOr([]))
  {
    var urls := ExtractReelUrls(hrefs, MaxReels);
    var names := listing.GetOr([]);
    var step: string -> Outcome<Action> := url => Done(ScriptStep(w, url));
    if |urls| > 0 {
      var items := Process(urls, names, step).value;
      forall k | 0 <= k < |urls|
        ensures IsSkip(items[k]) <==> ReelId(urls[k]).Some? && AlreadyInDrive(names, ReelId(urls[k]).value)
      {
        ProcessItem(urls, names, step, k);
        VisitMeaning(urls[k], k + 1 == |urls|, names, step);
      }
      ProcessItem(urls, names, step, 0);
      SkipsCounted(items, urls, names, 0);
      assert items[0..] == items && urls[0..] == urls;
    }
  }
}

=== FILE: filter_builder.dfy ===
/**
 * The filter pipeline of dynamic_filter_builder.py: the sanitiser
 * `validate_filters`, the per-item predicate built by `build_match_filter`
 * and the option compiler `build_ytdlp_options`.
 *
 * A filter dictionary is a record of optional fields (`None` = key absent).
 * Python's truthiness is spelled out: a number is truthy when non-zero, a
 * string or list when non-empty. Durations, view counts and sizes are
 * integers.
 */
module FilterBuilder {
  import opened Wrappers
  import opened Text
  import opened Dates
  import opened DateInput

  datatype FileSize = SizeText(text: string) | SizeBytes(n: int)

  /** The user's filter dictionary; `warnings` is the `_warnings` key the sanitiser adds. */
  datatype Filters = Filters(
    maxDownloads: Option<int>,
    dateFrom: Option<string>,
    dateTo: Option<string>,
    minDuration: Option<int>,
    maxDuration: Option<int>,
    excludeTitles: Option<seq<string>>,
    includeTitles: Option<seq<string>>,
    minViews: Option<int>,
    maxViews: Option<int>,
    contentType: Option<string>,
    quality: Option<string>,
    maxFilesize: Option<FileSize>,
    downloadSubtitles: Option<bool>,
    skipExisting: Option<bool>,
    warnings: Option<seq<string>>)

  /** The keys of a yt-dlp info dictionary the predicate reads; each may be absent, null or set. */
  datatype MediaInfo = MediaInfo(
    duration: Field<int>,
    title: Field<string>,
    viewCount: Field<int>,
    webpageUrl: Field<string>,
    originalUrl: Field<string>,
    width: Field<int>,
    height: Field<int>)

  predicate IntTruthy(o: Option<int>) { o.Some? && o.value != 0 }
  predicate TextTruthy(o: Option<string>) { o.Some? && o.value != "" }
  predicate ListTruthy(o: Option<seq<string>>) { o.Some? && |o.value| > 0 }
  predicate BoolTruthy(o: Option<bool>, default: bool) { o.GetOr(default) }

  /** The ceiling both sanitisers put on the download count. */
  const MaxDownloadsCap := 500

  const CapWarning := "Download count capped at 500 for safety"
  const DateSwapWarning := "Date range was reversed (from > to), automatically corrected"
  const DurationSwapWarning := "Duration range was reversed, automatically corrected"

  // ---------------------------------------------------------------------
  // validate_filters

  /** Both dates resolve and the resolved start is later than the resolved end. */
  predicate DatesReversed(from: Outcome<Option<string>>, to: Outcome<Option<string>>) {
    from.Done? && to.Done? && from.value.Some? && to.value.Some? && LexLess(to.value.value, from.value.value)
  }

  predicate DurationsReversed(f: Filters) {
    IntTruthy(f.minDuration) && IntTruthy(f.maxDuration) && f.minDuration.value > f.maxDuration.value
  }

  /**
   * `validate_filters(filters)` with the clock `now`: a copy with the count
   * capped, reversed date and duration ranges swapped, and the warnings
   * recorded. Raised when resolving a date raises.
   */
  function ValidateFilters(f: Filters, now: Date): (r: Outcome<Filters>)
    requires Valid(now)
    ensures r.Done? <==> ParseDateInput(f.dateFrom, now).Done? && ParseDateInput(f.dateTo, now).Done?
    ensures r.Done? ==> r.value.warnings.Some?
    ensures r.Done? ==> r.value.maxDownloads == (if f.maxDownloads.GetOr(0) > MaxDownloadsCap then Some(MaxDownloadsCap) else f.maxDownloads)
    ensures r.Done? ==> (f.maxDownloads.GetOr(0) > MaxDownloadsCap <==> CapWarning in r.value.warnings.value)
    ensures r.Done? ==> var from, to := ParseDateInput(f.dateFrom, now), ParseDateInput(f.dateTo, now);
      (r.value.dateFrom, r.value.dateTo) == (if DatesReversed(from, to) then (f.dateTo, f.dateFrom) else (f.dateFrom, f.dateTo))
    ensures r.Done? ==>
      (r.value.minDuration, r.value.maxDuration) == (if DurationsReversed(f) then (f.maxDuration, f.minDuration) else (f.minDuration, f.maxDuration))
    ensures r.Done? ==> r.value.(maxDownloads := f.maxDownloads, dateFrom := f.dateFrom, dateTo := f.dateTo,
      minDuration := f.minDuration, maxDuration := f.maxDuration, warnings := f.warnings) == f
  {
    var capped := f.maxDownloads.GetOr(0) > MaxDownloadsCap;
    var w1: seq<string> := if capped then [CapWarning] else [];
    var from := ParseDateInput(f.dateFrom, now);
    var to := ParseDateInput(f.dateTo, now);
    if from.Raised? then Raised(from.reason)
    else if to.Raised? then Raised(to.reason)
    else
      var swapDates := DatesReversed(from, to);
      var w2 := w1 + (if swapDates then [DateSwapWarning] else []);
      var swapDurations := DurationsReversed(f);
      var w3 := w2 + (if swapDurations then [DurationSwapWarning] else []);
      Done(f.(
        maxDownloads := if capped then Some(MaxDownloadsCap) else f.maxDownloads,
        dateFrom := if swapDates then f.dateTo else f.dateFrom,
        dateTo := if swapDates then f.dateFrom else f.dateTo,
        minDuration := if swapDurations then f.maxDuration else f.minDuration,
        maxDuration := if swapDurations then f.minDuration else f.maxDuration,
        warnings := Some(w3)))
  }

  /** The date swap is chronological: it happens exactly when the resolved start is a later day. */
  lemma DateSwapIsChronological(from: Outcome<Option<string>>, to: Outcome<Option<string>>, a: Date, b: Date)
    requires Valid(a) && Valid(b)
    requires from == Done(Some(FormatYmd(a))) && to == Done(Some(FormatYmd(b)))
    ensures DatesReversed(from, to) <==> Before(b, a)
  {
    FormatYmdOrder(b, a);
  }

  /** A second pass with the same clock changes nothing and warns of nothing. */
  lemma ValidateIdempotent(f: Filters, now: Date)
    requires Valid(now) && ValidateFilters(f, now).Done?
    ensures ValidateFilters(ValidateFilters(f, now).value, now) == Done(ValidateFilters(f, now).value.(warnings := Some([])))
  {
    var v := ValidateFilters(f, now).value;
    var from, to := ParseDateInput(f.dateFrom, now), ParseDateInput(f.dateTo, now);
    var from2, to2 := ParseDateInput(v.dateFrom, now), ParseDateInput(v.dateTo, now);
    if DatesReversed(from, to) {
      assert v.dateFrom == f.dateTo && v.dateTo == f.dateFrom;
      assert from2 == to && to2 == from;
      LexLessAsymmetric(to.value.value, from.value.value);
    } else {
      assert from2 == from && to2 == to;
    }
    assert !DatesReversed(from2, to2);
    assert !DurationsReversed(v);
    assert !(v.maxDownloads.GetOr(0) > MaxDownloadsCap);
    var again := ValidateFilters(v, now);
    assert again.Done?;
    assert again.value.warnings == Some([]);
    assert again.value.(warnings := v.warnings) == v;
  }

  // ---------------------------------------------------------------------
  // build_match_filter

  /** The seven keys whose truthiness turns the predicate on. */
  predicate MatchFilterActive(f: Filters) {
    IntTruthy(f.minDuration) || IntTruthy(f.maxDuration) || ListTruthy(f.excludeTitles) || ListTruthy(f.includeTitles)
    || IntTruthy(f.minViews) || IntTruthy(f.maxViews) || TextTruthy(f.contentType)
  }

  /** `build_match_filter(filters)`: the predicate when one of the seven keys is truthy, else None. */
  function BuildMatchFilter(f: Filters): (r: Option<Filters>)
    ensures r.Some? <==> MatchFilterActive(f)
    ensures r.Some? ==> r.value == f
  {
    if MatchFilterActive(f) then Some(f) else None
  }

  function LowerAll(ps: seq<string>): (r: seq<string>)
    ensures |r| == |ps| && forall k :: 0 <= k < |ps| ==> r[k] == Lower(ps[k])
  {
    seq(|ps|, k requires 0 <= k < |ps| => Lower(ps[k]))
  }

  function LowerTitle(info: MediaInfo): string {
    Lower(info.title.GetOr(""))
  }

  /** The content type asks for vertical clips. */
  predicate WantsVertical(f: Filters) {
    var ct := f.contentType.GetOr("All Videos");
    Contains(ct, "Shorts Only") || Contains(ct, "Reels Only")
  }

  /** The item is a Short or a Reel by its address, or portrait by its dimensions. */
  predicate IsVertical(info: MediaInfo) {
    var url := info.webpageUrl.GetOr("");
    Contains(url, "/shorts/") || Contains(info.originalUrl.GetOr(""), "/shorts/") || Contains(url, "/reel/")
    || (IntTruthy(info.width.Get()) && IntTruthy(info.height.Get()) && info.height.v > info.width.v)
  }

  const ShapeRejection := "Not a Short/Reel (horizontal format)"
  const IncludeRejection := "Title does not match any required patterns"
  const LessThanNone := "'<' not supported between instances of 'NoneType' and 'int'"
  const MoreThanNone := "'>' not supported between instances of 'NoneType' and 'int'"
  const NoneLower := "'NoneType' object has no attribute 'lower'"
  const NoneNotIterable := "argument of type 'NoneType' is not iterable"

  // The exceptions a JSON null raises once the check reading it is reached.

  /** A null duration is compared with a bound. */
  predicate DurationRaises(f: Filters, info: MediaInfo) {
    info.duration.Null? && (IntTruthy(f.minDuration) || IntTruthy(f.maxDuration))
  }

  /** A null view count is compared with a bound. */
  predicate ViewsRaises(f: Filters, info: MediaInfo) {
    info.viewCount.Null? && (IntTruthy(f.minViews) || IntTruthy(f.maxViews))
  }

  /** The shape test searches a null address: the page address first, the original one when the first has no "/shorts/". */
  predicate ShapeRaises(f: Filters, info: MediaInfo) {
    WantsVertical(f)
    && (info.webpageUrl.Null? || (!Contains(info.webpageUrl.GetOr(""), "/shorts/") && info.originalUrl.Null?))
  }

  /** No null value is ever used by a check that is reached. */
  predicate NoNullUsed(f: Filters, info: MediaInfo) {
    !DurationRaises(f, info) && !info.title.Null? && !ViewsRaises(f, info) && !ShapeRaises(f, info)
  }

  function DurationCheck(f: Filters, info: MediaInfo): Outcome<Option<string>> {
    var d := info.duration.GetOr(0);
    if IntTruthy(f.minDuration) && info.duration.Null? then Raised(LessThanNone)
    else if IntTruthy(f.minDuration) && d < f.minDuration.value then
      Done(Some("Duration " + IntToString(d) + "s is less than minimum " + IntToString(f.minDuration.value) + "s"))
    else if IntTruthy(f.maxDuration) && info.duration.Null? then Raised(MoreThanNone)
    else if IntTruthy(f.maxDuration) && d > f.maxDuration.value then
      Done(Some("Duration " + IntToString(d) + "s exceeds maximum " + IntToString(f.maxDuration.value) + "s"))
    else Done(None)
  }

  function TitleCheck(f: Filters, info: MediaInfo): Outcome<Option<string>> {
    if info.title.Null? then Raised(NoneLower)
    else
      var title := LowerTitle(info);
      var excluded := f.excludeTitles.GetOr([]);
      match FirstContained(title, LowerAll(excluded))
      case Some(k) => Done(Some("Title contains excluded pattern: " + excluded[k]))
      case None =>
        var included := f.includeTitles.GetOr([]);
        if |included| > 0 && !ContainsAny(title, LowerAll(included)) then Done(Some(IncludeRejection)) else Done(None)
  }

  function ViewsCheck(f: Filters, info: MediaInfo): Outcome<Option<string>> {
    var v := info.viewCount.GetOr(0);
    if IntTruthy(f.minViews) && info.viewCount.Null? then Raised(LessThanNone)
    else if IntTruthy(f.minViews) && v < f.minViews.value then
      Done(Some("View count " + IntToString(v) + " is less than minimum " + IntToString(f.minViews.value)))
    else if IntTruthy(f.maxViews) && info.viewCount.Null? then Raised(MoreThanNone)
    else if IntTruthy(f.maxViews) && v > f.maxViews.value then
      Done(Some("View count " + IntToString(v) + " exceeds maximum " + IntToString(f.maxViews.value)))
    else Done(None)
  }

  function ShapeCheck(f: Filters, info: MediaInfo): Outcome<Option<string>> {
    if ShapeRaises(f, info) then Raised(NoneNotIterable)
    else if WantsVertical(f) && !IsVertical(info) then Done(Some(ShapeRejection))
    else Done(None)
  }

  predicate DurationWithin(f: Filters, info: MediaInfo) {
    var d := info.duration.GetOr(0);
    (!IntTruthy(f.minDuration) || d >= f.minDuration.value) && (!IntTruthy(f.maxDuration) || d <= f.maxDuration.value)
  }

  /** Some excluded pattern occurs, case-insensitively, in the title. */
  predicate ExcludedHit(f: Filters, info: MediaInfo) {
    exists p :: p in f.excludeTitles.GetOr([]) && Contains(LowerTitle(info), Lower(p))
  }

  /** Required patterns are given and none occurs, case-insensitively, in the title. */
  predicate IncludeMissed(f: Filters, info: MediaInfo) {
    f.includeTitles.GetOr([]) != [] && !exists p :: p in f.includeTitles.GetOr([]) && Contains(LowerTitle(info), Lower(p))
  }

  /** No excluded pattern occurs, and some required pattern does when any is given. */
  predicate TitleAllowed(f: Filters, info: MediaInfo) {
    !ExcludedHit(f, info) && !IncludeMissed(f, info)
  }

  predicate ViewsWithin(f: Filters, info: MediaInfo) {
    var v := info.viewCount.GetOr(0);
    (!IntTruthy(f.minViews) || v >= f.minViews.value) && (!IntTruthy(f.maxViews) || v <= f.maxViews.value)
  }

  /** What the predicate accepts, stated as one conjunction of independent conditions. */
  predicate Accepts(f: Filters, info: MediaInfo) {
    NoNullUsed(f, info)
    && DurationWithin(f, info) && TitleAllowed(f, info) && ViewsWithin(f, info) && (WantsVertical(f) ==> IsVertical(info))
  }

  /** A null value is reached: each check raises on its own null before the next check runs. */
  predicate FilterRaises(f: Filters, info: MediaInfo) {
    DurationRaises(f, info)
    || (DurationWithin(f, info)
        && (info.title.Null?
            || (TitleAllowed(f, info) && (ViewsRaises(f, info) || (ViewsWithin(f, info) && ShapeRaises(f, info))))))
  }

  /**
   * The inner `match_filter(info, incomplete)`: None to accept, else the
   * message of the first check that fails, in the order duration, excluded
   * titles, required titles, views, shape; a JSON null the reached check
   * uses raises.
   */
  function MatchFilter(f: Filters, info: MediaInfo): (r: Outcome<Option<string>>)
    ensures r.Raised? <==> FilterRaises(f, info)
    ensures r == Done(None) <==> Accepts(f, info)
    ensures !DurationRaises(f, info) && !DurationWithin(f, info) ==>
      r.Done? && r.value.Some? && StartsWith(r.value.value, "Duration ")
    ensures !DurationRaises(f, info) && DurationWithin(f, info) && !info.title.Null? && ExcludedHit(f, info) ==>
      r.Done? && r.value.Some? && StartsWith(r.value.value, "Title contains excluded pattern: ")
    ensures !DurationRaises(f, info) && DurationWithin(f, info) && !info.title.Null? && !ExcludedHit(f, info) && IncludeMissed(f, info) ==>
      r == Done(Some(IncludeRejection))
    ensures !DurationRaises(f, info) && DurationWithin(f, info) && !info.title.Null? && TitleAllowed(f, info)
            && !ViewsRaises(f, info) && !ViewsWithin(f, info) ==>
      r.Done? && r.value.Some? && StartsWith(r.value.value, "View count ")
    ensures r == Done(Some(ShapeRejection)) ==>
      DurationWithin(f, info) && TitleAllowed(f, info) && ViewsWithin(f, info) && WantsVertical(f) && !IsVertical(info)
  {
    DurationCheckMessage(f, info);
    TitleCheckMessage(f, info);
    ViewsCheckMessage(f, info);
    if DurationCheck(f, info) != Done(None) then DurationCheck(f, info)
    else if TitleCheck(f, info) != Done(None) then TitleCheck(f, info)
    else if ViewsCheck(f, info) != Done(None) then ViewsCheck(f, info)
    else ShapeCheck(f, info)
  }

  lemma DurationCheckMessage(f: Filters, info: MediaInfo)
    ensures DurationCheck(f, info).Raised? <==> DurationRaises(f, info)
    ensures DurationCheck(f, info) == Done(None) <==> !DurationRaises(f, info) && DurationWithin(f, info)
    ensures DurationCheck(f, info).Done? && DurationCheck(f, info).value.Some? ==>
      StartsWith(DurationCheck(f, info).value.value, "Duration ") && DurationCheck(f, info).value.value != ShapeRejection
  {
    var d := info.duration.GetOr(0);
    if IntTruthy(f.minDuration) && info.duration.Null? {
    } else if IntTruthy(f.minDuration) && d < f.minDuration.value {
      StartsWithAppend("Duration ", IntToString(d) + "s is less than minimum " + IntToString(f.minDuration.value) + "s");
      assert DurationCheck(f, info).value.value[0] == 'D' != ShapeRejection[0];
    } else if IntTruthy(f.maxDuration) && info.duration.Null? {
    } else if IntTruthy(f.maxDuration) && d > f.maxDuration.value {
      StartsWithAppend("Duration ", IntToString(d) + "s exceeds maximum " + IntToString(f.maxDuration.value) + "s");
      assert DurationCheck(f, info).value.value[0] == 'D' != ShapeRejection[0];
    }
  }

  lemma ViewsCheckMessage(f: Filters, info: MediaInfo)
    ensures ViewsCheck(f, info).Raised? <==> ViewsRaises(f, info)
    ensures ViewsCheck(f, info) == Done(None) <==> !ViewsRaises(f, info) && ViewsWithin(f, info)
    ensures ViewsCheck(f, info).Done? && ViewsCheck(f, info).value.Some? ==>
      StartsWith(ViewsCheck(f, info).value.value, "View count ") && ViewsCheck(f, info).value.value != ShapeRejection
  {
    var v := info.viewCount.GetOr(0);
    if IntTruthy(f.minViews) && info.viewCount.Null? {
    } else if IntTruthy(f.minViews) && v < f.minViews.value {
      StartsWithAppend("View count ", IntToString(v) + " is less than minimum " + IntToString(f.minViews.value));
      assert ViewsCheck(f, info).value.value[0] == 'V' != ShapeRejection[0];
    } else if IntTruthy(f.maxViews) && info.viewCount.Null? {
    } else if IntTruthy(f.maxViews) && v > f.maxViews.value {
      StartsWithAppend("View count ", IntToString(v) + " exceeds maximum " + IntToString(f.maxViews.value));
      assert ViewsCheck(f, info).value.value[0] == 'V' != ShapeRejection[0];
    }
  }

  lemma TitleCheckMessage(f: Filters, info: MediaInfo)
    ensures TitleCheck(f, info).Raised? <==> info.title.Null?
    ensures TitleCheck(f, info) == Done(None) <==> !info.title.Null? && TitleAllowed(f, info)
    ensures !info.title.Null? && ExcludedHit(f, info) ==>
      TitleCheck(f, info).Done? && TitleCheck(f, info).value.Some?
      && StartsWith(TitleCheck(f, info).value.value, "Title contains excluded pattern: ")
    ensures !info.title.Null? && !ExcludedHit(f, info) && IncludeMissed(f, info) ==> TitleCheck(f, info) == Done(Some(IncludeRejection))
    ensures TitleCheck(f, info) != Done(Some(ShapeRejection))
  {
    if !info.title.Null? {
      var title := LowerTitle(info);
      var excluded := f.excludeTitles.GetOr([]);
      var included := f.includeTitles.GetOr([]);
      AnyLowered(title, excluded);
      AnyLowered(title, included);
      match FirstContained(title, LowerAll(excluded))
      case Some(j) =>
        StartsWithAppend("Title contains excluded pattern: ", excluded[j]);
        assert TitleCheck(f, info).value.value[0] == 'T';
      case None =>
        assert IncludeRejection[0] == 'T' != ShapeRejection[0];
    }
  }

  /** Some lowered pattern occurs exactly when some pattern occurs once lowered. */
  lemma AnyLowered(title: string, ps: seq<string>)
    ensures ContainsAny(title, LowerAll(ps)) <==> exists p :: p in ps && Contains(title, Lower(p))
  {
    var lowered := LowerAll(ps);
    if ContainsAny(title, lowered) {
      var k :| 0 <= k < |ps| && Contains(title, lowered[k]);
      assert ps[k] in ps;
    }
    if exists p :: p in ps && Contains(title, Lower(p)) {
      var p :| p in ps && Contains(title, Lower(p));
      var k :| 0 <= k < |ps| && ps[k] == p;
      assert Contains(title, lowered[k]);
    }
  }

  /** Excluding wins: a title hitting an excluded pattern is rejected even when it also has a required one. */
  lemma ExclusionBeatsInclusion(f: Filters, info: MediaInfo, p: string, q: string)
    requires DurationWithin(f, info) && !DurationRaises(f, info) && !info.title.Null?
    requires p in f.excludeTitles.GetOr([]) && Contains(LowerTitle(info), Lower(p))
    requires q in f.includeTitles.GetOr([]) && Contains(LowerTitle(info), Lower(q))
    ensures MatchFilter(f, info).Done? && MatchFilter(f, info).value.Some?
    ensures StartsWith(MatchFilter(f, info).value.value, "Title contains excluded pattern: ")
  {
  }

  /** Title matching ignores case on both sides. */
  lemma TitleMatchIgnoresCase(f: Filters, info: MediaInfo, p: string)
    requires p in f.excludeTitles.GetOr([]) && Contains(info.title.GetOr(""), p)
    ensures ExcludedHit(f, info)
  {
    ContainsLower(info.title.GetOr(""), p);
  }

  /** A null title raises whenever the duration check passes, even with no title pattern given. */
  lemma NullTitleRaises(f: Filters, info: MediaInfo)
    requires info.title.Null? && !DurationRaises(f, info) && DurationWithin(f, info)
    ensures MatchFilter(f, info) == Raised(NoneLower)
  {
    DurationCheckMessage(f, info);
  }

  /** Null keys nobody compares are harmless: they read as absent ones. */
  lemma UnusedNullsHarmless(f: Filters, info: MediaInfo)
    requires !IntTruthy(f.minDuration) && !IntTruthy(f.maxDuration) && !IntTruthy(f.minViews) && !IntTruthy(f.maxViews)
    requires !WantsVertical(f) && info.title.Val?
    ensures MatchFilter(f, info) == MatchFilter(f, info.(duration := Absent, viewCount := Absent, webpageUrl := Absent, originalUrl := Absent))
  {
    var info2 := info.(duration := Absent, viewCount := Absent, webpageUrl := Absent, originalUrl := Absent);
    assert DurationCheck(f, info) == DurationCheck(f, info2) == Done(None);
    assert TitleCheck(f, info) == TitleCheck(f, info2);
    assert ViewsCheck(f, info) == ViewsCheck(f, info2) == Done(None);
    assert ShapeCheck(f, info) == ShapeCheck(f, info2) == Done(None);
  }

  /** The "Audio Only" content type never fails on shape, whatever the item's dimensions. */
  lemma AudioOnlyNeverShapeRejected(f: Filters, info: MediaInfo)
    requires f.contentType == Some("Audio Only")
    ensures !WantsVertical(f)
    ensures MatchFilter(f, info) != Done(Some(ShapeRejection))
  {
    assert !OccursAt("Audio Only", "Reels Only", 0) by {
      assert "Audio Only"[0] != "Reels Only"[0];
    }
    assert Find("Audio Only", "Reels Only").None? by {
      assert forall j :: OccursAt("Audio Only", "Reels Only", j) ==> j == 0;
    }
  }

  // ---------------------------------------------------------------------
  // build_ytdlp_options

  /**
   * The options dictionary. The constant flags (`ignoreerrors`,
   * `writeinfojson`, `writethumbnail`, `geo_bypass`, ...) are the same for
   * every call and are left out; `extractAudio` stands for the mp3/192
   * FFmpeg post-processor, `subtitles` for the three subtitle keys.
   */
  datatype YtdlpOptions = YtdlpOptions(
    outtmpl: string,
    format: string,
    extractAudio: bool,
    dateAfter: Option<string>,
    dateBefore: Option<string>,
    maxFilesize: Option<int>,
    playlistEnd: Option<int>,
    subtitles: bool,
    downloadArchive: Option<string>,
    matchFilter: Option<Filters>)

  const AudioFormat := "bestaudio/best"
  const VerticalFormat := "bestvideo[height>width]+bestaudio/best[height>width]/best"
  const BestFormat := "bestvideo+bestaudio/best"

  /** The quality labels with a format of their own, in table order. */
  function QualityFormat(quality: string): Option<string> {
    if quality == "Best Available" then Some(BestFormat)
    else if quality == "4K" then Some("bestvideo[height<=2160]+bestaudio/best[height<=2160]")
    else if quality == "1440p" then Some("bestvideo[height<=1440]+bestaudio/best[height<=1440]")
    else if quality == "1080p" then Some("bestvideo[height<=1080]+bestaudio/best[height<=1080]")
    else if quality == "720p" then Some("bestvideo[height<=720]+bestaudio/best[height<=720]")
    else if quality == "480p" then Some("bestvideo[height<=480]+bestaudio/best[height<=480]")
    else None
  }

  predicate WantsAudio(f: Filters) {
    Contains(f.contentType.GetOr("All Videos"), "Audio Only") || Contains(f.quality.GetOr("Best Available"), "Audio Only")
  }

  /** The format selector: audio first, then vertical, then the quality table with `best` as default. */
  function SelectFormat(f: Filters): (r: string)
    ensures WantsAudio(f) ==> r == AudioFormat
    ensures !WantsAudio(f) && WantsVertical(f) ==> r == VerticalFormat
    ensures !WantsAudio(f) && !WantsVertical(f) ==> r == QualityFormat(f.quality.GetOr("Best Available")).GetOr(BestFormat)
  {
    if WantsAudio(f) then AudioFormat
    else if WantsVertical(f) then VerticalFormat
    else QualityFormat(f.quality.GetOr("Best Available")).GetOr(BestFormat)
  }

  const GiB := 1073741824
  const MiB := 1048576

  /** 2^53: below it every whole number is exact as a float, so `float(n) * unit` is exact too. */
  const FloatExact := 0x20_0000_0000_0000

  /**
   * The `max_filesize` conversion: "nG" is n GiB and "nM" is n MiB (after
   * upper-casing), any other text goes through `int()`, and a number is
   * taken as bytes. Text that does not convert raises ValueError. The
   * number before a unit is read as `int()` reads it, not as `float()`.
   */
  function FileSizeBytes(size: FileSize): (r: Outcome<int>)
    ensures size.SizeBytes? ==> r == Done(size.n)
  {
    match size
    case SizeBytes(n) => Done(n)
    case SizeText(text) =>
      var t := Upper(text);
      match (if Contains(t, "G") then ParseInt(Replace(t, "G", ""))
             else if Contains(t, "M") then ParseInt(Replace(t, "M", ""))
             else ParseInt(t))
      case None => Raised("ValueError: could not convert string to a number")
      case Some(n) => Done(if Contains(t, "G") then n * GiB else if Contains(t, "M") then n * MiB else n)
  }

  /** Digits followed by an upper-case unit letter: upper-casing keeps them, removing the unit leaves the digits. */
  lemma UnitText(n: nat, c: char)
    requires IsUpper(c)
    ensures Upper(NatToString(n) + [c]) == NatToString(n) + [c]
    ensures Contains(NatToString(n) + [c], [c])
    ensures Replace(NatToString(n) + [c], [c], "") == NatToString(n)
    ensures |NatToString(n)| <= MaxIntDigits ==> ParseInt(NatToString(n)) == Some(n)
    ensures |NatToString(n)| > MaxIntDigits ==> ParseInt(NatToString(n)).None?
  {
    var digits := NatToString(n);
    UpperKeepsDigitsUnit(digits, c);
    forall i | 0 <= i < |digits| ensures digits[i] != c {
      assert IsDigit(digits[i]);
    }
    ReplaceTrailing(digits, c);
    DigitsValueOfNat(n);
    ParseDigits(digits);
  }

  lemma UpperKeepsDigitsUnit(digits: string, c: char)
    requires IsUpper(c) && AllDigits(digits)
    ensures Upper(digits + [c]) == digits + [c]
  {
    var t := digits + [c];
    var u := Upper(t);
    forall i | 0 <= i < |t| ensures u[i] == t[i] {
      if i < |digits| { assert t[i] == digits[i] && IsDigit(digits[i]); }
    }
  }

  /**
   * `str(n) + unit` converts to `n` units when n is a whole number a float
   * holds exactly; past 4300 digits the conversion raises (in the source the
   * float overflows and `int()` raises OverflowError).
   */
  lemma FileSizeUnits(n: nat)
    ensures n < FloatExact && |NatToString(n)| <= MaxIntDigits ==> FileSizeBytes(SizeText(NatToString(n) + "G")) == Done(n * GiB)
    ensures n < FloatExact && |NatToString(n)| <= MaxIntDigits ==> FileSizeBytes(SizeText(NatToString(n) + "M")) == Done(n * MiB)
    ensures |NatToString(n)| > MaxIntDigits ==> FileSizeBytes(SizeText(NatToString(n) + "G")).Raised?
    ensures |NatToString(n)| > MaxIntDigits ==> FileSizeBytes(SizeText(NatToString(n) + "M")).Raised?
  {
    UnitText(n, 'G');
    MebibyteText(n);
  }

  /** `str(n) + "M"` holds no "G", so it is read as mebibytes. */
  lemma MebibyteText(n: nat)
    ensures |NatToString(n)| <= MaxIntDigits ==> FileSizeBytes(SizeText(NatToString(n) + "M")) == Done(n * MiB)
    ensures |NatToString(n)| > MaxIntDigits ==> FileSizeBytes(SizeText(NatToString(n) + "M")).Raised?
  {
    UnitText(n, 'M');
    NoGigabyteUnit(n);
  }

  lemma NoGigabyteUnit(n: nat)
    ensures !Contains(NatToString(n) + "M", "G")
  {
    var t := NatToString(n) + "M";
    forall j ensures !OccursAt(t, "G", j) {
      if 0 <= j && j + 1 <= |t| {
        assert t[j..j + 1][0] == t[j];
        if j < |t| - 1 { assert IsDigit(NatToString(n)[j]); }
      }
    }
  }

  function FileSizeTruthy(o: Option<FileSize>): bool {
    match o
    case None => false
    case Some(SizeText(t)) => t != ""
    case Some(SizeBytes(n)) => n != 0
  }

  /** The `max_filesize` entry: absent when the filter is falsy, else the converted byte count. */
  function SizeLimit(f: Filters): (r: Outcome<Option<int>>)
    ensures r.Done? ==> (r.value.Some? <==> FileSizeTruthy(f.maxFilesize))
    ensures r.Done? && r.value.Some? ==> FileSizeBytes(f.maxFilesize.value) == Done(r.value.value)
    ensures r.Raised? <==> FileSizeTruthy(f.maxFilesize) && FileSizeBytes(f.maxFilesize.value).Raised?
  {
    if FileSizeTruthy(f.maxFilesize) then
      match FileSizeBytes(f.maxFilesize.value)
      case Done(n) => Done(Some(n))
      case Raised(e) => Raised(e)
    else Done(None)
  }

  /** `playlistend`: `min(max_downloads, 500)` when the count is truthy. */
  function PlaylistEnd(maxDownloads: Option<int>): (r: Option<int>)
    ensures r.Some? <==> IntTruthy(maxDownloads)
    ensures r.Some? ==> r.value <= MaxDownloadsCap && r.value <= maxDownloads.value
    ensures r.Some? ==> r.value == MaxDownloadsCap || r.value == maxDownloads.value
  {
    if IntTruthy(maxDownloads) then
      Some(if maxDownloads.value < MaxDownloadsCap then maxDownloads.value else MaxDownloadsCap)
    else None
  }

  /** The archive file that makes yt-dlp skip what it fetched before, unless `skip_existing` is false. */
  function Archive(f: Filters, base: string): (r: Option<string>)
    ensures r.Some? <==> f.skipExisting != Some(false)
    ensures r.Some? ==> StartsWith(r.value, base + "/")
  {
    StartsWithAppend(base + "/", ".download_archive.txt");
    assert base + "/.download_archive.txt" == (base + "/") + ".download_archive.txt";
    if f.skipExisting.GetOr(true) then Some(base + "/.download_archive.txt") else None
  }

  /**
   * `build_ytdlp_options(filters, base_output_path)`, with the clock `now`
   * for the date fields. It raises exactly when one of the two dates or the
   * size limit does.
   */
  function BuildYtdlpOptions(f: Filters, base: string, now: Date): (r: Outcome<YtdlpOptions>)
    requires Valid(now)
    ensures r.Raised? <==> ParseDateInput(f.dateFrom, now).Raised? || ParseDateInput(f.dateTo, now).Raised? || SizeLimit(f).Raised?
    ensures r.Done? ==> StartsWith(r.value.outtmpl, base + "/")
    ensures r.Done? ==> r.value.format == SelectFormat(f) && (r.value.extractAudio <==> WantsAudio(f))
    ensures r.Done? ==> r.value.playlistEnd == PlaylistEnd(f.maxDownloads)
    ensures r.Done? ==> r.value.downloadArchive == Archive(f, base)
    ensures r.Done? ==> (r.value.subtitles <==> f.downloadSubtitles == Some(true))
    ensures r.Done? ==> (r.value.matchFilter.Some? <==> MatchFilterActive(f))
    ensures r.Done? ==> Done(r.value.maxFilesize) == SizeLimit(f)
    ensures r.Done? ==> Done(r.value.dateAfter) == ParseDateInput(f.dateFrom, now)
    ensures r.Done? ==> Done(r.value.dateBefore) == ParseDateInput(f.dateTo, now)
  {
    var from := ParseDateInput(f.dateFrom, now);
    var to := ParseDateInput(f.dateTo, now);
    var size := SizeLimit(f);
    if from.Raised? then Raised(from.reason)
    else if to.Raised? then Raised(to.reason)
    else if size.Raised? then Raised(size.reason)
    else Done(Assemble(f, base, from.value, to.value, size.value))
  }

  /** The options dictionary once the dates and the size limit have been converted. */
  function Assemble(f: Filters, base: string, after: Option<string>, before: Option<string>, maxFilesize: Option<int>): (r: YtdlpOptions)
    ensures StartsWith(r.outtmpl, base + "/")
    ensures r.format == SelectFormat(f) && (r.extractAudio <==> WantsAudio(f))
    ensures r.playlistEnd == PlaylistEnd(f.maxDownloads)
    ensures r.downloadArchive == Archive(f, base)
    ensures r.subtitles <==> f.downloadSubtitles == Some(true)
    ensures r.matchFilter.Some? <==> MatchFilterActive(f)
    ensures r.dateAfter == after && r.dateBefore == before && r.maxFilesize == maxFilesize
  {
    StartsWithAppend(base + "/", "%(uploader)s/%(title)s_%(id)s.%(ext)s");
    YtdlpOptions(
      outtmpl := (base + "/") + "%(uploader)s/%(title)s_%(id)s.%(ext)s",
      format := SelectFormat(f),
      extractAudio := WantsAudio(f),
      dateAfter := after,
      dateBefore := before,
      maxFilesize := maxFilesize,
      playlistEnd := PlaylistEnd(f.maxDownloads),
      subtitles := f.downloadSubtitles.GetOr(false),
      downloadArchive := Archive(f, base),
      matchFilter := BuildMatchFilter(f))
  }

}

=== FILE: instagram_engine.dfy ===
/**
 * The reel pipeline of instagram_engine.py: reel addresses collected from
 * the links of a profile page, one yt-dlp run per reel, and the tally kept
 * by `download_reels_to_drive`. The browser, the yt-dlp process and Google
 * Drive are oracles: the page is the list of `href` attributes it shows,
 * a yt-dlp run is its exit code with the directory listing after it, and an
 * upload either returns or raises.
 */
module InstagramEngine {
  import opened Wrappers
  import opened Text

  const Site := "https://www.instagram.com"
  const ReelMarker := "/reel/"

  // ---------------------------------------------------------------------
  // Reel addresses from the page

  /** A relative `href` gets the site in front; the query is cut off. */
  function CleanReelUrl(href: string): (r: string)
    ensures !Contains(r, "?")
    ensures StartsWith(href, "/") ==> StartsWith(Site + href, r)
    ensures !StartsWith(href, "/") ==> StartsWith(href, r)
  {
    SplitHead(if StartsWith(href, "/") then Site + href else href, "?")
  }

  /** A relative link without a query becomes the full address of the reel. */
  lemma CleanRelative(href: string)
    requires StartsWith(href, "/") && !Contains(href, "?")
    ensures CleanReelUrl(href) == Site + href
  {
    var full := Site + href;
    assert '?' !in Site;
    forall j | 0 <= j < |href| ensures href[j] != '?' {
      if href[j] == '?' {
        assert href[j..j + 1] == "?";
        assert OccursAt(href, "?", j);
      }
    }
    assert '?' !in full;
    NoCharNoContains(full, '?');
  }

  /** Cleaning an address twice is cleaning it once. */
  lemma CleanIdempotent(href: string)
    ensures CleanReelUrl(CleanReelUrl(href)) == CleanReelUrl(href)
  {
    var r := CleanReelUrl(href);
    if |r| > 0 {
      if StartsWith(href, "/") {
        assert r[0] == (Site + href)[0] == 'h';
      } else {
        assert r[0] == href[0];
      }
    }
    assert !StartsWith(r, "/");
  }

  /** The filter of the link loop: a present, non-empty `href` holding "/reel/". */
  predicate Admissible(href: Option<string>) {
    href.Some? && |href.value| > 0 && Contains(href.value, ReelMarker)
  }

  /** One link of the page: its cleaned address is appended unless already listed. */
  function Admit(urls: seq<string>, href: Option<string>): (r: seq<string>)
    ensures r == urls || (Admissible(href) && r == urls + [CleanReelUrl(href.value)])
    ensures Distinct(urls) ==> Distinct(r)
  {
    if Admissible(href) then
      var u := CleanReelUrl(href.value);
      if u in urls then urls else urls + [u]
    else urls
  }

  /** The link loop as written: it stops once `max_reels` addresses are listed. */
  function Gather(urls: seq<string>, hrefs: seq<Option<string>>, maxReels: int): seq<string>
    decreases |hrefs|
  {
    if |hrefs| == 0 then urls
    else
      var next := Admit(urls, hrefs[0]);
      if |next| >= maxReels then next else Gather(next, hrefs[1..], maxReels)
  }


  /** The reference reading: every admissible link, cleaned, first occurrences only, in page order. */
  function Dedup(urls: seq<string>, hrefs: seq<Option<string>>): seq<string>
    decreases |hrefs|
  {
    if |hrefs| == 0 then urls else Dedup(Admit(urls, hrefs[0]), hrefs[1..])
  }

  /** The list already gathered is the head of the deduplicated list. */
  lemma {:induction false} DedupExtends(urls: seq<string>, hrefs: seq<Option<string>>)
    ensures |urls| <= |Dedup(urls, hrefs)|
    ensures Dedup(urls, hrefs)[..|urls|] == urls
    decreases |hrefs|
  {
    if |hrefs| > 0 {
      var next := Admit(urls, hrefs[0]);
      DedupExtends(next, hrefs[1..]);
      assert next[..|urls|] == urls;
    }
  }

  /** Below the cap, the loop as written lists the head of the deduplicated list. */
  lemma {:induction false} GatherIsCappedDedup(urls: seq<string>, hrefs: seq<Option<string>>, maxReels: int)
    requires |urls| < maxReels
    ensures Gather(urls, hrefs, maxReels) == PyPrefix(Dedup(urls, hrefs), maxReels)
    decreases |hrefs|
  {
    if |hrefs| > 0 {
      var next := Admit(urls, hrefs[0]);
      DedupExtends(next, hrefs[1..]);
      if |next| < maxReels {
        GatherIsCappedDedup(next, hrefs[1..], maxReels);
      } else {
        assert |next| == maxReels;
      }
    }
  }

  /**
   * `extract_reel_urls` after the scrolling: the gathered list cut to
   * `max_reels`. The extracted addresses are the first `max_reels` distinct
   * cleaned reel links in page order; a cap of zero or less extracts nothing.
   */
  function ExtractReelUrls(hrefs: seq<Option<string>>, maxReels: int): (r: seq<string>)
    ensures r == if maxReels <= 0 then [] else PyPrefix(Dedup([], hrefs), maxReels)
  {
    if maxReels > 0 then
      GatherIsCappedDedup([], hrefs, maxReels);
      PyPrefix(Gather([], hrefs, maxReels), maxReels)
    else
      assert |hrefs| > 0 ==> |Admit([], hrefs[0])| <= 1;
      PyPrefix(Gather([], hrefs, maxReels), maxReels)
  }

  lemma {:induction false} DedupDistinct(urls: seq<string>, hrefs: seq<Option<string>>)
    requires Distinct(urls)
    ensures Distinct(Dedup(urls, hrefs))
    decreases |hrefs|
  {
    if |hrefs| > 0 {
      DedupDistinct(Admit(urls, hrefs[0]), hrefs[1..]);
    }
  }

  /** `u` is the cleaned address of some admissible link of `hrefs`. */
  ghost predicate Offered(hrefs: seq<Option<string>>, u: string) {
    exists k :: 0 <= k < |hrefs| && Admissible(hrefs[k]) && CleanReelUrl(hrefs[k].value) == u
  }

  /** The deduplicated list holds exactly the listed addresses and the offered ones. */
  lemma {:induction false} DedupMembers(urls: seq<string>, hrefs: seq<Option<string>>, u: string)
    ensures u in Dedup(urls, hrefs) <==> u in urls || Offered(hrefs, u)
    decreases |hrefs|
  {
    if |hrefs| > 0 {
      var next := Admit(urls, hrefs[0]);
      DedupMembers(next, hrefs[1..], u);
      if Offered(hrefs[1..], u) {
        var k :| 0 <= k < |hrefs[1..]| && Admissible(hrefs[1..][k]) && CleanReelUrl(hrefs[1..][k].value) == u;
        assert hrefs[k + 1] == hrefs[1..][k];
      }
      if Offered(hrefs, u) && u !in next {
        var k :| 0 <= k < |hrefs| && Admissible(hrefs[k]) && CleanReelUrl(hrefs[k].value) == u;
        assert k > 0;
        assert hrefs[1..][k - 1] == hrefs[k];
      }
    }
  }

  /** The extracted list has no repeats, respects the cap, and holds only offered reel addresses. */
  lemma ExtractedReels(hrefs: seq<Option<string>>, maxReels: int)
    ensures Distinct(ExtractReelUrls(hrefs, maxReels))
    ensures |ExtractReelUrls(hrefs, maxReels)| <= if maxReels > 0 then maxReels else 0
    ensures forall u :: u in ExtractReelUrls(hrefs, maxReels) ==> Offered(hrefs, u)
  {
    var all := Dedup([], hrefs);
    var r := ExtractReelUrls(hrefs, maxReels);
    DedupDistinct([], hrefs);
    if maxReels > 0 {
      DistinctPrefix(all, |r|);
    }
    forall u | u in r ensures Offered(hrefs, u) {
      assert u in all;
      DedupMembers([], hrefs, u);
    }
  }

  /** With room enough, every offered reel address is extracted. */
  lemma ExtractsEveryReelBelowCap(hrefs: seq<Option<string>>, maxReels: int, u: string)
    requires |Dedup([], hrefs)| <= maxReels
    requires Offered(hrefs, u)
    ensures u in ExtractReelUrls(hrefs, maxReels)
  {
    DedupMembers([], hrefs, u);
  }

  // ---------------------------------------------------------------------
  // The reel id and the duplicate check

  /** `url.split("/reel/")[1].rstrip("/")`; None for the IndexError of an address without "/reel/". */
  function ReelId(url: string): (r: Option<string>)
    ensures r.None? <==> !Contains(url, ReelMarker)
    ensures r.Some? ==> !Contains(r.value, ReelMarker)
    ensures r.Some? && |r.value| > 0 ==> r.value[|r.value| - 1] != '/'
  {
    if Contains(url, ReelMarker) then
      var piece := SecondPiece(url, ReelMarker);
      var id := RStripChar(piece, '/');
      assert !Contains(id, ReelMarker) by {
        if Contains(id, ReelMarker) {
          ContainsPrefix(piece, id);
          ContainsTransitive(piece, id, ReelMarker);
        }
      }
      Some(id)
    else None
  }

  /** A text without '/' does not hold "/reel/" even with one '/' after it. */
  lemma NoMarkerInCode(code: string)
    requires '/' !in code
    ensures !Contains(code + "/", ReelMarker)
  {
    var s := code + "/";
    forall j | 0 <= j && j + 6 <= |s| ensures !OccursAt(s, ReelMarker, j) {
      assert s[j..j + 6][0] == s[j] == code[j];
    }
  }

  /** The leftmost "/reel/" of `pre + "/reel/" + rest` is the written one when `pre` leaves no earlier one. */
  lemma MarkerAfter(pre: string, rest: string)
    requires !Contains(pre + "/reel", ReelMarker)
    ensures Find(pre + ReelMarker + rest, ReelMarker) == Some(|pre|)
  {
    var s := pre + ReelMarker + rest;
    assert OccursAt(s, ReelMarker, |pre|);
    var v := Find(s, ReelMarker).value;
    if v < |pre| {
      assert s[..|pre| + 5] == pre + "/reel";
      assert s[v..v + 6] == (pre + "/reel")[v..v + 6];
      assert OccursAt(pre + "/reel", ReelMarker, v);
    }
  }

  /** The reel id of `<pre>/reel/<code>/` is `code`, for a code without '/'. */
  lemma ReelIdOf(pre: string, code: string)
    requires !Contains(pre + "/reel", ReelMarker)
    requires '/' !in code
    ensures ReelId(pre + ReelMarker + code + "/") == Some(code)
  {
    var rest := code + "/";
    assert pre + ReelMarker + code + "/" == pre + ReelMarker + rest;
    MarkerAfter(pre, rest);
    NoMarkerInCode(code);
    SecondPieceOf(pre, ReelMarker, rest);
    assert RStripChar(rest, '/') == RStripChar(code, '/');
  }

  /** `any(reel_id in name for name in existing_names)`. */
  predicate AlreadyInDrive(names: seq<string>, id: string) {
    exists k :: 0 <= k < |names| && Contains(names[k], id)
  }

  /** An address ending in a bare "/reel/" has the empty id, which every Drive name holds. */
  lemma BareReelMatchesAnyName(names: seq<string>, pre: string)
    requires !Contains(pre + "/reel", ReelMarker)
    ensures ReelId(pre + ReelMarker) == Some("")
    ensures AlreadyInDrive(names, "") <==> |names| > 0
  {
    assert pre + ReelMarker == pre + ReelMarker + "";
    MarkerAfter(pre, "");
    assert !Contains("", ReelMarker);
    SecondPieceOf(pre, ReelMarker, "");
    if |names| > 0 {
      assert OccursAt(names[0], "", 0);
    }
  }

  // ---------------------------------------------------------------------
  // One yt-dlp run: `download_reel`

  /** How the yt-dlp process ended: an exit code, or an exception (timeout, missing program). */
  datatype Run = Exited(code: int) | Threw(message: string)

  /** A file of the output directory with its modification time. */
  datatype Entry = Entry(path: string, mtime: int)

  /** `max(files, key=mtime)`: the first entry of greatest modification time. */
  function Newest(files: seq<Entry>): (r: nat)
    requires |files| > 0
    ensures r < |files|
    ensures forall j :: 0 <= j < |files| ==> files[j].mtime <= files[r].mtime
    ensures forall j :: 0 <= j < r ==> files[j].mtime < files[r].mtime
    decreases |files|
  {
    if |files| == 1 then 0
    else
      var k := Newest(files[..|files| - 1]);
      if files[|files| - 1].mtime > files[k].mtime then |files| - 1 else k
  }

  /** `download_reel(url, output_dir)`: the run, then the listing of the output directory. */
  function DownloadReel(run: Run, files: seq<Entry>): (r: (bool, string))
    ensures r.0 <==> run == Exited(0) && |files| > 0
    ensures r.0 ==> exists k :: 0 <= k < |files| && r.1 == files[k].path
                                && forall j :: 0 <= j < |files| ==> files[j].mtime <= files[k].mtime
    ensures run.Threw? ==> r.1 == run.message
    ensures run.Exited? && !r.0 ==> r.1 == "Download failed"
  {
    match run
    case Threw(m) => (false, m)
    case Exited(code) =>
      if code == 0 && |files| > 0 then (true, files[Newest(files)].path) else (false, "Download failed")
  }

  // ---------------------------------------------------------------------
  // The download loop

  /** What became of one reel. */
  datatype Action = Skipped(reelId: string) | Succeeded(file: string) | DownloadFailed(reason: string)

  /** One reel of the loop, and whether the anti-detection pause follows it. */
  datatype Item = Item(url: string, action: Action, delayed: bool)

  datatype Stats = Stats(successful: nat, failed: nat, skipped: nat)

  function Count(items: seq<Item>): (r: Stats)
    ensures r.successful + r.failed + r.skipped == |items|
  {
    if |items| == 0 then Stats(0, 0, 0)
    else
      var rest := Count(items[1..]);
      match items[0].action
      case Skipped(_) => rest.(skipped := rest.skipped + 1)
      case Succeeded(_) => rest.(successful := rest.successful + 1)
      case DownloadFailed(_) => rest.(failed := rest.failed + 1)
  }

  function Prepend(item: Item, rest: Outcome<seq<Item>>): Outcome<seq<Item>> {
    match rest
    case Done(items) => Done([item] + items)
    case Raised(e) => Raised(e)
  }

  /**
   * One pass of the loop body. `step` is what happens to a reel Drive does
   * not have: its action, or the exception that ends the whole loop. A
   * missing "/reel/" raises IndexError. A skip is a `continue`, so no pause
   * follows it; otherwise the pause follows the reel unless it is the last.
   */
  function Visit(url: string, last: bool, names: seq<string>, step: string -> Outcome<Action>): Outcome<Item> {
    match ReelId(url)
    case None => Raised("list index out of range")
    case Some(id) =>
      if AlreadyInDrive(names, id) then Done(Item(url, Skipped(id), false))
      else
        match step(url)
        case Raised(e) => Raised(e)
        case Done(a) => Done(Item(url, a, !last))
  }

  /** A reel is skipped iff its id occurs in a Drive name; the pause follows it iff it was not skipped and is not the last. */
  lemma VisitMeaning(url: string, last: bool, names: seq<string>, step: string -> Outcome<Action>)
    requires Visit(url, last, names, step).Done?
    ensures Contains(url, ReelMarker)
    ensures var item := Visit(url, last, names, step).value;
            && item.url == url
            && (AlreadyInDrive(names, ReelId(url).value) ==> item.action == Skipped(ReelId(url).value))
            && (item.delayed <==> !AlreadyInDrive(names, ReelId(url).value) && !last)
            && (!AlreadyInDrive(names, ReelId(url).value) ==> item.action == step(url).value)
  {
    var id := ReelId(url).value;
    if !AlreadyInDrive(names, id) {
      assert step(url).Done?;
    }
  }

  lemma VisitFinishes(url: string, last: bool, names: seq<string>, step: string -> Outcome<Action>)
    requires Contains(url, ReelMarker) && step(url).Done?
    ensures Visit(url, last, names, step).Done?
  {
  }

  /** Running the passes in order: the first exception ends the loop. */
  function RunAll<T>(passes: seq<Outcome<T>>): (r: Outcome<seq<T>>)
    ensures r.Done? <==> forall k :: 0 <= k < |passes| ==> passes[k].Done?
    ensures r.Done? ==> |r.value| == |passes| && forall k :: 0 <= k < |passes| ==> passes[k] == Done(r.value[k])
  {
    if |passes| == 0 then Done([])
    else
      match passes[0]
      case Raised(e) => Raised(e)
      case Done(x) =>
        match RunAll(passes[1..])
        case Raised(e) => Raised(e)
        case Done(xs) => Done([x] + xs)
  }

  /** The loop of `download_reels_to_drive` over the extracted reels. */
  function Process(urls: seq<string>, names: seq<string>, step: string -> Outcome<Action>): Outcome<seq<Item>> {
    RunAll(seq(|urls|, k requires 0 <= k < |urls| => Visit(urls[k], k + 1 == |urls|, names, step)))
  }

  /** The loop finishes iff every reel address holds "/reel/" and no step of a reel Drive lacks raises. */
  lemma ProcessFinishes(urls: seq<string>, names: seq<string>, step: string -> Outcome<Action>)
    ensures Process(urls, names, step).Done? <==>
              forall k :: 0 <= k < |urls| ==> Visit(urls[k], k + 1 == |urls|, names, step).Done?
    ensures (forall k :: 0 <= k < |urls| ==> Contains(urls[k], ReelMarker) && step(urls[k]).Done?) ==> Process(urls, names, step).Done?
  {
    var passes := seq(|urls|, j requires 0 <= j < |urls| => Visit(urls[j], j + 1 == |urls|, names, step));
    assert forall k :: 0 <= k < |urls| ==> passes[k] == Visit(urls[k], k + 1 == |urls|, names, step);
    if forall k :: 0 <= k < |urls| ==> Contains(urls[k], ReelMarker) && step(urls[k]).Done? {
      forall k | 0 <= k < |urls| ensures Visit(urls[k], k + 1 == |urls|, names, step).Done? {
        VisitFinishes(urls[k], k + 1 == |urls|, names, step);
      }
    }
  }

  /** The `k`-th item of a finished loop is the one the visit of the `k`-th reel gives. */
  lemma ProcessItem(urls: seq<string>, names: seq<string>, step: string -> Outcome<Action>, k: nat)
    requires k < |urls|
    requires Process(urls, names, step).Done?
    ensures |Process(urls, names, step).value| == |urls|
    ensures Visit(urls[k], k + 1 == |urls|, names, step) == Done(Process(urls, names, step).value[k])
  {
    var passes := seq(|urls|, j requires 0 <= j < |urls| => Visit(urls[j], j + 1 == |urls|, names, step));
    assert passes[k] == Visit(urls[k], k + 1 == |urls|, names, step);
  }

  /**
   * The outside world of the pipeline. `mkdir` is the unguarded
   * `temp_dir.mkdir(parents=True, exist_ok=True)` and `connect` the
   * unguarded `GoogleDriveAPI()` construction, whose authentication raises
   * on a missing credentials file or a failed token refresh (Done when a
   * client is passed in). Then, per reel: how yt-dlp ended for an address,
   * the output directory after that run, and the upload-and-unlink of the
   * newest file. `upload_file` itself catches every exception of the
   * transfer and returns None; what can still raise is its
   * `os.path.getsize` before the `try` and the `Path(filepath).unlink()`
   * after it.
   */
  datatype World = World(
    mkdir: Outcome<()>, connect: Outcome<()>,
    run: string -> Run, files: string -> seq<Entry>, upload: string -> Outcome<Option<string>>)

  /** The body of the loop in `download_reels_to_drive` for a reel Drive does not have. */
  function EngineStep(w: World, url: string): Outcome<Action> {
    var (ok, result) := DownloadReel(w.run(url), w.files(url));
    if ok then
      match w.upload(result)
      case Raised(e) => Raised(e)
      case Done(_) => Done(Succeeded(result))
    else Done(DownloadFailed(result))
  }

  /**
   * A downloaded reel counts as successful whatever the upload returns; only
   * an exception from the upload-and-unlink changes that, and it ends the
   * whole loop.
   */
  lemma UploadResultIgnored(w: World, url: string)
    ensures !EngineStep(w, url).Raised? <==> !(DownloadReel(w.run(url), w.files(url)).0 && w.upload(DownloadReel(w.run(url), w.files(url)).1).Raised?)
    ensures EngineStep(w, url).Done? ==>
              EngineStep(w, url).value == if w.run(url) == Exited(0) && |w.files(url)| > 0 then Succeeded(DownloadReel(w.run(url), w.files(url)).1)
                                          else DownloadFailed(DownloadReel(w.run(url), w.files(url)).1)
  {
  }

  /**
   * `download_reels_to_drive`: extraction, the temporary directory, the
   * Drive client, the Drive listing (None when it raised, read as no
   * names), then the loop. An empty extraction returns zeros before the
   * directory or Drive is touched; otherwise a failing set-up step raises,
   * and a finished loop counts every extracted reel once, as a success, a
   * failure or a skip.
   */
  function DownloadReelsToDrive(hrefs: seq<Option<string>>, maxReels: int, listing: Option<seq<string>>, w: World): (r: Outcome<Stats>)
    ensures |ExtractReelUrls(hrefs, maxReels)| == 0 ==> r == Done(Stats(0, 0, 0))
    ensures |ExtractReelUrls(hrefs, maxReels)| > 0 && w.mkdir.Raised? ==> r == Raised(w.mkdir.reason)
    ensures |ExtractReelUrls(hrefs, maxReels)| > 0 && w.mkdir.Done? && w.connect.Raised? ==> r == Raised(w.connect.reason)
    ensures r.Raised? <==> |ExtractReelUrls(hrefs, maxReels)| > 0
                           && (w.mkdir.Raised? || w.connect.Raised?
                               || Process(ExtractReelUrls(hrefs, maxReels), listing.GetOr([]), url => EngineStep(w, url)).Raised?)
    ensures r.Done? ==> r.value.successful + r.value.failed + r.value.skipped == |ExtractReelUrls(hrefs, maxReels)|
  {
    var urls := ExtractReelUrls(hrefs, maxReels);
    if |urls| == 0 then Done(Stats(0, 0, 0))
    else if w.mkdir.Raised? then Raised(w.mkdir.reason)
    else if w.connect.Raised? then Raised(w.connect.reason)
    else
      match Process(urls, listing.GetOr([]), url => EngineStep(w, url))
      case Done(items) =>
        ProcessItem(urls, listing.GetOr([]), url => EngineStep(w, url), 0);
        Done(Count(items))
      case Raised(e) => Raised(e)
  }

  /** A page with no reels gives all zeros. */
  lemma NoReelsNoWork(hrefs: seq<Option<string>>, maxReels: int, listing: Option<seq<string>>, w: World)
    requires forall k :: 0 <= k < |hrefs| ==> !Admissible(hrefs[k])
    ensures DownloadReelsToDrive(hrefs, maxReels, listing, w) == Done(Stats(0, 0, 0))
  {
    if maxReels > 0 {
      var all := Dedup([], hrefs);
      if |all| > 0 {
        DedupMembers([], hrefs, all[0]);
        assert false;
      }
    }
  }

  /** The pause follows a reel iff Drive did not have it and another reel comes after it. */
  lemma PauseOnlyBetweenReels(urls: seq<string>, names: seq<string>, step: string -> Outcome<Action>, k: nat)
    requires k < |urls|
    requires Process(urls, names, step).Done?
    ensures |Process(urls, names, step).value| == |urls|
    ensures ReelId(urls[k]).Some?
    ensures Process(urls, names, step).value[k].delayed <==> !AlreadyInDrive(names, ReelId(urls[k]).value) && k + 1 < |urls|
  {
    ProcessItem(urls, names, step, k);
    VisitMeaning(urls[k], k + 1 == |urls|, names, step);
  }

  /** The `k`-th reel is a skip of the loop. */
  predicate IsSkip(item: Item) {
    item.action.Skipped?
  }

  /** How many of the addresses have a reel id that some Drive name holds. */
  function InDrive(urls: seq<string>, names: seq<string>): (n: nat)
    ensures n <= |urls|
  {
    if |urls| == 0 then 0
    else (if ReelId(urls[0]).Some? && AlreadyInDrive(names, ReelId(urls[0]).value) then 1 else 0) + InDrive(urls[1..], names)
  }

  /** When every item is a skip exactly where Drive has the reel, the skip count is the number of such reels. */
  lemma {:induction false} SkipsCounted(items: seq<Item>, urls: seq<string>, names: seq<string>, j: nat)
    requires |items| == |urls| && j <= |urls|
    requires forall k :: 0 <= k < |urls| ==> (IsSkip(items[k]) <==> ReelId(urls[k]).Some? && AlreadyInDrive(names, ReelId(urls[k]).value))
    ensures Count(items[j..]).skipped == InDrive(urls[j..], names)
    decreases |urls| - j
  {
    if j < |urls| {
      SkipsCounted(items, urls, names, j + 1);
      assert items[j..][1..] == items[j + 1..];
      assert urls[j..][1..] == urls[j + 1..];
      assert IsSkip(items[j]) <==> items[j..][0].action.Skipped?;
    }
  }

  /** The engine's step never reports a skip of its own. */
  lemma EngineStepIsNoSkip(w: World, url: string)
    requires EngineStep(w, url).Done?
    ensures !EngineStep(w, url).value.Skipped?
  {
  }

  /** The skip count is the number of extracted reels whose id some Drive name holds. */
  lemma SkippedAreDriveHits(hrefs: seq<Option<string>>, maxReels: int, listing: Option<seq<string>>, w: World)
    requires DownloadReelsToDrive(hrefs, maxReels, listing, w).Done?
    ensures DownloadReelsToDrive(hrefs, maxReels, listing, w).value.skipped
            == InDrive(ExtractReelUrls(hrefs, maxReels), listing.GetOr([]))
  {
    var urls := ExtractReelUrls(hrefs, maxReels);
    var names := listing.GetOr([]);
    var step := url => EngineStep(w, url);
    if |urls| > 0 {
      var items := Process(urls, names, step).value;
      forall k | 0 <= k < |urls|
        ensures IsSkip(items[k]) <==> ReelId(urls[k]).Some? && AlreadyInDrive(names, ReelId(urls[k]).value)
      {
        ProcessItem(urls, names, step, k);
        VisitMeaning(urls[k], k + 1 == |urls|, names, step);
        if !AlreadyInDrive(names, ReelId(urls[k]).value) {
          EngineStepIsNoSkip(w, urls[k]);
        }
      }
      ProcessItem(urls, names, step, 0);
      SkipsCounted(items, urls, names, 0);
      assert items[0..] == items && urls[0..] == urls;
    }
  }
}

=== FILE: metadata_generator.dfy ===
/**
 * metadata_generator.py: titles, descriptions and tags for a video. The
 * hosted model is an oracle: `None` when no API key was configured,
 * otherwise its answer to the prompt, already cut out of the reply and
 * decoded as JSON (or the exception or the missing JSON that made that
 * fail). What is modelled is what the class does around the answer: the
 * fallback built from the file name, and the fields taken from the answer.
 */
module MetadataGenerator {
  import opened Wrappers
  import opened Text

  /** The dictionary every method returns. */
  datatype Meta = Meta(title: string, description: string, tags: string)

  /** The decoded JSON object of an answer; None is an absent key. */
  datatype Answer = Answer(title: Option<string>, description: Option<string>, hashtags: Option<seq<string>>)

  /** One call to the model: an exception, a reply without a JSON object, or the decoded object. */
  type Reply = Outcome<Option<Answer>>

  // ---------------------------------------------------------------------
  // The fallback

  /**
   * Python's `str.title()` on ASCII letters: a letter is upper-cased after a
   * character that is not a letter (or at the start), lower-cased after a
   * letter; everything else is kept.
   */
  function TitleCase(s: string): (r: string)
    ensures |r| == |s|
    ensures forall i :: 0 <= i < |s| ==> IsAlpha(r[i]) == IsAlpha(s[i])
    ensures forall i :: 0 <= i < |s| && !IsAlpha(s[i]) ==> r[i] == s[i]
    ensures forall i :: 0 <= i < |s| && IsAlpha(s[i]) ==> r[i] == if i > 0 && IsAlpha(s[i - 1]) then LowerChar(s[i]) else UpperChar(s[i])
  {
    seq(|s|, i requires 0 <= i < |s| =>
      if !IsAlpha(s[i]) then s[i]
      else if i > 0 && IsAlpha(s[i - 1]) then LowerChar(s[i])
      else UpperChar(s[i]))
  }

  /** Title-casing an already title-cased text changes nothing. */
  lemma TitleCaseIdempotent(s: string)
    ensures TitleCase(TitleCase(s)) == TitleCase(s)
  {
    var t := TitleCase(s);
    forall i | 0 <= i < |s| ensures TitleCase(t)[i] == t[i] {
      if IsAlpha(s[i]) {
        if i > 0 && IsAlpha(s[i - 1]) {
          assert IsLower(t[i]);
        } else {
          assert IsUpper(t[i]);
        }
      }
    }
  }

  /** The fallback's title before it is cut: separators become spaces, then title case. */
  function CleanTitle(filename: string): (r: string)
    ensures |r| == |filename|
    ensures '_' !in r && '-' !in r
  {
    var spaced := ReplaceChar(ReplaceChar(filename, '_', ' '), '-', ' ');
    var r := TitleCase(spaced);
    assert forall i :: 0 <= i < |r| ==> r[i] != '_' && r[i] != '-' by {
      forall i | 0 <= i < |r| ensures r[i] != '_' && r[i] != '-' {
        assert !IsAlpha(spaced[i]) ==> r[i] == spaced[i];
      }
    }
    r
  }

  const FallbackTags := "#viral,#trending,#video"

  /**
   * `_fallback_metadata(filename)`: the cleaned title cut to 100
   * characters, a description that embeds the whole cleaned title, and the
   * fixed tags.
   */
  function Fallback(filename: string): (m: Meta)
    ensures |m.title| == if |filename| < 100 then |filename| else 100
    ensures m.title == CleanTitle(filename)[..|m.title|]
    ensures '_' !in m.title && '-' !in m.title
    ensures m.tags == FallbackTags
  {
    var title := CleanTitle(filename);
    Meta(PyPrefix(title, 100), "Video: " + title + "\n\nUploaded via OmniStream", FallbackTags)
  }

  /** The description holds the title uncut, even where the title field is cut. */
  lemma FallbackDescriptionUncut(filename: string)
    ensures var d := Fallback(filename).description;
            d[7..7 + |filename|] == CleanTitle(filename) && StartsWith(d, "Video: ")
  {
    var title := CleanTitle(filename);
    var d := "Video: " + title + "\n\nUploaded via OmniStream";
    assert d[..7] == "Video: ";
    assert d[7..7 + |title|] == title;
  }

  // ---------------------------------------------------------------------
  // generate_from_filename, generate_from_video, enhance_metadata

  /** `generate_from_filename(filename)`: `model` is None without an API key, else the reply to the prompt. */
  function GenerateFromFilename(filename: string, model: Option<Reply>): (m: Meta)
    ensures model.None? ==> m == Fallback(filename)
    ensures model.Some? && model.value.Done? && model.value.value.Some? ==>
              var a := model.value.value.value;
              m.title == a.title.GetOr("") && m.description == a.description.GetOr("") && m.tags == Join(a.hashtags.GetOr([]), ",")
    ensures model.Some? && !(model.value.Done? && model.value.value.Some?) ==> m == Fallback(filename)
  {
    match model
    case None => Fallback(filename)
    case Some(Done(Some(a))) => Meta(a.title.GetOr(""), a.description.GetOr(""), Join(a.hashtags.GetOr([]), ","))
    case Some(_) => Fallback(filename)
  }

  /** The position of the last `c` in `s`. */
  function LastIndex(s: string, c: char): (r: Option<nat>)
    ensures r.Some? ==> r.value < |s| && s[r.value] == c && forall j :: r.value < j < |s| ==> s[j] != c
    ensures r.None? ==> c !in s
  {
    if |s| == 0 then None
    else if s[|s| - 1] == c then Some(|s| - 1)
    else LastIndex(s[..|s| - 1], c)
  }

  /** `Path(p).name`: the last component, trailing slashes ignored. */
  function BaseName(path: string): string {
    LastPiece(RStripChar(path, '/'), "/")
  }

  /** `Path(p).stem`: the name without its last suffix. */
  function Stem(path: string): (r: string)
    ensures StartsWith(BaseName(path), r)
  {
    NameStem(BaseName(path))
  }

  /** The stem of a file name: a leading or a final dot starts no suffix. */
  function NameStem(name: string): (r: string)
    ensures StartsWith(name, r)
  {
    match LastIndex(name, '.')
    case Some(i) => if 0 < i < |name| - 1 then name[..i] else name
    case None => name
  }

  /** Text without `c` appended after `s` does not move the last `c`. */
  lemma {:induction false} LastIndexSkips(s: string, t: string, c: char)
    requires c !in t
    ensures LastIndex(s + t, c) == LastIndex(s, c)
    decreases |t|
  {
    if |t| > 0 {
      var u := t[..|t| - 1];
      assert (s + t)[..|s + t| - 1] == s + u;
      LastIndexSkips(s, u, c);
    } else {
      assert s + t == s;
    }
  }

  /** The name of `<dir>/<name>` is `name`, for a name free of '/'. */
  lemma BaseNameOf(dir: string, name: string)
    requires |name| > 0 && '/' !in name
    ensures BaseName(dir + ['/'] + name) == name
  {
    var path := dir + ['/'] + name;
    assert path[|path| - 1] == name[|name| - 1];
    assert RStripChar(path, '/') == path;
    assert path[|path| - |name| - 1..] == ['/'] + name;
    LastPieceAfter(path, '/', name);
  }

  /** The stem of `<base>.<ext>` is `base`, for a non-empty base and an extension free of '.'. */
  lemma NameStemOf(base: string, ext: string)
    requires |base| > 0 && |ext| > 0 && '.' !in ext
    ensures NameStem(base + "." + ext) == base
  {
    var name := base + "." + ext;
    LastIndexSkips(base + ".", ext, '.');
    assert (base + ".")[..|base|] == base;
    assert name[..|base|] == base;
  }

  /** The stem of `<dir>/<base>.<ext>` is `base`, for a non-empty base and extension free of '/' and an extension free of '.'. */
  lemma StemOfFile(dir: string, base: string, ext: string)
    requires |base| > 0 && |ext| > 0 && '/' !in base && '/' !in ext && '.' !in ext
    ensures Stem(dir + "/" + base + "." + ext) == base
  {
    var name := base + "." + ext;
    assert dir + "/" + base + "." + ext == dir + ['/'] + name;
    BaseNameOf(dir, name);
    NameStemOf(base, ext);
  }

  /** `generate_from_video(video_path)`: the metadata of the file's stem. */
  function GenerateFromVideo(path: string, model: Option<Reply>): (m: Meta)
    ensures model.None? ==> m == Fallback(Stem(path))
  {
    GenerateFromFilename(Stem(path), model)
  }

  /**
   * `enhance_metadata(title, description, tags)`: without a model, or when
   * the model's answer cannot be had, the inputs come back unchanged; an
   * answer replaces exactly the fields it holds, and absent hashtags give
   * back the input tags, which splitting at ',' and joining again keeps.
   */
  function EnhanceMetadata(title: string, description: string, tags: string, model: Option<Reply>): (m: Meta)
    ensures model.None? ==> m == Meta(title, description, tags)
    ensures model.Some? && !(model.value.Done? && model.value.value.Some?) ==> m == Meta(title, description, tags)
    ensures model.Some? && model.value.Done? && model.value.value.Some? ==>
              var a := model.value.value.value;
              (a.title.None? ==> m.title == title) && (a.title.Some? ==> m.title == a.title.value)
              && (a.description.None? ==> m.description == description)
              && (a.description.Some? ==> m.description == a.description.value)
              && (a.hashtags.None? ==> m.tags == tags)
              && (a.hashtags.Some? ==> m.tags == Join(a.hashtags.value, ","))
  {
    match model
    case Some(Done(Some(a))) =>
      JoinSplit(tags, ",");
      Meta(a.title.GetOr(title), a.description.GetOr(description), Join(a.hashtags.GetOr(Split(tags, ",")), ","))
    case _ => Meta(title, description, tags)
  }
}

=== FILE: playwright_engine.dfy ===
/**
 * `PlaywrightEngine`, the universal scraper: which network responses and
 * page elements it records as media, the name and type it gives them, how
 * it names and saves a file and what `download` reports. The browser, the
 * HTTP transfer and the Drive upload are oracle results passed in.
 */
module PlaywrightEngine {
  import opened Wrappers
  import opened Text
  import Urls
  import Utils

  // ---------------------------------------------------------------------
  // File names

  /**
   * `_sanitize_filename`: the engine's own copy of the nine-character
   * replacement loop, which computes exactly `Utils.SanitizeFilename`.
   */
  method SanitizeFilename(name: string) returns (r: string)
    ensures r == Utils.SanitizeFilename(name)
    ensures |r| <= Utils.MaxFilenameLength
    ensures forall i :: 0 <= i < |r| ==> !Utils.Invalid(r[i])
  {
    var chars := Utils.InvalidChars;
    var filename := name;
    var i := 0;
    while i < |chars|
      invariant 0 <= i <= |chars|
      invariant Utils.ReplaceEach(filename, chars[i..]) == Utils.ReplaceEach(name, chars)
    {
      assert chars[i..][1..] == chars[i + 1..];
      filename := ReplaceChar(filename, chars[i], '_');
      i := i + 1;
    }
    r := PyPrefix(filename, Utils.MaxFilenameLength);
    Utils.SanitizeRemovesInvalid(name);
  }

  predicate IsQuote(c: char) {
    c == '"' || c == '\''
  }

  /** Leading quotes removed. */
  function LStripQuotes(s: string): (r: string)
    ensures EndsWith(s, r)
    ensures |r| > 0 ==> !IsQuote(r[0])
    ensures forall i :: 0 <= i < |s| - |r| ==> IsQuote(s[i])
  {
    if |s| > 0 && IsQuote(s[0]) then
      var r := LStripQuotes(s[1..]);
      assert s[|s| - |r|..] == s[1..][|s[1..]| - |r|..];
      r
    else s
  }

  /** Trailing quotes removed. */
  function RStripQuotes(s: string): (r: string)
    ensures StartsWith(s, r)
    ensures |r| > 0 ==> !IsQuote(r[|r| - 1])
    ensures forall i :: |r| <= i < |s| ==> IsQuote(s[i])
  {
    if |s| > 0 && IsQuote(s[|s| - 1]) then RStripQuotes(s[..|s| - 1]) else s
  }

  /** Python's `s.strip('"\'')`: quotes removed from both ends. */
  function StripQuotes(s: string): (r: string)
    ensures |r| <= |s|
    ensures |r| > 0 ==> !IsQuote(r[0]) && !IsQuote(r[|r| - 1])
  {
    var l := LStripQuotes(s);
    var r := RStripQuotes(l);
    assert |r| > 0 ==> r[0] == l[0];
    r
  }

  /** A name with no quote at either end. */
  predicate Unquoted(n: string) {
    |n| == 0 || (!IsQuote(n[0]) && !IsQuote(n[|n| - 1]))
  }

  /** Quoting a name and stripping the quotes gives the name back. */
  lemma StripQuotesOfQuoted(n: string)
    requires Unquoted(n)
    ensures StripQuotes("\"" + n + "\"") == n
  {
    var s := "\"" + n + "\"";
    assert s[1..] == n + "\"";
    if |n| == 0 {
      assert LStripQuotes(s) == LStripQuotes(s[1..]);
      assert s[1..][1..] == "";
    } else {
      assert LStripQuotes(s) == n + "\"";
      assert (n + "\"")[..|n|] == n;
    }
  }

  /** The keys of `_guess_extension`'s table, in declared order; each maps to itself with a dot. */
  const ExtensionKeys := ["mp4", "mkv", "webm", "mp3", "wav", "pdf", "zip", "jpg", "png"]

  /** `_guess_extension(url)`: the first key occurring in the lowered address, with a dot, else ".bin". */
  function GuessExtension(url: string): (r: string)
    ensures r == ".bin" <==> !ContainsAny(Lower(url), ExtensionKeys)
    ensures r != ".bin" ==> exists k :: FirstKey(Lower(url), k) && r == "." + ExtensionKeys[k]
  {
    var u := Lower(url);
    match FirstContained(u, ExtensionKeys)
    case Some(k) =>
      assert FirstKey(u, k);
      DotKeyIsNotBin(k);
      "." + ExtensionKeys[k]
    case None => ".bin"
  }

  lemma DotKeyIsNotBin(k: nat)
    requires k < |ExtensionKeys|
    ensures "." + ExtensionKeys[k] != ".bin"
  {
    var key := ExtensionKeys[k];
    assert ("." + key)[1..] == key;
    assert ".bin"[1..] == "bin";
    assert "bin" !in ExtensionKeys;
  }

  /** `ExtensionKeys[k]` is the first key occurring in `u`. */
  predicate FirstKey(u: string, k: int) {
    0 <= k < |ExtensionKeys| && Contains(u, ExtensionKeys[k]) && forall j :: 0 <= j < k ==> !Contains(u, ExtensionKeys[j])
  }

  /** The name a file gets when neither the header nor the address gives one of at least three characters. */
  function FallbackName(url: string, stamp: string): string {
    "download_" + stamp + GuessExtension(url)
  }

  /** `os.path.basename(urlparse(url).path)` with any '?' part cut off. */
  function UrlBasename(url: string): (r: Outcome<string>)
    ensures r.Raised? <==> Urls.Netloc(url).Raised?
    ensures r.Done? ==> !Contains(r.value, "/") && !Contains(r.value, "?")
  {
    match Urls.Path(url)
    case Raised(e) => Raised(e)
    case Done(p) => Done(PathBasename(p))
  }

  /** The base name of a path, cut at its first '?'. */
  function PathBasename(p: string): (r: string)
    ensures !Contains(r, "/") && !Contains(r, "?")
  {
    var b := Urls.Basename(p);
    var f := if Contains(b, "?") then SplitHead(b, "?") else b;
    Urls.NoneInPrefix(b, f, "/");
    f
  }

  const FilenameKey := "filename="

  /**
   * `_extract_filename(url, headers)`. `disposition` is the
   * content-disposition header when the response has one; `stamp` is the
   * `%Y%m%d_%H%M%S` text of the clock. Parsing the address can raise.
   */
  function ExtractFilename(url: string, disposition: Option<string>, stamp: string): (r: Outcome<string>)
    ensures disposition.Some? && Contains(disposition.value, FilenameKey) ==>
      r.Done? && !Contains(r.value, FilenameKey) && (|r.value| > 0 ==> !IsQuote(r.value[0]) && !IsQuote(r.value[|r.value| - 1]))
    ensures r.Raised? ==> Urls.Netloc(url).Raised?
    ensures (disposition.None? || !Contains(disposition.value, FilenameKey)) && r.Done? ==>
      (|r.value| >= 3 && !Contains(r.value, "/") && UrlBasename(url) == Done(r.value)) ||
      (r.value == FallbackName(url, stamp) && UrlBasename(url).Done? && |UrlBasename(url).value| < 3)
  {
    if disposition.Some? && Contains(disposition.value, FilenameKey) then
      var piece := SecondPiece(disposition.value, FilenameKey);
      var n := StripQuotes(piece);
      NoneInSlice(piece, n, FilenameKey);
      Done(n)
    else
      match UrlBasename(url)
      case Raised(e) => Raised(e)
      case Done(f) => if |f| < 3 then Done(FallbackName(url, stamp)) else Done(f)
  }

  /** Stripping quotes keeps a text free of `q`. */
  lemma NoneInSlice(s: string, t: string, q: string)
    requires !Contains(s, q) && t == StripQuotes(s)
    ensures !Contains(t, q)
  {
    var l := LStripQuotes(s);
    if Contains(t, q) {
      assert StartsWith(l, t);
      assert l[..|t|] == t;
      ContainsInSlice(l, 0, |t|, q);
      assert l == s[|s| - |l|..|s|];
      ContainsInSlice(s, |s| - |l|, |s|, q);
    }
  }

  /** A header `<pre>filename="<n>"`, where `pre` holds no 'f', names the file `n`. */
  lemma ExtractFromHeader(url: string, pre: string, n: string, stamp: string)
    requires forall i :: 0 <= i < |pre| ==> pre[i] != 'f'
    requires Unquoted(n) && !Contains(n, FilenameKey)
    ensures ExtractFilename(url, Some(pre + FilenameKey + "\"" + n + "\""), stamp) == Done(n)
  {
    var quoted := "\"" + n + "\"";
    var d := pre + FilenameKey + quoted;
    assert pre + FilenameKey + "\"" + n + "\"" == d;
    FirstKeyAfter(pre, quoted);
    QuotedHasNoKey(n);
    SecondPieceOf(pre, FilenameKey, quoted);
    StripQuotesOfQuoted(n);
    HeaderNames(url, d, stamp);
  }

  lemma HeaderNames(url: string, d: string, stamp: string)
    requires Contains(d, FilenameKey)
    ensures ExtractFilename(url, Some(d), stamp) == Done(StripQuotes(SecondPiece(d, FilenameKey)))
  {
  }

  lemma FirstKeyAfter(pre: string, rest: string)
    requires forall i :: 0 <= i < |pre| ==> pre[i] != 'f'
    ensures Find(pre + FilenameKey + rest, FilenameKey) == Some(|pre|)
  {
    var d := pre + FilenameKey + rest;
    assert d[|pre|..|pre| + |FilenameKey|] == FilenameKey;
    assert OccursAt(d, FilenameKey, |pre|);
    var v := Find(d, FilenameKey).value;
    assert OccursAt(d, FilenameKey, v);
    assert v <= |pre|;
    assert d[v..v + |FilenameKey|][0] == d[v];
    assert v >= |pre|;
  }

  /** Quotes around a name cannot complete an occurrence of "filename=". */
  lemma QuotedHasNoKey(n: string)
    requires !Contains(n, FilenameKey)
    ensures !Contains("\"" + n + "\"", FilenameKey)
  {
    var s := "\"" + n + "\"";
    forall j | OccursAt(s, FilenameKey, j) ensures false {
      var m := |FilenameKey|;
      assert s[j..j + m][0] == s[j] == 'f';
      assert s[j..j + m][m - 1] == s[j + m - 1] == '=';
      assert 1 <= j && j + m <= |n| + 1;
      assert s[j..j + m] == n[j - 1..j - 1 + m];
      assert OccursAt(n, FilenameKey, j - 1);
    }
  }

  /** An address whose path ends in a name of at least three plain characters is named by it. */
  lemma ExtractFromAddress(scheme: string, host: string, dir: string, name: string, stamp: string)
    requires Urls.IsScheme(scheme) && Urls.PlainHost(host) && Urls.PlainTail(dir + "/" + name)
    requires !Contains(dir + "/" + name, "?") && !Contains(dir + "/" + name, "#") && !Contains(dir + "/" + name, ";")
    requires '/' !in name && |name| >= 3
    ensures ExtractFilename(scheme + "://" + host + dir + "/" + name, None, stamp) == Done(name)
  {
    var path := dir + "/" + name;
    var url := scheme + "://" + host + path;
    assert scheme + "://" + host + dir + "/" + name == url;
    Urls.PathOfComposed(scheme, host, path);
    PathTail(dir, name);
    BasenameOfPath(url, path, stamp);
  }

  lemma PathTail(dir: string, name: string)
    requires !Contains(dir + "/" + name, "?") && '/' !in name
    ensures LastPiece(dir + "/" + name, "/") == name && !Contains(name, "?")
  {
    var path := dir + "/" + name;
    assert path[|path| - |name| - 1..] == "/" + name;
    LastPieceAfter(path, '/', name);
    assert path[|path| - |name|..] == name;
    ContainsSuffix(path, |path| - |name|, "?");
  }

  lemma ContainsSuffix(s: string, i: nat, q: string)
    requires i <= |s| && !Contains(s, q)
    ensures !Contains(s[i..], q)
  {
    if Contains(s[i..], q) {
      assert s[i..] == s[i..|s|];
      ContainsInSlice(s, i, |s|, q);
    }
  }

  lemma BasenameOfPath(url: string, path: string, stamp: string)
    requires Urls.Path(url) == Done(path)
    requires !Contains(LastPiece(path, "/"), "?") && |LastPiece(path, "/")| >= 3
    ensures ExtractFilename(url, None, stamp) == Done(LastPiece(path, "/"))
  {
    assert UrlBasename(url) == Done(LastPiece(path, "/"));
  }

  // ---------------------------------------------------------------------
  // Media types and the response interceptor

  datatype MediaType = Video | Audio | Document | Image | File

  /** The type names the engine stores. */
  function TypeName(t: MediaType): string {
    match t
    case Video => "video"
    case Audio => "audio"
    case Document => "document"
    case Image => "image"
    case File => "file"
  }

  predicate VideoEvidence(url: string, contentType: string) {
    Contains(contentType, "video") || ContainsAny(url, [".mp4", ".mkv", ".webm"])
  }

  predicate AudioEvidence(url: string, contentType: string) {
    Contains(contentType, "audio") || ContainsAny(url, [".mp3", ".wav", ".ogg"])
  }

  predicate DocumentEvidence(url: string, contentType: string) {
    Contains(contentType, "pdf") || Contains(url, ".pdf")
  }

  predicate ImageEvidence(url: string, contentType: string) {
    Contains(contentType, "image") || ContainsAny(url, [".jpg", ".png", ".gif"])
  }

  /**
   * `_detect_media_type(url, content_type)`: the first kind with evidence in
   * the order video, audio, document, image; the address is not lowered.
   */
  function DetectMediaType(url: string, contentType: string): (r: MediaType)
    ensures r == Video <==> VideoEvidence(url, contentType)
    ensures r == Audio <==> !VideoEvidence(url, contentType) && AudioEvidence(url, contentType)
    ensures r == Document <==> !VideoEvidence(url, contentType) && !AudioEvidence(url, contentType) && DocumentEvidence(url, contentType)
    ensures r == Image <==> (!VideoEvidence(url, contentType) && !AudioEvidence(url, contentType)
      && !DocumentEvidence(url, contentType) && ImageEvidence(url, contentType))
  {
    if VideoEvidence(url, contentType) then Video
    else if AudioEvidence(url, contentType) then Audio
    else if DocumentEvidence(url, contentType) then Document
    else if ImageEvidence(url, contentType) then Image
    else File
  }

  /** A lower-case ".mp4" address is a video and its guessed extension is ".mp4", whatever the content type. */
  lemma Mp4AddressAgrees(url: string, contentType: string)
    requires Lower(url) == url && Contains(url, ".mp4")
    ensures DetectMediaType(url, contentType) == Video
    ensures GuessExtension(url) == ".mp4"
  {
    assert [".mp4", ".mkv", ".webm"][0] == ".mp4";
    assert ".mp4"[1..] == "mp4";
    ContainsInSlice(".mp4", 1, 4, "mp4") by {
      assert OccursAt(".mp4"[1..4], "mp4", 0);
    }
    ContainsTransitive(url, ".mp4", "mp4");
  }

  const MediaExtensions := [".mp4", ".mkv", ".avi", ".mov", ".webm", ".m3u8", ".pdf", ".zip", ".rar", ".jpg", ".png", ".gif"]
  const MediaContentTypes := ["video/", "audio/", "application/pdf", "application/zip", "image/"]

  /** A network response as the interceptor sees it: the headers it reads and the status. */
  datatype Response = Response(url: string, contentType: Option<string>, contentLength: Option<string>,
                               disposition: Option<string>, status: int)

  /** One entry of `media_files`. */
  datatype MediaFile = MediaFile(url: string, kind: MediaType, size: string, filename: string)

  /** The `is_media` test: a media extension in the lowered address or a media content type. */
  predicate IsMedia(resp: Response) {
    ContainsAny(Lower(resp.url), MediaExtensions) || ContainsAny(Lower(resp.contentType.GetOr("")), MediaContentTypes)
  }

  /**
   * `_handle_response(response)`: a media response with status 200 is
   * appended; any other response leaves the list as it was. Naming the
   * file can raise, which leaves the handler.
   */
  function HandleResponse(files: seq<MediaFile>, resp: Response, stamp: string): (r: Outcome<seq<MediaFile>>)
    ensures r.Done? ==> |r.value| == |files| || |r.value| == |files| + 1
    ensures r.Done? ==> r.value[..|files|] == files
    ensures r.Done? ==> (|r.value| == |files| + 1 <==> IsMedia(resp) && resp.status == 200)
    ensures r.Done? && |r.value| == |files| + 1 ==>
      var m := r.value[|files|];
      m.url == resp.url && m.kind == DetectMediaType(resp.url, Lower(resp.contentType.GetOr("")))
      && m.size == resp.contentLength.GetOr("Unknown")
    ensures r.Raised? ==> IsMedia(resp) && resp.status == 200
  {
    if IsMedia(resp) && resp.status == 200 then
      var contentType := Lower(resp.contentType.GetOr(""));
      match ExtractFilename(resp.url, resp.disposition, stamp)
      case Raised(e) => Raised(e)
      case Done(name) =>
        var m := MediaFile(resp.url, DetectMediaType(resp.url, contentType), resp.contentLength.GetOr("Unknown"), name);
        assert (files + [m])[..|files|] == files;
        Done(files + [m])
    else Done(files)
  }

  /** Only status 200 is recorded: a failed or redirected response never adds a file. */
  lemma OnlyOkRecorded(files: seq<MediaFile>, resp: Response, stamp: string)
    requires resp.status != 200
    ensures HandleResponse(files, resp, stamp) == Done(files)
  {
  }

  // ---------------------------------------------------------------------
  // The DOM scan

  /** A `src` or `href` found on the page, with the type its element kind gives. */
  datatype Candidate = Candidate(kind: MediaType, attribute: Option<string>)

  function UrlsOf(files: seq<MediaFile>): (r: seq<string>)
    ensures |r| == |files|
    ensures forall i :: 0 <= i < |files| ==> r[i] == files[i].url
  {
    seq(|files|, i requires 0 <= i < |files| => files[i].url)
  }

  predicate DistinctUrls(files: seq<MediaFile>) {
    forall i, j :: 0 <= i < j < |files| ==> files[i].url != files[j].url
  }

  /**
   * `urljoin(base_url, ...)` against the page address: the joined address,
   * or the ValueError `urlsplit` raises for a malformed bracket.
   */
  type Joiner = string -> Outcome<string>

  /**
   * `_scan_dom_for_media` over the video, audio and link candidates in page
   * order: an address is joined to the page address by `join`, and appended
   * only when it is not already listed. The first exception (from joining
   * the address or from naming a file) ends the scan, keeping what was
   * appended.
   */
  function ScanDom(files: seq<MediaFile>, candidates: seq<Candidate>, join: Joiner, stamp: string): (r: seq<MediaFile>)
    ensures |files| <= |r| <= |files| + |candidates|
    ensures r[..|files|] == files
    decreases |candidates|
  {
    if |candidates| == 0 then files
    else
      var c := candidates[0];
      if c.attribute.None? || c.attribute.value == "" then ScanDom(files, candidates[1..], join, stamp)
      else match join(c.attribute.value)
        case Raised(_) => files
        case Done(full) =>
          if full in UrlsOf(files) then ScanDom(files, candidates[1..], join, stamp)
          else match ExtractFilename(full, None, stamp)
            case Raised(_) => files
            case Done(name) =>
              var next := files + [MediaFile(full, c.kind, "Unknown", name)];
              var r := ScanDom(next, candidates[1..], join, stamp);
              assert next[..|files|] == files;
              assert r[..|files|] == r[..|next|][..|files|];
              r
  }

  /** A candidate the scan passes over without appending or stopping. */
  predicate Passed(files: seq<MediaFile>, c: Candidate, join: Joiner) {
    c.attribute.None? || c.attribute.value == "" || (join(c.attribute.value).Done? && join(c.attribute.value).value in UrlsOf(files))
  }

  /** A joining exception ends the scan at once, keeping the list found so far. */
  lemma JoinErrorEndsScan(files: seq<MediaFile>, candidates: seq<Candidate>, join: Joiner, stamp: string)
    requires |candidates| > 0 && candidates[0].attribute.Some? && candidates[0].attribute.value != ""
    requires join(candidates[0].attribute.value).Raised?
    ensures ScanDom(files, candidates, join, stamp) == files
  {
  }

  /** The scan appends only new addresses, so a duplicate-free list stays duplicate-free. */
  lemma {:induction false} ScanKeepsDistinct(files: seq<MediaFile>, candidates: seq<Candidate>, join: Joiner, stamp: string)
    requires DistinctUrls(files)
    ensures DistinctUrls(ScanDom(files, candidates, join, stamp))
    decreases |candidates|
  {
    if |candidates| > 0 {
      var c := candidates[0];
      if Passed(files, c, join) {
        ScanKeepsDistinct(files, candidates[1..], join, stamp);
      } else if join(c.attribute.value).Done? {
        var full := join(c.attribute.value).value;
        match ExtractFilename(full, None, stamp)
        case Raised(_) =>
        case Done(name) =>
          var next := files + [MediaFile(full, c.kind, "Unknown", name)];
          forall i | 0 <= i < |files| ensures files[i].url != full {
            assert UrlsOf(files)[i] == files[i].url;
          }
          ScanKeepsDistinct(next, candidates[1..], join, stamp);
      }
    }
  }

  /** `m` is the entry a candidate of `candidates` yields: its joined address and its element's type. */
  predicate FromCandidate(m: MediaFile, candidates: seq<Candidate>, join: Joiner) {
    exists k :: 0 <= k < |candidates| && IsFrom(m, candidates[k], join)
  }

  predicate IsFrom(m: MediaFile, c: Candidate, join: Joiner) {
    c.attribute.Some? && join(c.attribute.value) == Done(m.url) && m.kind == c.kind
  }

  lemma FromTail(m: MediaFile, candidates: seq<Candidate>, join: Joiner)
    requires |candidates| > 0 && FromCandidate(m, candidates[1..], join)
    ensures FromCandidate(m, candidates, join)
  {
    var k :| 0 <= k < |candidates[1..]| && IsFrom(m, candidates[1..][k], join);
    assert candidates[1..][k] == candidates[k + 1];
  }

  /** Every appended entry comes from a candidate, with its joined address and its element's type. */
  lemma {:induction false} ScanAppendsCandidates(files: seq<MediaFile>, candidates: seq<Candidate>, join: Joiner, stamp: string)
    ensures forall i :: |files| <= i < |ScanDom(files, candidates, join, stamp)| ==>
      FromCandidate(ScanDom(files, candidates, join, stamp)[i], candidates, join)
    decreases |candidates|
  {
    if |candidates| > 0 {
      var c := candidates[0];
      var r := ScanDom(files, candidates, join, stamp);
      if Passed(files, c, join) {
        assert r == ScanDom(files, candidates[1..], join, stamp);
        ScanAppendsCandidates(files, candidates[1..], join, stamp);
        forall i | |files| <= i < |r| ensures FromCandidate(r[i], candidates, join) {
          FromTail(r[i], candidates, join);
        }
      } else if join(c.attribute.value).Done? {
        var full := join(c.attribute.value).value;
        match ExtractFilename(full, None, stamp)
        case Raised(_) =>
        case Done(name) =>
          var next := files + [MediaFile(full, c.kind, "Unknown", name)];
          assert r == ScanDom(next, candidates[1..], join, stamp);
          ScanAppendsCandidates(next, candidates[1..], join, stamp);
          forall i | |files| <= i < |r| ensures FromCandidate(r[i], candidates, join) {
            if i == |files| {
              assert r[i] == r[..|next|][i] == next[i];
              assert IsFrom(r[i], candidates[0], join);
            } else {
              FromTail(r[i], candidates, join);
            }
          }
      }
    }
  }

  // ---------------------------------------------------------------------
  // Saving files and the result of `download`

  /** The Drive folder every Playwright save is uploaded to. */
  const DriveFolder := "1DQDRFQtl7fkgyXoP-sqRENau2WCLJH18"

  /** A call of `GoogleDriveAPI.upload_file(file_path, folder_id, filename)`, argument by parameter. */
  datatype UploadCall = UploadCall(filePath: string, folderId: string, filename: string)

  /**
   * The Drive block after a save: whether `GoogleDriveAPI()` could be built
   * (an ImportError or a constructor exception is logged and skipped), and
   * what `upload_file` returns for a call: the new file's id, or None, since
   * it catches every error of its own.
   */
  datatype DriveBlock = DriveBlock(clientBuilt: bool, upload: UploadCall -> Option<string>)

  /** The call as written: `upload_file(filepath, filename, folder_id)` binds the file name to `folder_id`. */
  function AsWrittenCall(path: string, name: string): UploadCall {
    UploadCall(path, name, DriveFolder)
  }

  /** The call with each argument on the parameter meant for it. */
  function IntendedCall(path: string, name: string): UploadCall {
    UploadCall(path, DriveFolder, name)
  }

  /**
   * What `_download_file` leaves behind: whether it reports success, the
   * name it used, the upload call it made, and whether the local copy stays.
   */
  datatype Saved = Saved(ok: bool, filename: string, call: Option<UploadCall>, localKept: bool)

  /** The sanitised name `_download_file` saves under, or the exception of extracting one. */
  function SaveName(url: string, filename: Option<string>, stamp: string): (r: Outcome<string>)
    ensures r.Done? ==> |r.value| <= Utils.MaxFilenameLength && forall i :: 0 <= i < |r.value| ==> !Utils.Invalid(r.value[i])
    ensures filename.Some? && filename.value != "" ==> r == Done(Utils.SanitizeFilename(filename.value))
  {
    var name := if filename.Some? && filename.value != "" then Done(filename.value) else ExtractFilename(url, None, stamp);
    match name
    case Raised(e) => Raised(e)
    case Done(n) =>
      Utils.SanitizeRemovesInvalid(n);
      Done(Utils.SanitizeFilename(n))
  }

  /**
   * `_download_file(url, filename)` as written: a missing name is extracted
   * from the address (which can raise), the name is sanitised and joined to
   * the output directory, and the transfer (`fetched`) decides success. Once
   * `GoogleDriveAPI()` is built, `upload_file` is called with its arguments
   * out of order and the local copy is removed whatever it returned.
   */
  function DownloadFile(url: string, filename: Option<string>, stamp: string, dir: string, fetched: bool, drive: DriveBlock): (r: Saved)
    ensures r.ok ==> fetched && SaveName(url, filename, stamp) == Done(r.filename)
    ensures filename.Some? && filename.value != "" ==> (r.ok <==> fetched)
    ensures r.localKept <==> r.ok && !drive.clientBuilt
    ensures r.call.Some? <==> r.ok && drive.clientBuilt
    ensures r.call.Some? ==> r.call.value == AsWrittenCall(JoinPath(dir, r.filename), r.filename)
  {
    match SaveName(url, filename, stamp)
    case Raised(_) => Saved(false, "", None, false)
    case Done(clean) =>
      if !fetched then Saved(false, clean, None, false)
      else if !drive.clientBuilt then Saved(true, clean, None, true)
      else Saved(true, clean, Some(AsWrittenCall(JoinPath(dir, clean), clean)), false)
  }

  /**
   * `_download_file` as evidently intended: the arguments in the order of
   * `upload_file`'s signature, and the local copy removed only when the
   * upload returned a file.
   */
  function IntendedDownloadFile(url: string, filename: Option<string>, stamp: string, dir: string, fetched: bool, drive: DriveBlock): (r: Saved)
    ensures r.ok ==> fetched && SaveName(url, filename, stamp) == Done(r.filename)
    ensures filename.Some? && filename.value != "" ==> (r.ok <==> fetched)
    ensures r.call.Some? <==> r.ok && drive.clientBuilt
    ensures r.call.Some? ==> r.call.value == IntendedCall(JoinPath(dir, r.filename), r.filename)
  {
    match SaveName(url, filename, stamp)
    case Raised(_) => Saved(false, "", None, false)
    case Done(clean) =>
      if !fetched then Saved(false, clean, None, false)
      else if !drive.clientBuilt then Saved(true, clean, None, true)
      else
        var call := IntendedCall(JoinPath(dir, clean), clean);
        Saved(true, clean, Some(call), drive.upload(call).None?)
  }

  /**
   * As written, a fetched file is removed locally once the Drive client is
   * built, even when every upload returns None, and the upload is asked to
   * put it in a folder named after the file itself.
   */
  lemma LocalCopyRemovedAsWritten(url: string, name: string, stamp: string, dir: string, drive: DriveBlock)
    requires name != "" && drive.clientBuilt
    requires forall c :: drive.upload(c).None?
    ensures var r := DownloadFile(url, Some(name), stamp, dir, true, drive);
            r.ok && !r.localKept && r.call.Some? && drive.upload(r.call.value).None?
            && r.call.value.folderId == Utils.SanitizeFilename(name)
  {
  }

  /** As intended, the local copy stays exactly when the file was saved and no upload returned a file. */
  lemma IntendedKeepsUnuploaded(url: string, filename: Option<string>, stamp: string, dir: string, fetched: bool, drive: DriveBlock)
    ensures var r := IntendedDownloadFile(url, filename, stamp, dir, fetched, drive);
            r.localKept <==> r.ok && (r.call.None? || drive.upload(r.call.value).None?)
    ensures var r := IntendedDownloadFile(url, filename, stamp, dir, fetched, drive);
            r.call.Some? ==> r.call.value.folderId == DriveFolder
  {
  }

  /** The two versions save the same files under the same names; they differ only in the call and in what stays. */
  lemma VersionsAgreeOnSaving(url: string, filename: Option<string>, stamp: string, dir: string, fetched: bool, drive: DriveBlock)
    ensures DownloadFile(url, filename, stamp, dir, fetched, drive).ok == IntendedDownloadFile(url, filename, stamp, dir, fetched, drive).ok
    ensures DownloadFile(url, filename, stamp, dir, fetched, drive).filename == IntendedDownloadFile(url, filename, stamp, dir, fetched, drive).filename
    ensures IntendedDownloadFile(url, filename, stamp, dir, fetched, drive).localKept && !DownloadFile(url, filename, stamp, dir, fetched, drive).localKept
            <==> DownloadFile(url, filename, stamp, dir, fetched, drive).ok && drive.clientBuilt
                 && drive.upload(IntendedCall(JoinPath(dir, DownloadFile(url, filename, stamp, dir, fetched, drive).filename),
                                              DownloadFile(url, filename, stamp, dir, fetched, drive).filename)).None?
  {
  }

  /** The Drive block never changes whether the file counts as saved, nor its name. */
  lemma UploadDoesNotDecide(url: string, filename: Option<string>, stamp: string, dir: string, fetched: bool, d1: DriveBlock, d2: DriveBlock)
    ensures DownloadFile(url, filename, stamp, dir, fetched, d1).ok == DownloadFile(url, filename, stamp, dir, fetched, d2).ok
    ensures DownloadFile(url, filename, stamp, dir, fetched, d1).filename == DownloadFile(url, filename, stamp, dir, fetched, d2).filename
  {
  }

  /** How the page visit ended: the media list it produced, the load timeout, or another exception. */
  datatype PageLoad = Loaded(files: seq<MediaFile>) | TimedOut | Failed(error: string)

  /** How many of the files the oracle reports saved. */
  function CountSaved(files: seq<MediaFile>, saved: MediaFile -> bool): (k: nat)
    ensures k <= |files|
    ensures k == |files| <==> forall i :: 0 <= i < |files| ==> saved(files[i])
    ensures k == 0 <==> forall i :: 0 <= i < |files| ==> !saved(files[i])
  {
    if |files| == 0 then 0
    else
      var rest := CountSaved(files[1..], saved);
      assert forall i :: 1 <= i < |files| ==> files[i] == files[1..][i - 1];
      (if saved(files[0]) then 1 else 0) + rest
  }

  function DownloadedMessage(k: nat, n: nat): string {
    "Downloaded " + NatToString(k) + "/" + NatToString(n) + " files"
  }

  /**
   * `download(url)`: success exactly when the page produced at least one
   * media file, however many of them then failed to save.
   */
  function Download(load: PageLoad, saved: MediaFile -> bool): (r: (bool, string))
    ensures r.0 <==> load.Loaded? && |load.files| > 0
    ensures r.0 ==> exists k: nat :: k <= |load.files| && r.1 == DownloadedMessage(k, |load.files|)
    ensures load.TimedOut? ==> r.1 == "Page failed to load within timeout"
    ensures load.Failed? ==> r.1 == "Playwright failed: " + load.error
    ensures load.Loaded? && |load.files| == 0 ==> r.1 == "No media files detected on page"
  {
    match load
    case Loaded(files) =>
      if |files| > 0 then (true, DownloadedMessage(CountSaved(files, saved), |files|))
      else (false, "No media files detected on page")
    case TimedOut => (false, "Page failed to load within timeout")
    case Failed(e) => (false, "Playwright failed: " + e)
  }

  /** When every transfer fails the run still counts as a success, reporting zero saved. */
  lemma SuccessDespiteFailedSaves(files: seq<MediaFile>, saved: MediaFile -> bool)
    requires |files| > 0 && forall i :: 0 <= i < |files| ==> !saved(files[i])
    ensures Download(Loaded(files), saved) == (true, DownloadedMessage(0, |files|))
  {
  }
}

=== FILE: post_manager.dfy ===
/**
 * post_manager.py: the posting side of the calendar. Every due video is
 * marked Processing, fetched from Drive, given metadata, posted to the
 * platforms its row names, and marked Posted with the resulting addresses
 * or Failed with the error. Drive, YouTube, Facebook and the metadata model
 * are oracles in `Services`; the sheet writes are the `CellWrite`s of
 * `SheetsManager.UpdateStatus`.
 */
module PostManager {
  import opened Wrappers
  import opened Text
  import opened SheetsManager
  import MetadataGenerator
  import Dates

  // ---------------------------------------------------------------------
  // _extract_drive_id

  const FileMarker := "/file/d/"
  const IdMarker := "id="

  /**
   * `_extract_drive_id(link)`: the segment after "/file/d/" up to the next
   * '/'; otherwise the text after "id=" up to the next '&'; otherwise the
   * link itself, taken to be an id already.
   */
  function ExtractDriveId(link: string): (r: string)
    ensures Contains(link, FileMarker) ==> !Contains(r, "/")
    ensures !Contains(link, FileMarker) && Contains(link, IdMarker) ==> !Contains(r, "&")
    ensures !Contains(link, FileMarker) && !Contains(link, IdMarker) ==> r == link
  {
    if Contains(link, FileMarker) then SplitHead(SecondPiece(link, FileMarker), "/")
    else if Contains(link, IdMarker) then SplitHead(SecondPiece(link, IdMarker), "&")
    else link
  }

  /** A file link `<pre>/file/d/<id>` or `<pre>/file/d/<id>/<more>` yields `id`. */
  lemma DriveIdFromFileLink(pre: string, id: string, rest: string)
    requires !Contains(pre + "/file/d", FileMarker) && !Contains(id + rest, FileMarker)
    requires '/' !in id && (rest == "" || rest[0] == '/')
    ensures ExtractDriveId(pre + FileMarker + id + rest) == id
  {
    assert FileMarker[..|FileMarker| - 1] == "/file/d";
    FirstAfter(pre, FileMarker, id + rest);
    assert pre + FileMarker + id + rest == pre + FileMarker + (id + rest);
    SecondPieceOf(pre, FileMarker, id + rest);
    SplitHeadBefore(id, rest, '/');
  }

  /** A query link `<pre>id=<id>` or `<pre>id=<id>&<more>` without "/file/d/" yields `id`. */
  lemma DriveIdFromQuery(pre: string, id: string, rest: string)
    requires !Contains(pre + IdMarker + id + rest, FileMarker)
    requires !Contains(pre + "id", IdMarker) && !Contains(id + rest, IdMarker)
    requires '&' !in id && (rest == "" || rest[0] == '&')
    ensures ExtractDriveId(pre + IdMarker + id + rest) == id
  {
    assert IdMarker[..|IdMarker| - 1] == "id";
    FirstAfter(pre, IdMarker, id + rest);
    assert pre + IdMarker + id + rest == pre + IdMarker + (id + rest);
    SecondPieceOf(pre, IdMarker, id + rest);
    SplitHeadBefore(id, rest, '&');
  }

  // ---------------------------------------------------------------------
  // process_video

  /** The tag list handed to YouTube: the tags cell split on ',' and each piece stripped. */
  function TagList(tags: string): (r: seq<string>)
    ensures |r| == |Split(tags, ",")|
  {
    var parts := Split(tags, ",");
    seq(|parts|, i requires 0 <= i < |parts| => Strip(parts[i]))
  }

  /** Tags written without commas and without surrounding blanks come back as written. */
  lemma TagListOfJoin(ts: seq<string>)
    requires |ts| >= 1
    requires forall k :: 0 <= k < |ts| ==> ',' !in ts[k] && (|ts[k]| > 0 ==> !IsSpace(ts[k][0]) && !IsSpace(ts[k][|ts[k]| - 1]))
    ensures TagList(Join(ts, ",")) == ts
  {
    SplitJoin(ts, ',');
    forall k | 0 <= k < |ts| ensures Strip(ts[k]) == ts[k] {
      StripOfStripped(ts[k]);
    }
  }

  /**
   * What the YouTube upload is given besides the file, in the keywords
   * `YouTubePoster.upload_video` takes (the privacy is always "public").
   * The row's monetized cell has no keyword to go to: `upload_video` takes
   * no `monetization`.
   */
  datatype YoutubeUpload = YoutubeUpload(title: string, description: string, tags: seq<string>)

  /**
   * The services a video meets: the Drive download by file id, the metadata
   * model (None without a key), the YouTube upload returning a video id,
   * and the Facebook upload of a caption and a title returning a post id.
   */
  datatype Services = Services(
    fetch: string -> Outcome<()>,
    model: Option<MetadataGenerator.Reply>,
    youtube: YoutubeUpload -> Outcome<Option<string>>,
    facebook: (string, string) -> Outcome<Option<string>>)

  /** The id handed to the Drive download: extracted from a drive.google.com link, else the cell itself. */
  function FileId(link: string): string {
    if Contains(link, "drive.google.com") then ExtractDriveId(link) else link
  }

  /** Title, description and tags: the row's own, with the generated ones filling the gaps when the title or the description is empty. */
  function Metadata(v: Video, model: Option<MetadataGenerator.Reply>): (m: MetadataGenerator.Meta)
    ensures v.title != "" && v.description != "" ==> m == MetadataGenerator.Meta(v.title, v.description, v.tags)
    ensures v.title != "" ==> m.title == v.title
    ensures v.description != "" ==> m.description == v.description
    ensures v.tags != "" ==> m.tags == v.tags
  {
    if v.title != "" && v.description != "" then MetadataGenerator.Meta(v.title, v.description, v.tags)
    else
      var g := MetadataGenerator.GenerateFromFilename(v.videoName, model);
      MetadataGenerator.Meta(if v.title != "" then v.title else g.title,
                             if v.description != "" then v.description else g.description,
                             if v.tags != "" then v.tags else g.tags)
  }

  /**
   * The YouTube step as evidently intended, calling `upload_video` with the
   * keywords it takes: skipped unless the platforms name it; an empty
   * answer raises.
   */
  function PostYoutube(v: Video, m: MetadataGenerator.Meta, s: Services): (r: Outcome<Option<string>>)
    ensures r.Done? && r.value.Some? ==> Contains(Lower(v.platforms), "youtube")
    ensures !Contains(Lower(v.platforms), "youtube") ==> r == Done(None)
  {
    if !Contains(Lower(v.platforms), "youtube") then Done(None)
    else
      match s.youtube(YoutubeUpload(m.title, m.description, TagList(m.tags)))
      case Raised(e) => Raised(e)
      case Done(id) => if Truthy(id) then Done(Some("https://youtube.com/watch?v=" + id.value)) else Raised("YouTube upload failed")
  }

  /** The Facebook step: skipped unless the platforms name it; an empty answer raises. */
  function PostFacebook(v: Video, m: MetadataGenerator.Meta, s: Services): (r: Outcome<Option<string>>)
    ensures r.Done? && r.value.Some? ==> Contains(Lower(v.platforms), "facebook")
    ensures !Contains(Lower(v.platforms), "facebook") ==> r == Done(None)
  {
    if !Contains(Lower(v.platforms), "facebook") then Done(None)
    else
      var caption := m.title + "\n\n" + m.description + "\n\n" + m.tags;
      match s.facebook(caption, m.title)
      case Raised(e) => Raised(e)
      case Done(id) => if Truthy(id) then Done(Some("https://facebook.com/" + id.value)) else Raised("Facebook upload failed")
  }

  /** The body of the `try`: download, metadata, YouTube, Facebook; the first exception ends it. */
  function Publish(v: Video, s: Services): (r: Outcome<(Option<string>, Option<string>)>)
    ensures r.Done? ==> (r.value.0.Some? <==> Contains(Lower(v.platforms), "youtube"))
    ensures r.Done? ==> (r.value.1.Some? <==> Contains(Lower(v.platforms), "facebook"))
  {
    match s.fetch(FileId(v.driveLink))
    case Raised(e) => Raised(e)
    case Done(_) =>
      var m := Metadata(v, s.model);
      match PostYoutube(v, m, s)
      case Raised(e) => Raised(e)
      case Done(youtube) =>
        match PostFacebook(v, m, s)
        case Raised(e) => Raised(e)
        case Done(facebook) => Done((youtube, facebook))
  }

  /** The TypeError Python raises for the `monetization=` keyword `upload_video` does not take. */
  const UploadKeywordError := "YouTubePoster.upload_video() got an unexpected keyword argument 'monetization'"

  /**
   * The services as post_manager.py:104-111 meets them: the call passes
   * `monetization=`, so it raises TypeError before any upload starts.
   */
  function AsWritten(s: Services): Services {
    s.(youtube := (u: YoutubeUpload) => Raised(UploadKeywordError))
  }

  /** What `process_video` did: its result, its sheet writes, and the addresses it wrote. */
  datatype Posting = Posting(ok: bool, writes: seq<CellWrite>, youtubeUrl: Option<string>, facebookUrl: Option<string>)

  /** `process_video(video_info)`; `postedAt` is the clock's '%Y-%m-%d %H:%M' text. */
  function ProcessVideo(ws: Option<Grid>, v: Video, s: Services, postedAt: string): (p: Posting)
    ensures p.ok <==> Publish(v, s).Done?
  {
    var processing := UpdateStatus(ws, v.rowNum, StatusProcessing, None, None, None);
    match Publish(v, s)
    case Done((youtube, facebook)) =>
      Posting(true, processing + UpdateStatus(ws, v.rowNum, StatusPosted, youtube, facebook, Some("Posted successfully at " + postedAt)),
              youtube, facebook)
    case Raised(e) =>
      Posting(false, processing + UpdateStatus(ws, v.rowNum, StatusFailed, None, None, Some("Error: " + e)), None, None)
  }

  /**
   * As written, a video whose platforms name YouTube is never posted: once
   * the download succeeds, the TypeError of the `monetization=` keyword
   * marks it Failed.
   */
  lemma YoutubeNeverPostedAsWritten(ws: Option<Grid>, v: Video, s: Services, postedAt: string)
    requires Contains(Lower(v.platforms), "youtube")
    ensures !ProcessVideo(ws, v, AsWritten(s), postedAt).ok
    ensures s.fetch(FileId(v.driveLink)).Done? ==> Publish(v, AsWritten(s)) == Raised(UploadKeywordError)
  {
  }

  /**
   * Called as intended, a video for YouTube alone whose download succeeds
   * and whose upload returns a video id is posted, with that video's address.
   */
  lemma YoutubePostedWhenUploaded(ws: Option<Grid>, v: Video, s: Services, postedAt: string, id: string)
    requires Contains(Lower(v.platforms), "youtube") && !Contains(Lower(v.platforms), "facebook")
    requires s.fetch(FileId(v.driveLink)).Done? && id != ""
    requires forall u :: s.youtube(u) == Done(Some(id))
    ensures ProcessVideo(ws, v, s, postedAt).ok
    ensures ProcessVideo(ws, v, s, postedAt).youtubeUrl == Some("https://youtube.com/watch?v=" + id)
    ensures ProcessVideo(ws, v, s, postedAt).facebookUrl.None?
  {
    var m := Metadata(v, s.model);
    assert s.youtube(YoutubeUpload(m.title, m.description, TagList(m.tags))) == Done(Some(id));
  }

  /** The values written to the status column, in order. */
  function StatusValues(writes: seq<CellWrite>): seq<string> {
    if |writes| == 0 then []
    else (if writes[0].col == ColStatus + 1 then [writes[0].value] else []) + StatusValues(writes[1..])
  }

  lemma {:induction false} StatusValuesAppend(a: seq<CellWrite>, b: seq<CellWrite>)
    ensures StatusValues(a + b) == StatusValues(a) + StatusValues(b)
    decreases |a|
  {
    if |a| == 0 {
      assert a + b == b;
    } else {
      assert (a + b)[0] == a[0];
      assert (a + b)[1..] == a[1..] + b;
      StatusValuesAppend(a[1..], b);
    }
  }

  /** `update_status` writes the status column exactly once, whatever else it writes. */
  lemma OneStatusWrite(g: Grid, rowNum: int, status: string, youtube: Option<string>, facebook: Option<string>, notes: Option<string>)
    ensures StatusValues(UpdateStatus(Some(g), rowNum, status, youtube, facebook, notes)) == [status]
  {
    var s := [CellWrite(rowNum, ColStatus + 1, status)];
    var y := WriteIf(rowNum, ColYoutubeUrl, youtube);
    var f := WriteIf(rowNum, ColFacebookUrl, facebook);
    var n := WriteIf(rowNum, ColNotes, notes);
    assert UpdateStatus(Some(g), rowNum, status, youtube, facebook, notes) == s + (y + (f + n));
    StatusValuesAppend(s, y + (f + n));
    StatusValuesAppend(y, f + n);
    StatusValuesAppend(f, n);
    assert StatusValues(s) == [status];
  }

  /**
   * The status flow of one video: Processing first, then exactly one of
   * Posted (on success) or Failed; a posted row gets the address of every
   * platform its platforms cell names, and no other.
   */
  lemma StatusFlow(g: Grid, v: Video, s: Services, postedAt: string)
    ensures var p := ProcessVideo(Some(g), v, s, postedAt);
            StatusValues(p.writes) == [StatusProcessing, if p.ok then StatusPosted else StatusFailed]
    ensures var p := ProcessVideo(Some(g), v, s, postedAt);
            p.ok ==> (p.youtubeUrl.Some? <==> Contains(Lower(v.platforms), "youtube"))
                     && (p.facebookUrl.Some? <==> Contains(Lower(v.platforms), "facebook"))
    ensures var p := ProcessVideo(Some(g), v, s, postedAt);
            !p.ok ==> p.youtubeUrl.None? && p.facebookUrl.None?
  {
    var p := ProcessVideo(Some(g), v, s, postedAt);
    var processing := UpdateStatus(Some(g), v.rowNum, StatusProcessing, None, None, None);
    OneStatusWrite(g, v.rowNum, StatusProcessing, None, None, None);
    var last := p.writes[|processing|..];
    assert p.writes == processing + last;
    StatusValuesAppend(processing, last);
    match Publish(v, s)
    case Done((youtube, facebook)) =>
      OneStatusWrite(g, v.rowNum, StatusPosted, youtube, facebook, Some("Posted successfully at " + postedAt));
    case Raised(e) =>
      OneStatusWrite(g, v.rowNum, StatusFailed, None, None, Some("Error: " + e));
  }

  // ---------------------------------------------------------------------
  // process_all_scheduled

  /** The tally printed at the end. */
  datatype Tally = Tally(successful: nat, failed: nat)

  function Count(ps: seq<Posting>): (t: Tally)
    ensures t.successful + t.failed == |ps|
  {
    if |ps| == 0 then Tally(0, 0)
    else
      var rest := Count(ps[1..]);
      if ps[0].ok then rest.(successful := rest.successful + 1) else rest.(failed := rest.failed + 1)
  }

  /** The 30-second pause after a video: `video != videos[-1]`, a comparison of whole records. */
  predicate Pause(videos: seq<Video>, k: nat)
    requires k < |videos|
  {
    videos[k] != videos[|videos| - 1]
  }

  /** What `process_all_scheduled` did: one posting per due video, in order, and the tally. */
  datatype Run = Run(postings: seq<Posting>, tally: Tally)

  /**
   * `process_all_scheduled()`: the due videos one by one, each on the
   * sheet as read at the start. No due video means nothing is done; a
   * missing worksheet raises from the scheduled-video query. The clock is
   * read again for every posted video (post_manager.py:145), so
   * `postedAt(k)` is its text when the `k`-th due video is marked Posted.
   */
  function ProcessAllScheduled(ws: Option<Grid>, now: Dates.Stamp, s: Services, postedAt: nat -> string): (r: Outcome<Run>)
    ensures r.Raised? <==> ws.None?
    ensures r.Done? ==> |r.value.postings| == |ScheduledVideos(ws, now).value|
    ensures r.Done? ==> r.value.tally.successful + r.value.tally.failed == |ScheduledVideos(ws, now).value|
  {
    match ScheduledVideos(ws, now)
    case Raised(e) => Raised(e)
    case Done(videos) =>
      var ps := seq(|videos|, k requires 0 <= k < |videos| => ProcessVideo(ws, videos[k], s, postedAt(k)));
      Done(Run(ps, Count(ps)))
  }

  /**
   * The `k`-th due video is posted exactly when its own publishing finishes,
   * and a posted one's note carries the clock as read for that video.
   */
  lemma ScheduledPosting(ws: Option<Grid>, now: Dates.Stamp, s: Services, postedAt: nat -> string, k: nat)
    requires ws.Some? && k < |ScheduledVideos(ws, now).value|
    ensures ProcessAllScheduled(ws, now, s, postedAt).value.postings[k].ok
            <==> Publish(ScheduledVideos(ws, now).value[k], s).Done?
    ensures ProcessAllScheduled(ws, now, s, postedAt).value.postings[k]
            == ProcessVideo(ws, ScheduledVideos(ws, now).value[k], s, postedAt(k))
  {
    var videos := ScheduledVideos(ws, now).value;
    var ps := seq(|videos|, j requires 0 <= j < |videos| => ProcessVideo(ws, videos[j], s, postedAt(j)));
    assert ProcessAllScheduled(ws, now, s, postedAt) == Done(Run(ps, Count(ps)));
    assert ps[k] == ProcessVideo(ws, videos[k], s, postedAt(k));
  }

  /** Due videos carry distinct row numbers, so the record comparison pauses after every video but the last. */
  lemma PauseOnlyBetweenVideos(g: Grid, now: Dates.Stamp, k: nat)
    requires k < |ScheduledVideos(Some(g), now).value|
    ensures var videos := ScheduledVideos(Some(g), now).value;
            Pause(videos, k) <==> k < |videos| - 1
  {
    var videos := ScheduledVideos(Some(g), now).value;
    ScanOrdered(Body(g), 2, row => DueRow(row, now));
    if k < |videos| - 1 {
      assert videos[k].rowNum < videos[|videos| - 1].rowNum;
    }
  }
}

=== FILE: router.dfy ===
/**
 * `EngineRouter.choose_engine`: video platforms go to yt-dlp, file hosts to
 * JDownloader, everything else to the Playwright scraper. Matching is a
 * substring test on the lowered address, video platforms first.
 */
module Router {
  import opened Wrappers
  import opened Text

  datatype Engine = YtDlp | JDownloader | Playwright

  /** The name `choose_engine` returns for each engine. */
  function EngineName(e: Engine): string {
    match e
    case YtDlp => "yt-dlp"
    case JDownloader => "jdownloader"
    case Playwright => "playwright"
  }

  /** Domain names that other tables of the application share with the router's. */
  const YouTubeCom := "youtube.com"
  const YoutuBe := "youtu.be"
  const TikTokCom := "tiktok.com"
  const TwitterCom := "twitter.com"
  const XCom := "x.com"

  const VideoPlatforms := [
    YouTubeCom, YoutuBe, TikTokCom,
    TwitterCom, XCom, "vimeo.com", "twitch.tv",
    "facebook.com", "fb.watch", "reddit.com", "dailymotion.com"]

  const FileHosts := [
    "mega.nz", "mega.co.nz", "mediafire.com", "rapidgator.net",
    "1fichier.com", "uploaded.net", "turbobit.net", "nitroflare.com",
    "zippyshare.com", "sendspace.com", "depositfiles.com"]

  /** `choose_engine(url)`. */
  function ChooseEngine(url: string): (r: Engine)
    ensures r == YtDlp <==> ContainsAny(Lower(url), VideoPlatforms)
    ensures r == JDownloader <==> !ContainsAny(Lower(url), VideoPlatforms) && ContainsAny(Lower(url), FileHosts)
    ensures r == Playwright <==> !ContainsAny(Lower(url), VideoPlatforms) && !ContainsAny(Lower(url), FileHosts)
  {
    var u := Lower(url);
    if FirstContained(u, VideoPlatforms).Some? then YtDlp
    else if FirstContained(u, FileHosts).Some? then JDownloader
    else Playwright
  }

  /** Routing ignores case: an address and its lowered form go to the same engine. */
  lemma RoutingIgnoresCase(url: string)
    ensures ChooseEngine(Lower(url)) == ChooseEngine(url)
  {
    LowerIdempotent(url);
  }

  /** A video platform wins even when a file host's name also occurs. */
  lemma VideoPlatformBeatsFileHost(url: string, p: string, h: string)
    requires p in VideoPlatforms && h in FileHosts
    requires Contains(Lower(url), p) && Contains(Lower(url), h)
    ensures ChooseEngine(url) == YtDlp
  {
    var k :| 0 <= k < |VideoPlatforms| && VideoPlatforms[k] == p;
  }

  /** Character-by-character agreement at `j` is an occurrence. */
  lemma Occurs(s: string, p: string, j: nat)
    requires j + |p| <= |s| && forall i :: 0 <= i < |p| ==> s[j + i] == p[i]
    ensures Contains(s, p)
  {
    assert s[j..j + |p|] == p;
    assert OccursAt(s, p, j);
  }

  const YouTubeUrl := "https://www.youtube.com/watch?v=test"

  lemma LowerExamples()
    ensures Lower(YouTubeUrl) == YouTubeUrl
  {
    LowerOfLowerChars(YouTubeUrl);
  }

  /** The routing check of the setup script: a YouTube watch page goes to yt-dlp. */
  lemma YouTubeExample()
    ensures ChooseEngine(YouTubeUrl) == YtDlp
  {
    LowerExamples();
    Occurs(YouTubeUrl, VideoPlatforms[0], 12);
  }
}

=== FILE: setup_validator.dfy ===
/**
 * setup_validator.py: the three readiness checks (Drive, cookies,
 * JDownloader) and the summary that scores them. The file system, the
 * operating system's name, the Drive detection, the cookie file's
 * contents, the yt-dlp cookie self-test and the JDownloader process check
 * are parameters, the detection and the last two able to raise; the half-point
 * score is kept as a count of halves and tied to the source's arithmetic
 * by a lemma.
 */
module SetupValidator {
  import opened Wrappers
  import opened Text

  /** The `status` strings a check leaves in `results`. */
  datatype Status = Unknown | Ready | Fallback | Missing | Warning | Error | NeedsConfig

  const TargetFolderId := "1DQDRFQtl7fkgyXoP-sqRENau2WCLJH18"

  /** The first path of the list that exists; the first hit of `os.path.exists`. */
  function FirstExisting(paths: seq<string>, present: string -> bool): (r: Option<string>)
    ensures r.Some? ==> r.value in paths && present(r.value)
    ensures r.None? <==> forall k :: 0 <= k < |paths| ==> !present(paths[k])
    ensures r.Some? ==> exists k :: 0 <= k < |paths| && paths[k] == r.value && forall j :: 0 <= j < k ==> !present(paths[j])
  {
    if |paths| == 0 then None
    else if present(paths[0]) then Some(paths[0])
    else
      var r := FirstExisting(paths[1..], present);
      if r.Some? then
        var k :| 0 <= k < |paths[1..]| && paths[1..][k] == r.value && forall j :: 0 <= j < k ==> !present(paths[1..][j]);
        assert paths[k + 1] == r.value;
        assert forall j :: 0 <= j < k + 1 ==> !present(paths[j]) by {
          forall j | 0 < j < k + 1 ensures !present(paths[j]) {
            assert paths[j] == paths[1..][j - 1];
          }
        }
        r
      else r
  }

  // ---------------------------------------------------------------------
  // check_google_drive

  /**
   * `check_google_drive()`: `detect_google_drive()` gives the flag and the
   * download path; detected is 'ready', otherwise 'fallback' with the
   * same path.
   */
  function CheckGoogleDrive(detected: bool, downloadPath: string): (r: (bool, string, Status))
    ensures r.0 == detected && r.1 == downloadPath
    ensures r.2 == Ready <==> detected
  {
    if detected then (true, downloadPath, Ready) else (false, downloadPath, Fallback)
  }

  /** Drive never fails validation: its status is always 'ready' or 'fallback'. */
  lemma DriveNeverMissing(detected: bool, downloadPath: string)
    ensures CheckGoogleDrive(detected, downloadPath).2 in {Ready, Fallback}
  {
  }

  // ---------------------------------------------------------------------
  // check_cookies

  /** `COOKIE_PATHS`, with `~` as `home`. */
  function CookiePaths(home: string): seq<string> {
    ["./cookies.txt", home + "/cookies.txt", "./config/cookies.txt"]
  }

  const NetscapeHeader := "# Netscape HTTP Cookie File"
  const PlainHeader := "# HTTP Cookie File"

  predicate HasHeader(content: string) {
    Contains(content, NetscapeHeader) || Contains(content, PlainHeader)
  }

  /**
   * `test_cookies_with_ytdlp(cookie_file)`: whether `yt-dlp` exited with 0;
   * a timeout or a missing program is False, and any other exception of
   * `subprocess.run` (another OSError) leaves the function. Its result only
   * chooses the printed line, so the model keeps whether it raised.
   */
  type SelfTest = string -> Outcome<bool>

  /**
   * `check_cookies()`: no file is 'missing' and False; a file that cannot
   * be read, or whose yt-dlp self-test raises, is 'error' and False;
   * otherwise the file is True, 'ready' with a Netscape header and
   * 'warning' without one.
   */
  function CheckCookies(home: string, present: string -> bool, read: string -> Outcome<string>, selfTest: SelfTest): (r: (bool, Status))
    ensures r.0 <==> r.1 in {Ready, Warning}
    ensures r.1 == Missing <==> FirstExisting(CookiePaths(home), present).None?
    ensures r.1 == Error <==> var found := FirstExisting(CookiePaths(home), present);
              found.Some? && (read(found.value).Raised? || selfTest(found.value).Raised?)
  {
    match FirstExisting(CookiePaths(home), present)
    case None => (false, Missing)
    case Some(path) =>
      match read(path)
      case Raised(_) => (false, Error)
      case Done(content) =>
        match selfTest(path)
        case Raised(_) => (false, Error)
        case Done(_) => (true, if HasHeader(content) then Ready else Warning)
  }

  /**
   * A readable cookie file whose self-test returns, passed or not, passes:
   * 'ready' with a Netscape header and 'warning' without one.
   */
  lemma CookieHeaderDecides(home: string, present: string -> bool, read: string -> Outcome<string>, selfTest: SelfTest)
    requires FirstExisting(CookiePaths(home), present).Some?
    requires read(FirstExisting(CookiePaths(home), present).value).Done?
    requires selfTest(FirstExisting(CookiePaths(home), present).value).Done?
    ensures var content := read(FirstExisting(CookiePaths(home), present).value).value;
            CheckCookies(home, present, read, selfTest) == (true, if HasHeader(content) then Ready else Warning)
  {
  }

  /** A self-test that raises turns even a well-formed, readable cookie file into 'error'. */
  lemma SelfTestRaiseIsError(home: string, present: string -> bool, read: string -> Outcome<string>, selfTest: SelfTest)
    requires FirstExisting(CookiePaths(home), present).Some?
    requires read(FirstExisting(CookiePaths(home), present).value).Done?
    requires selfTest(FirstExisting(CookiePaths(home), present).value).Raised?
    ensures CheckCookies(home, present, read, selfTest) == (false, Error)
  {
  }

  // ---------------------------------------------------------------------
  // check_jdownloader

  /** `JDOWNLOADER_PATHS.get(platform.system(), [])`, with `~` as `home`. */
  function JdPaths(system: string, home: string): seq<string> {
    if system == "Windows" then
      ["C:/Program Files/JDownloader/JDownloader2.exe", "C:/Program Files (x86)/JDownloader/JDownloader2.exe",
       home + "/AppData/Local/JDownloader v2.0/JDownloader2.exe"]
    else if system == "Darwin" then
      ["/Applications/JDownloader 2.0/JDownloader 2.0.app", home + "/Applications/JDownloader 2.0/JDownloader 2.0.app"]
    else if system == "Linux" then
      ["/opt/jdownloader/JDownloader.jar", home + "/jdownloader/JDownloader.jar", "/usr/share/jdownloader/JDownloader.jar"]
    else []
  }

  /**
   * `check_jdownloader()`: no installation is 'missing' and False, and the
   * process is not looked for. With an installation found,
   * `is_jdownloader_running()` is called unguarded (`running`): it can
   * raise (no `pgrep` without psutil, or a process whose name is None), and
   * that leaves the check; otherwise the installation is 'needs_config' and
   * True, whether or not it runs, since the API is never configured.
   */
  function CheckJdownloader(system: string, home: string, present: string -> bool, running: Outcome<bool>): (r: Outcome<(bool, Status)>)
    ensures r.Raised? <==> FirstExisting(JdPaths(system, home), present).Some? && running.Raised?
    ensures r.Done? ==> (r.value.0 <==> FirstExisting(JdPaths(system, home), present).Some?)
    ensures r.Done? ==> r.value.1 == (if r.value.0 then NeedsConfig else Missing)
  {
    if FirstExisting(JdPaths(system, home), present).None? then Done((false, Missing))
    else
      match running
      case Raised(e) => Raised(e)
      case Done(_) => Done((true, NeedsConfig))
  }

  /** On an operating system outside the table nothing is found, and the process check is never made. */
  lemma UnknownSystemMissing(system: string, home: string, present: string -> bool, running: Outcome<bool>)
    requires system !in {"Windows", "Darwin", "Linux"}
    ensures CheckJdownloader(system, home, present, running) == Done((false, Missing))
  {
  }

  // ---------------------------------------------------------------------
  // print_summary

  /** `self.results`: the three statuses ('unknown' before a check runs). */
  datatype Results = Results(drive: Status, cookies: Status, jdownloader: Status)

  /** `ready_count` as the source adds it: 1 for Drive, 1 for cookies, 0.5 for JDownloader. */
  function ReadyCount(r: Results): real {
    (if r.drive in {Ready, Fallback} then 1.0 else 0.0)
    + (if r.cookies == Ready then 1.0 else 0.0)
    + (if r.jdownloader in {Ready, NeedsConfig} then 0.5 else 0.0)
  }

  /** The same score counted in halves. */
  function Halves(r: Results): (h: nat)
    ensures h <= 5
  {
    (if r.drive in {Ready, Fallback} then 2 else 0)
    + (if r.cookies == Ready then 2 else 0)
    + (if r.jdownloader in {Ready, NeedsConfig} then 1 else 0)
  }

  /** Counting halves is exact: the half count is twice `ready_count`. */
  lemma HalvesExact(r: Results)
    ensures ReadyCount(r) == Halves(r) as real / 2.0
  {
  }

  datatype Verdict = IsReady | PartiallyReady | NotReady

  /** The overall status: at least 2.5 is READY, at least 1.5 PARTIALLY READY, else NOT READY. */
  function VerdictOf(r: Results): (v: Verdict)
    ensures v == IsReady <==> Halves(r) >= 5
    ensures v == PartiallyReady <==> 3 <= Halves(r) < 5
  {
    HalvesExact(r);
    if ReadyCount(r) >= 2.5 then IsReady
    else if ReadyCount(r) >= 1.5 then PartiallyReady
    else NotReady
  }

  /** `int(ready_count)` in "(n/3 components configured)": the whole part of the score. */
  function ShownCount(r: Results): (n: int)
    ensures n == Halves(r) / 2
  {
    HalvesExact(r);
    ReadyCount(r).Floor
  }

  /** The numbered next steps the summary prints. */
  datatype Step = InstallDrive | SetUpCookies | ConfigureJd | InstallJd | StartOmniStream

  function NextSteps(r: Results): (s: seq<Step>)
    ensures StartOmniStream in s <==> Halves(r) >= 4
    ensures InstallDrive in s <==> r.drive == Fallback
    ensures SetUpCookies in s <==> r.cookies != Ready
  {
    HalvesExact(r);
    (if r.drive == Fallback then [InstallDrive] else [])
    + (if r.cookies != Ready then [SetUpCookies] else [])
    + (if r.jdownloader == NeedsConfig then [ConfigureJd] else if r.jdownloader == Missing then [InstallJd] else [])
    + (if ReadyCount(r) >= 2.0 then [StartOmniStream] else [])
  }

  datatype Summary = Summary(verdict: Verdict, shown: int, steps: seq<Step>)

  /**
   * `print_summary()`: the verdict, the whole count shown out of 3 and the
   * next steps, all read off the score in half points.
   */
  function PrintSummary(r: Results): (s: Summary)
    ensures s.verdict == IsReady <==> Halves(r) >= 5
    ensures s.verdict == NotReady <==> Halves(r) < 3
    ensures s.shown == Halves(r) / 2
    ensures StartOmniStream in s.steps <==> Halves(r) >= 4
    ensures InstallDrive in s.steps <==> r.drive == Fallback
    ensures SetUpCookies in s.steps <==> r.cookies != Ready
  {
    Summary(VerdictOf(r), ShownCount(r), NextSteps(r))
  }

  // ---------------------------------------------------------------------
  // run_validation

  /**
   * What the checks see of the machine. `drive` is what
   * `detect_google_drive()` did: the flag and the download path, or the
   * exception of its unguarded fallback `os.makedirs`.
   */
  datatype Machine = Machine(
    drive: Outcome<(bool, string)>, system: string, home: string,
    present: string -> bool, read: string -> Outcome<string>,
    selfTest: SelfTest, running: Outcome<bool>)

  /**
   * `run_validation()`: the three checks in order, then the summary. An
   * exception of the Drive detection, or later of the JDownloader process
   * check, leaves it before the summary is printed.
   */
  function RunValidation(m: Machine): (r: Outcome<(Results, Summary)>)
    ensures r.Raised? <==> m.drive.Raised? || (FirstExisting(JdPaths(m.system, m.home), m.present).Some? && m.running.Raised?)
    ensures m.drive.Raised? ==> r == Raised(m.drive.reason)
    ensures r.Done? ==> r.value.1 == PrintSummary(r.value.0)
    ensures r.Done? ==> r.value.0.drive == (if m.drive.value.0 then Ready else Fallback)
    ensures r.Done? ==> r.value.0.cookies == CheckCookies(m.home, m.present, m.read, m.selfTest).1
  {
    match m.drive
    case Raised(e) => Raised(e)
    case Done(detection) =>
      var drive := CheckGoogleDrive(detection.0, detection.1).2;
      var cookies := CheckCookies(m.home, m.present, m.read, m.selfTest).1;
      match CheckJdownloader(m.system, m.home, m.present, m.running)
      case Raised(e) => Raised(e)
      case Done(jd) =>
        var res := Results(drive, cookies, jd.1);
        Done((res, PrintSummary(res)))
  }

  /**
   * Since Drive always scores 1 and JDownloader at most 0.5, READY needs
   * the cookies ready and JDownloader installed, NOT READY means neither,
   * and the start step appears exactly when the cookies are ready.
   */
  lemma VerdictAfterChecks(m: Machine)
    ensures RunValidation(m).Done? ==>
            var (res, s) := RunValidation(m).value;
            var jdFound := FirstExisting(JdPaths(m.system, m.home), m.present).Some?;
            (s.verdict == IsReady <==> res.cookies == Ready && jdFound)
            && (s.verdict == NotReady <==> res.cookies != Ready && !jdFound)
            && (StartOmniStream in s.steps <==> res.cookies == Ready)
            && s.shown == (if res.cookies == Ready then 2 else 1)
  {
    if m.drive.Done? {
      DriveNeverMissing(m.drive.value.0, m.drive.value.1);
    }
  }
}

=== FILE: sheets_manager.dfy ===
/**
 * sheets_manager.py: the content calendar kept in a Google Sheet. The sheet
 * is its grid of cell texts, header row first (`get_all_values`); the
 * manager reads rows into video records, filters the pending and the due
 * ones, appends new rows and rewrites the status columns. The gspread
 * client itself is not modelled: a missing worksheet is None, a write is a
 * `CellWrite` the caller applies.
 */
module SheetsManager {
  import opened Wrappers
  import opened Text
  import opened Dates

  // Column indices, 0-based.
  const ColId := 0
  const ColVideoName := 1
  const ColDriveLink := 2
  const ColTitle := 3
  const ColDescription := 4
  const ColTags := 5
  const ColPlatforms := 6
  const ColStatus := 7
  const ColScheduledTime := 8
  const ColYoutubeUrl := 9
  const ColFacebookUrl := 10
  const ColMonetized := 11
  const ColNotes := 12
  const Width := 13

  const StatusIdle := "Idle"
  const StatusScheduled := "Scheduled"
  const StatusProcessing := "Processing"
  const StatusPosted := "Posted"
  const StatusFailed := "Failed"

  /** The status vocabulary of the calendar. */
  const Statuses: seq<string> := [StatusIdle, StatusScheduled, StatusProcessing, StatusPosted, StatusFailed]

  lemma StatusVocabulary()
    ensures |Statuses| == 5 && Distinct(Statuses)
  {
  }

  /** The grid of a worksheet: the header row, then one row per video. */
  type Grid = seq<seq<string>>

  /** `get_all_values()[1:]`: the rows below the header. */
  function Body(g: Grid): (rows: Grid)
    ensures |rows| == if |g| == 0 then 0 else |g| - 1
    ensures forall k :: 0 <= k < |rows| ==> rows[k] == g[k + 1]
  {
    if |g| == 0 then [] else g[1..]
  }

  // ---------------------------------------------------------------------
  // Row records

  /** The dictionary `_row_to_dict` builds: the sheet row number and one text per column. */
  datatype Video = Video(
    rowNum: int,
    id: string,
    videoName: string,
    driveLink: string,
    title: string,
    description: string,
    tags: string,
    platforms: string,
    status: string,
    scheduledTime: string,
    youtubeUrl: string,
    facebookUrl: string,
    monetized: string,
    notes: string)

  /** The field of a record that holds column `col`. */
  function Field(v: Video, col: nat): string
    requires col < Width
  {
    match col
    case 0 => v.id
    case 1 => v.videoName
    case 2 => v.driveLink
    case 3 => v.title
    case 4 => v.description
    case 5 => v.tags
    case 6 => v.platforms
    case 7 => v.status
    case 8 => v.scheduledTime
    case 9 => v.youtubeUrl
    case 10 => v.facebookUrl
    case 11 => v.monetized
    case _ => v.notes
  }

  /** The cell in column `col`, or `default` when the row is shorter. */
  function Cell(row: seq<string>, col: nat, default: string): string {
    if col < |row| then row[col] else default
  }

  /**
   * `_row_to_dict(row, row_num)`: every field comes from its own column
   * when the row reaches it, and is empty otherwise, except monetized, which
   * is "Yes" by default.
   */
  function RowToDict(row: seq<string>, rowNum: int): (v: Video)
    ensures v.rowNum == rowNum
  {
    Video(rowNum, Cell(row, ColId, ""), Cell(row, ColVideoName, ""), Cell(row, ColDriveLink, ""),
          Cell(row, ColTitle, ""), Cell(row, ColDescription, ""), Cell(row, ColTags, ""),
          Cell(row, ColPlatforms, ""), Cell(row, ColStatus, ""), Cell(row, ColScheduledTime, ""),
          Cell(row, ColYoutubeUrl, ""), Cell(row, ColFacebookUrl, ""), Cell(row, ColMonetized, "Yes"),
          Cell(row, ColNotes, ""))
  }

  /** The column layout of a record: the field of each column is that column's cell, or its default. */
  lemma RowLayout(row: seq<string>, rowNum: int)
    ensures forall col :: 0 <= col < Width ==>
              Field(RowToDict(row, rowNum), col) == (if col < |row| then row[col] else if col == ColMonetized then "Yes" else "")
  {
  }

  /** The rows a filter keeps, in sheet order, numbered from `first`. */
  function Scan(rows: Grid, first: int, keep: seq<string> -> bool): (r: seq<Video>)
    ensures |r| <= |rows|
    decreases |rows|
  {
    if |rows| == 0 then []
    else (if keep(rows[0]) then [RowToDict(rows[0], first)] else []) + Scan(rows[1..], first + 1, keep)
  }

  /** Every record of a scan is the record of a kept row, under that row's number. */
  lemma {:induction false} ScanSources(rows: Grid, first: int, keep: seq<string> -> bool)
    ensures forall i :: 0 <= i < |Scan(rows, first, keep)| ==>
              && first <= Scan(rows, first, keep)[i].rowNum < first + |rows|
              && keep(rows[Scan(rows, first, keep)[i].rowNum - first])
              && Scan(rows, first, keep)[i] == RowToDict(rows[Scan(rows, first, keep)[i].rowNum - first], Scan(rows, first, keep)[i].rowNum)
    decreases |rows|
  {
    if |rows| > 0 {
      ScanSources(rows[1..], first + 1, keep);
      var head := if keep(rows[0]) then [RowToDict(rows[0], first)] else [];
      var rest := Scan(rows[1..], first + 1, keep);
      forall i | 0 <= i < |rest| ensures rows[1..][rest[i].rowNum - (first + 1)] == rows[rest[i].rowNum - first] {
      }
      assert Scan(rows, first, keep) == head + rest;
    }
  }

  /** A record is in the scan exactly when it is the record of a kept row under that row's number. */
  lemma {:induction false} ScanMembers(rows: Grid, first: int, keep: seq<string> -> bool, v: Video)
    ensures v in Scan(rows, first, keep) <==> exists k :: 0 <= k < |rows| && keep(rows[k]) && v == RowToDict(rows[k], first + k)
    decreases |rows|
  {
    if |rows| > 0 {
      ScanMembers(rows[1..], first + 1, keep, v);
      if v in Scan(rows[1..], first + 1, keep) {
        var k :| 0 <= k < |rows[1..]| && keep(rows[1..][k]) && v == RowToDict(rows[1..][k], first + 1 + k);
        assert rows[k + 1] == rows[1..][k];
      }
      if k :| 0 <= k < |rows| && keep(rows[k]) && v == RowToDict(rows[k], first + k) {
        if k > 0 {
          assert rows[1..][k - 1] == rows[k];
        }
      }
    }
  }

  /** The scan keeps sheet order: row numbers strictly increase and stay within the scanned rows. */
  lemma {:induction false} ScanOrdered(rows: Grid, first: int, keep: seq<string> -> bool)
    ensures forall i :: 0 <= i < |Scan(rows, first, keep)| ==> first <= Scan(rows, first, keep)[i].rowNum < first + |rows|
    ensures forall i, j :: 0 <= i < j < |Scan(rows, first, keep)| ==> Scan(rows, first, keep)[i].rowNum < Scan(rows, first, keep)[j].rowNum
    decreases |rows|
  {
    if |rows| > 0 {
      ScanOrdered(rows[1..], first + 1, keep);
      var head := if keep(rows[0]) then [RowToDict(rows[0], first)] else [];
      var rest := Scan(rows[1..], first + 1, keep);
      var r := head + rest;
      assert Scan(rows, first, keep) == r;
      forall i | 0 <= i < |r| ensures r[i].rowNum == if i < |head| then first else rest[i - |head|].rowNum {
      }
    }
  }

  /** Scanning a grid with one more row scans the old rows, then the new one. */
  lemma {:induction false} ScanAppend(rows: Grid, row: seq<string>, first: int, keep: seq<string> -> bool)
    ensures Scan(rows + [row], first, keep) == Scan(rows, first, keep) + (if keep(row) then [RowToDict(row, first + |rows|)] else [])
    decreases |rows|
  {
    var tail := if keep(row) then [RowToDict(row, first + |rows|)] else [];
    if |rows| == 0 {
      assert (rows + [row])[1..] == [];
      assert (rows + [row])[0] == row;
    } else {
      var all := rows + [row];
      assert all[0] == rows[0];
      assert all[1..] == rows[1..] + [row];
      ScanAppend(rows[1..], row, first + 1, keep);
      var head := if keep(rows[0]) then [RowToDict(rows[0], first)] else [];
      assert Scan(all, first, keep) == head + Scan(rows[1..] + [row], first + 1, keep);
      assert Scan(all, first, keep) == head + (Scan(rows[1..], first + 1, keep) + tail);
    }
  }

  // ---------------------------------------------------------------------
  // get_pending_videos and get_scheduled_videos

  /** A row that reaches the status column and is Idle or Scheduled. */
  predicate PendingRow(row: seq<string>) {
    |row| > ColStatus && row[ColStatus] in [StatusIdle, StatusScheduled]
  }

  /** `get_pending_videos()`: no worksheet gives none. */
  function PendingVideos(ws: Option<Grid>): (r: seq<Video>)
    ensures forall i :: 0 <= i < |r| ==> r[i].status in [StatusIdle, StatusScheduled]
  {
    match ws
    case None => []
    case Some(g) =>
      ScanSources(Body(g), 2, PendingRow);
      Scan(Body(g), 2, PendingRow)
  }

  /** A pending record is the record of a pending data row, numbered as the sheet numbers it, and back. */
  lemma PendingMembers(g: Grid, v: Video)
    ensures v in PendingVideos(Some(g)) <==>
              exists k :: 1 <= k < |g| && PendingRow(g[k]) && v == RowToDict(g[k], k + 1)
  {
    var rows := Body(g);
    ScanMembers(rows, 2, PendingRow, v);
    if exists k :: 1 <= k < |g| && PendingRow(g[k]) && v == RowToDict(g[k], k + 1) {
      var k :| 1 <= k < |g| && PendingRow(g[k]) && v == RowToDict(g[k], k + 1);
      assert rows[k - 1] == g[k];
    }
  }

  /** A time to the minute, compared as `datetime` compares: date, then hour, then minute. */
  predicate NotAfter(a: Stamp, b: Stamp) {
    Before(a.date, b.date)
    || (a.date == b.date && (a.hour < b.hour || (a.hour == b.hour && a.minute <= b.minute)))
  }

  /** A row that reaches the time column, is Scheduled, and whose time reads as '%Y-%m-%d %H:%M' and has come. */
  predicate DueRow(row: seq<string>, now: Stamp) {
    |row| > ColScheduledTime && row[ColStatus] == StatusScheduled && row[ColScheduledTime] != ""
    && match Strptime(SheetTime, row[ColScheduledTime])
       case None => false
       case Some(t) => NotAfter(t, now)
  }

  /**
   * `get_scheduled_videos(now)`: an unreadable time skips its row. The
   * method does not check for a worksheet, so without one it raises.
   */
  function ScheduledVideos(ws: Option<Grid>, now: Stamp): (r: Outcome<seq<Video>>)
    ensures r.Raised? <==> ws.None?
    ensures r.Done? ==> forall i :: 0 <= i < |r.value| ==> r.value[i].status == StatusScheduled
  {
    match ws
    case None => Raised("'NoneType' object has no attribute 'get_all_values'")
    case Some(g) =>
      ScanSources(Body(g), 2, row => DueRow(row, now));
      Done(Scan(Body(g), 2, row => DueRow(row, now)))
  }

  /** Every due video is also pending, and its time has come. */
  lemma ScheduledArePending(g: Grid, now: Stamp, v: Video)
    requires v in ScheduledVideos(Some(g), now).value
    ensures v in PendingVideos(Some(g))
    ensures Strptime(SheetTime, v.scheduledTime).Some? && NotAfter(Strptime(SheetTime, v.scheduledTime).value, now)
  {
    var rows := Body(g);
    var due := row => DueRow(row, now);
    ScanMembers(rows, 2, due, v);
    var k :| 0 <= k < |rows| && due(rows[k]) && v == RowToDict(rows[k], 2 + k);
    assert PendingRow(rows[k]);
    ScanMembers(rows, 2, PendingRow, v);
  }

  // ---------------------------------------------------------------------
  // update_status

  /** `worksheet.update_cell(row, col, value)`, with the sheet's 1-based numbering. */
  datatype CellWrite = CellWrite(row: int, col: int, value: string)

  predicate Truthy(o: Option<string>) {
    o.Some? && |o.value| > 0
  }

  /** The write of column `col` (0-based) when the value is truthy. */
  function WriteIf(rowNum: int, col: int, value: Option<string>): seq<CellWrite> {
    if Truthy(value) then [CellWrite(rowNum, col + 1, value.value)] else []
  }

  /** `update_status(row_num, status, youtube_url, facebook_url, notes)`: no worksheet writes nothing. */
  function UpdateStatus(ws: Option<Grid>, rowNum: int, status: string, youtube: Option<string>,
                        facebook: Option<string>, notes: Option<string>): (w: seq<CellWrite>)
    ensures ws.None? <==> w == []
    ensures ws.Some? ==> w[0] == CellWrite(rowNum, ColStatus + 1, status)
    ensures forall k :: 0 <= k < |w| ==> w[k].row == rowNum
  {
    if ws.None? then []
    else [CellWrite(rowNum, ColStatus + 1, status)]
         + WriteIf(rowNum, ColYoutubeUrl, youtube) + WriteIf(rowNum, ColFacebookUrl, facebook)
         + WriteIf(rowNum, ColNotes, notes)
  }

  /** A row after the writes aimed at it, the cells it already has. */
  function Apply(row: seq<string>, rowNum: int, writes: seq<CellWrite>): (r: seq<string>)
    ensures |r| == |row|
    decreases |writes|
  {
    if |writes| == 0 then row
    else
      var w := writes[0];
      var next := if w.row == rowNum && 1 <= w.col <= |row| then row[w.col - 1 := w.value] else row;
      Apply(next, rowNum, writes[1..])
  }

  lemma {:induction false} ApplyAppend(row: seq<string>, rowNum: int, a: seq<CellWrite>, b: seq<CellWrite>)
    ensures Apply(row, rowNum, a + b) == Apply(Apply(row, rowNum, a), rowNum, b)
    decreases |a|
  {
    if |a| > 0 {
      assert (a + b)[0] == a[0];
      assert (a + b)[1..] == a[1..] + b;
      var w := a[0];
      var next := if w.row == rowNum && 1 <= w.col <= |row| then row[w.col - 1 := w.value] else row;
      ApplyAppend(next, rowNum, a[1..], b);
    } else {
      assert a + b == b;
    }
  }

  /**
   * Reading a full row back after `update_status`: the status is the new
   * one, a URL or note is the new value when one was given and the old
   * cell otherwise, and every other field is unchanged.
   */
  lemma UpdateThenRead(g: Grid, row: seq<string>, rowNum: int, status: string,
                       youtube: Option<string>, facebook: Option<string>, notes: Option<string>)
    requires |row| >= Width
    ensures var v := RowToDict(Apply(row, rowNum, UpdateStatus(Some(g), rowNum, status, youtube, facebook, notes)), rowNum);
            && v.status == status
            && v.youtubeUrl == (if Truthy(youtube) then youtube.value else row[ColYoutubeUrl])
            && v.facebookUrl == (if Truthy(facebook) then facebook.value else row[ColFacebookUrl])
            && v.notes == (if Truthy(notes) then notes.value else row[ColNotes])
            && forall col :: 0 <= col < Width && col !in {ColStatus, ColYoutubeUrl, ColFacebookUrl, ColNotes} ==> Field(v, col) == row[col]
  {
    var s := [CellWrite(rowNum, ColStatus + 1, status)];
    var y := WriteIf(rowNum, ColYoutubeUrl, youtube);
    var f := WriteIf(rowNum, ColFacebookUrl, facebook);
    var n := WriteIf(rowNum, ColNotes, notes);
    assert UpdateStatus(Some(g), rowNum, status, youtube, facebook, notes) == ((s + y) + f) + n;
    ApplyAppend(row, rowNum, (s + y) + f, n);
    ApplyAppend(row, rowNum, s + y, f);
    ApplyAppend(row, rowNum, s, y);
    var r1 := Apply(row, rowNum, s);
    assert r1 == row[ColStatus := status];
    var r2 := Apply(r1, rowNum, y);
    assert r2 == if Truthy(youtube) then r1[ColYoutubeUrl := youtube.value] else r1;
    var r3 := Apply(r2, rowNum, f);
    assert r3 == if Truthy(facebook) then r2[ColFacebookUrl := facebook.value] else r2;
    var r4 := Apply(r3, rowNum, n);
    assert r4 == if Truthy(notes) then r3[ColNotes := notes.value] else r3;
  }

  // ---------------------------------------------------------------------
  // add_video

  /** The keys of the dictionary `add_video` reads; None is an absent key. */
  datatype NewVideo = NewVideo(
    videoName: Option<string>,
    driveLink: Option<string>,
    title: Option<string>,
    description: Option<string>,
    tags: Option<string>,
    platforms: Option<string>,
    status: Option<string>,
    scheduledTime: Option<string>,
    monetized: Option<string>)

  /** The 13 cells of a new row; the id is written as a number and reads back as its decimal text. */
  function NewRow(nextId: nat, info: NewVideo): (row: seq<string>)
    ensures |row| == Width
  {
    [NatToString(nextId), info.videoName.GetOr(""), info.driveLink.GetOr(""), info.title.GetOr(""),
     info.description.GetOr(""), info.tags.GetOr(""), info.platforms.GetOr("YouTube"),
     info.status.GetOr(StatusIdle), info.scheduledTime.GetOr(""), "", "", info.monetized.GetOr("Yes"), ""]
  }

  /** What `add_video` did: the row number it reports, and the row it appended, if any. */
  datatype Added = Added(reported: int, row: Option<seq<string>>)

  /** `add_video(video_info)`: the id is the number of data rows plus one; no worksheet gives 0. */
  function AddVideo(ws: Option<Grid>, info: NewVideo): (a: Added)
    ensures ws.None? <==> a == Added(0, None)
    ensures ws.Some? ==> a.reported == |Body(ws.value)| + 2
  {
    match ws
    case None => Added(0, None)
    case Some(g) =>
      var nextId := |Body(g)| + 1;
      Added(nextId + 1, Some(NewRow(nextId, info)))
  }

  /**
   * The appended row reads back as the video given, with the documented
   * defaults (platforms "YouTube", status Idle, monetized "Yes") and empty
   * URL and note columns; on a sheet with its header it sits at the row
   * number reported, and it is pending exactly when its status is Idle or
   * Scheduled.
   */
  lemma AddThenRead(g: Grid, info: NewVideo)
    requires |g| >= 1
    ensures var a := AddVideo(Some(g), info);
            var v := RowToDict(a.row.value, a.reported);
            && a.reported == |g + [a.row.value]|
            && v.id == NatToString(|g|)
            && v.videoName == info.videoName.GetOr("") && v.driveLink == info.driveLink.GetOr("")
            && v.title == info.title.GetOr("") && v.description == info.description.GetOr("")
            && v.tags == info.tags.GetOr("") && v.platforms == info.platforms.GetOr("YouTube")
            && v.status == info.status.GetOr(StatusIdle) && v.scheduledTime == info.scheduledTime.GetOr("")
            && v.youtubeUrl == "" && v.facebookUrl == "" && v.monetized == info.monetized.GetOr("Yes") && v.notes == ""
    ensures var a := AddVideo(Some(g), info);
            PendingVideos(Some(g + [a.row.value]))
              == PendingVideos(Some(g)) + (if PendingRow(a.row.value) then [RowToDict(a.row.value, a.reported)] else [])
  {
    var a := AddVideo(Some(g), info);
    assert Body(g + [a.row.value]) == Body(g) + [a.row.value];
    ScanAppend(Body(g), a.row.value, 2, PendingRow);
    var v := RowToDict(a.row.value, a.reported);
    assert Field(v, ColId) == NatToString(|g|);
  }

  /** On a sheet without even a header row, the reported number is 2 while the row lands at row 1. */
  lemma AddToBlankSheet(info: NewVideo)
    ensures AddVideo(Some([]), info).reported == 2
    ensures |[] + [AddVideo(Some([]), info).row.value]| == 1
  {
  }
}

=== FILE: simple_downloader.dfy ===
/**
 * simple_downloader.py: `SimplifiedDownloader.download(url, max_downloads)`.
 * A pre-check asks yt-dlp for the video's metadata and stops early when the
 * history or Drive already holds the video; otherwise the video is fetched
 * into a fresh temporary directory, the first MP4 found there is uploaded to
 * the Drive folder of its platform and channel, and the directory is
 * removed. yt-dlp, the history store, Drive and the file system are oracles
 * gathered in `Env`; what the call reports back is a `Report`.
 */
module SimpleDownloader {
  import opened Wrappers
  import opened Text
  import SimpleDrive

  /** The Drive folder every platform folder lives under. */
  const BaseFolder := "1DQDRFQtl7fkgyXoP-sqRENau2WCLJH18"

  // ---------------------------------------------------------------------
  // The info dictionary

  /** The keys of a yt-dlp info dictionary the downloader reads; each may be absent, null or set. */
  datatype Info = Info(
    id: Field<string>,
    title: Field<string>,
    uploader: Field<string>,
    channel: Field<string>,
    channelId: Field<string>,
    uploaderId: Field<string>,
    channelUrl: Field<string>)

  predicate Truthy(o: Option<string>) {
    o.Some? && |o.value| > 0
  }

  /** Python's `a or b` over two looked-up values. */
  function Or(a: Option<string>, b: Option<string>): (r: Option<string>)
    ensures Truthy(r) <==> Truthy(a) || Truthy(b)
    ensures Truthy(a) ==> r == a
    ensures !Truthy(a) ==> r == b
  {
    if Truthy(a) then a else b
  }

  /** `info.get('title', 'Unknown')` as formatted text: a null title prints as "None". */
  function Title(info: Info): (r: string)
    ensures info.title.Val? ==> r == info.title.v
    ensures info.title.Absent? ==> r == "Unknown"
    ensures info.title.Null? ==> r == "None"
  {
    match info.title
    case Absent => "Unknown"
    case Null => "None"
    case Val(t) => t
  }

  /** '@' plus the text after the last "/@" of a channel address, up to the next '/'. */
  function HandleFromUrl(url: string): (r: string)
    ensures |r| > 0 && r[0] == '@'
  {
    "@" + SplitHead(LastPiece(url, "/@"), "/")
  }

  /**
   * The channel handle as the download step finds it, reading each key only
   * when it is truthy: an uploader id starting with '@' is the handle;
   * otherwise a channel address holding "/@" gives one; otherwise there is none.
   */
  function Handle(info: Info): (r: Option<string>)
    ensures r.Some? ==> |r.value| > 0 && r.value[0] == '@'
    ensures Truthy(info.uploaderId.Get()) && info.uploaderId.v[0] == '@' ==> r == info.uploaderId.Get()
    ensures r.None? <==> !(Truthy(info.uploaderId.Get()) && info.uploaderId.v[0] == '@')
                         && !(Truthy(info.channelUrl.Get()) && Contains(info.channelUrl.v, "/@"))
  {
    if Truthy(info.uploaderId.Get()) && info.uploaderId.v[0] == '@' then info.uploaderId.Get()
    else if Truthy(info.channelUrl.Get()) && Contains(info.channelUrl.v, "/@") then Some(HandleFromUrl(info.channelUrl.v))
    else None
  }

  /**
   * The channel handle as the pre-check finds it: `info.get('uploader_id', '')`
   * and `info.get('channel_url', '')` are used without a truthiness test, so
   * a null uploader id raises, and so does a null channel address once the
   * uploader id is no handle.
   */
  function PrecheckHandle(info: Info): (r: Outcome<Option<string>>)
    ensures r.Raised? <==> info.uploaderId.Null? || (!StartsWith(info.uploaderId.GetOr(""), "@") && info.channelUrl.Null?)
    ensures r.Done? ==> r.value == Handle(info)
  {
    match info.uploaderId
    case Null => Raised("'NoneType' object has no attribute 'startswith'")
    case _ =>
      StartsWithChar(info.uploaderId.GetOr(""), '@');
      if StartsWith(info.uploaderId.GetOr(""), "@") then Done(info.uploaderId.Get())
      else match info.channelUrl
        case Null => Raised("argument of type 'NoneType' is not iterable")
        case _ =>
          if Contains(info.channelUrl.GetOr(""), "/@") then Done(Some(HandleFromUrl(info.channelUrl.GetOr("")))) else Done(None)
  }

  /** An uploader id in handle form wins over any channel address. */
  lemma HandlePrefersUploaderId(info: Info)
    requires info.uploaderId.Val? && StartsWith(info.uploaderId.v, "@")
    ensures Handle(info) == Some(info.uploaderId.v)
    ensures PrecheckHandle(info) == Done(Handle(info))
    ensures forall u :: Handle(info.(channelUrl := u)) == Handle(info)
  {
    assert info.uploaderId.v[0] == '@';
  }

  /**
   * A channel page address `<prefix>/@<name>` or `<prefix>/@<name>/<more>`
   * gives the handle '@' + name when the uploader id is not a handle.
   */
  lemma HandleFromChannelPage(info: Info, prefix: string, name: string, tail: string)
    requires !(info.uploaderId.Val? && StartsWith(info.uploaderId.v, "@"))
    requires info.channelUrl == Val(prefix + "/@" + name + tail)
    requires '/' !in name && (tail == "" || tail[0] == '/') && !Contains(name + tail, "/@")
    ensures Handle(info) == Some("@" + name)
  {
    ChannelPageName(prefix, name, tail);
    if Truthy(info.uploaderId.Get()) {
      StartsWithChar(info.uploaderId.v, '@');
    }
    assert Truthy(info.channelUrl.Get());
  }

  /** The text after the last "/@" of a channel page address, up to the next '/', is the channel's name. */
  lemma ChannelPageName(prefix: string, name: string, tail: string)
    requires '/' !in name && (tail == "" || tail[0] == '/') && !Contains(name + tail, "/@")
    ensures Contains(prefix + "/@" + name + tail, "/@")
    ensures SplitHead(LastPiece(prefix + "/@" + name + tail, "/@"), "/") == name
  {
    var url := prefix + "/@" + name + tail;
    assert url == prefix + ("/@" + (name + tail));
    assert url[|prefix|..|prefix| + 2] == "/@";
    assert OccursAt(url, "/@", |prefix|);
    assert url[|prefix|..] == ['/', '@'] + (name + tail);
    assert EndsWith(url, ['/', '@'] + (name + tail));
    LastPieceAfterPair(url, '/', '@', name + tail);
    SplitHeadBefore(name, tail, '/');
  }

  /** The channel record handed to Drive: the handle, the uploader or channel name, the channel or uploader id. */
  function ChannelWith(info: Info, handle: Option<string>): (c: SimpleDrive.ChannelInfo)
    ensures c.handle == handle
    ensures Truthy(c.name) <==> Truthy(info.uploader.Get()) || Truthy(info.channel.Get())
    ensures Truthy(c.id) <==> Truthy(info.channelId.Get()) || Truthy(info.uploaderId.Get())
  {
    SimpleDrive.ChannelInfo(handle, Or(info.uploader.Get(), info.channel.Get()), Or(info.channelId.Get(), info.uploaderId.Get()))
  }

  /** The channel record of the download step. */
  function Channel(info: Info): (c: SimpleDrive.ChannelInfo)
    ensures c == ChannelWith(info, Handle(info))
  {
    ChannelWith(info, Handle(info))
  }

  /** A video with a known uploader always has a channel folder name to go to. */
  lemma UploaderGivesFolderName(info: Info)
    requires Truthy(info.uploader.Get()) || Truthy(info.channel.Get()) || Truthy(info.uploaderId.Get())
    ensures |SimpleDrive.PotentialNames(Channel(info))| > 0
  {
    var c := Channel(info);
    if Truthy(info.uploader.Get()) || Truthy(info.channel.Get()) {
      assert SimpleDrive.Kept(c.name) != [];
    } else {
      assert SimpleDrive.Kept(c.id) != [];
    }
  }

  // ---------------------------------------------------------------------
  // Output template, platform and options

  /** The three file-name templates. */
  datatype Template = DescriptionCut | TitleCut | TitleFull

  function TemplateFor(url: string): Template {
    if Contains(url, "x.com") || Contains(url, "twitter.com") then DescriptionCut
    else if Contains(url, "instagram.com") then TitleCut
    else TitleFull
  }

  /** The yt-dlp spelling of each template. */
  function TemplateText(t: Template): string {
    match t
    case DescriptionCut => "%(description).100s_%(id)s.%(ext)s"
    case TitleCut => "%(title).100s_%(id)s.%(ext)s"
    case TitleFull => "%(title)s_%(id)s.%(ext)s"
  }

  /** The platform folder an upload goes to: Instagram, then TikTok, then Twitter, else YouTube. */
  function Platform(url: string): string {
    if Contains(url, "instagram.com") then "Instagram"
    else if Contains(url, "tiktok.com") then "TikTok"
    else if Contains(url, "x.com") || Contains(url, "twitter.com") then "Twitter"
    else "YouTube"
  }

  /**
   * The template and the platform folder test the address in different
   * orders, yet they agree: a Twitter upload was named from its description,
   * an Instagram-style name lands in the Instagram folder, and a YouTube
   * upload carries the full title.
   */
  lemma TemplateAgreesWithPlatform(url: string)
    ensures Platform(url) == "Twitter" ==> TemplateFor(url) == DescriptionCut
    ensures TemplateFor(url) == TitleCut ==> Platform(url) == "Instagram"
    ensures Platform(url) == "YouTube" ==> TemplateFor(url) == TitleFull
    ensures TemplateFor(url) == TitleFull ==> Platform(url) in {"TikTok", "YouTube"}
  {
  }

  /** The options of the main yt-dlp call. */
  datatype Options = Options(
    format: string,
    mergeFormat: string,
    outTemplate: string,
    playlistEnd: Option<int>,
    cookieFile: Option<string>)

  /** The options for `url` with the temporary directory, the limit, and whether cookies.txt exists. */
  function YdlOptions(tempDir: string, url: string, maxDownloads: Option<int>, cookies: bool): (o: Options)
    ensures o.playlistEnd.Some? <==> maxDownloads.Some? && maxDownloads.value > 0
    ensures o.playlistEnd.Some? ==> o.playlistEnd == maxDownloads
    ensures o.cookieFile.Some? <==> cookies
    ensures o.outTemplate == tempDir + "/" + TemplateText(TemplateFor(url))
  {
    var end := if maxDownloads.Some? && maxDownloads.value > 0 then maxDownloads else None;
    var t := TemplateText(TemplateFor(url));
    Options("bestvideo+bestaudio/best", "mp4", tempDir + "/" + t, end,
            if cookies then Some("cookies.txt") else None)
  }

  /** The name of the first directory entry ending in ".mp4", in listing order. */
  function FirstMp4(listing: seq<string>): (r: Option<string>)
    ensures r.None? <==> forall k :: 0 <= k < |listing| ==> !EndsWith(listing[k], ".mp4")
    ensures r.Some? ==> exists k :: 0 <= k < |listing| && listing[k] == r.value
                                    && EndsWith(r.value, ".mp4")
                                    && forall j :: 0 <= j < k ==> !EndsWith(listing[j], ".mp4")
  {
    if |listing| == 0 then None
    else if EndsWith(listing[0], ".mp4") then Some(listing[0])
    else
      var rest := FirstMp4(listing[1..]);
      if rest.Some? then
        ghost var k :| 0 <= k < |listing[1..]| && listing[1..][k] == rest.value
                      && EndsWith(rest.value, ".mp4")
                      && forall j :: 0 <= j < k ==> !EndsWith(listing[1..][j], ".mp4");
        assert listing[k + 1] == rest.value;
        rest
      else rest
  }

  // ---------------------------------------------------------------------
  // download

  /** Drive as the downloader reaches it: the folder operations and the file search by video id. */
  datatype Remote = Remote(api: SimpleDrive.Drive, lookup: (string, string) -> Outcome<seq<string>>)

  /**
   * What one call meets: the metadata-only extraction, the history, Drive
   * (None when no client was given), the temporary directory's path, the
   * main extraction for given options (an exception, a falsy result or the
   * info), whether cookies.txt exists, and the directory listing after it.
   */
  datatype Env = Env(
    probe: Outcome<Info>,
    inHistory: string -> bool,
    drive: Option<Remote>,
    tempDir: string,
    cookies: bool,
    fetch: Options -> Outcome<Option<Info>>,
    listing: seq<string>)

  /** What `download` returns, and what it did to the temporary directory and the history. */
  datatype Report = Report(ok: bool, message: string, tempCreated: bool, tempRemoved: bool, recorded: bool)

  /** The outcome of the pre-check: stop with a message, or go on to the download. */
  datatype Precheck = Proceed | Skip(message: string, recorded: bool)

  /**
   * The pre-check: a history hit stops; with Drive, the YouTube folder and
   * the channel folder are resolved and a file whose name holds the video id
   * stops too, after the video is written into the history. Any exception
   * on the way, or a folder that cannot be resolved, lets the download go on.
   */
  function PrecheckOf(env: Env): (p: Precheck)
    ensures p.Skip? ==> env.probe.Done?
    ensures p.Skip? && !p.recorded ==> p.message == "Already in history: " + Title(env.probe.value)
    ensures p.Skip? && p.recorded ==> env.drive.Some?
  {
    match env.probe
    case Raised(_) => Proceed
    case Done(info) =>
      if Truthy(info.id.Get()) && env.inHistory(info.id.v) then Skip("Already in history: " + Title(info), false)
      else if env.drive.None? then Proceed
      else DriveCheck(info, env.drive.value)
  }

  /** The Drive half of the pre-check. */
  function DriveCheck(info: Info, remote: Remote): (p: Precheck)
    ensures p.Skip? ==> p.recorded && StartsWith(p.message, "Already in Drive: ")
    ensures PrecheckHandle(info).Raised? ==> p == Proceed
    ensures info.uploaderId.Null? ==> p == Proceed
    ensures var y := SimpleDrive.FindOrCreateFolder(SimpleDrive.Many(["YouTube"]), BaseFolder, remote.api);
            !y.Unresolved? && y.id == "" ==> p == Proceed
    ensures PrecheckHandle(info).Done? ==>
              var y := SimpleDrive.FindOrCreateFolder(SimpleDrive.Many(["YouTube"]), BaseFolder, remote.api).Id();
              var names := SimpleDrive.PotentialNames(ChannelWith(info, PrecheckHandle(info).value));
              y.Some? && SimpleDrive.FindOrCreateFolder(SimpleDrive.Many(names), y.value, remote.api).Id().Some? ==>
              var f := SimpleDrive.FindOrCreateFolder(SimpleDrive.Many(names), y.value, remote.api).Id().value;
              var found := remote.lookup(info.id.Get().GetOr("None"), f);
              found.Done? && |found.value| > 0 ==> p == Skip("Already in Drive: " + found.value[0], true)
  {
    match PrecheckHandle(info)
    case Raised(_) => Proceed
    case Done(handle) =>
    match SimpleDrive.FindOrCreateFolder(SimpleDrive.Many(["YouTube"]), BaseFolder, remote.api).Id()
    case None => Proceed
    case Some(youtube) =>
      match SimpleDrive.FindOrCreateFolder(SimpleDrive.Many(SimpleDrive.PotentialNames(ChannelWith(info, handle))), youtube, remote.api).Id()
      case None => Proceed
      case Some(folder) =>
        match remote.lookup(info.id.Get().GetOr("None"), folder)
        case Raised(_) => Proceed
        case Done(names) =>
          if |names| > 0 then
            StartsWithAppend("Already in Drive: ", names[0]);
            Skip("Already in Drive: " + names[0], true)
          else Proceed
  }

  /** Everything after the pre-check: the temporary directory exists from here on. */
  function Fetch(url: string, maxDownloads: Option<int>, env: Env): (r: Report)
    ensures r.tempCreated
  {
    match env.fetch(YdlOptions(env.tempDir, url, maxDownloads, env.cookies))
    case Raised(e) => Report(false, "Download failed: " + e, true, true, false)
    case Done(None) => Report(false, "Failed to extract video information", true, false, false)
    case Done(Some(info)) =>
      match env.drive
      case None => Report(true, "Downloaded: " + Title(info), true, true, false)
      case Some(remote) =>
        match FirstMp4(env.listing)
        case None => Report(false, "No MP4 file found", true, true, false)
        case Some(file) =>
          match SimpleDrive.UploadFile(env.tempDir + "/" + file, Channel(info), BaseFolder, Platform(url), remote.api)
          case Some(_) => Report(true, "Uploaded to Drive: " + Title(info), true, true, true)
          case None => Report(false, "Upload to Drive failed", true, true, false)
  }

  /** `download(url, max_downloads)`. */
  function Download(url: string, maxDownloads: Option<int>, env: Env): (r: Report)
    ensures r.tempCreated <==> PrecheckOf(env).Proceed?
  {
    match PrecheckOf(env)
    case Skip(message, recorded) => Report(true, message, false, false, recorded)
    case Proceed => Fetch(url, maxDownloads, env)
  }

  /** A video the history knows is reported as done at once, and nothing is fetched. */
  lemma HistoryHitShortCircuits(url: string, maxDownloads: Option<int>, env: Env, fetch: Options -> Outcome<Option<Info>>)
    requires env.probe.Done? && Truthy(env.probe.value.id.Get()) && env.inHistory(env.probe.value.id.v)
    ensures var r := Download(url, maxDownloads, env);
            r.ok && r.message == "Already in history: " + Title(env.probe.value) && !r.tempCreated && !r.recorded
    ensures Download(url, maxDownloads, env.(fetch := fetch)) == Download(url, maxDownloads, env)
  {
  }

  /** A pre-check that raises changes nothing: the download goes on as if there were none. */
  lemma PrecheckFailureProceeds(url: string, maxDownloads: Option<int>, env: Env)
    requires env.probe.Raised?
    ensures Download(url, maxDownloads, env) == Fetch(url, maxDownloads, env)
  {
  }

  /**
   * The temporary directory, once created, is removed on every return but
   * one: the main extraction returning no information.
   */
  lemma TempDirLeftOnlyWithoutInfo(url: string, maxDownloads: Option<int>, env: Env)
    ensures var r := Download(url, maxDownloads, env);
            r.tempCreated && !r.tempRemoved
            <==> PrecheckOf(env).Proceed? && env.fetch(YdlOptions(env.tempDir, url, maxDownloads, env.cookies)) == Done(None)
    ensures var r := Download(url, maxDownloads, env);
            r.tempRemoved ==> r.tempCreated
  {
  }

  /**
   * The call succeeds exactly when the pre-check stops it, or the fetch
   * returns information and either no Drive was given or an MP4 was found
   * and uploaded. A history record is written only on a success.
   */
  lemma SuccessMeaning(url: string, maxDownloads: Option<int>, env: Env)
    ensures var r := Download(url, maxDownloads, env);
            var f := env.fetch(YdlOptions(env.tempDir, url, maxDownloads, env.cookies));
            r.ok <==> PrecheckOf(env).Skip?
                      || (f.Done? && f.value.Some?
                          && (env.drive.None?
                              || (FirstMp4(env.listing).Some?
                                  && SimpleDrive.UploadFile(env.tempDir + "/" + FirstMp4(env.listing).value, Channel(f.value.value),
                                                            BaseFolder, Platform(url), env.drive.value.api).Some?)))
    ensures Download(url, maxDownloads, env).recorded ==> Download(url, maxDownloads, env).ok
  {
  }

  /** With Drive, a failed upload is a failure, and the download is removed with the directory. */
  lemma UploadFailureFails(url: string, maxDownloads: Option<int>, env: Env, info: Info, file: string)
    requires PrecheckOf(env).Proceed? && env.drive.Some?
    requires env.fetch(YdlOptions(env.tempDir, url, maxDownloads, env.cookies)) == Done(Some(info))
    requires FirstMp4(env.listing) == Some(file)
    requires SimpleDrive.UploadFile(env.tempDir + "/" + file, Channel(info), BaseFolder, Platform(url), env.drive.value.api).None?
    ensures Download(url, maxDownloads, env) == Report(false, "Upload to Drive failed", true, true, false)
  {
  }

  /** Without Drive, a fetched video is a success and its directory is removed. */
  lemma NoDriveIsSuccess(url: string, maxDownloads: Option<int>, env: Env, info: Info)
    requires PrecheckOf(env).Proceed? && env.drive.None?
    requires env.fetch(YdlOptions(env.tempDir, url, maxDownloads, env.cookies)) == Done(Some(info))
    ensures Download(url, maxDownloads, env) == Report(true, "Downloaded: " + Title(info), true, true, false)
  {
  }
}

=== FILE: simple_drive.dfy ===
/**
 * The folder logic of simple_drive.py: `find_or_create_folder` builds one
 * Drive search over a list of candidate names and either returns the first
 * folder found or creates one under the first name; `upload_file` resolves
 * the platform folder, then the channel folder under the handle, the display
 * name and the channel id, in that order, and uploads there. Drive itself is
 * an oracle: a search answers a query string, a creation answers a name and
 * a parent.
 */
module SimpleDrive {
  import opened Wrappers
  import opened Text

  // ---------------------------------------------------------------------
  // Query strings

  /**
   * How the Drive query language reads a quoted string: from just after the
   * opening quote up to the closing one, where a backslash takes the next
   * character literally. The result is the value and the text after the
   * closing quote; None when the quote is never closed.
   */
  function ReadQuoted(s: string): (r: Option<(string, string)>)
    ensures r.Some? ==> |r.value.1| < |s|
    decreases |s|
  {
    if |s| == 0 then None
    else if s[0] == '\'' then Some(("", s[1..]))
    else if s[0] == '\\' then
      if |s| < 2 then None
      else match ReadQuoted(s[2..])
        case None => None
        case Some((v, rest)) => Some(([s[1]] + v, rest))
    else
      match ReadQuoted(s[1..])
      case None => None
      case Some((v, rest)) => Some(([s[0]] + v, rest))
  }

  /** `name.replace("'", "\\'")`, the escaping written in `find_or_create_folder`. */
  function EscapeQuotes(name: string): (r: string)
    ensures |r| >= |name|
  {
    if |name| == 0 then ""
    else (if name[0] == '\'' then "\\'" else [name[0]]) + EscapeQuotes(name[1..])
  }

  /**
   * A folder name ending in a backslash: escaping only quotes leaves the
   * closing quote escaped, so Drive never reads the name back, whatever
   * follows in the query.
   */
  lemma TrailingBackslashMisread(rest: string)
    ensures EscapeQuotes("a\\") == "a\\"
    ensures ReadQuoted(EscapeQuotes("a\\") + "'" + rest) != Some(("a\\", rest))
  {
    assert EscapeQuotes("\\") == "\\";
    var s := "a\\'" + rest;
    assert EscapeQuotes("a\\") + "'" + rest == s;
    assert s[1..] == "\\'" + rest;
    assert s[1..][2..] == rest;
    var r := ReadQuoted(s);
    ReadPlain('a', s[1..]);
    ReadEscaped('\'', rest);
    assert s == ['a'] + s[1..];
    assert s[1..] == ['\\', '\''] + rest;
    if r.Some? {
      assert r.value.0[1] == '\'';
    }
  }

  /** The escaping the query needs: a backslash before every quote and every backslash. */
  function Escape(name: string): (r: string)
    ensures |r| >= |name|
  {
    if |name| == 0 then ""
    else (if name[0] == '\'' || name[0] == '\\' then ['\\', name[0]] else [name[0]]) + Escape(name[1..])
  }

  /** Prefixing the read value with `c`, keeping what follows the closing quote. */
  function Cons(c: char, r: Option<(string, string)>): Option<(string, string)> {
    match r
    case None => None
    case Some((v, rest)) => Some(([c] + v, rest))
  }

  /** A plain character is read as itself. */
  lemma ReadPlain(c: char, tail: string)
    requires c != '\'' && c != '\\'
    ensures ReadQuoted([c] + tail) == Cons(c, ReadQuoted(tail))
  {
    assert ([c] + tail)[1..] == tail;
  }

  /** A backslash and the character after it are read as that character. */
  lemma ReadEscaped(c: char, tail: string)
    ensures ReadQuoted(['\\', c] + tail) == Cons(c, ReadQuoted(tail))
  {
    assert (['\\', c] + tail)[2..] == tail;
  }

  /** Drive reads back exactly the escaped name, and the query goes on after its closing quote. */
  lemma {:induction false} EscapeRoundTrip(name: string, rest: string)
    ensures ReadQuoted(Escape(name) + "'" + rest) == Some((name, rest))
    decreases |name|
  {
    if |name| == 0 {
      assert Escape(name) + "'" + rest == "'" + rest;
    } else {
      var c, t := name[0], name[1..];
      var e: string := if c == '\'' || c == '\\' then ['\\', c] else [c];
      assert Escape(name) == e + Escape(t);
      var tail := Escape(t) + "'" + rest;
      EscapeRoundTrip(t, rest);
      assert Escape(name) + "'" + rest == e + tail by {
        AppendAssoc3(e, Escape(t), "'", rest);
      }
      if c == '\'' || c == '\\' {
        ReadEscaped(c, tail);
      } else {
        ReadPlain(c, tail);
      }
      assert [c] + t == name;
    }
  }

  lemma AppendAssoc3(a: string, b: string, c: string, d: string)
    ensures (a + b) + c + d == a + ((b + c) + d)
  {
  }

  /** Without backslashes in the name, the written escaping is the needed one. */
  lemma {:induction false} EscapeQuotesAgree(name: string)
    requires '\\' !in name
    ensures EscapeQuotes(name) == Escape(name)
    decreases |name|
  {
    if |name| > 0 {
      assert name[0] != '\\';
      assert forall k :: 0 <= k < |name[1..]| ==> name[1..][k] == name[k + 1];
      EscapeQuotesAgree(name[1..]);
    }
  }

  /** A name without backslashes survives the written escaping: Drive reads it back exactly. */
  lemma QuotedNameReadBack(name: string, rest: string)
    requires '\\' !in name
    ensures ReadQuoted(EscapeQuotes(name) + "'" + rest) == Some((name, rest))
  {
    EscapeQuotesAgree(name);
    EscapeRoundTrip(name, rest);
  }

  const ClauseHead := "name = '"

  /**
   * One clause of the search as written: `name = '<name with quotes escaped>'`.
   * Drive reads a name without backslashes back exactly.
   */
  function Clause(name: string): (r: string)
    ensures |r| > |ClauseHead| && r[..|ClauseHead|] == ClauseHead
    ensures '\\' !in name ==> ReadQuoted(r[|ClauseHead|..]) == Some((name, ""))
  {
    var r := ClauseHead + EscapeQuotes(name) + "'";
    assert r[|ClauseHead|..] == EscapeQuotes(name) + "'" + "";
    if '\\' in name then r else QuotedNameReadBack(name, ""); r
  }

  /** The clause with the escaping the query language needs: Drive reads every name back exactly. */
  function CorrectedClause(name: string): (r: string)
    ensures |r| > |ClauseHead| && r[..|ClauseHead|] == ClauseHead
    ensures ReadQuoted(r[|ClauseHead|..]) == Some((name, ""))
  {
    var r := ClauseHead + Escape(name) + "'";
    assert r[|ClauseHead|..] == Escape(name) + "'" + "";
    EscapeRoundTrip(name, "");
    r
  }

  /** The written clause and the corrected one differ only for names holding a backslash. */
  lemma ClausesAgree(name: string)
    requires '\\' !in name
    ensures Clause(name) == CorrectedClause(name)
  {
    EscapeQuotesAgree(name);
  }

  /** The names the search uses: the list without its empty (falsy) entries, in order. */
  function Truthy(names: seq<string>): (r: seq<string>)
    ensures |r| <= |names|
    ensures forall k :: 0 <= k < |r| ==> |r[k]| > 0
    ensures forall x :: x in r ==> x in names
  {
    if |names| == 0 then []
    else (if |names[0]| > 0 then [names[0]] else []) + Truthy(names[1..])
  }

  /** Every name the search keeps is one of the given names. */
  lemma TruthyKeeps(names: seq<string>)
    ensures forall k :: 0 <= k < |Truthy(names)| ==> Truthy(names)[k] in names
  {
  }

  function Clauses(names: seq<string>): (r: seq<string>)
    ensures |r| == |names|
    ensures forall k :: 0 <= k < |names| ==> r[k] == Clause(names[k])
  {
    if |names| == 0 then [] else [Clause(names[0])] + Clauses(names[1..])
  }

  function CorrectedClauses(names: seq<string>): (r: seq<string>)
    ensures |r| == |names|
    ensures forall k :: 0 <= k < |names| ==> r[k] == CorrectedClause(names[k])
  {
    if |names| == 0 then [] else [CorrectedClause(names[0])] + CorrectedClauses(names[1..])
  }

  const FolderFilter := " in parents and mimeType='application/vnd.google-apps.folder' and trashed=false"

  /** What follows the name clauses: the parent, folders only, not trashed. */
  function ParentFilter(parent: string): string {
    ") and '" + parent + "'" + FolderFilter
  }

  /**
   * The whole search as written: any of the names, under the parent, folders
   * only, not trashed. Every non-empty name has its clause in it; empty names
   * have none.
   */
  function Query(names: seq<string>, parent: string): (r: string)
    ensures StartsWith(r, "(")
    ensures EndsWith(r, ParentFilter(parent))
    ensures forall k :: 0 <= k < |Truthy(names)| ==> Contains(r, Clause(Truthy(names)[k]))
  {
    var clauses := Clauses(Truthy(names));
    JoinWithinContains("(", clauses, " or ", ParentFilter(parent));
    Framed("(", Join(clauses, " or "), ParentFilter(parent));
    "(" + Join(clauses, " or ") + ParentFilter(parent)
  }

  /** The search with every name escaped as the query language needs. */
  function CorrectedQuery(names: seq<string>, parent: string): string {
    "(" + Join(CorrectedClauses(Truthy(names)), " or ") + ParentFilter(parent)
  }

  /** For names without backslashes the written search is the corrected one. */
  lemma QueriesAgree(names: seq<string>, parent: string)
    requires forall k :: 0 <= k < |names| ==> '\\' !in names[k]
    ensures Query(names, parent) == CorrectedQuery(names, parent)
  {
    TruthyKeeps(names);
    var t := Truthy(names);
    forall k | 0 <= k < |t| ensures Clauses(t)[k] == CorrectedClauses(t)[k] {
      ClausesAgree(t[k]);
    }
    assert Clauses(t) == CorrectedClauses(t);
  }

  // ---------------------------------------------------------------------
  // find_or_create_folder

  /** The first argument: one name, or a list of names. */
  datatype Names = One(name: string) | Many(names: seq<string>)

  function AsList(n: Names): seq<string> {
    match n
    case One(x) => [x]
    case Many(xs) => xs
  }

  datatype FolderEntry = FolderEntry(id: string, name: string)

  /** Drive as `find_or_create_folder` and `upload_file` use it. */
  datatype Drive = Drive(
    search: string -> Outcome<seq<FolderEntry>>,
    mkdir: (string, string) -> Outcome<string>,
    put: (string, string) -> Outcome<string>)

  /** What resolving a folder did. */
  datatype Resolved = Found(id: string) | Created(name: string, id: string) | Unresolved {
    /** The folder id as its callers test it: `if not folder_id` refuses None and the empty id alike. */
    function Id(): (r: Option<string>)
      ensures r.Some? <==> !Unresolved? && id != ""
      ensures r.Some? ==> r.value == id
    {
      match this
      case Found(i) => if i == "" then None else Some(i)
      case Created(_, i) => if i == "" then None else Some(i)
      case Unresolved => None
    }
  }

  const UnknownChannel := "Unknown_Channel"

  /**
   * `find_or_create_folder(folder_names, parent_id)`: no truthy name gives
   * None before Drive is asked; a search hit gives the first folder found;
   * otherwise a folder is created under the first name of the list, or
   * "Unknown_Channel" when that one is empty. An exception gives None.
   */
  function FindOrCreateFolder(arg: Names, parent: string, d: Drive): (r: Resolved)
    ensures |Truthy(AsList(arg))| == 0 ==> r == Unresolved
  {
    var names := AsList(arg);
    if |Truthy(names)| == 0 then Unresolved
    else
      match d.search(Query(names, parent))
      case Raised(_) => Unresolved
      case Done(files) =>
        if |files| > 0 then Found(files[0].id)
        else
          var primary := if |names[0]| > 0 then names[0] else UnknownChannel;
          match d.mkdir(primary, parent)
          case Raised(_) => Unresolved
          case Done(id) => Created(primary, id)
  }

  /** A single name behaves as the list holding it. */
  lemma OneIsListOfOne(name: string, parent: string, d: Drive)
    ensures FindOrCreateFolder(One(name), parent, d) == FindOrCreateFolder(Many([name]), parent, d)
    ensures FindOrCreateFolder(One(name), parent, d).Created? ==> FindOrCreateFolder(One(name), parent, d).name == name
  {
  }

  /** A folder is created only when the search raised nothing and found nothing, and under the first name or the stand-in. */
  lemma CreatesOnlyOnMiss(arg: Names, parent: string, d: Drive)
    ensures var r := FindOrCreateFolder(arg, parent, d);
            r.Created? ==> d.search(Query(AsList(arg), parent)) == Done([])
                           && r.name == (if |AsList(arg)[0]| > 0 then AsList(arg)[0] else UnknownChannel)
    ensures var r := FindOrCreateFolder(arg, parent, d);
            r.Found? <==> |Truthy(AsList(arg))| > 0 && d.search(Query(AsList(arg), parent)).Done?
                          && |d.search(Query(AsList(arg), parent)).value| > 0
  {
  }

  // ---------------------------------------------------------------------
  // upload_file

  /** What the downloader knows of a channel; a missing or null entry is None. */
  datatype ChannelInfo = ChannelInfo(handle: Option<string>, name: Option<string>, id: Option<string>)

  function Kept(o: Option<string>): seq<string> {
    if o.Some? && |o.value| > 0 then [o.value] else []
  }

  /** The candidate channel folder names: handle, then display name, then id, the truthy ones only. */
  function PotentialNames(c: ChannelInfo): (r: seq<string>)
    ensures |r| <= 3
    ensures forall k :: 0 <= k < |r| ==> |r[k]| > 0
  {
    Kept(c.handle) + Kept(c.name) + Kept(c.id)
  }

  /** The first candidate is the handle when there is one, else the name, else the id. */
  lemma FirstCandidate(c: ChannelInfo)
    ensures |PotentialNames(c)| == 0 <==> Kept(c.handle) == [] && Kept(c.name) == [] && Kept(c.id) == []
    ensures |PotentialNames(c)| > 0 ==>
              PotentialNames(c)[0] == (if Kept(c.handle) != [] then c.handle.value else if Kept(c.name) != [] then c.name.value else c.id.value)
  {
  }

  /**
   * `upload_file(file_path, channel_info, base_folder_id, platform)`: the
   * platform folder, the channel folder, then the upload of the file under
   * its base name. Any failure along the way gives None.
   */
  function UploadFile(filePath: string, c: ChannelInfo, base: string, platform: string, d: Drive): (r: Option<string>)
    ensures r.Some? ==> exists platformFolder, channelFolder ::
              FindOrCreateFolder(Many([platform]), base, d).Id() == Some(platformFolder)
              && FindOrCreateFolder(Many(PotentialNames(c)), platformFolder, d).Id() == Some(channelFolder)
              && platformFolder != "" && channelFolder != ""
              && d.put(LastPiece(filePath, "/"), channelFolder) == Done(r.value)
    ensures r.Some? ==> |PotentialNames(c)| > 0
    ensures FindOrCreateFolder(Many([platform]), base, d).Id().None? ==> r.None?
    ensures var p := FindOrCreateFolder(Many([platform]), base, d); !p.Unresolved? && p.id == "" ==> r.None?
    ensures r.None? ==> forall platformFolder, channelFolder ::
              FindOrCreateFolder(Many([platform]), base, d).Id() == Some(platformFolder)
              && FindOrCreateFolder(Many(PotentialNames(c)), platformFolder, d).Id() == Some(channelFolder)
              ==> d.put(LastPiece(filePath, "/"), channelFolder).Raised?
  {
    match FindOrCreateFolder(Many([platform]), base, d).Id()
    case None => None
    case Some(platformFolder) =>
      match FindOrCreateFolder(Many(PotentialNames(c)), platformFolder, d).Id()
      case None => None
      case Some(channelFolder) =>
        match d.put(LastPiece(filePath, "/"), channelFolder)
        case Raised(_) => None
        case Done(file) => Some(file)
  }

  /** A channel with no handle, name or id cannot be uploaded to: the folder search has no name. */
  lemma NoNameNoUpload(filePath: string, c: ChannelInfo, base: string, platform: string, d: Drive)
    requires Kept(c.handle) == [] && Kept(c.name) == [] && Kept(c.id) == []
    ensures UploadFile(filePath, c, base, platform, d) == None
  {
    assert PotentialNames(c) == [];
    assert Truthy([]) == [];
  }

  /** A new channel folder is named after the best candidate: handle, else name, else id. */
  lemma ChannelFolderName(filePath: string, c: ChannelInfo, platformFolder: string, d: Drive)
    requires FindOrCreateFolder(Many(PotentialNames(c)), platformFolder, d).Created?
    ensures |PotentialNames(c)| > 0
    ensures FindOrCreateFolder(Many(PotentialNames(c)), platformFolder, d).name == PotentialNames(c)[0]
  {
  }
}

=== FILE: sites.dfy ===
/**
 * The site-capability registry and the URL classifiers of `SiteDetector`.
 *
 * The registry is an ordered table (a Python dict keeps insertion order);
 * `detect_site` scans it front to back and the first entry with an alias
 * occurring in the address wins, so the order of the table is part of the
 * behaviour.
 */
module Sites {
  import opened Wrappers
  import opened Text
  import Urls

  /** One row of `SITE_PATTERNS`. */
  datatype SiteData = SiteData(
    name: string,
    icon: string,
    aliases: seq<string>,
    contentTypes: seq<string>,
    bulkSupport: bool,
    dateFilter: bool,
    qualityOptions: seq<string>,
    supportsPlaylists: bool,
    supportsChannels: bool)

  /** The dictionary `_get_site_info` returns: the key and eight copied fields. */
  datatype SiteInfo = SiteInfo(
    key: string,
    name: string,
    icon: string,
    contentTypes: seq<string>,
    qualityOptions: seq<string>,
    bulkSupport: bool,
    dateFilter: bool,
    supportsPlaylists: bool,
    supportsChannels: bool)

  const GenericKey := "generic"
  const TwitterKey := "twitter.com"

  const Generic := SiteData("Generic Site", "\U{1F310}", [], ["All Videos", "Audio Only"],
    false, false, ["Best Available", "Audio Only"], false, false)

  /** `SITE_PATTERNS`, in declaration order. */
  const Patterns: seq<(string, SiteData)> := [
    ("youtube.com", SiteData("YouTube", "\U{1F3A5}", ["youtu.be", "youtube.com"],
      ["All Videos", "Shorts Only", "Audio Only"], true, true,
      ["Best Available", "4K", "1440p", "1080p", "720p", "480p", "Audio Only"], true, true)),
    ("tiktok.com", SiteData("TikTok", "\U{1F3B5}", ["tiktok.com", "vm.tiktok.com"],
      ["All Videos", "Audio Only"], true, true, ["Best Available", "Audio Only"], false, true)),
    ("instagram.com", SiteData("Instagram", "\U{1F4F8}", ["instagram.com", "instagr.am"],
      ["All Videos", "Reels Only", "Stories Only", "Audio Only"], true, true,
      ["Best Available", "Audio Only"], false, true)),
    (TwitterKey, SiteData("Twitter/X", "\U{1F426}", ["twitter.com", "x.com", "t.co"],
      ["All Videos", "Audio Only"], true, true, ["Best Available", "1080p", "720p", "Audio Only"], false, true)),
    ("facebook.com", SiteData("Facebook", "\U{1F465}", ["facebook.com", "fb.com", "fb.watch"],
      ["All Videos", "Reels Only", "Stories Only", "Audio Only"], true, true,
      ["Best Available", "1080p", "720p", "Audio Only"], false, true)),
    ("vimeo.com", SiteData("Vimeo", "\U{1F3AC}", ["vimeo.com"],
      ["All Videos", "Audio Only"], true, true, ["Best Available", "4K", "1080p", "720p", "Audio Only"], true, true)),
    ("dailymotion.com", SiteData("Dailymotion", "\U{1F4F9}", ["dailymotion.com", "dai.ly"],
      ["All Videos", "Audio Only"], true, true, ["Best Available", "1080p", "720p", "480p", "Audio Only"], true, true)),
    ("twitch.tv", SiteData("Twitch", "\U{1F3AE}", ["twitch.tv"],
      ["All Videos", "Clips Only", "Audio Only"], true, true,
      ["Best Available", "1080p", "720p", "480p", "Audio Only"], false, true)),
    ("soundcloud.com", SiteData("SoundCloud", "\U{1F3A7}", ["soundcloud.com"],
      ["Audio Only", "Playlists"], true, true, ["Best Available"], true, true)),
    ("spotify.com", SiteData("Spotify", "\U{1F3B5}", ["spotify.com", "open.spotify.com"],
      ["Audio Only", "Playlists", "Albums"], true, false, ["Best Available"], true, true)),
    ("reddit.com", SiteData("Reddit", "\U{1F916}", ["reddit.com", "redd.it", "v.redd.it"],
      ["All Videos", "Audio Only"], true, true, ["Best Available", "720p", "480p", "Audio Only"], false, true)),
    ("vk.com", SiteData("VK", "\U{1F1F7}\U{1F1FA}", ["vk.com", "vkontakte.ru"],
      ["All Videos", "Audio Only"], true, true, ["Best Available", "1080p", "720p", "Audio Only"], true, true)),
    ("bilibili.com", SiteData("Bilibili", "\U{1F4FA}", ["bilibili.com", "b23.tv"],
      ["All Videos", "Audio Only"], true, true, ["Best Available", "1080p", "720p", "Audio Only"], true, true)),
    ("pornhub.com", SiteData("Adult Site", "\U{1F51E}", ["pornhub.com", "xvideos.com", "xnxx.com"],
      ["All Videos", "Audio Only"], true, true, ["Best Available", "1080p", "720p", "Audio Only"], true, true)),
    (GenericKey, Generic)
  ]

  /** The registry's shape: every entry offers some content type and some quality, and only the last is generic. */
  lemma RegistryShape()
    ensures |Patterns| == 15 && Patterns[14] == (GenericKey, Generic)
    ensures forall k :: 0 <= k < |Patterns| ==> |Patterns[k].1.contentTypes| > 0 && |Patterns[k].1.qualityOptions| > 0
    ensures forall k :: 0 <= k < 14 ==> Patterns[k].0 != GenericKey
    ensures !Generic.bulkSupport && !Generic.dateFilter && !Generic.supportsPlaylists && !Generic.supportsChannels
    ensures Generic.aliases == []
  {
  }

  /** `SITE_PATTERNS.get(key)`: the entry stored under `key`, if any. */
  function Lookup(key: string, from: nat := 0): (r: Option<SiteData>)
    requires from <= |Patterns|
    ensures r.Some? ==> exists k :: from <= k < |Patterns| && Patterns[k] == (key, r.value)
    ensures r.None? <==> forall k :: from <= k < |Patterns| ==> Patterns[k].0 != key
    decreases |Patterns| - from
  {
    if from == |Patterns| then None
    else if Patterns[from].0 == key then Some(Patterns[from].1)
    else Lookup(key, from + 1)
  }

  /** `_get_site_info(site_key)`: the key itself and the fields of its entry, of the generic entry for an unknown key. */
  function GetSiteInfo(key: string): (r: SiteInfo)
    ensures r.key == key
    ensures var d := Lookup(key).GetOr(Generic);
      r.name == d.name && r.icon == d.icon && r.contentTypes == d.contentTypes
      && r.qualityOptions == d.qualityOptions && r.bulkSupport == d.bulkSupport && r.dateFilter == d.dateFilter
      && r.supportsPlaylists == d.supportsPlaylists && r.supportsChannels == d.supportsChannels
  {
    var d := Lookup(key).GetOr(Generic);
    SiteInfo(key, d.name, d.icon, d.contentTypes, d.qualityOptions, d.bulkSupport, d.dateFilter,
      d.supportsPlaylists, d.supportsChannels)
  }

  /** The alias occurs in the host or in the lowered address. */
  predicate AliasHit(domain: string, urlLower: string, alias: string) {
    Contains(domain, alias) || Contains(urlLower, alias)
  }

  /** The entry is not the generic one and one of its aliases occurs. */
  predicate EntryMatches(e: (string, SiteData), domain: string, urlLower: string) {
    e.0 != GenericKey && exists a :: a in e.1.aliases && AliasHit(domain, urlLower, a)
  }

  /** Entry `k` of the registry matches. */
  predicate Matches(domain: string, urlLower: string, k: int)
    requires 0 <= k < |Patterns|
  {
    EntryMatches(Patterns[k], domain, urlLower)
  }

  /** The first entry of `table` at or after `from` that matches. */
  function FirstMatchIn(table: seq<(string, SiteData)>, domain: string, urlLower: string, from: nat): (r: Option<nat>)
    requires from <= |table|
    ensures r.Some? ==> from <= r.value < |table| && EntryMatches(table[r.value], domain, urlLower)
    ensures r.Some? ==> forall j :: from <= j < r.value ==> !EntryMatches(table[j], domain, urlLower)
    ensures r.None? <==> forall j :: from <= j < |table| ==> !EntryMatches(table[j], domain, urlLower)
    decreases |table| - from
  {
    if from == |table| then None
    else if table[from].0 != GenericKey && AnyAliasHit(domain, urlLower, table[from].1.aliases) then
      Some(from)
    else FirstMatchIn(table, domain, urlLower, from + 1)
  }

  /** The first registry entry at or after `from` that matches. */
  function FirstMatch(domain: string, urlLower: string, from: nat): (r: Option<nat>)
    requires from <= |Patterns|
    ensures r.Some? ==> from <= r.value < |Patterns| && Matches(domain, urlLower, r.value)
    ensures r.Some? ==> forall j :: from <= j < r.value ==> !Matches(domain, urlLower, j)
    ensures r.None? ==> forall j :: from <= j < |Patterns| ==> !Matches(domain, urlLower, j)
  {
    FirstMatchIn(Patterns, domain, urlLower, from)
  }

  /** The inner alias loop of `detect_site`. */
  function AnyAliasHit(domain: string, urlLower: string, aliases: seq<string>): (r: bool)
    ensures r <==> exists a :: a in aliases && AliasHit(domain, urlLower, a)
  {
    if |aliases| == 0 then false
    else AliasHit(domain, urlLower, aliases[0]) || AnyAliasHit(domain, urlLower, aliases[1..])
  }

  /** The host `detect_site` compares against: the lowered address's network location without "www.". */
  function Domain(url: string): Outcome<string> {
    match Urls.Netloc(Lower(url))
    case Done(n) => Done(Replace(n, "www.", ""))
    case Raised(e) => Raised(e)
  }

  /**
   * `detect_site(url)`. An empty address is generic; otherwise the first
   * registry entry with an alias in the host or the lowered address wins,
   * and generic is the answer when none does. The ValueError `urlparse`
   * raises for a lone IPv6 bracket escapes.
   */
  function DetectSite(url: string): (r: Outcome<SiteInfo>)
    ensures url == "" ==> r == Done(GetSiteInfo(GenericKey))
    ensures r.Raised? <==> url != "" && Domain(url).Raised?
    ensures url != "" && r.Done? ==>
      (r.value.key == GenericKey <==> forall k :: 0 <= k < |Patterns| ==> !Matches(Domain(url).value, Lower(url), k))
    ensures url != "" && r.Done? && r.value.key != GenericKey ==>
      exists k :: 0 <= k < |Patterns| && Patterns[k].0 == r.value.key && Matches(Domain(url).value, Lower(url), k)
        && forall j :: 0 <= j < k ==> !Matches(Domain(url).value, Lower(url), j)
    ensures r.Done? ==> r.value == GetSiteInfo(r.value.key)
  {
    if url == "" then Done(GetSiteInfo(GenericKey))
    else
      match Domain(url)
      case Raised(e) => Raised(e)
      case Done(domain) =>
        match FirstMatch(domain, Lower(url), 0)
        case Some(k) => Done(GetSiteInfo(Patterns[k].0))
        case None => Done(GetSiteInfo(GenericKey))
  }

  /**
   * Table order decides: "t.co" occurs inside "reddit.com", so an address
   * naming reddit.com resolves to the Twitter/X entry, scanned before the
   * Reddit one, unless one of the first three sites matches earlier.
   */
  lemma RedditResolvesToTwitter(url: string)
    requires Domain(url).Done? && Contains(Lower(url), "reddit.com")
    requires forall k :: 0 <= k < 3 ==> !Matches(Domain(url).value, Lower(url), k)
    ensures DetectSite(url) == Done(GetSiteInfo(TwitterKey))
  {
    var domain := Domain(url).value;
    var u := Lower(url);
    TCoInReddit(u);
    TwitterEntry();
    assert AliasHit(domain, u, "t.co");
    assert Matches(domain, u, 3);
    FirstMatchIsLeast(domain, u, 3);
    assert FirstMatch(domain, u, 0) == Some(3);
  }

  lemma TCoInReddit(u: string)
    requires Contains(u, "reddit.com")
    ensures Contains(u, "t.co")
  {
    assert OccursAt("reddit.com", "t.co", 5);
    ContainsTransitive(u, "reddit.com", "t.co");
  }

  lemma TwitterEntry()
    ensures 3 < |Patterns| && Patterns[3].0 == TwitterKey && "t.co" in Patterns[3].1.aliases
  {
  }

  /** The scan stops at the least matching entry. */
  lemma FirstMatchIsLeast(domain: string, urlLower: string, k: nat)
    requires k < |Patterns| && Matches(domain, urlLower, k)
    requires forall j :: 0 <= j < k ==> !Matches(domain, urlLower, j)
    ensures FirstMatch(domain, urlLower, 0) == Some(k)
  {
    var r := FirstMatch(domain, urlLower, 0);
    assert r.Some?;
  }

  // ---------------------------------------------------------------------
  // is_bulk_url and get_url_type

  const BulkMarkers := ["playlist", "channel", "/c/", "/@", "/user/", "albums", "sets", "collections"]
  const ChannelMarkers := ["channel", "/c/", "/@", "/user/"]

  /** `is_bulk_url(url)`: one of the eight markers occurs, ignoring case. */
  function IsBulkUrl(url: string): (r: bool)
    ensures r <==> exists m :: m in BulkMarkers && Contains(Lower(url), m)
  {
    FirstContained(Lower(url), BulkMarkers).Some?
  }

  datatype UrlType = Single | Playlist | Channel | Album

  function UrlTypeName(t: UrlType): string {
    match t
    case Single => "single"
    case Playlist => "playlist"
    case Channel => "channel"
    case Album => "album"
  }

  /** `get_url_type(url)`: playlist before channel before album, single otherwise. */
  function GetUrlType(url: string): (r: UrlType)
    ensures var u := Lower(url);
      (r == Playlist <==> Contains(u, "playlist") || Contains(u, "list="))
      && (r == Channel <==> !Contains(u, "playlist") && !Contains(u, "list=") && ContainsAny(u, ChannelMarkers))
      && (r == Album <==> !Contains(u, "playlist") && !Contains(u, "list=") && !ContainsAny(u, ChannelMarkers) && Contains(u, "album"))
  {
    var u := Lower(url);
    if Contains(u, "playlist") || Contains(u, "list=") then Playlist
    else if FirstContained(u, ChannelMarkers).Some? then Channel
    else if Contains(u, "album") then Album
    else Single
  }

  /** A channel address is a bulk address: the channel markers are among the bulk markers. */
  lemma ChannelIsBulk(url: string)
    requires GetUrlType(url) == Channel
    ensures IsBulkUrl(url)
  {
    var k :| 0 <= k < |ChannelMarkers| && Contains(Lower(url), ChannelMarkers[k]);
    assert ChannelMarkers[k] in BulkMarkers;
  }

  /** Case does not matter to either classifier. */
  lemma ClassifiersIgnoreCase(url: string)
    ensures IsBulkUrl(Lower(url)) == IsBulkUrl(url)
    ensures GetUrlType(Lower(url)) == GetUrlType(url)
  {
    LowerIdempotent(url);
  }
}

=== FILE: smart_batch.dfy ===
/**
 * The smart batch script (smart_batch.py): the handle it filters on, the
 * way it turns the links a page shows into canonical video addresses, the
 * scroll loop that collects them, and the download loop of `main`. The
 * yt-dlp extraction, the page and the downloaders are oracle results.
 */
module SmartBatch {
  import opened Wrappers
  import opened Text

  // ---------------------------------------------------------------------
  // The target handle

  /**
   * The handle the browser path keeps posts of: the last path segment of an
   * X/Twitter address, the text after the last '@' of a TikTok address up
   * to the next '/', the last segment of an Instagram address without its
   * query; None for any other address.
   */
  function TargetHandle(channelUrl: string): (r: Option<string>)
    ensures r.Some? <==> (Contains(channelUrl, "x.com/") || Contains(channelUrl, "twitter.com/")
      || Contains(channelUrl, "tiktok.com/@") || Contains(channelUrl, "instagram.com/"))
    ensures r.Some? ==> !Contains(r.value, "/")
    ensures r.Some? && !Contains(channelUrl, "x.com/") && !Contains(channelUrl, "twitter.com/") ==>
      !Contains(r.value, "@") || !Contains(channelUrl, "tiktok.com/@")
  {
    var trimmed := RStripChar(channelUrl, '/');
    if Contains(channelUrl, "x.com/") || Contains(channelUrl, "twitter.com/") then
      Some(LastPiece(trimmed, "/"))
    else if Contains(channelUrl, "tiktok.com/@") then
      var h := SplitHead(LastPiece(trimmed, "@"), "/");
      NoneAfterLast(LastPiece(trimmed, "@"), h, "@");
      Some(h)
    else if Contains(channelUrl, "instagram.com/") then
      var seg := LastPiece(trimmed, "/");
      var h := SplitHead(seg, "?");
      NoneAfterLast(seg, h, "/");
      Some(h)
    else None
  }

  /** A prefix of a text without `q` is without `q`. */
  lemma NoneAfterLast(s: string, t: string, q: string)
    requires StartsWith(s, t) && !Contains(s, q)
    ensures !Contains(t, q)
  {
    if Contains(t, q) {
      assert s[..|t|] == t;
      ContainsInSlice(s, 0, |t|, q);
    }
  }

  /** The handle of an X profile address is its user name. */
  lemma XProfileHandle(user: string)
    requires |user| > 0 && '/' !in user
    ensures TargetHandle("https://x.com/" + user) == Some(user)
  {
    var url := "https://x.com/" + user;
    assert url[8..14] == "x.com/";
    assert OccursAt(url, "x.com/", 8);
    assert url[|url| - 1] == user[|user| - 1];
    assert RStripChar(url, '/') == url;
    assert url[|url| - |user| - 1..] == "/" + user;
    LastPieceAfter(url, '/', user);
  }

  // ---------------------------------------------------------------------
  // Link normalisation

  /** Python's `s.split('/')` of a link, with the index of its "status" or "video" segment. */
  function Segments(link: string): seq<string> {
    Split(link, "/")
  }

  /** The user and id segments around `marker`, when `marker` is a segment with one after it. */
  function AroundMarker(link: string, marker: string): (r: Option<(string, string)>)
    ensures r.Some? ==> !Contains(r.value.1, "?")
  {
    var parts := Segments(link);
    match IndexOf(parts, marker)
    case None => None
    case Some(idx) =>
      if idx + 1 < |parts| then Some((PyAt(parts, idx - 1), SplitHead(parts[idx + 1], "?"))) else None
  }

  /** The handle filter is active: the handle is present and non-empty. */
  predicate Filtering(handle: Option<string>) {
    handle.Some? && handle.value != ""
  }

  /** The X filter: the user segment is the handle, ignoring case. */
  predicate SameUser(user: string, handle: string) {
    Lower(user) == Lower(handle)
  }

  /** The TikTok filter: the handle without its leading '@'s occurs in the user segment, ignoring case. */
  predicate UserHoldsHandle(user: string, handle: string) {
    Contains(Lower(user), Lower(LStripChar(handle, '@')))
  }

  /** An X status link rebuilt as https://x.com/{user}/status/{id}, unless the handle filter drops it. */
  function NormalizeStatus(link: string, handle: Option<string>): (r: Option<string>)
    ensures r.Some? ==> StartsWith(r.value, "https://x.com/") && AroundMarker(link, "status").Some?
    ensures r.Some? && Filtering(handle) ==> SameUser(AroundMarker(link, "status").value.0, handle.value)
  {
    match AroundMarker(link, "status")
    case None => None
    case Some((user, id)) =>
      if Filtering(handle) && !SameUser(user, handle.value) then None
      else
        var tail := user + "/status/" + id;
        StartsWithAppend("https://x.com/", tail);
        assert "https://x.com/" + user + "/status/" + id == "https://x.com/" + tail;
        Some("https://x.com/" + user + "/status/" + id)
  }

  /** A TikTok video link rebuilt as https://www.tiktok.com/{user}/video/{id}, unless the handle filter drops it. */
  function NormalizeVideo(link: string, handle: Option<string>): (r: Option<string>)
    ensures r.Some? ==> StartsWith(r.value, "https://www.tiktok.com/") && AroundMarker(link, "video").Some?
    ensures r.Some? && Filtering(handle) ==> UserHoldsHandle(AroundMarker(link, "video").value.0, handle.value)
  {
    match AroundMarker(link, "video")
    case None => None
    case Some((user, id)) =>
      if Filtering(handle) && !UserHoldsHandle(user, handle.value) then None
      else
        var tail := user + "/video/" + id;
        StartsWithAppend("https://www.tiktok.com/", tail);
        assert "https://www.tiktok.com/" + user + "/video/" + id == "https://www.tiktok.com/" + tail;
        Some("https://www.tiktok.com/" + user + "/video/" + id)
  }

  /**
   * One link of a scroll round: a Shorts link without its query, a watch
   * link cut at its first '&', an X status link or a TikTok video link
   * rebuilt; None when it is dropped by the handle filter or matches no
   * branch (the Instagram links the page script also collects among them).
   */
  function Normalize(link: string, handle: Option<string>): (r: Option<string>)
    ensures Contains(link, "/shorts/") ==> r == Some(SplitHead(link, "?"))
    ensures !Contains(link, "/shorts/") && Contains(link, "/watch?v=") ==> r == Some(SplitHead(link, "&"))
    ensures !Contains(link, "/shorts/") && !Contains(link, "/watch?v=") && Contains(link, "/status/") ==>
      r == NormalizeStatus(link, handle)
    ensures !Contains(link, "/shorts/") && !Contains(link, "/watch?v=") && !Contains(link, "/status/") ==>
      r == (if Contains(link, "/video/") && Contains(link, "tiktok.com") then NormalizeVideo(link, handle) else None)
  {
    if Contains(link, "/shorts/") then Some(SplitHead(link, "?"))
    else if Contains(link, "/watch?v=") then Some(SplitHead(link, "&"))
    else if Contains(link, "/status/") then NormalizeStatus(link, handle)
    else if Contains(link, "/video/") && Contains(link, "tiktok.com") then NormalizeVideo(link, handle)
    else None
  }

  /** A cleaned Shorts link is its own cleaning. */
  lemma ShortsNormalizeIdempotent(link: string, handle: Option<string>)
    requires Contains(SplitHead(link, "?"), "/shorts/")
    ensures Normalize(SplitHead(link, "?"), handle) == Some(SplitHead(link, "?"))
  {
  }

  /** A cleaned watch link is its own cleaning. */
  lemma WatchNormalizeIdempotent(link: string, handle: Option<string>)
    requires !Contains(link, "/shorts/") && Contains(SplitHead(link, "&"), "/watch?v=")
    ensures Normalize(SplitHead(link, "&"), handle) == Some(SplitHead(link, "&"))
  {
    NoneAfterLast(link, SplitHead(link, "&"), "/shorts/");
  }

  // ---------------------------------------------------------------------
  // Collecting

  /** One round's links added to the list: only non-empty addresses not already listed, in link order. */
  function Collect(videos: seq<string>, links: seq<string>, handle: Option<string>): (r: seq<string>)
    ensures |videos| <= |r| <= |videos| + |links|
    ensures r[..|videos|] == videos
    decreases |links|
  {
    if |links| == 0 then videos
    else
      var b := Normalize(links[0], handle);
      var next := if b.Some? && b.value != "" && b.value !in videos then videos + [b.value] else videos;
      var r := Collect(next, links[1..], handle);
      assert r[..|videos|] == r[..|next|][..|videos|];
      r
  }

  /** An address is the normalisation of one of the links. */
  predicate FromLinks(v: string, links: seq<string>, handle: Option<string>) {
    exists k :: 0 <= k < |links| && Normalize(links[k], handle) == Some(v)
  }

  /** The list stays duplicate-free, and every added address is a non-empty normalised link. */
  lemma {:induction false} CollectKeepsDistinct(videos: seq<string>, links: seq<string>, handle: Option<string>)
    requires Distinct(videos)
    ensures Distinct(Collect(videos, links, handle))
    ensures forall i :: |videos| <= i < |Collect(videos, links, handle)| ==>
      Collect(videos, links, handle)[i] != "" && FromLinks(Collect(videos, links, handle)[i], links, handle)
    decreases |links|
  {
    if |links| > 0 {
      var b := Normalize(links[0], handle);
      var added := b.Some? && b.value != "" && b.value !in videos;
      var next := if added then videos + [b.value] else videos;
      var r := Collect(videos, links, handle);
      if added {
        DistinctAppend(videos, b.value);
      }
      CollectKeepsDistinct(next, links[1..], handle);
      forall i | |videos| <= i < |r| ensures r[i] != "" && FromLinks(r[i], links, handle) {
        if added && i == |videos| {
          assert r[i] == r[..|next|][i] == next[i];
          assert Normalize(links[0], handle) == Some(r[i]);
        } else {
          var k :| 0 <= k < |links[1..]| && Normalize(links[1..][k], handle) == Some(r[i]);
          assert links[1..][k] == links[k + 1];
        }
      }
    }
  }

  /** A status link of another user never enters the list while a handle is set. */
  lemma OtherUserDropped(link: string, handle: Option<string>)
    requires Filtering(handle)
    requires !Contains(link, "/shorts/") && !Contains(link, "/watch?v=") && Contains(link, "/status/")
    requires AroundMarker(link, "status").Some? && !SameUser(AroundMarker(link, "status").value.0, handle.value)
    ensures Normalize(link, handle).None?
  {
  }

  // ---------------------------------------------------------------------
  // The scroll loop

  /** Consecutive rounds without growth after which the loop gives up. */
  const MaxRetries := 15

  /** What the loop ends with: the list and the count of rounds without growth. */
  datatype Scan = Scan(videos: seq<string>, retries: nat)

  /**
   * The `while` loop of `extract_browser`, from round `k` on: it runs while
   * fewer than `maxVideos` addresses are listed and fewer than 15 rounds in
   * a row added nothing; `round(k)` is the links the page shows at round `k`.
   */
  function ScrollLoop(videos: seq<string>, retries: nat, k: nat, round: nat -> seq<string>, handle: Option<string>, maxVideos: int): (r: Scan)
    requires retries <= MaxRetries
    ensures |r.videos| >= maxVideos || r.retries == MaxRetries
    ensures r.retries <= MaxRetries
    ensures |r.videos| >= |videos| && r.videos[..|videos|] == videos
    decreases (if |videos| < maxVideos then maxVideos - |videos| else 0), MaxRetries - retries
  {
    if |videos| >= maxVideos || retries == MaxRetries then Scan(videos, retries)
    else
      var next := Collect(videos, round(k), handle);
      var r := ScrollLoop(next, if |next| == |videos| then retries + 1 else 0, k + 1, round, handle, maxVideos);
      assert r.videos[..|videos|] == r.videos[..|next|][..|videos|];
      r
  }

  /** The loop keeps the list duplicate-free. */
  lemma {:induction false} ScrollKeepsDistinct(videos: seq<string>, retries: nat, k: nat, round: nat -> seq<string>, handle: Option<string>, maxVideos: int)
    requires retries <= MaxRetries && Distinct(videos)
    ensures Distinct(ScrollLoop(videos, retries, k, round, handle, maxVideos).videos)
    decreases (if |videos| < maxVideos then maxVideos - |videos| else 0), MaxRetries - retries
  {
    if !(|videos| >= maxVideos || retries == MaxRetries) {
      var next := Collect(videos, round(k), handle);
      CollectKeepsDistinct(videos, round(k), handle);
      ScrollKeepsDistinct(next, if |next| == |videos| then retries + 1 else 0, k + 1, round, handle, maxVideos);
    }
  }

  /** `v` is a normalised link of some round from `k` on. */
  ghost predicate FromRounds(v: string, k: nat, round: nat -> seq<string>, handle: Option<string>) {
    exists j: nat :: j >= k && FromLinks(v, round(j), handle)
  }

  /** The loop adds only normalised links of the rounds it reads. */
  lemma {:induction false} ScrollAddsLinks(videos: seq<string>, retries: nat, k: nat, round: nat -> seq<string>, handle: Option<string>, maxVideos: int)
    requires retries <= MaxRetries && Distinct(videos)
    ensures forall i :: |videos| <= i < |ScrollLoop(videos, retries, k, round, handle, maxVideos).videos| ==>
      FromRounds(ScrollLoop(videos, retries, k, round, handle, maxVideos).videos[i], k, round, handle)
    decreases (if |videos| < maxVideos then maxVideos - |videos| else 0), MaxRetries - retries
  {
    if !(|videos| >= maxVideos || retries == MaxRetries) {
      var next := Collect(videos, round(k), handle);
      var retries' := if |next| == |videos| then retries + 1 else 0;
      CollectKeepsDistinct(videos, round(k), handle);
      ScrollAddsLinks(next, retries', k + 1, round, handle, maxVideos);
      var r := ScrollLoop(next, retries', k + 1, round, handle, maxVideos).videos;
      assert ScrollLoop(videos, retries, k, round, handle, maxVideos).videos == r;
      forall i | |videos| <= i < |r| ensures FromRounds(r[i], k, round, handle) {
        if i < |next| {
          assert r[i] == r[..|next|][i] == next[i];
          assert FromLinks(r[i], round(k), handle);
        } else {
          var j: nat :| j >= k + 1 && FromLinks(r[i], round(j), handle);
        }
      }
    }
  }

  /**
   * `extract_browser(channel_url, max_videos)`: nothing without Playwright
   * or when the browser raises (`failed`), otherwise the loop's list cut to
   * `maxVideos`.
   */
  function ExtractBrowser(channelUrl: string, maxVideos: int, playwright: bool, failed: bool, round: nat -> seq<string>): (r: seq<string>)
    ensures !playwright || failed ==> r == []
    ensures maxVideos >= 0 ==> |r| <= maxVideos
    ensures Distinct(r)
  {
    if !playwright || failed then []
    else
      var scan := ScrollLoop([], 0, 0, round, TargetHandle(channelUrl), maxVideos);
      ScrollKeepsDistinct([], 0, 0, round, TargetHandle(channelUrl), maxVideos);
      var r := PyPrefix(scan.videos, maxVideos);
      DistinctPrefix(scan.videos, |r|);
      r
  }

  // ---------------------------------------------------------------------
  // `main`

  /** One download: the simplified downloader's result and, after a failure, the browser fallback's (None when it raised). */
  datatype Attempt = Attempt(primary: bool, fallback: Option<bool>)

  /** A URL ends successful: the downloader succeeded, or its browser fallback ran and succeeded. */
  predicate Succeeds(a: Attempt, playwright: bool) {
    a.primary || (playwright && a.fallback == Some(true))
  }

  function CountSucceeded(urls: seq<string>, attempt: string -> Attempt, playwright: bool): (n: nat)
    ensures n <= |urls|
  {
    if |urls| == 0 then 0
    else (if Succeeds(attempt(urls[0]), playwright) then 1 else 0) + CountSucceeded(urls[1..], attempt, playwright)
  }

  datatype Tally = Tally(successful: nat, failed: nat)

  /** The download loop of `main`: each URL adds one to exactly one counter. */
  function DownloadLoop(urls: seq<string>, attempt: string -> Attempt, playwright: bool): (t: Tally)
    ensures t.successful + t.failed == |urls|
    ensures t.successful == CountSucceeded(urls, attempt, playwright)
  {
    if |urls| == 0 then Tally(0, 0)
    else
      var rest := DownloadLoop(urls[1..], attempt, playwright);
      if Succeeds(attempt(urls[0]), playwright) then Tally(rest.successful + 1, rest.failed)
      else Tally(rest.successful, rest.failed + 1)
  }

  /** The outcome of `main`: the exit code and the counters (zero when nothing was downloaded). */
  datatype ScriptResult = ScriptResult(code: int, tally: Tally)

  /** The video count when `sys.argv[2]` is not given. */
  const DefaultMaxVideos := 40

  const CountError := "ValueError: invalid literal for int() with base 10"

  /** `int(sys.argv[2])`, or the default when there is no second argument; None for the ValueError. */
  function MaxVideos(countArg: Option<string>): (r: Option<int>)
    ensures countArg.None? ==> r == Some(DefaultMaxVideos)
    ensures countArg.Some? ==> r == ParseInt(countArg.value)
  {
    match countArg
    case None => Some(DefaultMaxVideos)
    case Some(a) => ParseInt(a)
  }

  /**
   * `main()`: usage error (1) without a channel address; a count argument
   * `int()` refuses raises before any extraction; otherwise the fast
   * extraction's list or, when it is empty, the browser's, each asked for
   * the count, 1 when both are empty, and otherwise 0 after the download
   * loop, whatever failed.
   */
  function RunScript(hasChannel: bool, countArg: Option<string>, standard: int -> seq<string>, browser: int -> seq<string>,
                     attempt: string -> Attempt, playwright: bool): (r: Outcome<ScriptResult>)
    ensures r.Raised? <==> hasChannel && countArg.Some? && ParseInt(countArg.value).None?
    ensures !hasChannel ==> r == Done(ScriptResult(1, Tally(0, 0)))
    ensures r.Done? && hasChannel ==>
              var n := MaxVideos(countArg).value;
              (r.value.code == 1 <==> |standard(n)| == 0 && |browser(n)| == 0)
              && (r.value.code == 0 ==>
                    r.value.tally.successful + r.value.tally.failed == (if |standard(n)| > 0 then |standard(n)| else |browser(n)|))
    ensures r.Done? ==> r.value.code in {0, 1}
  {
    if !hasChannel then Done(ScriptResult(1, Tally(0, 0)))
    else
      match MaxVideos(countArg)
      case None => Raised(CountError)
      case Some(n) =>
        var urls := if |standard(n)| > 0 then standard(n) else browser(n);
        if |urls| == 0 then Done(ScriptResult(1, Tally(0, 0)))
        else Done(ScriptResult(0, DownloadLoop(urls, attempt, playwright)))
  }

  /** A count typed as digits is read as that number and asked of the fast extraction. */
  lemma CountArgumentRead(countArg: string, standard: int -> seq<string>, browser: int -> seq<string>,
                          attempt: string -> Attempt, playwright: bool)
    requires |countArg| > 0 && AllDigits(countArg) && |countArg| <= MaxIntDigits
    requires |standard(DigitsValue(countArg))| > 0
    ensures RunScript(true, Some(countArg), standard, browser, attempt, playwright)
              == Done(ScriptResult(0, DownloadLoop(standard(DigitsValue(countArg)), attempt, playwright)))
  {
    ParseDigits(countArg);
  }

  /** Without Playwright a failed download is never retried: the successes are exactly the downloader's. */
  lemma {:induction false} NoFallbackWithoutPlaywright(urls: seq<string>, attempt: string -> Attempt)
    ensures CountSucceeded(urls, attempt, false) == CountSucceeded(urls, a => Attempt(attempt(a).primary, None), true)
    decreases |urls|
  {
    if |urls| > 0 {
      NoFallbackWithoutPlaywright(urls[1..], attempt);
    }
  }
}

=== FILE: text.dfy ===
/**
 * Python string operations used throughout the toolkit, stated on
 * `string` (= `seq<char>`).
 *
 * Each function follows the CPython method of the same purpose: `in`
 * (substring test), `find`, `split`, `join`, `replace`, `strip`, `lower`,
 * `startswith`, `int(...)`, `str(...)` and the `<` ordering of `str`.
 * Case mapping and white-space classification cover ASCII only.
 */
module Text {
  import opened Wrappers

  // ---------------------------------------------------------------------
  // Prefixes, suffixes, occurrences

  predicate StartsWith(s: string, p: string) {
    |p| <= |s| && s[..|p|] == p
  }

  predicate EndsWith(s: string, p: string) {
    |p| <= |s| && s[|s| - |p|..] == p
  }

  /** `p` occurs in `s` starting at index `j`. */
  predicate OccursAt(s: string, p: string, j: int) {
    0 <= j && j + |p| <= |s| && s[j..j + |p|] == p
  }

  /** The leftmost occurrence of `p` in `s` at or after `from` (Python `s.find(p, from)`). */
  function FindFrom(s: string, p: string, from: nat): (r: Option<nat>)
    requires from <= |s|
    ensures r.Some? ==> from <= r.value && OccursAt(s, p, r.value)
    ensures r.Some? ==> forall j :: from <= j < r.value ==> !OccursAt(s, p, j)
    ensures r.None? ==> forall j :: from <= j ==> !OccursAt(s, p, j)
    decreases |s| - from
  {
    if from + |p| > |s| then None
    else if s[from..from + |p|] == p then Some(from)
    else FindFrom(s, p, from + 1)
  }

  /** The leftmost occurrence of `p` in `s` (Python `s.find(p)`, with -1 as None). */
  function Find(s: string, p: string): (r: Option<nat>)
    ensures r.Some? <==> exists j :: OccursAt(s, p, j)
    ensures r.Some? ==> OccursAt(s, p, r.value)
    ensures r.Some? ==> forall j :: 0 <= j < r.value ==> !OccursAt(s, p, j)
  {
    FindFrom(s, p, 0)
  }

  /** Python's `p in s`. */
  predicate Contains(s: string, p: string) {
    Find(s, p).Some?
  }

  lemma ContainsAt(s: string, p: string, j: int)
    requires OccursAt(s, p, j)
    ensures Contains(s, p)
  {
  }

  lemma ContainsPrefix(s: string, p: string)
    requires StartsWith(s, p)
    ensures Contains(s, p)
  {
    assert OccursAt(s, p, 0);
  }

  lemma StartsWithAppend(a: string, b: string)
    ensures StartsWith(a + b, a)
  {
    assert (a + b)[..|a|] == a;
  }

  /** A text starts with a one-character text exactly when it is non-empty and its first character is that one. */
  lemma StartsWithChar(s: string, c: char)
    ensures StartsWith(s, [c]) <==> |s| > 0 && s[0] == c
  {
    if |s| > 0 {
      assert s[..1] == [s[0]];
    }
  }

  /** A substring of a substring of `s` is a substring of `s`. */
  lemma ContainsTransitive(s: string, t: string, p: string)
    requires Contains(s, t) && Contains(t, p)
    ensures Contains(s, p)
  {
    var i := Find(s, t).value;
    var j := Find(t, p).value;
    assert s[i..i + |t|] == t;
    SubSlice(s, i, |t|, j, |p|);
    assert OccursAt(s, p, i + j);
  }

  /** A slice of a slice is a slice. */
  lemma SubSlice(s: string, i: nat, n: nat, j: nat, m: nat)
    requires i + n <= |s| && j + m <= n
    ensures s[i..i + n][j..j + m] == s[i + j..i + j + m]
  {
    var a := s[i..i + n][j..j + m];
    var b := s[i + j..i + j + m];
    assert |a| == |b|;
    forall k | 0 <= k < m ensures a[k] == b[k] {
      assert a[k] == s[i..i + n][j + k] == s[i + j + k];
    }
  }

  /** A substring of a slice of `s` is a substring of `s`. */
  lemma ContainsInSlice(s: string, lo: nat, hi: nat, p: string)
    requires lo <= hi <= |s|
    requires Contains(s[lo..hi], p)
    ensures Contains(s, p)
  {
    var j := Find(s[lo..hi], p).value;
    SubSlice(s, lo, hi - lo, j, |p|);
    assert OccursAt(s, p, lo + j);
  }

  lemma ContainsAppendLeft(a: string, b: string, p: string)
    requires Contains(a, p)
    ensures Contains(a + b, p)
  {
    assert (a + b)[..|a|] == a;
    ContainsInSlice(a + b, 0, |a|, p);
  }

  lemma ContainsAppendRight(a: string, b: string, p: string)
    requires Contains(b, p)
    ensures Contains(a + b, p)
  {
    assert (a + b)[|a|..|a + b|] == b;
    ContainsInSlice(a + b, |a|, |a + b|, p);
  }

  /** Python's `any(p in s for p in ps)`. */
  predicate ContainsAny(s: string, ps: seq<string>) {
    exists k :: 0 <= k < |ps| && Contains(s, ps[k])
  }

  /** A text that contains none of a table's entries contains none of the entries of a sub-table. */
  lemma ContainsNoneOfSub(s: string, ps: seq<string>, qs: seq<string>)
    requires !ContainsAny(s, ps)
    requires forall j :: 0 <= j < |qs| ==> qs[j] in ps
    ensures !ContainsAny(s, qs)
  {
    forall j | 0 <= j < |qs| ensures !Contains(s, qs[j]) {
      var k :| 0 <= k < |ps| && ps[k] == qs[j];
    }
  }

  /** Index of the first `ps[k]` that occurs in `s`: a scan of a table in declared order. */
  function FirstContained(s: string, ps: seq<string>): (r: Option<nat>)
    ensures r.Some? ==> r.value < |ps| && Contains(s, ps[r.value])
    ensures r.Some? ==> forall k :: 0 <= k < r.value ==> !Contains(s, ps[k])
    ensures r.None? <==> !ContainsAny(s, ps)
  {
    if |ps| == 0 then None
    else if Contains(s, ps[0]) then Some(0)
    else match FirstContained(s, ps[1..])
      case None => None
      case Some(k) => Some(k + 1)
  }

  // ---------------------------------------------------------------------
  // Characters: ASCII case and white space

  predicate IsUpper(c: char) { 'A' <= c <= 'Z' }
  predicate IsLower(c: char) { 'a' <= c <= 'z' }
  predicate IsAlpha(c: char) { IsUpper(c) || IsLower(c) }
  predicate IsDigit(c: char) { '0' <= c <= '9' }

  function LowerChar(c: char): char {
    if IsUpper(c) then (c as int + 32) as char else c
  }

  function UpperChar(c: char): char {
    if IsLower(c) then (c as int - 32) as char else c
  }

  /** Python's `str.isspace()` on one character (the ASCII and Latin-1 white space). */
  predicate IsSpace(c: char) {
    c in {' ', '\t', '\n', '\r', '\U{B}', '\U{C}', '\U{1C}', '\U{1D}', '\U{1E}', '\U{1F}', '\U{85}', '\U{A0}'}
  }

  /** Python's `s.lower()`. */
  function Lower(s: string): (r: string)
    ensures |r| == |s|
    ensures forall i :: 0 <= i < |s| ==> r[i] == LowerChar(s[i])
  {
    seq(|s|, i requires 0 <= i < |s| => LowerChar(s[i]))
  }

  /** Python's `s.upper()`. */
  function Upper(s: string): (r: string)
    ensures |r| == |s|
    ensures forall i :: 0 <= i < |s| ==> r[i] == UpperChar(s[i])
  {
    seq(|s|, i requires 0 <= i < |s| => UpperChar(s[i]))
  }

  lemma LowerIdempotent(s: string)
    ensures Lower(Lower(s)) == Lower(s)
  {
  }

  /** Lower-casing distributes over concatenation. */
  lemma LowerAppend(a: string, b: string)
    ensures Lower(a + b) == Lower(a) + Lower(b)
  {
  }

  /** A lower-case text is its own lower case. */
  lemma LowerOfLower(s: string)
    requires forall i :: 0 <= i < |s| ==> !IsUpper(s[i])
    ensures Lower(s) == s
  {
  }

  /** The same, with the condition stated on the characters the text holds. */
  lemma LowerOfLowerChars(s: string)
    requires forall c :: c in s ==> !IsUpper(c)
    ensures Lower(s) == s
  {
    assert forall i :: 0 <= i < |s| ==> s[i] in s;
  }

  /** An occurrence of `p` in `s` gives an occurrence of `p`'s lower case in `s`'s. */
  lemma ContainsLower(s: string, p: string)
    requires Contains(s, p)
    ensures Contains(Lower(s), Lower(p))
  {
    var j := Find(s, p).value;
    assert Lower(s)[j..j + |p|] == Lower(p);
    assert OccursAt(Lower(s), Lower(p), j);
  }

  // ---------------------------------------------------------------------
  // Stripping

  /** Python's `s.lstrip()`. */
  function LStrip(s: string): (r: string)
    ensures EndsWith(s, r)
    ensures |r| > 0 ==> !IsSpace(r[0])
    ensures forall i :: 0 <= i < |s| - |r| ==> IsSpace(s[i])
  {
    if |s| > 0 && IsSpace(s[0]) then LStrip(s[1..]) else s
  }

  /** Python's `s.rstrip()`. */
  function RStrip(s: string): (r: string)
    ensures StartsWith(s, r)
    ensures |r| > 0 ==> !IsSpace(r[|r| - 1])
    ensures forall i :: |r| <= i < |s| ==> IsSpace(s[i])
  {
    if |s| > 0 && IsSpace(s[|s| - 1]) then RStrip(s[..|s| - 1]) else s
  }

  /** Python's `s.strip()`. */
  function Strip(s: string): (r: string)
    ensures |r| <= |s|
    ensures |r| > 0 ==> !IsSpace(r[0]) && !IsSpace(r[|r| - 1])
    ensures |r| == 0 <==> forall i :: 0 <= i < |s| ==> IsSpace(s[i])
  {
    StripEmptyIffSpace(s);
    RStrip(LStrip(s))
  }

  lemma StripEmptyIffSpace(s: string)
    ensures |RStrip(LStrip(s))| == 0 <==> forall i :: 0 <= i < |s| ==> IsSpace(s[i])
    ensures |RStrip(LStrip(s))| > 0 ==> RStrip(LStrip(s))[0] == LStrip(s)[0]
  {
  }

  /** A text without leading or trailing white space is its own strip. */
  lemma StripOfStripped(s: string)
    requires |s| > 0 ==> !IsSpace(s[0]) && !IsSpace(s[|s| - 1])
    ensures Strip(s) == s
  {
  }

  /** One blank on either side of a stripped text strips away. */
  lemma StripPadded(s: string)
    requires |s| > 0 && !IsSpace(s[0]) && !IsSpace(s[|s| - 1])
    ensures Strip(" " + s + " ") == s
  {
    var t := " " + s + " ";
    assert t[1..] == s + " ";
    assert LStrip(t) == s + " ";
    assert (s + " ")[..|s|] == s;
    assert RStrip(s + " ") == s;
  }

  /** Python's `s.rstrip(c)` for a single character `c`. */
  function RStripChar(s: string, c: char): (r: string)
    ensures StartsWith(s, r)
    ensures |r| > 0 ==> r[|r| - 1] != c
    ensures forall i :: |r| <= i < |s| ==> s[i] == c
  {
    if |s| > 0 && s[|s| - 1] == c then RStripChar(s[..|s| - 1], c) else s
  }

  /** Python's `s.lstrip(c)` for a single character `c`. */
  function LStripChar(s: string, c: char): (r: string)
    ensures EndsWith(s, r)
    ensures |r| > 0 ==> r[0] != c
    ensures forall i :: 0 <= i < |s| - |r| ==> s[i] == c
  {
    if |s| > 0 && s[0] == c then LStripChar(s[1..], c) else s
  }

  // ---------------------------------------------------------------------
  // Splitting, joining, replacing

  /** Python's `s.split(sep)` for a non-empty separator. */
  function Split(s: string, sep: string): (parts: seq<string>)
    requires |sep| > 0
    ensures |parts| >= 1
    ensures forall k :: 0 <= k < |parts| ==> !Contains(parts[k], sep)
    ensures |parts| == 1 <==> !Contains(s, sep)
    decreases |s|
  {
    match Find(s, sep)
    case None => [s]
    case Some(i) =>
      NoneBeforeFirst(s, sep, i);
      [s[..i]] + Split(s[i + |sep|..], sep)
  }

  /** The text before the leftmost occurrence of `p` does not contain `p`. */
  lemma NoneBeforeFirst(s: string, p: string, i: nat)
    requires |p| > 0 && Find(s, p) == Some(i)
    ensures !Contains(s[..i], p)
  {
    assert s[..i] == s[0..i];
    forall j ensures !OccursAt(s[..i], p, j) {
      if 0 <= j && j + |p| <= i {
        SubSlice(s, 0, i, j, |p|);
        assert !OccursAt(s, p, j);
      }
    }
  }

  /** Python's `sep.join(parts)`. */
  function Join(parts: seq<string>, sep: string): string {
    if |parts| == 0 then ""
    else if |parts| == 1 then parts[0]
    else parts[0] + sep + Join(parts[1..], sep)
  }

  /** Joining the pieces of a split with the same separator restores the text. */
  lemma JoinCons(head: string, tail: seq<string>, sep: string)
    requires |tail| > 0
    ensures Join([head] + tail, sep) == head + sep + Join(tail, sep)
  {
    assert ([head] + tail)[1..] == tail;
  }

  lemma SplitAt(s: string, sep: string, i: nat)
    requires |sep| > 0 && Find(s, sep) == Some(i)
    ensures i + |sep| <= |s|
    ensures Split(s, sep) == [s[..i]] + Split(s[i + |sep|..], sep)
    ensures s == s[..i] + sep + s[i + |sep|..]
  {
    assert OccursAt(s, sep, i);
    var a, b, c := s[..i], s[i..i + |sep|], s[i + |sep|..];
    assert b == sep;
    assert s == a + b + c;
    assert Split(s, sep) == [a] + Split(c, sep);
  }

  /** Joining the pieces of a split with the same separator restores the text. */
  lemma {:induction false} JoinSplit(s: string, sep: string)
    requires |sep| > 0
    ensures Join(Split(s, sep), sep) == s
    decreases |s|
  {
    match Find(s, sep)
    case None =>
    case Some(i) =>
      SplitAt(s, sep, i);
      var rest := s[i + |sep|..];
      JoinSplit(rest, sep);
      JoinCons(s[..i], Split(rest, sep), sep);
  }

  /** A character that is not in `s` does not occur in it as a one-character text. */
  lemma NoCharNoContains(s: string, c: char)
    requires c !in s
    ensures !Contains(s, [c])
  {
    forall j | 0 <= j < |s| ensures !OccursAt(s, [c], j) {
      assert s[j..j + 1][0] == s[j];
    }
  }

  /** In `a + [c] + b` with no `c` in `a`, the first `c` is the one after `a`. */
  lemma FirstCharAt(a: string, c: char, b: string)
    requires c !in a
    ensures Find(a + [c] + b, [c]) == Some(|a|)
  {
    var s := a + [c] + b;
    assert s[|a|..|a| + 1] == [c];
    assert OccursAt(s, [c], |a|);
    var v := Find(s, [c]).value;
    assert v <= |a|;
    assert s[v..v + 1][0] == s[v];
    assert v >= |a|;
  }

  /** Splitting at a one-character separator undoes joining pieces that do not hold it. */
  lemma {:induction false} SplitJoin(parts: seq<string>, c: char)
    requires |parts| >= 1 && forall k :: 0 <= k < |parts| ==> c !in parts[k]
    ensures Split(Join(parts, [c]), [c]) == parts
    decreases |parts|
  {
    if |parts| == 1 {
      NoCharNoContains(parts[0], c);
    } else {
      var a := parts[0];
      var rest := Join(parts[1..], [c]);
      var s := a + [c] + rest;
      assert Join(parts, [c]) == s;
      FirstCharAt(a, c, rest);
      SplitAt(s, [c], |a|);
      assert s[..|a|] == a;
      assert s[|a| + 1..] == rest;
      SplitJoin(parts[1..], c);
      assert parts == [a] + parts[1..];
    }
  }

  /** A character in neither the pieces nor the separator is not in their join. */
  lemma {:induction false} JoinAvoids(parts: seq<string>, sep: string, c: char)
    requires c !in sep && forall k :: 0 <= k < |parts| ==> c !in parts[k]
    ensures c !in Join(parts, sep)
    decreases |parts|
  {
    if |parts| > 1 {
      JoinAvoids(parts[1..], sep, c);
    }
  }

  /** The join starts with the first piece's first character. */
  lemma JoinFirst(parts: seq<string>, sep: string)
    requires |parts| >= 1 && |parts[0]| > 0
    ensures |Join(parts, sep)| > 0 && Join(parts, sep)[0] == parts[0][0]
  {
  }

  /** The join ends with the last piece's last character. */
  lemma {:induction false} JoinLast(parts: seq<string>, sep: string)
    requires |parts| >= 1 && |parts[|parts| - 1]| > 0
    ensures |Join(parts, sep)| > 0
    ensures Join(parts, sep)[|Join(parts, sep)| - 1] == parts[|parts| - 1][|parts[|parts| - 1]| - 1]
    decreases |parts|
  {
    if |parts| > 1 {
      JoinLast(parts[1..], sep);
    }
  }

  /** A text framed by `pre` and `post` starts with the one and ends with the other. */
  lemma Framed(pre: string, mid: string, post: string)
    ensures StartsWith(pre + mid + post, pre) && EndsWith(pre + mid + post, post)
  {
    var t := pre + mid + post;
    assert t[..|pre|] == pre;
    assert t[|t| - |post|..] == post;
  }

  /** Every piece occurs in the join. */
  lemma {:induction false} JoinContains(parts: seq<string>, sep: string, k: nat)
    requires k < |parts|
    ensures Contains(Join(parts, sep), parts[k])
    decreases k
  {
    if |parts| == 1 {
      ContainsPrefix(parts[0], parts[0]);
    } else if k == 0 {
      StartsWithAppend(parts[0], sep + Join(parts[1..], sep));
      assert Join(parts, sep) == parts[0] + (sep + Join(parts[1..], sep));
      ContainsPrefix(Join(parts, sep), parts[0]);
    } else {
      JoinContains(parts[1..], sep, k - 1);
      ContainsAppendRight(parts[0] + sep, Join(parts[1..], sep), parts[k]);
    }
  }

  /** Every piece occurs in the join, whatever stands before and after it. */
  lemma JoinWithinContains(pre: string, parts: seq<string>, sep: string, post: string)
    ensures forall k :: 0 <= k < |parts| ==> Contains(pre + Join(parts, sep) + post, parts[k])
  {
    forall k | 0 <= k < |parts| ensures Contains(pre + Join(parts, sep) + post, parts[k]) {
      JoinContains(parts, sep, k);
      ContainsAppendRight(pre, Join(parts, sep), parts[k]);
      ContainsAppendLeft(pre + Join(parts, sep), post, parts[k]);
    }
  }

  /** The first piece of a split: the text before the first `sep`, or all of it. */
  function SplitHead(s: string, sep: string): (r: string)
    requires |sep| > 0
    ensures StartsWith(s, r)
    ensures !Contains(r, sep)
    ensures Contains(s, sep) ==> OccursAt(s, sep, |r|)
    ensures !Contains(s, sep) ==> r == s
  {
    Split(s, sep)[0]
  }

  /** Cutting `h + tail` at `c` gives `h` when `h` has no `c` and `tail` is empty or starts with one. */
  lemma SplitHeadBefore(h: string, tail: string, c: char)
    requires c !in h && (tail == "" || tail[0] == c)
    ensures SplitHead(h + tail, [c]) == h
  {
    var s := h + tail;
    if tail == "" {
      assert s == h;
      NoCharNoContains(h, c);
    } else {
      assert s[|h|..|h| + 1] == [c];
      assert OccursAt(s, [c], |h|);
      forall j | 0 <= j < |h| ensures !OccursAt(s, [c], j) {
        assert s[j..j + 1][0] == h[j];
      }
    }
  }

  /**
   * In `pre + sep + rest`, the first `sep` is the one after `pre` when `pre`
   * followed by all of `sep` but its last character holds no `sep`.
   */
  lemma FirstAfter(pre: string, sep: string, rest: string)
    requires |sep| > 0 && !Contains(pre + sep[..|sep| - 1], sep)
    ensures Find(pre + sep + rest, sep) == Some(|pre|)
  {
    var s := pre + sep + rest;
    var t := pre + sep[..|sep| - 1];
    assert s[|pre|..|pre| + |sep|] == sep;
    assert OccursAt(s, sep, |pre|);
    var v := Find(s, sep).value;
    if v < |pre| {
      assert v + |sep| <= |t|;
      forall j | v <= j < v + |sep| ensures s[j] == t[j] {
        if j < |pre| {
          assert s[j] == pre[j] && t[j] == pre[j];
        } else {
          assert s[j] == sep[j - |pre|] && t[j] == sep[..|sep| - 1][j - |pre|];
        }
      }
      assert s[v..v + |sep|] == t[v..v + |sep|];
      assert OccursAt(t, sep, v);
    }
  }

  /** Python's `s.split(sep)[1]`: the text between the first and second `sep`. */
  function SecondPiece(s: string, sep: string): (r: string)
    requires |sep| > 0 && Contains(s, sep)
    ensures !Contains(r, sep)
  {
    Split(s, sep)[1]
  }

  /** Python's `s.split(sep)[-1]`: the text after the last `sep`. */
  function LastPiece(s: string, sep: string): (r: string)
    requires |sep| > 0
    ensures !Contains(r, sep)
    ensures EndsWith(s, r)
    decreases |s|
  {
    match Find(s, sep)
    case None => s
    case Some(i) => LastPiece(s[i + |sep|..], sep)
  }

  /** The piece after the last separator character is what follows its last occurrence. */
  lemma {:induction false} LastPieceAfter(s: string, c: char, b: string)
    requires EndsWith(s, [c] + b) && c !in b
    ensures LastPiece(s, [c]) == b
    decreases |s|
  {
    var k := |s| - |b| - 1;
    assert s[k..] == [c] + b;
    assert s[k] == c;
    assert OccursAt(s, [c], k);
    var i := Find(s, [c]).value;
    assert i <= k;
    var rest := s[i + 1..];
    if i == k {
      assert rest == s[k..][1..];
      assert ([c] + b)[1..] == b;
      forall j | 0 <= j < |b| ensures !OccursAt(b, [c], j) {
        assert b[j..j + 1][0] == b[j];
      }
    } else {
      assert |rest| - |b| - 1 == k - i - 1;
      assert rest[|rest| - |b| - 1..] == s[k..];
      assert EndsWith(rest, [c] + b);
      LastPieceAfter(rest, c, b);
    }
  }

  /** A text without `c` holds no two-character text starting with `c`. */
  lemma NoPairIn(b: string, c: char, d: char)
    requires c !in b
    ensures !Contains(b, [c, d])
  {
    forall j | 0 <= j && j + 2 <= |b| ensures !OccursAt(b, [c, d], j) {
      assert b[j..j + 2][0] == b[j];
    }
  }

  /** The same for a separator of two different characters, such as "/@". */
  lemma {:induction false} LastPieceAfterPair(s: string, c: char, d: char, b: string)
    requires c != d && EndsWith(s, [c, d] + b) && !Contains(b, [c, d])
    ensures LastPiece(s, [c, d]) == b
    decreases |s|
  {
    var k := |s| - |b| - 2;
    assert s[k..k + 2] == [c, d] by {
      assert s[k..] == [c, d] + b;
      assert s[k..k + 2] == s[k..][..2];
      assert ([c, d] + b)[..2] == [c, d];
    }
    assert OccursAt(s, [c, d], k);
    var i := Find(s, [c, d]).value;
    if i == k {
      assert s[k..] == [c, d] + b;
      assert s[i + 2..] == s[k..][2..];
      assert ([c, d] + b)[2..] == b;
    } else {
      assert i + 2 <= k by {
        assert s[i..i + 2][1] == s[i + 1];
        assert s[k..k + 2][0] == s[k];
      }
      var rest := s[i + 2..];
      assert rest[|rest| - |b| - 2..] == s[k..];
      LastPieceAfterPair(rest, c, d, b);
    }
  }

  /** The second piece of `a + sep + b`, when the first `sep` is the one after `a` and `b` has none. */
  lemma SecondPieceOf(a: string, sep: string, b: string)
    requires |sep| > 0 && Find(a + sep + b, sep) == Some(|a|) && !Contains(b, sep)
    ensures SecondPiece(a + sep + b, sep) == b
  {
    var s := a + sep + b;
    SplitAt(s, sep, |a|);
    assert s[|a| + |sep|..] == b;
  }

  /** Python's `s.replace(pat, rep)` for a non-empty `pat`. */
  function Replace(s: string, pat: string, rep: string): string
    requires |pat| > 0
  {
    Join(Split(s, pat), rep)
  }

  /** Removing a unit letter that occurs only at the end leaves the text before it. */
  lemma ReplaceTrailing(s: string, c: char)
    requires forall i :: 0 <= i < |s| ==> s[i] != c
    ensures Contains(s + [c], [c])
    ensures Replace(s + [c], [c], "") == s
  {
    var t := s + [c];
    assert OccursAt(t, [c], |s|);
    assert forall j :: 0 <= j < |s| ==> !OccursAt(t, [c], j) by {
      forall j | 0 <= j < |s| ensures !OccursAt(t, [c], j) {
        assert t[j..j + 1][0] == s[j];
      }
    }
    assert Find(t, [c]) == Some(|s|);
    SplitAt(t, [c], |s|);
    assert t[..|s|] == s;
    assert t[|s| + 1..] == "";
    assert Split("", [c]) == [""];
    assert Split(t, [c]) == [s, ""];
    assert [s, ""][1..] == [""];
    assert Join([s, ""], "") == s + "" + "";
  }

  /** Replacing one character by another, position by position. */
  function ReplaceChar(s: string, c: char, d: char): (r: string)
    ensures |r| == |s|
    ensures forall i :: 0 <= i < |s| ==> r[i] == (if s[i] == c then d else s[i])
  {
    seq(|s|, i requires 0 <= i < |s| => if s[i] == c then d else s[i])
  }

  /** Python's `s[:n]`, including the negative `n` that counts from the end. */
  function PyPrefix<T>(s: seq<T>, n: int): (r: seq<T>)
    ensures |r| <= |s|
    ensures n >= 0 ==> |r| == if n < |s| then n else |s|
    ensures r == s[..|r|]
  {
    if n >= 0 then (if n < |s| then s[..n] else s)
    else if -n < |s| then s[..|s| + n] else []
  }

  // ---------------------------------------------------------------------
  // Integers as decimal text

  function DigitChar(d: nat): char
    requires d < 10
  {
    ('0' as int + d) as char
  }

  function DigitValue(c: char): nat
    requires IsDigit(c)
  {
    c as int - '0' as int
  }

  predicate AllDigits(s: string) {
    forall i :: 0 <= i < |s| ==> IsDigit(s[i])
  }

  /** The value of a run of decimal digits. */
  function DigitsValue(s: string): nat
    requires AllDigits(s)
  {
    if |s| == 0 then 0 else DigitsValue(s[..|s| - 1]) * 10 + DigitValue(s[|s| - 1])
  }

  /** Python's `str(n)` for a natural number. */
  function NatToString(n: nat): (r: string)
    ensures |r| > 0 && AllDigits(r)
    ensures |r| > 1 ==> r[0] != '0'
  {
    if n < 10 then [DigitChar(n)] else NatToString(n / 10) + [DigitChar(n % 10)]
  }

  /** Python's `str(i)` for an integer. */
  function IntToString(i: int): string {
    if i < 0 then "-" + NatToString(-i) else NatToString(i)
  }

  lemma {:induction false} DigitsValueOfNat(n: nat)
    ensures DigitsValue(NatToString(n)) == n
  {
    if n >= 10 {
      DigitsValueOfNat(n / 10);
      var s := NatToString(n);
      assert s[..|s| - 1] == NatToString(n / 10);
    }
  }

  /** Python's default limit on the digits `int()` and `str()` convert (`sys.get_int_max_str_digits()`). */
  const MaxIntDigits := 4300

  /**
   * Decimal digits where single underscores may stand between two digits,
   * as `int()` accepts them: a digit, then (after at most one underscore)
   * the rest of the numeral.
   */
  predicate Numeral(s: string)
    decreases |s|
  {
    |s| > 0 && IsDigit(s[0])
    && (|s| == 1 || if s[1] == '_' then Numeral(s[2..]) else Numeral(s[1..]))
  }

  /** The text without its underscores. */
  function DropUnderscores(s: string): (r: string)
    ensures |r| <= |s|
    ensures '_' !in r
  {
    if |s| == 0 then [] else (if s[0] == '_' then [] else [s[0]]) + DropUnderscores(s[1..])
  }

  lemma AllDigitsCons(c: char, t: string)
    requires IsDigit(c) && AllDigits(t)
    ensures AllDigits([c] + t)
  {
    assert forall i :: 0 < i < |[c] + t| ==> ([c] + t)[i] == t[i - 1];
  }

  /** A numeral ends in a digit, and without its underscores it is a non-empty run of digits. */
  lemma {:induction false} NumeralDigits(s: string)
    requires Numeral(s)
    ensures IsDigit(s[|s| - 1])
    ensures |DropUnderscores(s)| > 0 && AllDigits(DropUnderscores(s))
    decreases |s|
  {
    if |s| > 1 {
      var rest := if s[1] == '_' then s[2..] else s[1..];
      NumeralDigits(rest);
      assert s[|s| - 1] == rest[|rest| - 1];
      if s[1] == '_' {
        assert s[1..][1..] == s[2..];
        assert DropUnderscores(s[1..]) == DropUnderscores(s[2..]);
      }
      assert DropUnderscores(s) == [s[0]] + DropUnderscores(rest);
      AllDigitsCons(s[0], DropUnderscores(rest));
    }
  }

  /** A non-empty run of digits is a numeral with no underscore to drop. */
  lemma {:induction false} DigitsAreNumeral(s: string)
    requires |s| > 0 && AllDigits(s)
    ensures Numeral(s) && DropUnderscores(s) == s
    decreases |s|
  {
    assert IsDigit(s[0]);
    if |s| > 1 {
      assert AllDigits(s[1..]) by {
        assert forall i :: 0 <= i < |s[1..]| ==> s[1..][i] == s[i + 1];
      }
      DigitsAreNumeral(s[1..]);
      assert s[1] == s[1..][0];
      assert [s[0]] + s[1..] == s;
    }
  }

  /** The text after an optional leading sign. */
  function Unsigned(t: string): string {
    if |t| > 0 && (t[0] == '-' || t[0] == '+') then t[1..] else t
  }

  /** The value of a numeral of at most 4300 digits; None for anything else. */
  function NumeralValue(body: string): (r: Option<nat>)
    ensures r.Some? <==> Numeral(body) && |DropUnderscores(body)| <= MaxIntDigits
  {
    if Numeral(body) && |DropUnderscores(body)| <= MaxIntDigits then
      NumeralDigits(body);
      Some(DigitsValue(DropUnderscores(body)))
    else None
  }

  /**
   * Python's `int(s)` on text (base 10): surrounding white space, an
   * optional sign, then digits with single underscores allowed between
   * them. None stands for the `ValueError` raised on anything else, and on
   * more digits than Python's conversion limit.
   */
  function ParseInt(s: string): (r: Option<int>)
    ensures r.Some? <==> Numeral(Unsigned(Strip(s))) && |DropUnderscores(Unsigned(Strip(s)))| <= MaxIntDigits
    ensures r.Some? && r.value < 0 ==> Strip(s)[0] == '-'
  {
    var t := Strip(s);
    match NumeralValue(Unsigned(t))
    case None => None
    case Some(n) => Some(if |t| > 0 && t[0] == '-' then -(n as int) else n)
  }

  /** A plain run of digits reads as its value, up to 4300 digits, and raises beyond. */
  lemma ParseDigits(s: string)
    requires 0 < |s| && AllDigits(s)
    ensures |s| <= MaxIntDigits ==> ParseInt(s) == Some(DigitsValue(s) as int)
    ensures |s| > MaxIntDigits ==> ParseInt(s).None?
  {
    assert IsDigit(s[0]) && IsDigit(s[|s| - 1]);
    DigitsAreNumeral(s);
    SignedIsStripped(s, "", s);
  }

  /** An integer of at most 4300 digits, the most `str()` and `int()` convert. */
  predicate WithinDigitLimit(i: int) {
    |NatToString(if i < 0 then -i else i)| <= MaxIntDigits
  }

  /** `int(str(i)) == i`, for every integer whose text `str` itself can produce. */
  lemma IntRoundTrip(i: int)
    requires WithinDigitLimit(i)
    ensures ParseInt(IntToString(i)) == Some(i)
  {
    if i < 0 {
      var d := NatToString(-i);
      assert IntToString(i) == "-" + d;
      DigitsValueOfNat(-i);
      ParseNegativeDigits(d);
    } else {
      var d := NatToString(i);
      assert IntToString(i) == d;
      DigitsValueOfNat(i);
      ParseDigits(d);
    }
  }

  /** A minus sign before a run of digits negates its value. */
  lemma ParseNegativeDigits(d: string)
    requires 0 < |d| <= MaxIntDigits && AllDigits(d)
    ensures ParseInt("-" + d) == Some(-(DigitsValue(d) as int))
  {
    DigitsAreNumeral(d);
    ParseSigned("-" + d, ['-'], d);
  }

  /** Unsigned text with a digit at both ends reads as its numeral's value. */
  lemma ParseUnsigned(s: string)
    requires |s| > 0 && IsDigit(s[0]) && IsDigit(s[|s| - 1])
    ensures ParseInt(s) == (if NumeralValue(s).Some? then Some(NumeralValue(s).value as int) else None)
  {
    SignedIsStripped(s, [], s);
  }

  /** A sign: nothing, '-' or '+'. */
  predicate Sign(sign: string) {
    |sign| <= 1 && (|sign| == 1 ==> sign[0] == '-' || sign[0] == '+')
  }

  /** Text that is a sign and a numeral within the limit reads as that numeral's value, negated after '-'. */
  lemma ParseSigned(s: string, sign: string, d: string)
    requires Sign(sign) && s == sign + d && Numeral(d) && |DropUnderscores(d)| <= MaxIntDigits
    ensures NumeralValue(d).Some?
    ensures ParseInt(s) == Some(if |sign| == 1 && sign[0] == '-' then -(NumeralValue(d).value as int) else NumeralValue(d).value as int)
  {
    NumeralDigits(d);
    SignedIsStripped(s, sign, d);
  }

  /** A sign before a numeral: the text is its own strip, and dropping the sign leaves the numeral. */
  lemma SignedIsStripped(s: string, sign: string, d: string)
    requires Sign(sign) && s == sign + d && |d| > 0 && IsDigit(d[0]) && IsDigit(d[|d| - 1])
    ensures Strip(s) == s && Unsigned(s) == d
    ensures |s| > 0 && (s[0] == '-' <==> |sign| == 1 && sign[0] == '-')
  {
    assert !IsSpace(s[0]) && !IsSpace(s[|s| - 1]) by {
      assert s[|s| - 1] == d[|d| - 1];
      if |sign| == 0 {
        assert s[0] == d[0];
      } else {
        assert s[0] == sign[0];
      }
    }
    StripOfStripped(s);
    if |sign| == 1 {
      assert s[1..] == d;
    } else {
      assert s == d;
    }
  }

  /** A digit before a numeral extends it. */
  lemma NumeralCons(c: char, t: string)
    requires IsDigit(c) && Numeral(t)
    ensures Numeral([c] + t) && DropUnderscores([c] + t) == [c] + DropUnderscores(t)
  {
    var u := [c] + t;
    assert u[0] == c && u[1] == t[0] && u[1..] == t;
  }

  /** A digit and an underscore before a numeral extend it. */
  lemma NumeralUnderscore(c: char, t: string)
    requires IsDigit(c) && Numeral(t)
    ensures Numeral([c, '_'] + t) && DropUnderscores([c, '_'] + t) == [c] + DropUnderscores(t)
  {
    var u := [c, '_'] + t;
    assert u[0] == c && u[1] == '_' && u[2..] == t;
    assert u[1..] == ['_'] + t && (['_'] + t)[1..] == t;
  }

  /** Two runs of digits joined by one underscore make a numeral whose digits are the two runs. */
  lemma {:induction false} JoinedNumeral(a: string, b: string)
    requires 0 < |a| && 0 < |b| && AllDigits(a) && AllDigits(b)
    ensures Numeral(a + "_" + b) && DropUnderscores(a + "_" + b) == a + b
    decreases |a|
  {
    DigitsAreNumeral(b);
    assert IsDigit(a[0]);
    if |a| == 1 {
      assert a + "_" + b == [a[0], '_'] + b;
      NumeralUnderscore(a[0], b);
      assert a + b == [a[0]] + b;
    } else {
      assert AllDigits(a[1..]) by {
        assert forall i :: 0 <= i < |a[1..]| ==> a[1..][i] == a[i + 1];
      }
      JoinedNumeral(a[1..], b);
      HeadSplit(a, "_", b);
      NumeralCons(a[0], a[1..] + "_" + b);
    }
  }

  lemma HeadSplit(a: string, m: string, b: string)
    requires |a| > 0
    ensures a + m + b == [a[0]] + (a[1..] + m + b)
    ensures a + b == [a[0]] + (a[1..] + b)
  {
    assert a == [a[0]] + a[1..];
  }

  /** An underscore between two runs of digits is ignored: `int("1_000") == int("1000")`. */
  lemma UnderscoreIgnored(a: string, b: string)
    requires 0 < |a| && 0 < |b| && AllDigits(a) && AllDigits(b)
    ensures ParseInt(a + "_" + b) == ParseInt(a + b)
  {
    var u, v := a + "_" + b, a + b;
    JoinedNumeral(a, b);
    assert AllDigits(v) by {
      assert forall i :: 0 <= i < |a| ==> v[i] == a[i];
      assert forall i :: |a| <= i < |v| ==> v[i] == b[i - |a|];
    }
    DigitsAreNumeral(v);
    assert NumeralValue(u) == NumeralValue(v);
    assert u[0] == a[0] && u[|u| - 1] == b[|b| - 1] && v[0] == a[0] && v[|v| - 1] == b[|b| - 1];
    ParseUnsigned(u);
    ParseUnsigned(v);
  }

  /** `int("1_000") == 1000`. */
  lemma UnderscoreExample()
    ensures ParseInt("1_000") == Some(1000)
  {
    ThousandTexts();
    assert ParseInt("1_000") == ParseInt("1000") by {
      UnderscoreIgnored("1", "000");
    }
    assert ParseInt("1000") == Some(1000) by {
      ParseDigits("1000");
      DigitsThousand();
    }
  }

  lemma ThousandTexts()
    ensures "1" + "_" + "000" == "1_000" && "1" + "000" == "1000"
    ensures AllDigits("1") && AllDigits("000") && AllDigits("1000")
  {
    var u, v := "1" + "_" + "000", "1" + "000";
    assert |u| == 5 && u[0] == '1' && u[1] == '_' && u[2] == '0' && u[3] == '0' && u[4] == '0';
    assert |v| == 4 && v[0] == '1' && v[1] == '0' && v[2] == '0' && v[3] == '0';
    forall i | 0 <= i < 4 ensures IsDigit("1000"[i]) {
      assert i == 0 || i == 1 || i == 2 || i == 3;
    }
    forall i | 0 <= i < 3 ensures IsDigit("000"[i]) {
      assert i == 0 || i == 1 || i == 2;
    }
  }

  lemma DigitsThousand()
    ensures DigitsValue("1000") == 1000
  {
    assert "1"[..0] == "";
    assert DigitsValue("1") == 1;
    assert "10"[..1] == "1";
    assert DigitsValue("10") == 10;
    assert "100"[..2] == "10";
    assert DigitsValue("100") == 100;
    assert "1000"[..3] == "100";
  }

  /** A doubled underscore is refused: `int("1__0")` raises. */
  lemma DoubledUnderscoreRefused()
    ensures ParseInt("1__0") == None
  {
    assert !Numeral("1__0") by {
      assert "1__0"[1] == '_' && "1__0"[2..] == "_0";
      assert !IsDigit("_0"[0]);
    }
    ParseUnsigned("1__0");
  }

  /** A trailing underscore is refused: `int("10_")` raises. */
  lemma TrailingUnderscoreRefused()
    ensures ParseInt("10_") == None
  {
    StripOfStripped("10_");
    assert Unsigned("10_") == "10_";
    assert !Numeral("10_") by {
      assert "10_"[1] == '0' && "10_"[1..] == "0_";
      assert "0_"[1] == '_' && "0_"[2..] == "";
    }
  }

  /** The value of zero-padded digits does not depend on the padding. */
  function PadLeft(s: string, width: nat): (r: string)
    ensures |r| == if |s| < width then width else |s|
    ensures EndsWith(r, s)
    ensures forall i :: 0 <= i < |r| - |s| ==> r[i] == '0'
  {
    if |s| < width then seq(width - |s|, _ => '0') + s else s
  }

  // ---------------------------------------------------------------------
  // Python's ordering of `str` (code-point lexicographic)

  predicate LexLess(a: string, b: string)
    decreases |a|
  {
    |b| > 0 && (|a| == 0 || a[0] < b[0] || (a[0] == b[0] && LexLess(a[1..], b[1..])))
  }

  lemma {:induction false} LexLessIrreflexive(a: string)
    ensures !LexLess(a, a)
    decreases |a|
  {
    if |a| > 0 { LexLessIrreflexive(a[1..]); }
  }

  lemma {:induction false} LexLessAsymmetric(a: string, b: string)
    requires LexLess(a, b)
    ensures !LexLess(b, a)
    decreases |a|
  {
    if |a| > 0 && a[0] == b[0] {
      LexLessAsymmetric(a[1..], b[1..]);
    }
  }

  lemma {:induction false} LexLessTransitive(a: string, b: string, c: string)
    requires LexLess(a, b) && LexLess(b, c)
    ensures LexLess(a, c)
    decreases |a|
  {
    if |a| > 0 && a[0] == b[0] && b[0] == c[0] {
      LexLessTransitive(a[1..], b[1..], c[1..]);
    }
  }

  lemma {:induction false} LexLessTotal(a: string, b: string)
    requires a != b
    ensures LexLess(a, b) || LexLess(b, a)
    decreases |a|
  {
    if |a| > 0 && |b| > 0 && a[0] == b[0] {
      LexLessTotal(a[1..], b[1..]);
    }
  }

  // ---------------------------------------------------------------------
  // Sequences

  /** Python's `s.index(x)`, with None for the ValueError of a missing element. */
  function IndexOf<T(==)>(s: seq<T>, x: T): (r: Option<nat>)
    ensures r.None? <==> x !in s
    ensures r.Some? ==> r.value < |s| && s[r.value] == x && forall j :: 0 <= j < r.value ==> s[j] != x
  {
    if |s| == 0 then None
    else if s[0] == x then Some(0)
    else match IndexOf(s[1..], x)
      case None => None
      case Some(k) => Some(k + 1)
  }

  /** Python's `s[i]`, where a negative `i` counts from the end. */
  function PyAt<T>(s: seq<T>, i: int): T
    requires -|s| <= i < |s|
  {
    if i >= 0 then s[i] else s[|s| + i]
  }

  /** No element occurs twice. */
  predicate Distinct<T(==)>(s: seq<T>) {
    forall i, j :: 0 <= i < j < |s| ==> s[i] != s[j]
  }

  lemma DistinctAppend<T>(s: seq<T>, x: T)
    requires Distinct(s) && x !in s
    ensures Distinct(s + [x])
  {
  }

  lemma DistinctPrefix<T>(s: seq<T>, n: nat)
    requires Distinct(s) && n <= |s|
    ensures Distinct(s[..n])
  {
  }

  // ---------------------------------------------------------------------
  // Paths

  /** `os.path.join(base, part)` for a relative `part`. */
  function JoinPath(base: string, part: string): (r: string)
    ensures EndsWith(r, part)
    ensures StartsWith(r, base)
  {
    StartsWithAppend(base, part);
    StartsWithAppend(base, "/" + part);
    assert (base + part)[|base + part| - |part|..] == part;
    assert (base + "/" + part)[|base + "/" + part| - |part|..] == part;
    assert base + "/" + part == base + ("/" + part);
    if base == "" || EndsWith(base, "/") then base + part else base + "/" + part
  }
}

=== FILE: urls.dfy ===
/**
 * The network-location part of `urllib.parse.urlsplit` (and so of
 * `urlparse`), which the site detector and the folder organiser read.
 *
 * CPython first drops leading C0 controls and spaces, then deletes every
 * tab, carriage return and line feed, then takes off a scheme when the text
 * before the first ':' is a valid scheme name, and finally reads the
 * network location after a leading "//" up to the first '/', '?' or '#'.
 * A location with only one of '[' and ']' raises ValueError, and so does
 * one with both whose bracketed host is neither an IPv6 address nor an
 * IPvFuture literal (`_check_bracketed_netloc`, as in the later CPython
 * 3.12 releases).
 */
module Urls {
  import opened Wrappers
  import opened Text

  /** WHATWG "C0 control or space": U+0000 to U+0020. */
  predicate IsC0OrSpace(c: char) {
    c <= ' '
  }

  /** Characters `urlsplit` deletes wherever they occur. */
  predicate IsUnsafe(c: char) {
    c == '\t' || c == '\r' || c == '\n'
  }

  /** Characters that end the network location. */
  predicate EndsNetloc(c: char) {
    c == '/' || c == '?' || c == '#'
  }

  /** `url.lstrip(_WHATWG_C0_CONTROL_OR_SPACE)`. */
  function LStripControls(s: string): (r: string)
    ensures EndsWith(s, r)
    ensures |r| > 0 ==> !IsC0OrSpace(r[0])
    ensures forall i :: 0 <= i < |s| - |r| ==> IsC0OrSpace(s[i])
  {
    if |s| > 0 && IsC0OrSpace(s[0]) then
      var r := LStripControls(s[1..]);
      assert s[|s| - |r|..] == s[1..][|s[1..]| - |r|..];
      r
    else s
  }

  /** Deleting every tab, carriage return and line feed. */
  function RemoveUnsafe(s: string): (r: string)
    ensures |r| <= |s|
    ensures forall i :: 0 <= i < |r| ==> !IsUnsafe(r[i])
    ensures (forall i :: 0 <= i < |s| ==> !IsUnsafe(s[i])) ==> r == s
  {
    if |s| == 0 then ""
    else if IsUnsafe(s[0]) then RemoveUnsafe(s[1..])
    else [s[0]] + RemoveUnsafe(s[1..])
  }

  predicate IsSchemeChar(c: char) {
    IsAlpha(c) || IsDigit(c) || c == '+' || c == '-' || c == '.'
  }

  /** A scheme name: an ASCII letter followed by letters, digits, '+', '-' or '.'. */
  predicate IsScheme(s: string) {
    |s| > 0 && IsAlpha(s[0]) && forall i :: 0 <= i < |s| ==> IsSchemeChar(s[i])
  }

  /** What follows the scheme and its ':', or the whole text when it has no scheme. */
  function AfterScheme(u: string): (r: string)
    ensures EndsWith(u, r)
  {
    match Find(u, ":")
    case Some(i) =>
      if i > 0 && IsScheme(u[..i]) then u[i + 1..] else u
    case None => u
  }

  /** The first index at or after `from` holding '/', '?' or '#', or the length. */
  function NetlocEnd(u: string, from: nat): (r: nat)
    requires from <= |u|
    ensures from <= r <= |u|
    ensures forall i :: from <= i < r ==> !EndsNetloc(u[i])
    ensures r < |u| ==> EndsNetloc(u[r])
    decreases |u| - from
  {
    if from == |u| || EndsNetloc(u[from]) then from else NetlocEnd(u, from + 1)
  }

  /** The network location `urlsplit` cuts out, before its checks: empty without a leading "//". */
  function RawNetloc(url: string): (r: string)
    ensures forall i :: 0 <= i < |r| ==> !EndsNetloc(r[i]) && !IsUnsafe(r[i])
  {
    var clean := RemoveUnsafe(LStripControls(url));
    var rest := AfterScheme(clean);
    if StartsWith(rest, "//") then
      var e := NetlocEnd(rest, 2);
      AfterSchemeClean(clean);
      SliceClean(rest, 2, e);
      rest[2..e]
    else ""
  }

  const InvalidIPv6 := "Invalid IPv6 URL"

  /**
   * The checks `urlsplit` makes of a network location: only one of '[' and
   * ']' is an invalid IPv6 address, and with both the bracketed host must
   * pass `_check_bracketed_netloc`. None when the location passes.
   */
  function NetlocError(n: string): (r: Option<string>)
    ensures Contains(n, "[") != Contains(n, "]") ==> r == Some(InvalidIPv6)
    ensures !Contains(n, "[") && !Contains(n, "]") ==> r.None?
    ensures Contains(n, "[") && Contains(n, "]") ==> r == BracketedNetlocError(n)
  {
    if Contains(n, "[") != Contains(n, "]") then Some(InvalidIPv6)
    else if Contains(n, "[") then BracketedNetlocError(n)
    else None
  }

  /** `urlsplit(url).netloc`, or the ValueError its checks raise. */
  function Netloc(url: string): (r: Outcome<string>)
    ensures r.Done? <==> NetlocError(RawNetloc(url)).None?
    ensures r.Done? ==> r.value == RawNetloc(url)
    ensures r.Done? ==> forall i :: 0 <= i < |r.value| ==> !EndsNetloc(r.value[i]) && !IsUnsafe(r.value[i])
    ensures r.Done? ==> (Contains(r.value, "[") <==> Contains(r.value, "]"))
  {
    var n := RawNetloc(url);
    match NetlocError(n)
    case Some(e) => Raised("ValueError: " + e)
    case None => Done(n)
  }

  // ---------------------------------------------------------------------
  // Bracketed hosts: `_check_bracketed_netloc` and `_check_bracketed_host`

  /**
   * `_check_bracketed_netloc`: after the last '@', a '[' must open the
   * text, and what follows the first ']' must be empty or start with ':';
   * the host so found (between the brackets, or before the first ':' when
   * there is no '[') must pass `_check_bracketed_host`.
   */
  function BracketedNetlocError(netloc: string): Option<string> {
    HostPortError(LastPiece(netloc, "@"))
  }

  /** `_check_bracketed_netloc` on the text after the last '@'. */
  function HostPortError(hostPort: string): Option<string> {
    if Contains(hostPort, "[") then OpenBracketError(hostPort)
    else BracketedHostError(SplitHead(hostPort, ":"))
  }

  /**
   * Nothing may stand before the first '[': `partition('[')` leaves an empty
   * head exactly when the text starts with '[' (`OpenBracketFirst`).
   */
  function OpenBracketError(hostPort: string): Option<string> {
    if !StartsWith(hostPort, "[") then Some(InvalidIPv6)
    else AfterBracketError(hostPort[1..])
  }

  /** With a '[' present, the text before the first one is empty exactly when the text starts with '['. */
  lemma OpenBracketFirst(hostPort: string)
    requires Contains(hostPort, "[")
    ensures SplitHead(hostPort, "[") == "" <==> StartsWith(hostPort, "[")
  {
  }

  /** Only a ":port" may follow the ']'. */
  function AfterBracketError(bracketed: string): Option<string> {
    var hostname := SplitHead(bracketed, "]");
    var port := if Contains(bracketed, "]") then bracketed[|hostname| + 1..] else "";
    if port != "" && !StartsWith(port, ":") then Some(InvalidIPv6)
    else BracketedHostError(hostname)
  }

  /**
   * `_check_bracketed_host`: a host starting with 'v' must be an IPvFuture
   * literal; any other must be what `ipaddress.ip_address` reads as an IPv6
   * address (an IPv4 address is refused).
   */
  function BracketedHostError(h: string): (r: Option<string>)
    ensures r.None? <==> (if StartsWith(h, "v") then IPvFuture(h) else !IPv4(h) && IPv6(h))
  {
    if StartsWith(h, "v") then
      if IPvFuture(h) then None else Some("IPvFuture address is invalid")
    else if IPv4(h) then Some("An IPv4 address cannot be in brackets")
    else if IPv6(h) then None
    else Some("does not appear to be an IPv4 or IPv6 address")
  }

  predicate IsHexDigit(c: char) {
    IsDigit(c) || 'a' <= c <= 'f' || 'A' <= c <= 'F'
  }

  /** The first index at or after `i` that holds no hexadecimal digit, or the length. */
  function HexEnd(h: string, i: nat): (r: nat)
    requires i <= |h|
    ensures i <= r <= |h|
    ensures forall k :: i <= k < r ==> IsHexDigit(h[k])
    ensures r < |h| ==> !IsHexDigit(h[r])
    decreases |h| - i
  {
    if i == |h| || !IsHexDigit(h[i]) then i else HexEnd(h, i + 1)
  }

  /** The pattern `\Av[a-fA-F0-9]+\..+\Z`: 'v', hexadecimal digits, '.', then at least one character. */
  predicate IPvFuture(h: string) {
    |h| > 0 && h[0] == 'v'
    && var k := HexEnd(h, 1);
       1 < k < |h| - 1 && h[k] == '.' && '\n' !in h[k + 1..]
  }

  /** `IPv4Address._parse_octet`: one to three ASCII digits, no leading zero, at most 255. */
  predicate Octet(s: string) {
    0 < |s| <= 3 && AllDigits(s) && (s == "0" || s[0] != '0') && DigitsValue(s) <= 255
  }

  /** `IPv4Address(s)` accepts the text: no '/', and four octets between dots. */
  predicate IPv4(s: string) {
    !Contains(s, "/") && s != ""
    && var octets := Split(s, ".");
       |octets| == 4 && forall k :: 0 <= k < 4 ==> Octet(octets[k])
  }

  /** `IPv6Address._parse_hextet`: one to four hexadecimal digits. */
  predicate Hextet(s: string) {
    0 < |s| <= 4 && forall i :: 0 <= i < |s| ==> IsHexDigit(s[i])
  }

  /** The interior positions, from `i` on, whose part is empty: where a "::" stands. */
  function GapsFrom(parts: seq<string>, i: nat): (r: seq<nat>)
    ensures forall k :: 0 <= k < |r| ==> i <= r[k] < |parts| - 1 && parts[r[k]] == ""
    ensures |r| == 0 <==> forall k :: i <= k < |parts| - 1 ==> parts[k] != ""
    decreases |parts| - i
  {
    if i >= |parts| - 1 then []
    else (if parts[i] == "" then [i] else []) + GapsFrom(parts, i + 1)
  }

  /**
   * The arrangement of parts `_ip_int_from_string` accepts: without a "::",
   * exactly eight hextets; with one "::" (at most one), an empty first or
   * last part only as part of it, fewer than eight hextets around it, and
   * every part before and after it a hextet.
   */
  predicate HextetLayout(parts: seq<string>)
    requires |parts| >= 3
  {
    var gaps := GapsFrom(parts, 1);
    var n := |parts|;
    if |gaps| == 0 then
      n == 8 && forall k :: 0 <= k < n ==> Hextet(parts[k])
    else if |gaps| == 1 then
      var skip := gaps[0];
      var hi := if parts[0] == "" then skip - 1 else skip;
      var lo := if parts[n - 1] == "" then n - skip - 2 else n - skip - 1;
      hi + lo < 8
      && (parts[0] == "" ==> hi == 0) && (parts[n - 1] == "" ==> lo == 0)
      && (forall k :: 0 <= k < hi ==> Hextet(parts[k]))
      && (forall k :: n - lo <= k < n ==> Hextet(parts[k]))
    else false
  }

  /**
   * `_ip_int_from_string` accepts the address (its scope already split
   * off): at least three parts between colons, a dotted last part an IPv4
   * address that counts as two hextets, at most nine parts, and the layout
   * above. The two hextets an IPv4 part becomes are always valid, so "0"
   * and "0" stand for them.
   */
  predicate IPv6Body(a: string) {
    var parts := Split(a, ":");
    a != "" && |parts| >= 3
    && if Contains(parts[|parts| - 1], ".") then
         IPv4(parts[|parts| - 1]) && |parts| + 1 <= 9 && HextetLayout(parts[..|parts| - 1] + ["0", "0"])
       else
         |parts| <= 9 && HextetLayout(parts)
  }

  /** `IPv6Address(h)` accepts the text: no '/', a non-empty scope without '%' after the first '%', and a valid address before it. */
  predicate IPv6(h: string) {
    !Contains(h, "/")
    && var addr := SplitHead(h, "%");
       (Contains(h, "%") ==> var scope := h[|addr| + 1..]; scope != "" && !Contains(scope, "%"))
       && IPv6Body(addr)
  }

  /** Text without '.' is no IPv4 address, and is no IPv6 address unless it has a ':'. */
  lemma NoDotNoIPv4(h: string)
    requires '.' !in h
    ensures !IPv4(h)
  {
    NoCharNoContains(h, '.');
  }

  /** A bracketed host with no ':' that does not start with 'v' is refused: names and IPv4 addresses alike. */
  lemma NoColonRefused(h: string)
    requires !StartsWith(h, "v") && !Contains(h, ":")
    ensures BracketedHostError(h).Some?
  {
    var addr := SplitHead(h, "%");
    NoneInPrefix(h, addr, ":");
  }

  /** Hextets hold no ':', '.', '%' or '/', and do not start with 'v'. */
  lemma HextetChars(hs: seq<string>, c: char)
    requires forall k :: 0 <= k < |hs| ==> Hextet(hs[k])
    requires c == ':' || c == '.' || c == '%' || c == '/' || c == 'v'
    ensures forall k :: 0 <= k < |hs| ==> c !in hs[k]
  {
    forall k | 0 <= k < |hs| ensures c !in hs[k] {
      assert forall i :: 0 <= i < |hs[k]| ==> IsHexDigit(hs[k][i]);
    }
  }

  /** Text holding none of '%' and '/' is its own address part, and only a ':' text can pass. */
  lemma PlainAddress(h: string)
    requires '%' !in h && '/' !in h && '.' !in h && |h| > 0 && h[0] != 'v'
    ensures BracketedHostError(h).None? <==> IPv6Body(h)
  {
    NoCharNoContains(h, '%');
    NoCharNoContains(h, '/');
    NoDotNoIPv4(h);
    StartsWithChar(h, 'v');
    assert "v" == ['v'];
  }

  /** Eight hextets between colons, the full form of an IPv6 address, pass the bracket check. */
  lemma FullFormAccepted(hs: seq<string>)
    requires |hs| == 8 && forall k :: 0 <= k < 8 ==> Hextet(hs[k])
    ensures BracketedHostError(Join(hs, ":")).None?
  {
    FullBody(hs);
    HextetsJoined(hs);
    PlainAddress(Join(hs, ":"));
  }

  /** Eight hextets between colons form an IPv6 body. */
  lemma FullBody(hs: seq<string>)
    requires |hs| == 8 && forall k :: 0 <= k < 8 ==> Hextet(hs[k])
    ensures IPv6Body(Join(hs, ":"))
  {
    assert !Contains(hs[7], ".") by {
      NoCharNoContains(hs[7], '.');
    }
    assert HextetLayout(hs) by {
      FullLayout(hs);
    }
    assert Split(Join(hs, ":"), ":") == hs by {
      HextetsJoined(hs);
    }
    BodyFromParts(Join(hs, ":"), hs);
  }

  lemma FullLayout(hs: seq<string>)
    requires |hs| == 8 && forall k :: 0 <= k < 8 ==> Hextet(hs[k])
    ensures HextetLayout(hs)
  {
    assert GapsFrom(hs, 1) == [];
  }

  /** An address whose last part has no '.' is accepted exactly when its parts are at most nine and laid out right. */
  lemma BodyFromParts(a: string, parts: seq<string>)
    requires |parts| >= 3 && Split(a, ":") == parts && !Contains(parts[|parts| - 1], ".")
    ensures IPv6Body(a) <==> |parts| <= 9 && HextetLayout(parts)
  {
  }

  /** Hextets joined by colons split back into themselves and hold none of '.', '%' and '/'. */
  lemma HextetsJoined(hs: seq<string>)
    requires |hs| >= 1 && forall k :: 0 <= k < |hs| ==> Hextet(hs[k])
    ensures Split(Join(hs, ":"), ":") == hs
    ensures '.' !in Join(hs, ":") && '%' !in Join(hs, ":") && '/' !in Join(hs, ":")
    ensures |Join(hs, ":")| > 0 && Join(hs, ":")[0] != 'v'
  {
    HextetChars(hs, ':');
    HextetChars(hs, '.');
    HextetChars(hs, '%');
    HextetChars(hs, '/');
    JoinAvoids(hs, ":", '.');
    JoinAvoids(hs, ":", '%');
    JoinAvoids(hs, ":", '/');
    SplitJoin(hs, ':');
    assert ":" == [':'];
    JoinFirst(hs, ":");
    assert IsHexDigit(hs[0][0]);
  }

  /**
   * "::" followed by hextets between colons passes the bracket check
   * exactly when there are at most seven of them: the "::" must stand for
   * at least one zero hextet.
   */
  lemma CompressedFormAccepted(hs: seq<string>)
    requires |hs| >= 1 && forall k :: 0 <= k < |hs| ==> Hextet(hs[k])
    ensures BracketedHostError("::" + Join(hs, ":")).None? <==> |hs| <= 7
  {
    CompressedBody(hs);
    CompressedChars(hs);
    PlainAddress("::" + Join(hs, ":"));
  }

  /** "::" and hextets between colons form an IPv6 body exactly when there are at most seven hextets. */
  lemma CompressedBody(hs: seq<string>)
    requires |hs| >= 1 && forall k :: 0 <= k < |hs| ==> Hextet(hs[k])
    ensures IPv6Body("::" + Join(hs, ":")) <==> |hs| <= 7
  {
    var parts := ["", ""] + hs;
    assert !Contains(parts[|parts| - 1], ".") by {
      assert parts[|parts| - 1] == hs[|hs| - 1];
      NoCharNoContains(hs[|hs| - 1], '.');
    }
    assert HextetLayout(parts) <==> |hs| <= 7 by {
      CompressedLayout(hs);
    }
    assert Split("::" + Join(hs, ":"), ":") == parts by {
      CompressedParts(hs);
    }
    BodyOfCount("::" + Join(hs, ":"), parts, |hs|);
  }

  /** `BodyFromParts` for parts whose layout is accepted exactly for at most seven after two leading ones. */
  lemma BodyOfCount(a: string, parts: seq<string>, n: nat)
    requires |parts| == n + 2 && n >= 1 && Split(a, ":") == parts && !Contains(parts[|parts| - 1], ".")
    requires HextetLayout(parts) <==> n <= 7
    ensures IPv6Body(a) <==> n <= 7
  {
    BodyFromParts(a, parts);
  }

  /** "::" and hextets between colons split into two empty parts and the hextets. */
  lemma CompressedParts(hs: seq<string>)
    requires |hs| >= 1 && forall k :: 0 <= k < |hs| ==> Hextet(hs[k])
    ensures Split("::" + Join(hs, ":"), ":") == ["", ""] + hs
  {
    HextetsJoined(hs);
    TwoLeadingColons(Join(hs, ":"));
  }

  /** Two leading colons split off two empty parts. */
  lemma TwoLeadingColons(s: string)
    ensures Split("::" + s, ":") == ["", ""] + Split(s, ":")
  {
    LeadingColon(s);
    LeadingColon(":" + s);
    assert "::" + s == ":" + (":" + s);
  }

  /** "::" and hextets between colons hold none of '.', '%' and '/', and start with ':'. */
  lemma CompressedChars(hs: seq<string>)
    requires |hs| >= 1 && forall k :: 0 <= k < |hs| ==> Hextet(hs[k])
    ensures '.' !in "::" + Join(hs, ":") && '%' !in "::" + Join(hs, ":") && '/' !in "::" + Join(hs, ":")
    ensures ("::" + Join(hs, ":"))[0] == ':'
  {
    HextetsJoined(hs);
  }

  /** A leading ':' splits off an empty first part. */
  lemma LeadingColon(s: string)
    ensures Split(":" + s, ":") == [""] + Split(s, ":")
  {
    var t := ":" + s;
    assert ":" == [':'];
    FirstCharAt([], ':', s);
    assert [] + [':'] + s == t;
    SplitAt(t, ":", 0);
    assert t[1..] == s;
  }

  /** With two leading empty parts and then hextets, the layout is accepted exactly for at most seven hextets. */
  lemma CompressedLayout(hs: seq<string>)
    requires |hs| >= 1 && forall k :: 0 <= k < |hs| ==> Hextet(hs[k])
    ensures HextetLayout(["", ""] + hs) <==> |hs| <= 7
  {
    var parts := ["", ""] + hs;
    var n := |parts|;
    assert GapsFrom(parts, 2) == [] by {
      assert forall k :: 2 <= k < n - 1 ==> parts[k] == hs[k - 2];
    }
    assert GapsFrom(parts, 1) == [1];
    assert parts[n - 1] == hs[|hs| - 1];
    assert forall k :: n - |hs| <= k < n ==> parts[k] == hs[k - 2];
  }

  /** `"v1.x"` is an IPvFuture literal. */
  lemma FutureExample()
    ensures BracketedHostError("v1.x").None?
  {
    var h := "v1.x";
    assert IsHexDigit(h[1]) && !IsHexDigit(h[2]);
    assert HexEnd(h, 2) == 2;
    assert HexEnd(h, 1) == 2;
    StartsWithChar(h, 'v');
    assert "v" == ['v'];
  }

  /** Taking off the scheme keeps a text free of tabs and line breaks. */
  lemma AfterSchemeClean(u: string)
    requires forall i :: 0 <= i < |u| ==> !IsUnsafe(u[i])
    ensures forall i :: 0 <= i < |AfterScheme(u)| ==> !IsUnsafe(AfterScheme(u)[i])
  {
    var r := AfterScheme(u);
    forall i | 0 <= i < |r| ensures !IsUnsafe(r[i]) {
      assert r[i] == u[|u| - |r| + i];
    }
  }

  /** A delimiter-free stretch of a clean text is clean and delimiter-free. */
  lemma SliceClean(u: string, a: nat, b: nat)
    requires a <= b <= |u|
    requires forall i :: 0 <= i < |u| ==> !IsUnsafe(u[i])
    requires forall i :: a <= i < b ==> !EndsNetloc(u[i])
    ensures forall i :: 0 <= i < |u[a..b]| ==> !EndsNetloc(u[a..b][i]) && !IsUnsafe(u[a..b][i])
  {
    forall i | 0 <= i < |u[a..b]| ensures !EndsNetloc(u[a..b][i]) && !IsUnsafe(u[a..b][i]) {
      assert u[a..b][i] == u[a + i];
    }
  }

  /** Text that can stand as a whole network location: no delimiter, control or space. */
  predicate HostChars(h: string) {
    forall i :: 0 <= i < |h| ==> !EndsNetloc(h[i]) && !IsC0OrSpace(h[i])
  }

  /** A host name as it appears in ordinary addresses: no delimiter, bracket, control or space. */
  predicate PlainHost(h: string) {
    HostChars(h) && '[' !in h && ']' !in h
  }

  /** A path, query and fragment tail: empty, or starting with a delimiter, without controls. */
  predicate PlainTail(t: string) {
    (|t| == 0 || EndsNetloc(t[0])) && forall i :: 0 <= i < |t| ==> !IsUnsafe(t[i])
  }

  lemma NoBracket(h: string)
    requires PlainHost(h)
    ensures !Contains(h, "[") && !Contains(h, "]")
  {
    NoCharNoContains(h, '[');
    NoCharNoContains(h, ']');
  }

  /** The scheme part of `scheme + "://" + ...` is split off at its ':'. */
  lemma SchemeSplits(scheme: string, tail: string)
    requires IsScheme(scheme)
    ensures AfterScheme(scheme + ":" + tail) == tail
  {
    var u := scheme + ":" + tail;
    assert OccursAt(u, ":", |scheme|);
    forall j | 0 <= j < |scheme| ensures !OccursAt(u, ":", j) {
      assert u[j..j + 1][0] == scheme[j];
    }
    assert Find(u, ":") == Some(|scheme|);
    assert u[..|scheme|] == scheme;
    assert u[|scheme| + 1..] == tail;
  }

  /**
   * Composition and `Netloc` are inverse: the network location of
   * `scheme://host` followed by a path, query or fragment is the host.
   */
  lemma NetlocOfComposed(scheme: string, host: string, tail: string)
    requires IsScheme(scheme) && PlainHost(host) && PlainTail(tail)
    ensures Netloc(scheme + "://" + host + tail) == Done(host)
  {
    var rest := "//" + host + tail;
    var url := scheme + ":" + rest;
    assert scheme + "://" + host + tail == url;
    ComposedIsClean(scheme, rest);
    SchemeSplits(scheme, rest);
    assert AfterScheme(RemoveUnsafe(LStripControls(url))) == rest;
    HostAfterSlashes(host, tail);
    NoBracket(host);
  }

  /**
   * Composition and `Netloc` for a bracketed host: `scheme://[host]`
   * followed by a path, query or fragment has the network location
   * "[host]" when the host passes the bracket check, and raises otherwise.
   */
  lemma BracketedNetlocOfComposed(scheme: string, host: string, tail: string)
    requires IsScheme(scheme) && PlainHost(host) && '@' !in host && PlainTail(tail)
    ensures BracketedHostError(host).None? ==> Netloc(scheme + "://[" + host + "]" + tail) == Done("[" + host + "]")
    ensures BracketedHostError(host).Some? ==> Netloc(scheme + "://[" + host + "]" + tail).Raised?
  {
    RawBracketed(scheme, host, tail);
    BracketPieces(host);
  }

  /** The raw network location of `scheme://[host]` and a tail is "[host]". */
  lemma RawBracketed(scheme: string, host: string, tail: string)
    requires IsScheme(scheme) && PlainHost(host) && PlainTail(tail)
    ensures RawNetloc(scheme + "://[" + host + "]" + tail) == "[" + host + "]"
  {
    var b := "[" + host + "]";
    forall i | 0 <= i < |b| ensures !EndsNetloc(b[i]) && !IsC0OrSpace(b[i]) {
      if 0 < i < |b| - 1 {
        assert b[i] == host[i - 1];
      }
    }
    var rest := "//" + b + tail;
    var url := scheme + ":" + rest;
    assert scheme + "://[" + host + "]" + tail == url;
    HostAfterSlashes(b, tail);
    ComposedIsClean(scheme, rest);
    SchemeSplits(scheme, rest);
  }

  /** The bracket check of "[host]" is the host check of `host`. */
  lemma BracketPieces(host: string)
    requires '[' !in host && ']' !in host && '@' !in host
    ensures Contains("[" + host + "]", "[") && Contains("[" + host + "]", "]")
    ensures BracketedNetlocError("[" + host + "]") == BracketedHostError(host)
  {
    var b := "[" + host + "]";
    assert LastPiece(b, "@") == b by {
      assert "@" == ['@'] && '@' !in b;
      NoCharNoContains(b, '@');
    }
    assert Contains(b, "[") by {
      assert OccursAt(b, "[", 0);
      ContainsAt(b, "[", 0);
    }
    assert Contains(b, "]") by {
      assert b[|host| + 1..|host| + 2] == "]";
      ContainsAt(b, "]", |host| + 1);
    }
    assert SplitHead(b, "[") == "" by {
      assert "" + b == b && "[" == ['['];
      SplitHeadBefore("", b, '[');
    }
    var bracketed := b[1..];
    assert bracketed == host + "]";
    assert Contains(bracketed, "]") by {
      assert bracketed[|host|..|host| + 1] == "]";
      ContainsAt(bracketed, "]", |host|);
    }
    assert SplitHead(bracketed, "]") == host by {
      assert "]" == [']'];
      SplitHeadBefore(host, "]", ']');
    }
    assert bracketed[|host| + 1..] == "";
    BracketedNetlocSteps(b, bracketed, host);
  }

  /** A netloc "[" + hostname + "]", with no user part, is checked as its hostname. */
  lemma BracketedNetlocSteps(netloc: string, bracketed: string, hostname: string)
    requires LastPiece(netloc, "@") == netloc && Contains(netloc, "[") && SplitHead(netloc, "[") == ""
    requires |netloc| >= 1 && netloc[1..] == bracketed
    requires Contains(bracketed, "]") && SplitHead(bracketed, "]") == hostname
    requires |hostname| + 1 <= |bracketed| && bracketed[|hostname| + 1..] == ""
    ensures BracketedNetlocError(netloc) == BracketedHostError(hostname)
  {
    assert BracketedNetlocError(netloc) == HostPortError(netloc);
    assert HostPortError(netloc) == OpenBracketError(netloc);
    OpenBracketFirst(netloc);
    assert OpenBracketError(netloc) == AfterBracketError(bracketed);
  }

  /** `http://[::1]/`, the IPv6 loopback address, has the network location "[::1]". */
  lemma LoopbackExample()
    ensures Netloc("http://[::1]/") == Done("[::1]")
  {
    LoopbackAccepted();
    assert Netloc("http" + "://[" + "::1" + "]" + "/") == Done("[" + "::1" + "]") by {
      HttpScheme();
      BracketedNetlocOfComposed("http", "::1", "/");
    }
    LoopbackText();
  }

  /** "::1" is a plain host text and passes the bracket check. */
  lemma LoopbackAccepted()
    ensures PlainHost("::1") && '@' !in "::1"
    ensures BracketedHostError("::1").None?
  {
    var h := "::1";
    assert |h| == 3 && h[0] == ':' && h[1] == ':' && h[2] == '1';
    forall i | 0 <= i < 3 ensures !EndsNetloc(h[i]) && !IsC0OrSpace(h[i]) && h[i] != '[' && h[i] != ']' && h[i] != '@' {
      assert i == 0 || i == 1 || i == 2;
    }
    assert Hextet("1");
    CompressedFormAccepted(["1"]);
    assert Join(["1"], ":") == "1";
    assert "::" + "1" == "::1";
  }

  lemma HttpScheme()
    ensures IsScheme("http") && PlainTail("/")
  {
    var s := "http";
    assert |s| == 4 && s[0] == 'h' && s[1] == 't' && s[2] == 't' && s[3] == 'p';
    forall i | 0 <= i < 4 ensures IsSchemeChar(s[i]) {
      assert i == 0 || i == 1 || i == 2 || i == 3;
    }
  }

  lemma LoopbackText()
    ensures "http" + "://[" + "::1" + "]" + "/" == "http://[::1]/"
    ensures "[" + "::1" + "]" == "[::1]"
  {
    var u, b := "http" + "://[" + "::1" + "]" + "/", "[" + "::1" + "]";
    assert |u| == 13 && u[0] == 'h' && u[1] == 't' && u[2] == 't' && u[3] == 'p' && u[4] == ':'
      && u[5] == '/' && u[6] == '/' && u[7] == '[' && u[8] == ':' && u[9] == ':' && u[10] == '1'
      && u[11] == ']' && u[12] == '/';
    assert |b| == 5 && b[0] == '[' && b[1] == ':' && b[2] == ':' && b[3] == '1' && b[4] == ']';
  }

  /** `http://[abc]/` raises: "abc" is no IPv6 address. */
  lemma NotAnAddressExample()
    ensures Netloc("http://[abc]/").Raised?
  {
    assert BracketedHostError("abc").Some? by {
      assert "abc"[0] != 'v';
      NoCharNoContains("abc", ':');
      assert ":" == [':'];
      NoColonRefused("abc");
    }
    assert Netloc("http" + "://[" + "abc" + "]" + "/").Raised? by {
      HttpScheme();
      assert PlainHost("abc");
      BracketedNetlocOfComposed("http", "abc", "/");
    }
    NotAnAddressText();
  }

  lemma NotAnAddressText()
    ensures "http" + "://[" + "abc" + "]" + "/" == "http://[abc]/"
  {
    var u := "http" + "://[" + "abc" + "]" + "/";
    assert |u| == 13 && u[0] == 'h' && u[1] == 't' && u[2] == 't' && u[3] == 'p' && u[4] == ':'
      && u[5] == '/' && u[6] == '/' && u[7] == '[' && u[8] == 'a' && u[9] == 'b' && u[10] == 'c'
      && u[11] == ']' && u[12] == '/';
  }

  /** A text starting with a scheme and free of tabs and line breaks survives both cleaning steps. */
  lemma ComposedIsClean(scheme: string, rest: string)
    requires IsScheme(scheme)
    requires forall i :: 0 <= i < |rest| ==> !IsUnsafe(rest[i])
    ensures LStripControls(scheme + ":" + rest) == scheme + ":" + rest
    ensures RemoveUnsafe(scheme + ":" + rest) == scheme + ":" + rest
  {
    var url := scheme + ":" + rest;
    assert url[0] == scheme[0];
    ComposedHasNoUnsafe(scheme, rest);
  }

  lemma ComposedHasNoUnsafe(scheme: string, rest: string)
    requires IsScheme(scheme)
    requires forall i :: 0 <= i < |rest| ==> !IsUnsafe(rest[i])
    ensures forall i :: 0 <= i < |scheme + ":" + rest| ==> !IsUnsafe((scheme + ":" + rest)[i])
  {
    var url := scheme + ":" + rest;
    forall i | 0 <= i < |url| ensures !IsUnsafe(url[i]) {
      if i < |scheme| {
        assert url[i] == scheme[i] && IsSchemeChar(scheme[i]);
      } else if i > |scheme| {
        assert url[i] == rest[i - |scheme| - 1];
      }
    }
  }

  /** After "//", the network location runs to the end of a host. */
  lemma HostAfterSlashes(host: string, tail: string)
    requires HostChars(host) && PlainTail(tail)
    ensures forall i :: 0 <= i < |"//" + host + tail| ==> !IsUnsafe(("//" + host + tail)[i])
    ensures StartsWith("//" + host + tail, "//")
    ensures NetlocEnd("//" + host + tail, 2) == 2 + |host|
    ensures ("//" + host + tail)[2..2 + |host|] == host
  {
    var rest := "//" + host + tail;
    forall i | 0 <= i < |rest| ensures !IsUnsafe(rest[i]) {
      if 2 <= i < 2 + |host| {
        assert rest[i] == host[i - 2];
      } else if i >= 2 + |host| {
        assert rest[i] == tail[i - 2 - |host|];
      }
    }
    assert rest[..2] == "//";
    forall i | 2 <= i < 2 + |host| ensures !EndsNetloc(rest[i]) {
      assert rest[i] == host[i - 2];
    }
    if 2 + |host| < |rest| {
      assert rest[2 + |host|] == tail[0];
    }
    NetlocEndAt(rest, 2, 2 + |host|);
    assert rest[2..2 + |host|] == host;
  }

  lemma {:induction false} NetlocEndAt(u: string, from: nat, k: nat)
    requires from <= k <= |u|
    requires forall i :: from <= i < k ==> !EndsNetloc(u[i])
    requires k == |u| || EndsNetloc(u[k])
    ensures NetlocEnd(u, from) == k
    decreases k - from
  {
    if from < k {
      NetlocEndAt(u, from + 1, k);
    }
  }

  /** Leading controls and spaces do not change the network location. */
  lemma NetlocIgnoresLeadingControls(c: char, url: string)
    requires IsC0OrSpace(c)
    ensures Netloc([c] + url) == Netloc(url)
  {
    assert ([c] + url)[1..] == url;
  }

  // ---------------------------------------------------------------------
  // The path of `urlparse`

  /** `urlsplit(url).scheme`: the lowered scheme name, or "" when there is none. */
  function Scheme(url: string): (r: string)
    ensures r == "" || IsScheme(r)
  {
    var clean := RemoveUnsafe(LStripControls(url));
    match Find(clean, ":")
    case Some(i) =>
      if i > 0 && IsScheme(clean[..i]) then
        LowerKeepsScheme(clean[..i]);
        Lower(clean[..i])
      else ""
    case None => ""
  }

  lemma LowerKeepsScheme(s: string)
    requires IsScheme(s)
    ensures IsScheme(Lower(s))
  {
    var l := Lower(s);
    forall i | 0 <= i < |l| ensures IsSchemeChar(l[i]) {
      assert l[i] == LowerChar(s[i]) && IsSchemeChar(s[i]);
    }
  }

  /** `urllib.parse.uses_params`: the schemes whose last path segment may carry ";parameters". */
  const UsesParams := ["", "ftp", "hdl", "prospero", "http", "imap", "https", "shttp",
    "rtsp", "rtsps", "rtspu", "sip", "sips", "mms", "sftp", "tel"]

  /** `_splitparams(path)[0]`: the path without the parameters of its last segment. */
  function DropParams(p: string): (r: string)
    ensures StartsWith(p, r)
  {
    if Contains(p, "/") then
      var lastSlash := |p| - |LastPiece(p, "/")| - 1;
      match FindFrom(p, ";", lastSlash)
      case None => p
      case Some(i) => p[..i]
    else SplitHead(p, ";")
  }

  /** What follows the network location: the whole text after the scheme when there is no "//". */
  function AfterNetloc(url: string): (r: string)
  {
    var rest := AfterScheme(RemoveUnsafe(LStripControls(url)));
    if StartsWith(rest, "//") then rest[NetlocEnd(rest, 2)..] else rest
  }

  /**
   * `urlparse(url).path`: the text after the network location up to the
   * fragment and the query, with the last segment's parameters removed for
   * the schemes that use them. A lone IPv6 bracket raises, as for `Netloc`.
   */
  function Path(url: string): (r: Outcome<string>)
    ensures r.Raised? <==> Netloc(url).Raised?
    ensures r.Done? ==> !Contains(r.value, "?") && !Contains(r.value, "#")
  {
    if Netloc(url).Raised? then Raised(Netloc(url).reason)
    else
      var p := SplitHead(SplitHead(AfterNetloc(url), "#"), "?");
      var r := if Scheme(url) in UsesParams then DropParams(p) else p;
      NoneInPrefix(SplitHead(AfterNetloc(url), "#"), p, "#");
      NoneInPrefix(p, r, "?");
      NoneInPrefix(p, r, "#");
      Done(r)
  }

  /** A prefix of a text without `q` has no `q` either. */
  lemma NoneInPrefix(s: string, t: string, q: string)
    requires StartsWith(s, t) && !Contains(s, q)
    ensures !Contains(t, q)
  {
    if Contains(t, q) {
      ContainsInPrefix(s, t, q);
    }
  }

  lemma ContainsInPrefix(s: string, t: string, q: string)
    requires StartsWith(s, t) && Contains(t, q)
    ensures Contains(s, q)
  {
    var j := Find(t, q).value;
    assert OccursAt(t, q, j);
    assert t == s[..|t|];
    forall i | j <= i < j + |q| ensures s[i] == t[i] {
      assert t[i] == s[..|t|][i];
    }
    assert s[j..j + |q|] == t[j..j + |q|];
    ContainsAt(s, q, j);
  }

  /** `os.path.basename(p)`: the text after the last '/'. */
  function Basename(p: string): (r: string)
    ensures EndsWith(p, r) && !Contains(r, "/")
  {
    LastPiece(p, "/")
  }

  /** A path without ';' has no parameters to drop. */
  lemma DropParamsKeeps(p: string)
    requires !Contains(p, ";")
    ensures DropParams(p) == p
  {
    if Contains(p, "/") {
      var lastSlash := |p| - |LastPiece(p, "/")| - 1;
      match FindFrom(p, ";", lastSlash)
      case None =>
      case Some(i) =>
        ContainsAt(p, ";", i);
        assert false;
    }
  }

  /**
   * Composition and `Path` are inverse: the path of `scheme://host` followed
   * by a path without query, fragment or parameters is that path.
   */
  lemma PathOfComposed(scheme: string, host: string, path: string)
    requires IsScheme(scheme) && PlainHost(host) && PlainTail(path)
    requires !Contains(path, "?") && !Contains(path, "#") && !Contains(path, ";")
    ensures Path(scheme + "://" + host + path) == Done(path)
  {
    NetlocOfComposed(scheme, host, path);
    AfterNetlocOfComposed(scheme, host, path);
    DropParamsKeeps(path);
  }

  lemma AfterNetlocOfComposed(scheme: string, host: string, path: string)
    requires IsScheme(scheme) && PlainHost(host) && PlainTail(path)
    ensures AfterNetloc(scheme + "://" + host + path) == path
  {
    var rest := "//" + host + path;
    var url := scheme + ":" + rest;
    assert scheme + "://" + host + path == url;
    ComposedIsClean(scheme, rest);
    SchemeSplits(scheme, rest);
    HostAfterSlashes(host, path);
    assert rest[2 + |host|..] == path;
  }
}

=== FILE: utils.dfy ===
/**
 * `sanitize_filename` of utils.py: each of the nine characters Windows and
 * POSIX file systems refuse is replaced by '_', one character at a time,
 * and the result is cut to 255 characters.
 */
module Utils {
  import opened Text

  /** The nine refused characters, in the order they are replaced. */
  const InvalidChars := "<>:\"/\\|?*"

  const MaxFilenameLength := 255

  predicate Invalid(c: char) {
    c in InvalidChars
  }

  /** The loop over the refused characters: one `str.replace(char, '_')` per character. */
  function ReplaceEach(s: string, chars: string): (r: string)
    ensures |r| == |s|
    decreases |chars|
  {
    if |chars| == 0 then s else ReplaceEach(ReplaceChar(s, chars[0], '_'), chars[1..])
  }

  /** `sanitize_filename(filename)`. */
  function SanitizeFilename(name: string): (r: string)
    ensures |r| <= MaxFilenameLength
    ensures |r| == if |name| < MaxFilenameLength then |name| else MaxFilenameLength
  {
    PyPrefix(ReplaceEach(name, InvalidChars), MaxFilenameLength)
  }

  /** The reference reading: every refused character becomes '_', every other one stays. */
  function Clean(c: char): char {
    if Invalid(c) then '_' else c
  }

  /** Replacing the characters of `chars` one after another is one pass of `Clean` restricted to `chars`. */
  lemma {:induction false} ReplaceEachIsPointwise(s: string, chars: string)
    requires '_' !in chars
    ensures forall i :: 0 <= i < |s| ==> ReplaceEach(s, chars)[i] == if s[i] in chars then '_' else s[i]
    decreases |chars|
  {
    if |chars| > 0 {
      var t := ReplaceChar(s, chars[0], '_');
      ReplaceEachIsPointwise(t, chars[1..]);
      forall i | 0 <= i < |s| ensures ReplaceEach(s, chars)[i] == if s[i] in chars then '_' else s[i] {
        assert s[i] in chars <==> s[i] == chars[0] || s[i] in chars[1..] by {
          assert chars == [chars[0]] + chars[1..];
        }
      }
    }
  }

  /** The sanitised name is the cleaned name, character by character, cut to 255. */
  lemma SanitizeIsClean(name: string)
    ensures forall i :: 0 <= i < |SanitizeFilename(name)| ==> SanitizeFilename(name)[i] == Clean(name[i])
  {
    ReplaceEachIsPointwise(name, InvalidChars);
  }

  /** No refused character survives. */
  lemma SanitizeRemovesInvalid(name: string)
    ensures forall i :: 0 <= i < |SanitizeFilename(name)| ==> !Invalid(SanitizeFilename(name)[i])
  {
    SanitizeIsClean(name);
  }

  /** A name of at most 255 characters keeps its length and every allowed character. */
  lemma SanitizeKeepsShortNames(name: string)
    requires |name| <= MaxFilenameLength
    ensures |SanitizeFilename(name)| == |name|
    ensures forall i :: 0 <= i < |name| ==> SanitizeFilename(name)[i] == if Invalid(name[i]) then '_' else name[i]
  {
    SanitizeIsClean(name);
  }

  /** Sanitising twice is sanitising once. */
  lemma SanitizeIdempotent(name: string)
    ensures SanitizeFilename(SanitizeFilename(name)) == SanitizeFilename(name)
  {
    var once := SanitizeFilename(name);
    var twice := SanitizeFilename(once);
    SanitizeIsClean(name);
    SanitizeIsClean(once);
    assert |twice| == |once|;
    forall i | 0 <= i < |once| ensures twice[i] == once[i] {
      assert !Invalid(once[i]);
    }
  }
}

=== FILE: worker.dfy ===
/**
 * The batch download worker of the desktop application (`download_worker`
 * and its helpers `create_organized_folder` and `get_quality_mapping`).
 *
 * The worker walks the addresses in order. Before each one it reads the
 * stop flag; it then picks an engine, computes the output folder and runs
 * the engine. The engines are an oracle `run` that either returns a
 * success flag and a message or raises; the stop flag is the function
 * `running` from the position of an address to the value the worker reads
 * just before it.
 */
module Worker {
  import opened Wrappers
  import opened Text
  import Urls
  import opened Router
  import YtDlpEngine

  // ---------------------------------------------------------------------
  // Engine selection

  /** The engine drop-down: "Auto-Detect" defers to the router, the Force options pin an engine. */
  function ChooseFor(choice: string, url: string): (r: Engine)
    ensures choice == "Auto-Detect" ==> r == ChooseEngine(url)
    ensures choice == "Force yt-dlp" ==> r == YtDlp
    ensures choice == "Force JDownloader" ==> r == JDownloader
    ensures choice !in {"Auto-Detect", "Force yt-dlp", "Force JDownloader"} ==> r == Playwright
  {
    if choice == "Auto-Detect" then ChooseEngine(url)
    else if choice == "Force yt-dlp" then YtDlp
    else if choice == "Force JDownloader" then JDownloader
    else Playwright
  }

  // ---------------------------------------------------------------------
  // Output folders

  const YouTubeNames := [YouTubeCom, YoutuBe]
  const SocialNames := [TikTokCom, "instagram.com", TwitterCom, XCom]

  /**
   * The named platforms of `create_organized_folder`, tried in order on the
   * lowered address: YouTube, TikTok, Instagram, Twitter (or X), the file hosts.
   */
  function NamedPlatform(u: string): (r: Option<string>)
    ensures r.Some? ==> r.value in {"YouTube", "TikTok", "Instagram", "Twitter", "FileHosts"}
  {
    if FirstContained(u, YouTubeNames).Some? then Some("YouTube")
    else if Contains(u, TikTokCom) then Some("TikTok")
    else if Contains(u, "instagram.com") then Some("Instagram")
    else if Contains(u, TwitterCom) || Contains(u, XCom) then Some("Twitter")
    else if FirstContained(u, FileHosts).Some? then Some("FileHosts")
    else None
  }

  /**
   * YouTube wins over everything; the file hosts only count when no named
   * platform matched; no platform at all exactly when no table entry occurs.
   */
  lemma NamedPlatformCases(u: string)
    ensures NamedPlatform(u) == Some("YouTube") <==> ContainsAny(u, YouTubeNames)
    ensures NamedPlatform(u) == Some("FileHosts") <==>
      !ContainsAny(u, YouTubeNames) && !ContainsAny(u, SocialNames) && ContainsAny(u, FileHosts)
    ensures NamedPlatform(u).None? <==>
      !ContainsAny(u, YouTubeNames) && !ContainsAny(u, SocialNames) && !ContainsAny(u, FileHosts)
  {
    if Contains(u, TikTokCom) { assert Contains(u, SocialNames[0]); }
    if Contains(u, "instagram.com") { assert Contains(u, SocialNames[1]); }
    if Contains(u, TwitterCom) { assert Contains(u, SocialNames[2]); }
    if Contains(u, XCom) { assert Contains(u, SocialNames[3]); }
    if !Contains(u, TikTokCom) && !Contains(u, "instagram.com") && !Contains(u, TwitterCom) && !Contains(u, XCom) {
      forall k | 0 <= k < |SocialNames| ensures !Contains(u, SocialNames[k]) {
        assert SocialNames[k] in {TikTokCom, "instagram.com", TwitterCom, XCom};
      }
    }
  }

  /**
   * The platform folder of `create_organized_folder`: a named platform, or
   * "Generic_Sites/" and the network location of the address as typed,
   * without "www.". A named platform never raises; otherwise a lone IPv6
   * bracket raises, outside the worker's exception handler, exactly when
   * parsing the address does.
   */
  function PlatformFolder(url: string): (r: Outcome<string>)
    ensures NamedPlatform(Lower(url)).Some? ==> r == Done(NamedPlatform(Lower(url)).value)
    ensures NamedPlatform(Lower(url)).None? ==> r.Raised? == Urls.Netloc(url).Raised?
    ensures NamedPlatform(Lower(url)).None? && r.Done? ==>
      StartsWith(r.value, "Generic_Sites/") && EndsWith(r.value, Replace(Urls.Netloc(url).value, "www.", ""))
  {
    match NamedPlatform(Lower(url))
    case Some(p) => Done(p)
    case None =>
      match Urls.Netloc(url)
      case Raised(e) => Raised(e)
      case Done(n) =>
        var d := Replace(n, "www.", "");
        StartsWithAppend("Generic_Sites/", d);
        assert ("Generic_Sites/" + d)[|"Generic_Sites/" + d| - |d|..] == d;
        Done("Generic_Sites/" + d)
  }

  /** `os.makedirs(path, exist_ok=True)`: nothing, or the OSError it raises (no permission, a name the system refuses). */
  type MakeDirs = string -> Outcome<()>

  /**
   * `create_organized_folder(url)`: the platform folder joined to the base
   * path, then created with `os.makedirs`; either step can raise.
   */
  function CreateOrganizedFolder(base: string, url: string, makedirs: MakeDirs): (r: Outcome<string>)
    ensures r.Done? <==> PlatformFolder(url).Done? && makedirs(JoinPath(base, PlatformFolder(url).value)).Done?
    ensures PlatformFolder(url).Raised? ==> r == Raised(PlatformFolder(url).reason)
    ensures r.Done? ==> r.value == JoinPath(base, PlatformFolder(url).value)
    ensures r.Done? ==> StartsWith(r.value, base) && EndsWith(r.value, PlatformFolder(url).value)
  {
    match PlatformFolder(url)
    case Raised(e) => Raised(e)
    case Done(p) =>
      var path := JoinPath(base, p);
      match makedirs(path)
      case Raised(e) => Raised(e)
      case Done(_) => Done(path)
  }

  /**
   * Only the generic folder parses the address, so for a YouTube address or
   * a file host the folder name never raises, and creating the folder fails
   * only when `os.makedirs` does.
   */
  lemma NamedPlatformsNeverRaise(url: string, base: string, makedirs: MakeDirs)
    requires ContainsAny(Lower(url), YouTubeNames) || ContainsAny(Lower(url), FileHosts)
    ensures PlatformFolder(url).Done?
    ensures CreateOrganizedFolder(base, url, makedirs).Raised? <==> makedirs(JoinPath(base, PlatformFolder(url).value)).Raised?
  {
    NamedPlatformCases(Lower(url));
  }

  /**
   * Folder and engine agree on file hosts: an address the router sends to
   * JDownloader is filed under FileHosts unless it also names Instagram,
   * which the router does not count as a video platform.
   */
  lemma FileHostFolderMatchesRouter(url: string)
    requires ChooseEngine(url) == JDownloader && !Contains(Lower(url), "instagram.com")
    ensures PlatformFolder(url) == Done("FileHosts")
  {
    var u := Lower(url);
    assert !ContainsAny(u, VideoPlatforms + ["instagram.com"]) by {
      forall k | 0 <= k < |VideoPlatforms| + 1 ensures !Contains(u, (VideoPlatforms + ["instagram.com"])[k]) {
        if k < |VideoPlatforms| { assert (VideoPlatforms + ["instagram.com"])[k] == VideoPlatforms[k]; }
      }
    }
    assert YouTubeNames == VideoPlatforms[..2];
    ContainsNoneOfSub(u, VideoPlatforms, YouTubeNames);
    ContainsNoneOfSub(u, VideoPlatforms + ["instagram.com"], SocialNames);
    NamedPlatformCases(u);
  }

  // ---------------------------------------------------------------------
  // The yt-dlp settings read from the form

  /** `get_quality_mapping()`: five labels, "best" for anything else. */
  function GetQualityMapping(choice: string): (r: string)
    ensures r in {"best", "1080p", "720p", "480p", "audio"}
    ensures choice in {"1080p", "720p", "480p"} ==> r == choice
    ensures choice !in {"Best Available", "1080p", "720p", "480p", "Audio Only"} ==> r == "best"
    ensures choice == "Best Available" ==> r == "best"
    ensures r == "audio" <==> choice == "Audio Only"
  {
    if choice == "Best Available" then "best"
    else if choice == "1080p" then "1080p"
    else if choice == "720p" then "720p"
    else if choice == "480p" then "480p"
    else if choice == "Audio Only" then "audio"
    else "best"
  }

  /** The mode: a label mentioning "Shorts Only" first, then "Audio Only", otherwise plain video. */
  function ModeFor(choice: string): (r: string)
    ensures r in {"shorts_only", "audio", "video"}
    ensures r == "shorts_only" <==> Contains(choice, "Shorts Only")
    ensures r == "audio" <==> !Contains(choice, "Shorts Only") && Contains(choice, "Audio Only")
  {
    if Contains(choice, "Shorts Only") then "shorts_only"
    else if Contains(choice, "Audio Only") then "audio"
    else "video"
  }

  /** The max-downloads field: None when blank or when `int()` rejects it. */
  function MaxField(text: string): (r: Option<int>)
    ensures Strip(text) == "" ==> r.None?
    ensures r.Some? ==> ParseInt(Strip(text)) == r
  {
    var t := Strip(text);
    if t == "" then None else ParseInt(t)
  }

  /** A number typed into the field, with a blank on either side, comes back as that number. */
  lemma MaxFieldReadsNumbers(n: int)
    ensures WithinDigitLimit(n) ==> MaxField(" " + IntToString(n) + " ") == Some(n)
  {
    if !WithinDigitLimit(n) { return; }
    var s := IntToString(n);
    IntRoundTrip(n);
    assert s[0] == '-' || IsDigit(s[0]);
    assert IsDigit(s[|s| - 1]);
    StripPadded(s);
  }

  // ---------------------------------------------------------------------
  // One address, and the loop

  /** What an engine call did: returned a flag and a message, or raised. */
  datatype EngineOutcome = Returned(ok: bool, message: string) | Threw(error: string)

  /** The form settings the worker reads. */
  datatype Settings = Settings(engineChoice: string, qualityChoice: string, modeChoice: string, maxText: string, base: string,
                               makedirs: MakeDirs)

  /** An engine call: the engine with the folder it writes to, the address and, for yt-dlp, the options. */
  datatype Call =
    | YtDlpCall(url: string, folder: string, quality: string, mode: string, maxDownloads: Option<int>)
    | JDownloaderCall(url: string, folder: string)
    | PlaywrightCall(url: string, folder: string)

  /** What happened to one address. */
  datatype UrlResult = UrlResult(url: string, chosen: Engine, call: Call, ok: bool, message: string)

  /**
   * The worker's JDownloader engine, kept across addresses: None until it is
   * first needed, then the folder it was created with.
   */
  type JdState = Option<string>

  /** An engine's outcome as the worker counts it: success only for a returned true; an exception is a failure. */
  function Judge(o: EngineOutcome): (r: (bool, string))
    ensures r.0 <==> o.Returned? && o.ok
    ensures o.Threw? ==> EndsWith(r.1, o.error)
  {
    match o
    case Returned(ok, m) => (ok, m)
    case Threw(e) =>
      assert ("Unexpected error: " + e)[|"Unexpected error: " + e| - |e|..] == e;
      (false, "Unexpected error: " + e)
  }

  /** The engine call for one address once its folder is known, and the JDownloader engine afterwards. */
  function Dispatch(s: Settings, jdConnected: bool, jd: JdState, url: string, folder: string): (r: (Call, JdState))
    ensures r.0.url == url
    ensures ChooseFor(s.engineChoice, url) == YtDlp ==>
      r.0 == YtDlpCall(url, folder, GetQualityMapping(s.qualityChoice), ModeFor(s.modeChoice), MaxField(s.maxText))
    ensures ChooseFor(s.engineChoice, url) == JDownloader && jdConnected ==>
      r.0 == JDownloaderCall(url, jd.GetOr(folder)) && r.1 == Some(jd.GetOr(folder))
    ensures ChooseFor(s.engineChoice, url) == JDownloader && !jdConnected ==> r.0 == PlaywrightCall(url, folder)
    ensures ChooseFor(s.engineChoice, url) == Playwright ==> r.0 == PlaywrightCall(url, folder)
    ensures jd.Some? ==> r.1 == jd
    ensures r.1.None? ==> ChooseFor(s.engineChoice, url) != JDownloader
  {
    match ChooseFor(s.engineChoice, url)
    case YtDlp =>
      (YtDlpCall(url, folder, GetQualityMapping(s.qualityChoice), ModeFor(s.modeChoice), MaxField(s.maxText)), jd)
    case JDownloader =>
      var engine := jd.GetOr(folder);
      if jdConnected then (JDownloaderCall(url, engine), Some(engine)) else (PlaywrightCall(url, folder), Some(engine))
    case Playwright => (PlaywrightCall(url, folder), jd)
  }

  /**
   * One address: the folder is created outside the worker's exception
   * handler, so a failure there ends the worker; everything the engine does
   * is inside it.
   */
  function ProcessUrl(s: Settings, jdConnected: bool, jd: JdState, run: Call -> EngineOutcome, url: string)
    : (r: Outcome<(UrlResult, JdState)>)
    ensures r.Raised? <==> CreateOrganizedFolder(s.base, url, s.makedirs).Raised?
    ensures r.Done? ==> r.value.0.url == url && r.value.0.chosen == ChooseFor(s.engineChoice, url)
    ensures r.Done? ==> (r.value.0.call, r.value.1) == Dispatch(s, jdConnected, jd, url, CreateOrganizedFolder(s.base, url, s.makedirs).value)
    ensures r.Done? ==> (r.value.0.ok <==> run(r.value.0.call).Returned? && run(r.value.0.call).ok)
  {
    match CreateOrganizedFolder(s.base, url, s.makedirs)
    case Raised(e) => Raised(e)
    case Done(folder) =>
      var (call, jd') := Dispatch(s, jdConnected, jd, url, folder);
      var (ok, message) := Judge(run(call));
      Done((UrlResult(url, ChooseFor(s.engineChoice, url), call, ok, message), jd'))
  }

  /** What the worker did: the per-address results, in order, and how it ended. */
  datatype Report = Report(results: seq<UrlResult>, success: nat, failed: nat, stopped: bool, aborted: Option<string>)

  /** The number of results that succeeded. */
  function CountOk(rs: seq<UrlResult>): (n: nat)
    ensures n <= |rs|
  {
    if |rs| == 0 then 0 else (if rs[0].ok then 1 else 0) + CountOk(rs[1..])
  }

  /** The count is full exactly when every result succeeded, and zero exactly when none did. */
  lemma {:induction false} CountOkExtremes(rs: seq<UrlResult>)
    ensures CountOk(rs) == |rs| <==> forall k :: 0 <= k < |rs| ==> rs[k].ok
    ensures CountOk(rs) == 0 <==> forall k :: 0 <= k < |rs| ==> !rs[k].ok
  {
    if |rs| > 0 {
      CountOkExtremes(rs[1..]);
      assert forall k :: 1 <= k < |rs| ==> rs[k] == rs[1..][k - 1];
    }
  }

  /** The per-address step the loop runs: the JDownloader engine so far and the address in, a result and the engine out. */
  type Step = (JdState, string) -> Outcome<(UrlResult, JdState)>

  /**
   * The loop of `download_worker` from position `i` on: before each address
   * the stop flag is read; a step that raises ends the loop.
   */
  function RunFrom(step: Step, running: nat -> bool, urls: seq<string>, i: nat, jd: JdState): (r: Report)
    requires i <= |urls|
    ensures r.success + r.failed == |r.results| <= |urls| - i
    ensures r.stopped ==> i + |r.results| < |urls| && !running(i + |r.results|)
    ensures r.aborted.Some? ==> i + |r.results| < |urls| && running(i + |r.results|)
    ensures !r.stopped && r.aborted.None? ==> |r.results| == |urls| - i
    ensures !(r.stopped && r.aborted.Some?)
    decreases |urls| - i
  {
    if i == |urls| then Report([], 0, 0, false, None)
    else if !running(i) then Report([], 0, 0, true, None)
    else
      match step(jd, urls[i])
      case Raised(e) => Report([], 0, 0, false, Some(e))
      case Done((res, jd')) =>
        var rest := RunFrom(step, running, urls, i + 1, jd');
        var results := [res] + rest.results;
        assert results[1..] == rest.results;
        Report(results, rest.success + (if res.ok then 1 else 0), rest.failed + (if res.ok then 0 else 1),
          rest.stopped, rest.aborted)
  }

  /** The worker's step: `ProcessUrl` under fixed settings, connection state and engines. */
  function WorkerStep(s: Settings, jdConnected: bool, run: Call -> EngineOutcome): Step {
    (jd: JdState, url: string) => ProcessUrl(s, jdConnected, jd, run, url)
  }

  /** `download_worker(urls)`, starting from the JDownloader engine the application already holds. */
  function DownloadWorker(s: Settings, jdConnected: bool, jd: JdState, run: Call -> EngineOutcome,
                          running: nat -> bool, urls: seq<string>): (r: Report)
    ensures r.success + r.failed == |r.results| <= |urls|
    ensures r.success == CountOk(r.results)
    ensures !r.stopped && r.aborted.None? ==> |r.results| == |urls|
  {
    SuccessCountsOk(WorkerStep(s, jdConnected, run), running, urls, 0, jd);
    RunFrom(WorkerStep(s, jdConnected, run), running, urls, 0, jd)
  }

  /**
   * A result reports on its address: the address, the engine chosen for it,
   * a call for that address, a yt-dlp call exactly when yt-dlp was chosen, and success exactly when
   * the engine said so.
   */
  predicate Reports(s: Settings, run: Call -> EngineOutcome, url: string, res: UrlResult) {
    res.url == url && res.call.url == url && res.chosen == ChooseFor(s.engineChoice, url)
    && (res.chosen == YtDlp <==> res.call.YtDlpCall?)
    && (res.ok <==> run(res.call).Returned? && run(res.call).ok)
  }

  /** What `good` says of each result and `bad` of each error, for every engine state. */
  ghost predicate StepMeets(step: Step, good: (string, UrlResult) -> bool, bad: (string, string) -> bool) {
    forall jd: JdState, url: string ::
      (step(jd, url).Done? ==> good(url, step(jd, url).value.0))
      && (step(jd, url).Raised? ==> bad(url, step(jd, url).reason))
  }

  function ReportsOn(s: Settings, run: Call -> EngineOutcome): (string, UrlResult) -> bool {
    (url: string, res: UrlResult) => Reports(s, run, url, res)
  }

  function FolderError(s: Settings): (string, string) -> bool {
    (url: string, e: string) => CreateOrganizedFolder(s.base, url, s.makedirs) == Raised(e)
  }

  /** One address reports on itself, and fails only when its folder does. */
  lemma ProcessUrlHonest(s: Settings, jdConnected: bool, jd: JdState, run: Call -> EngineOutcome, url: string)
    ensures var p := ProcessUrl(s, jdConnected, jd, run, url);
      (p.Done? ==> Reports(s, run, url, p.value.0))
      && (p.Raised? ==> CreateOrganizedFolder(s.base, url, s.makedirs) == Raised(p.reason))
  {
  }

  /** The worker's step reports on its address and raises only with the folder error. */
  lemma WorkerStepHonest(s: Settings, jdConnected: bool, run: Call -> EngineOutcome)
    ensures StepMeets(WorkerStep(s, jdConnected, run), ReportsOn(s, run), FolderError(s))
  {
    var step := WorkerStep(s, jdConnected, run);
    forall jd: JdState, url: string
      ensures (step(jd, url).Done? ==> ReportsOn(s, run)(url, step(jd, url).value.0))
      && (step(jd, url).Raised? ==> FolderError(s)(url, step(jd, url).reason))
    {
      WorkerStepHonestAt(s, jdConnected, run, jd, url);
    }
  }

  lemma WorkerStepHonestAt(s: Settings, jdConnected: bool, run: Call -> EngineOutcome, jd: JdState, url: string)
    ensures var p := WorkerStep(s, jdConnected, run)(jd, url);
      (p.Done? ==> ReportsOn(s, run)(url, p.value.0)) && (p.Raised? ==> FolderError(s)(url, p.reason))
  {
    var p := ProcessUrl(s, jdConnected, jd, run, url);
    assert WorkerStep(s, jdConnected, run)(jd, url) == p;
    ProcessUrlHonest(s, jdConnected, jd, run, url);
  }

  /**
   * What holds of every step holds of the run: each result is its step's
   * result on its own address, in order, and an abort is the next address's
   * error.
   */
  lemma {:induction false} ResultsFollowAddresses(step: Step, good: (string, UrlResult) -> bool, bad: (string, string) -> bool,
                                                  running: nat -> bool, urls: seq<string>, i: nat, jd: JdState)
    requires i <= |urls| && StepMeets(step, good, bad)
    ensures var r := RunFrom(step, running, urls, i, jd);
      forall k :: 0 <= k < |r.results| ==> good(urls[i + k], r.results[k])
    ensures var r := RunFrom(step, running, urls, i, jd);
      r.aborted.Some? ==> bad(urls[i + |r.results|], r.aborted.value)
    decreases |urls| - i
  {
    var p := if i < |urls| then step(jd, urls[i]) else Raised("");
    if i < |urls| && running(i) && p.Done? {
      ResultsFollowAddresses(step, good, bad, running, urls, i + 1, p.value.1);
      Unfold(step, running, urls, i, jd);
      var r := RunFrom(step, running, urls, i, jd);
      var rest := RunFrom(step, running, urls, i + 1, p.value.1);
      ShiftedResults(r.results, p.value.0, rest.results);
      forall k | 0 <= k < |r.results| ensures good(urls[i + k], r.results[k]) {
        if k > 0 {
          assert r.results[k] == rest.results[k - 1] && i + k == (i + 1) + (k - 1);
        }
      }
      assert i + |r.results| == (i + 1) + |rest.results|;
    } else {
      Halt(step, running, urls, i, jd);
    }
  }

  /** A loop that stops, runs out of addresses or meets an error at `i` has no results. */
  lemma Halt(step: Step, running: nat -> bool, urls: seq<string>, i: nat, jd: JdState)
    requires i <= |urls|
    requires i == |urls| || !running(i) || step(jd, urls[i]).Raised?
    ensures RunFrom(step, running, urls, i, jd).results == [] && RunFrom(step, running, urls, i, jd).success == 0
    ensures RunFrom(step, running, urls, i, jd).aborted.Some? ==>
      i < |urls| && step(jd, urls[i]) == Raised(RunFrom(step, running, urls, i, jd).aborted.value)
  {
  }

  lemma ShiftedResults(rs: seq<UrlResult>, first: UrlResult, rest: seq<UrlResult>)
    requires rs == [first] + rest
    ensures |rs| > 0 && rs[0] == first
    ensures forall k :: 1 <= k < |rs| ==> rs[k] == rest[k - 1]
  {
  }

  lemma CountOkCons(x: UrlResult, rest: seq<UrlResult>)
    ensures CountOk([x] + rest) == (if x.ok then 1 else 0) + CountOk(rest)
  {
    assert ([x] + rest)[1..] == rest;
  }

  /** The success counter counts exactly the results that succeeded. */
  lemma {:induction false} SuccessCountsOk(step: Step, running: nat -> bool, urls: seq<string>, i: nat, jd: JdState)
    requires i <= |urls|
    ensures RunFrom(step, running, urls, i, jd).success == CountOk(RunFrom(step, running, urls, i, jd).results)
    decreases |urls| - i
  {
    if i < |urls| && running(i) && step(jd, urls[i]).Done? {
      var p := step(jd, urls[i]).value;
      SuccessCountsOk(step, running, urls, i + 1, p.1);
      Unfold(step, running, urls, i, jd);
      CountOkCons(p.0, RunFrom(step, running, urls, i + 1, p.1).results);
    } else {
      Halt(step, running, urls, i, jd);
    }
  }

  function AlwaysRunning(i: nat): bool {
    true
  }

  /**
   * Stopping does not undo work: whatever the stop flag does, the addresses
   * handled are a prefix of those handled by a run nobody stops, with the
   * same results.
   */
  lemma {:induction false} StopKeepsPrefix(step: Step, running: nat -> bool, urls: seq<string>, i: nat, jd: JdState)
    requires i <= |urls|
    ensures var stopped := RunFrom(step, running, urls, i, jd);
      var full := RunFrom(step, AlwaysRunning, urls, i, jd);
      |stopped.results| <= |full.results| && stopped.results == full.results[..|stopped.results|]
    decreases |urls| - i
  {
    var a := RunFrom(step, running, urls, i, jd).results;
    var b := RunFrom(step, AlwaysRunning, urls, i, jd).results;
    if i < |urls| && running(i) && step(jd, urls[i]).Done? {
      var p := step(jd, urls[i]).value;
      StopKeepsPrefix(step, running, urls, i + 1, p.1);
      var a' := RunFrom(step, running, urls, i + 1, p.1).results;
      var b' := RunFrom(step, AlwaysRunning, urls, i + 1, p.1).results;
      Unfold(step, running, urls, i, jd);
      Unfold(step, AlwaysRunning, urls, i, jd);
      assert a == [p.0] + a' && b == [p.0] + b';
      ConsPrefix(p.0, a', b');
    } else {
      Halt(step, running, urls, i, jd);
      assert a == [];
    }
  }

  /** One turn of the loop: the first result, then the rest of the run, which decides how the run ends. */
  lemma Unfold(step: Step, running: nat -> bool, urls: seq<string>, i: nat, jd: JdState)
    requires i < |urls| && running(i) && step(jd, urls[i]).Done?
    ensures var rest := RunFrom(step, running, urls, i + 1, step(jd, urls[i]).value.1);
      var r := RunFrom(step, running, urls, i, jd);
      r.results == [step(jd, urls[i]).value.0] + rest.results
      && r.stopped == rest.stopped && r.aborted == rest.aborted
      && r.success == rest.success + (if step(jd, urls[i]).value.0.ok then 1 else 0)
  {
  }

  lemma ConsPrefix<T>(x: T, a: seq<T>, b: seq<T>)
    requires |a| <= |b| && a == b[..|a|]
    ensures [x] + a == ([x] + b)[..|[x] + a|]
  {
  }

  /** A run nobody stops, over addresses whose steps never fail, handles every address. */
  lemma NoAbortWithoutErrors(step: Step, good: (string, UrlResult) -> bool, bad: (string, string) -> bool,
                             urls: seq<string>, jd: JdState)
    requires StepMeets(step, good, bad)
    requires forall k, e :: 0 <= k < |urls| ==> !bad(urls[k], e)
    ensures |RunFrom(step, AlwaysRunning, urls, 0, jd).results| == |urls|
  {
    ResultsFollowAddresses(step, good, bad, AlwaysRunning, urls, 0, jd);
    assert !RunFrom(step, AlwaysRunning, urls, 0, jd).stopped;
  }

  lemma FoldersNeverFail(s: Settings, urls: seq<string>)
    requires forall k :: 0 <= k < |urls| ==> CreateOrganizedFolder(s.base, urls[k], s.makedirs).Done?
    ensures forall k, e :: 0 <= k < |urls| ==> !FolderError(s)(urls[k], e)
  {
  }

  /** Without a stop, and with every folder created, every address is handled. */
  lemma UnstoppedHandlesAll(s: Settings, jdConnected: bool, jd: JdState, run: Call -> EngineOutcome, urls: seq<string>)
    requires forall k :: 0 <= k < |urls| ==> CreateOrganizedFolder(s.base, urls[k], s.makedirs).Done?
    ensures |DownloadWorker(s, jdConnected, jd, run, AlwaysRunning, urls).results| == |urls|
  {
    assert DownloadWorker(s, jdConnected, jd, run, AlwaysRunning, urls)
      == RunFrom(WorkerStep(s, jdConnected, run), AlwaysRunning, urls, 0, jd);
    WorkerStepHonest(s, jdConnected, run);
    FoldersNeverFail(s, urls);
    NoAbortWithoutErrors(WorkerStep(s, jdConnected, run), ReportsOn(s, run), FolderError(s), urls, jd);
  }

  /** A step that creates the JDownloader engine once and sends every JDownloader call to its folder. */
  ghost predicate KeepsEngine(step: Step) {
    forall jd: JdState, url: string :: step(jd, url).Done? ==>
      (jd.Some? ==> step(jd, url).value.1 == jd)
      && (step(jd, url).value.0.call.JDownloaderCall? ==> step(jd, url).value.1 == Some(step(jd, url).value.0.call.folder))
  }

  lemma WorkerStepKeepsEngine(s: Settings, jdConnected: bool, run: Call -> EngineOutcome)
    ensures KeepsEngine(WorkerStep(s, jdConnected, run))
  {
    var step := WorkerStep(s, jdConnected, run);
    forall jd: JdState, url: string | step(jd, url).Done?
      ensures (jd.Some? ==> step(jd, url).value.1 == jd)
      && (step(jd, url).value.0.call.JDownloaderCall? ==> step(jd, url).value.1 == Some(step(jd, url).value.0.call.folder))
    {
      assert step(jd, url) == ProcessUrl(s, jdConnected, jd, run, url);
    }
  }

  /**
   * The JDownloader engine is created once: every JDownloader download of a
   * run goes to one folder, the one of the engine the run started with, or
   * else the folder of the first address routed to JDownloader.
   */
  lemma {:induction false} JDownloaderFolderFixed(step: Step, running: nat -> bool, urls: seq<string>, i: nat, jd: JdState)
    requires i <= |urls| && KeepsEngine(step)
    ensures var r := RunFrom(step, running, urls, i, jd);
      forall k :: 0 <= k < |r.results| && r.results[k].call.JDownloaderCall? && jd.Some? ==>
        r.results[k].call.folder == jd.value
    ensures var r := RunFrom(step, running, urls, i, jd);
      forall k, m :: 0 <= k < |r.results| && 0 <= m < |r.results|
        && r.results[k].call.JDownloaderCall? && r.results[m].call.JDownloaderCall?
        ==> r.results[k].call.folder == r.results[m].call.folder
    decreases |urls| - i
  {
    if i < |urls| && running(i) && step(jd, urls[i]).Done? {
      var p := step(jd, urls[i]).value;
      JDownloaderFolderFixed(step, running, urls, i + 1, p.1);
      Unfold(step, running, urls, i, jd);
      ShiftedResults(RunFrom(step, running, urls, i, jd).results, p.0, RunFrom(step, running, urls, i + 1, p.1).results);
    }
  }

  /** The worker's JDownloader downloads all go to one folder. */
  lemma WorkerJDownloaderFolderFixed(s: Settings, jdConnected: bool, jd: JdState, run: Call -> EngineOutcome,
                                     running: nat -> bool, urls: seq<string>)
    ensures var r := DownloadWorker(s, jdConnected, jd, run, running, urls);
      forall k, m :: 0 <= k < |r.results| && 0 <= m < |r.results|
        && r.results[k].call.JDownloaderCall? && r.results[m].call.JDownloaderCall?
        ==> r.results[k].call.folder == r.results[m].call.folder
  {
    assert DownloadWorker(s, jdConnected, jd, run, running, urls) == RunFrom(WorkerStep(s, jdConnected, run), running, urls, 0, jd);
    WorkerStepKeepsEngine(s, jdConnected, run);
    JDownloaderFolderFixed(WorkerStep(s, jdConnected, run), running, urls, 0, jd);
  }

  /** A whole run from the first address: every result meets `good` at its address. */
  lemma RunMeets(step: Step, good: (string, UrlResult) -> bool, bad: (string, string) -> bool,
                 running: nat -> bool, urls: seq<string>, jd: JdState)
    requires StepMeets(step, good, bad)
    ensures forall k :: 0 <= k < |RunFrom(step, running, urls, 0, jd).results| ==>
      good(urls[k], RunFrom(step, running, urls, 0, jd).results[k])
  {
    ResultsFollowAddresses(step, good, bad, running, urls, 0, jd);
    var r := RunFrom(step, running, urls, 0, jd);
    forall k | 0 <= k < |r.results| ensures good(urls[k], r.results[k]) {
      assert urls[0 + k] == urls[k];
    }
  }

  /** Every result of a run reports on the address at its position. */
  lemma WorkerResultsReport(s: Settings, jdConnected: bool, jd: JdState, run: Call -> EngineOutcome,
                            running: nat -> bool, urls: seq<string>)
    ensures forall k :: 0 <= k < |DownloadWorker(s, jdConnected, jd, run, running, urls).results| ==>
      Reports(s, run, urls[k], DownloadWorker(s, jdConnected, jd, run, running, urls).results[k])
  {
    var r := RunFrom(WorkerStep(s, jdConnected, run), running, urls, 0, jd);
    assert DownloadWorker(s, jdConnected, jd, run, running, urls) == r;
    WorkerStepHonest(s, jdConnected, run);
    RunMeets(WorkerStep(s, jdConnected, run), ReportsOn(s, run), FolderError(s), running, urls, jd);
    forall k | 0 <= k < |r.results| ensures Reports(s, run, urls[k], r.results[k]) {
      assert ReportsOn(s, run)(urls[k], r.results[k]);
    }
  }

  // ---------------------------------------------------------------------
  // The yt-dlp call

  const YtDlpSignatureError := "YtDlpEngine.__init__() got an unexpected keyword argument 'use_drive_api'"

  /**
   * The engines as the worker calls them: the yt-dlp engine is built with a
   * `use_drive_api` keyword its constructor does not take (and then given a
   * fourth argument its `download` does not take), so that call raises
   * TypeError before anything is fetched; the other engines answer as
   * `engines` says.
   */
  function AsWrittenRun(engines: Call -> EngineOutcome): Call -> EngineOutcome {
    (c: Call) => if c.YtDlpCall? then Threw(YtDlpSignatureError) else engines(c)
  }

  /** As written, no address handed to yt-dlp can succeed. */
  lemma YtDlpNeverSucceedsAsWritten(s: Settings, jdConnected: bool, jd: JdState, engines: Call -> EngineOutcome,
                                    running: nat -> bool, urls: seq<string>)
    ensures forall k :: (0 <= k < |DownloadWorker(s, jdConnected, jd, AsWrittenRun(engines), running, urls).results|
      && DownloadWorker(s, jdConnected, jd, AsWrittenRun(engines), running, urls).results[k].chosen == YtDlp
      ==> !DownloadWorker(s, jdConnected, jd, AsWrittenRun(engines), running, urls).results[k].ok)
  {
    var run := AsWrittenRun(engines);
    var r := DownloadWorker(s, jdConnected, jd, run, running, urls);
    WorkerResultsReport(s, jdConnected, jd, run, running, urls);
    forall k | 0 <= k < |r.results| && r.results[k].chosen == YtDlp ensures !r.results[k].ok {
      assert Reports(s, run, urls[k], r.results[k]);
      assert run(r.results[k].call).Threw?;
    }
  }

  /**
   * The engines as the worker evidently means to call them: the yt-dlp call
   * reaches `download(url, quality, mode)`, whose answer depends on what
   * `extract_info` gives.
   */
  function IntendedRun(extract: string -> YtDlpEngine.Extraction, engines: Call -> EngineOutcome): Call -> EngineOutcome {
    (c: Call) => if c.YtDlpCall? then Returned(YtDlpEngine.DownloadResult(extract(c.url)).0, YtDlpEngine.DownloadResult(extract(c.url)).1)
                 else engines(c)
  }

  /** Called as intended, an address handed to yt-dlp succeeds exactly when its information was extracted. */
  lemma YtDlpSucceedsWhenExtracted(s: Settings, jdConnected: bool, jd: JdState, extract: string -> YtDlpEngine.Extraction,
                                   engines: Call -> EngineOutcome, running: nat -> bool, urls: seq<string>)
    ensures forall k :: (0 <= k < |DownloadWorker(s, jdConnected, jd, IntendedRun(extract, engines), running, urls).results|
      && DownloadWorker(s, jdConnected, jd, IntendedRun(extract, engines), running, urls).results[k].chosen == YtDlp
      ==> (DownloadWorker(s, jdConnected, jd, IntendedRun(extract, engines), running, urls).results[k].ok <==> extract(urls[k]).Info?))
  {
    var run := IntendedRun(extract, engines);
    var r := DownloadWorker(s, jdConnected, jd, run, running, urls);
    WorkerResultsReport(s, jdConnected, jd, run, running, urls);
    forall k | 0 <= k < |r.results| && r.results[k].chosen == YtDlp ensures r.results[k].ok <==> extract(urls[k]).Info? {
      IntendedYtDlpResult(s, extract, engines, urls[k], r.results[k]);
    }
  }

  lemma IntendedYtDlpResult(s: Settings, extract: string -> YtDlpEngine.Extraction, engines: Call -> EngineOutcome,
                            url: string, res: UrlResult)
    requires Reports(s, IntendedRun(extract, engines), url, res) && res.chosen == YtDlp
    ensures res.ok <==> extract(url).Info?
  {
    var d := YtDlpEngine.DownloadResult(extract(url));
    assert IntendedRun(extract, engines)(res.call) == Returned(d.0, d.1);
  }
}

=== FILE: wrappers.dfy ===
/**
 * Failure-carrying result types shared by every module of the model.
 *
 * - `Option<T>` stands for a value that may be missing: an absent dictionary
 *   key, a Python `None`, a lookup that found nothing.
 * - `Outcome<T>` stands for a Python call that either returns a value or
 *   raises an exception that nothing in the modelled code catches.
 * - `Field<T>` stands for one key of a decoded JSON object, where a key
 *   holding `null` behaves differently from a missing one.
 */
module Wrappers {

  datatype Option<+T> = None | Some(value: T) {

    /** The wrapped value, or `default` when there is none. */
    function GetOr(default: T): T {
      match this
      case Some(v) => v
      case None => default
    }
  }

  /** A Python call that returns `value`, or raises with a message `reason`. */
  datatype Outcome<+T> = Done(value: T) | Raised(reason: string)

  /** A key of a decoded JSON object: absent, JSON null, or a value. */
  datatype Field<T> = Absent | Null | Val(v: T) {
    /** `d.get(key)` is truthy. */
    predicate Holds(truthy: T -> bool) {
      Val? && truthy(v)
    }
    /** `d.setdefault(key, default)`: only an absent key takes the default. */
    function SetDefault(default: T): Field<T> {
      if Absent? then Val(default) else this
    }
    /** `d.get(key, default)` where the key is known not to hold null. */
    function GetOr(default: T): T {
      if Val? then v else default
    }
    /** `d.get(key)`: Python's None for a null key and for a missing one alike. */
    function Get(): Option<T> {
      if Val? then Some(v) else None
    }
  }
}

=== FILE: ytdlp_engine.dfy ===
/**
 * `YtDlpEngine`: the Shorts predicate, the quality-to-format table, the
 * bulk-address test and the option and result rules of `download`. The
 * yt-dlp call itself is an oracle result passed in.
 */
module YtDlpEngine {
  import opened Wrappers
  import opened Text
  import FilterBuilder
  import Sites

  type MediaInfo = FilterBuilder.MediaInfo

  const NotShortMessage := "Skipping: Content is not a Short (Horizontal/Standard Format)"

  /** The address says "/shorts/". */
  predicate ShortsAddress(info: MediaInfo) {
    Contains(info.webpageUrl.GetOr(""), "/shorts/") || Contains(info.originalUrl.GetOr(""), "/shorts/")
  }

  /** Both dimensions are known and non-zero, and the frame is taller than wide. */
  predicate Portrait(info: MediaInfo) {
    FilterBuilder.IntTruthy(info.width.Get()) && FilterBuilder.IntTruthy(info.height.Get()) && info.height.v > info.width.v
  }

  /** The address test searches a null address: the page address, or the original one when the first has no "/shorts/". */
  predicate ShortRaises(info: MediaInfo) {
    info.webpageUrl.Null? || (!Contains(info.webpageUrl.GetOr(""), "/shorts/") && info.originalUrl.Null?)
  }

  /** `_is_short(info, incomplete)`: None keeps the item, the skip message drops it; a null address searched raises. */
  function IsShort(info: MediaInfo): (r: Outcome<Option<string>>)
    ensures r.Raised? <==> ShortRaises(info)
    ensures r == Done(None) <==> !ShortRaises(info) && (ShortsAddress(info) || Portrait(info))
    ensures r.Done? && r.value.Some? ==> r.value.value == NotShortMessage
  {
    if ShortRaises(info) then Raised(FilterBuilder.NoneNotIterable)
    else if ShortsAddress(info) then Done(None)
    else if Portrait(info) then Done(None)
    else Done(Some(NotShortMessage))
  }

  /**
   * What the engine keeps as a Short the filter builder's shape check also
   * keeps; the builder is more lenient, accepting "/reel/" addresses too.
   */
  lemma ShortImpliesVertical(info: MediaInfo)
    requires IsShort(info) == Done(None)
    ensures FilterBuilder.IsVertical(info)
  {
  }

  /** The engine's test and the builder's shape check raise on the same null addresses. */
  lemma SameNullAddresses(f: FilterBuilder.Filters, info: MediaInfo)
    requires FilterBuilder.WantsVertical(f)
    ensures FilterBuilder.ShapeRaises(f, info) <==> ShortRaises(info)
  {
  }

  const BestSelector := "bestvideo+bestaudio/best"
  const AudioSelector := "bestaudio/best"
  const VerticalSelector := "bestvideo[height>width]+bestaudio/best[height>width]/best"

  /** `_get_format_string(quality, mode)`. */
  function GetFormatString(quality: string, mode: string): (r: string)
    ensures mode == "audio" ==> r == AudioSelector
    ensures mode != "audio" && quality !in {"best", "1080p", "720p", "480p", "audio"} ==> r == BestSelector
    ensures mode != "audio" && quality == "audio" ==> r == AudioSelector
  {
    if mode == "audio" then AudioSelector
    else if quality == "best" then BestSelector
    else if quality == "1080p" then "bestvideo[height<=1080]+bestaudio/best[height<=1080]"
    else if quality == "720p" then "bestvideo[height<=720]+bestaudio/best[height<=720]"
    else if quality == "480p" then "bestvideo[height<=480]+bestaudio/best[height<=480]"
    else if quality == "audio" then AudioSelector
    else BestSelector
  }

  const BulkOperationMarkers := ["playlist", "channel", "/c/", "/@", "/user/"]

  /** `_is_bulk_operation(url)`: one of five markers occurs, ignoring case. */
  function IsBulkOperation(url: string): (r: bool)
    ensures r <==> exists m :: m in BulkOperationMarkers && Contains(Lower(url), m)
  {
    FirstContained(Lower(url), BulkOperationMarkers).Some?
  }

  /** The engine's five markers are among the detector's eight, so a bulk operation is a bulk address. */
  lemma BulkOperationIsBulkUrl(url: string)
    requires IsBulkOperation(url)
    ensures Sites.IsBulkUrl(url)
  {
    var m :| m in BulkOperationMarkers && Contains(Lower(url), m);
    assert m in Sites.BulkMarkers;
  }

  /** The mode-dependent part of the options of `download`. */
  datatype ModeOptions = ModeOptions(format: Option<string>, shortsFilter: bool, extractAudio: bool, delay: bool)

  /**
   * The mode branch of `download` and the anti-detection delay: shorts_only
   * attaches the Shorts filter and the vertical selector, video and auto use
   * the format table, audio takes the audio selector and the mp3 extraction,
   * any other mode sets no format.
   */
  function Options(url: string, quality: string, mode: string): (r: ModeOptions)
    ensures r.shortsFilter <==> mode == "shorts_only"
    ensures r.extractAudio <==> mode == "audio"
    ensures r.format.None? <==> mode !in {"shorts_only", "video", "auto", "audio"}
    ensures mode == "shorts_only" ==> r.format == Some(VerticalSelector)
    ensures mode in {"video", "auto"} ==> r.format == Some(GetFormatString(quality, mode))
    ensures mode == "audio" ==> r.format == Some(AudioSelector)
    ensures r.delay <==> IsBulkOperation(url)
  {
    var delay := IsBulkOperation(url);
    if mode == "shorts_only" then ModeOptions(Some(VerticalSelector), true, false, delay)
    else if mode == "video" || mode == "auto" then ModeOptions(Some(GetFormatString(quality, mode)), false, false, delay)
    else if mode == "audio" then ModeOptions(Some(AudioSelector), false, true, delay)
    else ModeOptions(None, false, false, delay)
  }

  /** The audio selector is chosen for audio whichever way it is asked for. */
  lemma AudioEitherWay(url: string, quality: string, mode: string)
    requires mode == "audio" || (mode in {"video", "auto"} && quality == "audio")
    ensures Options(url, quality, mode).format == Some(AudioSelector)
  {
  }

  /** What `extract_info` gave: an info dictionary (with its title, if any), an empty one, or an exception. */
  datatype Extraction = Info(title: Option<string>) | NoInfo | Failed(error: string)

  /** The result of `download`: success exactly when an info dictionary came back. */
  function DownloadResult(x: Extraction): (r: (bool, string))
    ensures r.0 <==> x.Info?
    ensures x.Info? ==> r.1 == "Downloaded: " + x.title.GetOr("Unknown")
    ensures x.Failed? ==> StartsWith(r.1, "Download failed: ") && EndsWith(r.1, x.error)
  {
    match x
    case Info(title) => (true, "Downloaded: " + title.GetOr("Unknown"))
    case NoInfo => (false, "Failed to extract video information")
    case Failed(e) =>
      StartsWithAppend("Download failed: ", e);
      assert ("Download failed: " + e)[|"Download failed: " + e| - |e|..] == e;
      (false, "Download failed: " + e)
  }
}
